=== FILE: README.md ===
# Feeds: query builder, schema and refresh logic in Dafny

This project models the core of the Feeds Android RSS reader. It covers four areas:

- **Query builder and SQL-92 serializer.** This is the small `com.googlecode.sqb` library that the
  app's content layer uses. It covers column and table references, restrictions, the
  `SelectQueryBuilder` and its alias allocation, the serializer registry of the SQL-92 dialect, and
  the text each serializer emits.
- **Persistence layer.** This covers the `DDL` generator and the `DataType` read/write conversions
  between entity values, `ContentValues` and cursor rows. It also covers `PersistentEntity` and the
  five entities: `FeedConfig`, `Feed`, `FeedEntry`, `FeedWidgetConfig` and `FeedWidgetFeed`.
- **Application logic.** This covers `StringUtil`, the reader's selection state (`FeedReader`), the
  pure decisions of the `FeedRefreshService`, and the OPML `Outline` import and export.
- **Java semantics.** These are modelled explicitly where they matter:
  - null is `Option` or `JNull`;
  - a thrown exception is a `Failure`;
  - `int` and `long` arithmetic wraps through `JavaLang.Wrap32` and `Wrap64`;
  - `Integer.valueOf`, `Long.toString`, `String.trim` and `Boolean.valueOf` are spelled out in
    `JavaLang`.

Collaborators whose code is not part of this model are parameters. Each is listed under
"## Left out".

| file | module | models |
|---|---|---|
| wrappers.dfy | Wrappers | `Option`, `Result`, evaluating a sequence of calls |
| java_lang.dfy | JavaLang | Java integer widths and the library calls the core relies on |
| text.dfy | Text | joining and buffering strings, as the serializers do |
| query.dfy | Query | `DataType`, `ForeignKey`, columns, tables, projections, expressions, joins, order-by items, preferred aliases |
| references.dfy | References | the `References` factory methods |
| restrictions.dfy | Restrictions | the `Restrictions` factory methods |
| clauses.dfy | Clauses | `SelectClauseImpl` and `FromClauseImpl` |
| builder.dfy | Builder | `SelectQueryBuilder` |
| dispatch.dfy | Dispatch | the `Sql92` serializer registry and `UpdatableContext` |
| sql92.dfy | Sql92 | the SQL-92 serializers of columns, restrictions, joins, order-by items and the whole query |
| ddl.dfy | Ddl | `DDL.createTable` |
| values.dfy | Values | `DataType` reads and writes, `ValueAdapter.getIndex`, and how SQLite keeps a value |
| entity.dfy | Entity | `PersistentEntity` |
| schema.dfy | Schema | the tables, columns, projections and defaults of the five entities |
| rows.dfy | Rows | rows produced by a projection, and reading them back |
| entities.dfy | Entities | the constructors and accessors of the five entities |
| string_util.dfy | StringUtil | `StringUtil` |
| feed_reader.dfy | FeedReader | `FeedReader`'s selection state |
| refresh.dfy | Refresh | the entry merge, the refresh selection and the staleness checks of `FeedRefreshService` |
| opml.dfy | Opml | `OPML.ELEMENT`, `OPML.ATTRIBUTE` and `OPML.Outline` |

Three behaviours of the code that a reader might not expect:

- **Distinct projections can share an alias.** `addAlias` does not recheck the numbered alias it
  makes after a collision, so two different objects can receive the same alias.
  `Builder.DistinctProjectionsCanShareAnAlias` exhibits the case. `Builder.AddAliasKeepsInjective`
  states the condition under which aliases stay distinct.
- **Every projection is aliased.** A single-column select serializes with an `AS` alias, because the
  builder always registers one.
- **`DISTINCT` is never printed.** `SelectQuerySerializer` never prints the quantifier, so a
  distinct query serializes like a plain one (`Sql92.DistinctIsNeverPrinted`).

## Model

Source paths are relative to the repository's source root.

| member | source | states |
|---|---|---|
| Wrappers.AllValues | src/main/java/org/fourthline/android/feeds/content/FeedConfig.java:125-136 | A sequence of calls succeeds exactly when every call does, and then yields every call's value in order |
| JavaLang.Wrap32 | src/main/java/org/fourthline/android/feeds/content/FeedEntry.java:180 | Java int arithmetic: the result is 32-bit, congruent to the exact value modulo 2^32, and equal to it when it already fits |
| JavaLang.Wrap64 | src/main/java/org/fourthline/android/feeds/refresh/FeedRefreshService.java:445 | Java long arithmetic: the result is 64-bit, congruent modulo 2^64, and exact when it fits |
| JavaLang.IntToString | src/main/java/com/googlecode/sqb/query/select/SelectQueryBuilder.java:103 | Integer.toString: a leading minus exactly for negatives, followed by decimal digits |
| JavaLang.ParseInt | src/main/java/org/fourthline/android/feeds/imexport/OPML.java:92 | Integer.valueOf accepts exactly the signed decimals that fit in 32 bits |
| JavaLang.ParseLong | src/main/java/org/fourthline/android/feeds/database/PersistentEntity.java:60-63 | Long.valueOf accepts exactly the signed decimals that fit in 64 bits |
| JavaLang.ParseIntOfIntToString | src/main/java/com/googlecode/sqb/query/select/SelectQueryBuilder.java:103 | Integer.valueOf inverts Integer.toString on every 32-bit int |
| JavaLang.ParseLongOfIntToString | src/main/java/org/fourthline/android/feeds/database/PersistentEntity.java:60-63 | Long.valueOf inverts Long.toString on every 64-bit long |
| JavaLang.ParseSigned | src/main/java/org/fourthline/android/feeds/imexport/OPML.java:92 | succeeds exactly on an optional sign followed by at least one digit; a negative result needs a leading minus, and without one the result is not negative |
| JavaLang.ParseSignedIgnoresPlus | src/main/java/org/fourthline/android/feeds/imexport/OPML.java:92 | a leading plus sign before the digits changes neither the outcome nor the value |
| JavaLang.EqualsIgnoreCase | src/main/java/org/fourthline/android/feeds/imexport/OPML.java:125 | equal strings are equal ignoring case, and strings equal ignoring case have the same length |
| JavaLang.EqualsIgnoreCaseByUpperCase | src/main/java/org/fourthline/android/feeds/imexport/OPML.java:125 | comparing lower-case forms agrees with comparing upper-case forms |
| JavaLang.ToLower | src/main/java/org/fourthline/android/feeds/database/PersistentEntity.java:81 | toLowerCase maps each ASCII capital to its small letter and leaves every other character alone |
| JavaLang.ToUpper | src/main/java/org/fourthline/android/feeds/database/PersistentEntity.java:85 | toUpperCase maps each ASCII small letter to its capital and leaves every other character alone |
| JavaLang.Trim | src/main/java/com/googlecode/sqb/query/StringProjection.java:36 | trim drops only blanks from both ends, and is empty exactly when the input holds no non-blank character |
| JavaLang.BoolValueOf | src/main/java/org/fourthline/android/feeds/imexport/OPML.java:125 | Boolean.valueOf is true exactly for "true" in any letter case |
| JavaLang.BoolValueOfBoolToString | src/main/java/org/fourthline/android/feeds/imexport/OPML.java:125 | Boolean.valueOf inverts Boolean.toString |
| Text.JoinWithLength | src/main/java/com/googlecode/sqb/vendor/sql92/MultiRestrictionSerializer.java:25-38 | n joined parts carry exactly n - 1 separators |
| Text.ConcatTerminatedIsJoin | src/main/java/com/googlecode/sqb/vendor/sql92/SelectQuerySerializer.java:89-100 | every part followed by a separator equals the joined parts plus one trailing separator |
| Query.SqlType | src/main/java/com/googlecode/sqb/query/DataType.java:72-135 | STRING and enums declare "string"; LONG, INTEGER and BOOLEAN declare "integer", in both directions |
| Query.ActionSqlInjective | src/main/java/com/googlecode/sqb/query/ForeignKey.java:22-34 | distinct referential actions print differently |
| Query.ActionSql | src/main/java/com/googlecode/sqb/query/ForeignKey.java:22-34 | every action's SQL text is non-empty and made of lower-case letters and spaces |
| Query.ForeignKeyTo | src/main/java/com/googlecode/sqb/query/ForeignKey.java:40-42 | a foreign key with neither ON DELETE nor ON UPDATE set |
| Query.ForeignKeyOnDelete | src/main/java/com/googlecode/sqb/query/ForeignKey.java:44-46 | a foreign key with the given ON DELETE action and ON UPDATE unset |
| Query.RawProjection | src/main/java/com/googlecode/sqb/query/StringProjection.java:23-25 | a raw projection keeps its text and has no explicit alias |
| Query.StringProjectionAlias | src/main/java/com/googlecode/sqb/query/StringProjection.java:32-37 | the explicit alias when there is one, otherwise one lower-cased character of the trimmed text |
| Query.StringProjectionAliasIsFirstNonBlank | src/main/java/com/googlecode/sqb/query/StringProjection.java:32-37 | the default alias is the first non-blank character of the text, lower-cased |
| Query.PreferredAlias | src/main/java/com/googlecode/sqb/query/impl/ColumnImpl.java:53-56 | a column proposes its name, a join its source's alias, an order-by item its column's name, and a sub-select "q" |
| Query.PreferredAliasInherited | src/main/java/com/googlecode/sqb/query/impl/JoinImpl.java:49-52 | a join proposes what its source proposes, and an order-by item what its column proposes |
| Query.SourcePreferredAlias | src/main/java/com/googlecode/sqb/query/select/SelectQueryBuilder.java:56-59 | every sub-select proposes "q", whatever the query; a table proposes the table's own preferred alias |
| References.TableNamed | src/main/java/com/googlecode/sqb/query/References.java:28-30 | a table whose name is the escaped argument |
| References.ColumnPK | src/main/java/com/googlecode/sqb/query/References.java:32-34 | the escaped "_id" LONG column, with no flags and no foreign key |
| References.ColumnPKWithFk | src/main/java/com/googlecode/sqb/query/References.java:36-38 | the escaped "_id" LONG column carrying the given foreign key |
| References.ColumnNamed | src/main/java/com/googlecode/sqb/query/References.java:40-42 | a STRING column with no flags and no foreign key |
| References.ColumnOfType | src/main/java/com/googlecode/sqb/query/References.java:44-46 | a column of the given type, with no flags and no foreign key |
| References.ColumnWithFk | src/main/java/com/googlecode/sqb/query/References.java:48-50 | a column of the given type, with no flags and the given foreign key |
| References.ColumnPrimary | src/main/java/com/googlecode/sqb/query/References.java:52-54 | the lone boolean argument is the primary-key flag; nullable and unique stay false |
| References.ColumnPrimaryWithFk | src/main/java/com/googlecode/sqb/query/References.java:56-58 | the primary-key flag and the foreign key as given; nullable and unique false |
| References.ColumnNullableUnique | src/main/java/com/googlecode/sqb/query/References.java:60-62 | the two boolean arguments are nullable and unique; never a primary key |
| References.ColumnNullableUniqueWithFk | src/main/java/com/googlecode/sqb/query/References.java:64-66 | nullable, unique and the foreign key as given; never a primary key |
| References.ColumnFull | src/main/java/com/googlecode/sqb/query/References.java:68-70 | every argument is stored as given, under the escaped name |
| Restrictions.And | src/main/java/com/googlecode/sqb/query/Restrictions.java:32-34 | an AND whose operands are the arguments, in order |
| Restrictions.Or | src/main/java/com/googlecode/sqb/query/Restrictions.java:36-38 | an OR whose operands are the arguments, in order |
| Restrictions.EqString | src/main/java/com/googlecode/sqb/query/Restrictions.java:40-42 | an equality with the projection on the left and the string as a string expression on the right |
| Restrictions.EqExpr | src/main/java/com/googlecode/sqb/query/Restrictions.java:44-46 | an equality with the projection on the left and the expression on the right |
| Restrictions.In | src/main/java/com/googlecode/sqb/query/Restrictions.java:48-54 | an IN over the projection with one string expression per string, in iteration order |
| Restrictions.StringExpressions | src/main/java/com/googlecode/sqb/query/Restrictions.java:49-52 | one string expression per string, in order |
| Restrictions.InElementsAreTheStrings | src/main/java/com/googlecode/sqb/query/Restrictions.java:48-54 | the IN elements are exactly the given strings, each once |
| Clauses.AddProjection | src/main/java/com/googlecode/sqb/query/impl/SelectClauseImpl.java:40-42 | a set insertion: a projection already present leaves the clause unchanged, and the quantifier is kept |
| Clauses.SetQuantifier | src/main/java/com/googlecode/sqb/query/impl/SelectClauseImpl.java:44-46 | the quantifier is replaced and the projections are kept |
| Clauses.AddProjectionCommutes | src/main/java/com/googlecode/sqb/query/impl/SelectClauseImpl.java:28-42 | the order of addProjection calls is not remembered |
| Clauses.SetSource | src/main/java/com/googlecode/sqb/query/impl/FromClauseImpl.java:44-46 | the source is set and the joins are kept |
| Clauses.AddJoin | src/main/java/com/googlecode/sqb/query/impl/FromClauseImpl.java:48-50 | a join is appended; earlier joins keep their positions |
| Clauses.SetSourceReplaces | src/main/java/com/googlecode/sqb/query/impl/FromClauseImpl.java:44-46 | a second setSource overrides the first |
| Builder.AddAlias | src/main/java/com/googlecode/sqb/query/select/SelectQueryBuilder.java:94-106 | a registered object keeps its alias and changes nothing. A new object gets its escaped preferred alias if no one has it, and that alias plus the counter otherwise |
| Builder.AddAliasIdempotent | src/main/java/com/googlecode/sqb/query/select/SelectQueryBuilder.java:95-98 | asking again for the same object's alias returns the same alias and changes nothing |
| Builder.AddAliasKeepsInjective | src/main/java/com/googlecode/sqb/query/select/SelectQueryBuilder.java:100-105 | distinct objects keep distinct aliases provided the numbered alias is itself unused |
| Builder.ExtendsTransitive | src/main/java/com/googlecode/sqb/query/select/SelectQueryBuilder.java:45-54 | builder growth (aliases kept, counter not decreasing) composes |
| Builder.SetAlias | src/main/java/com/googlecode/sqb/query/select/SelectQueryBuilder.java:66-69 | the object then has the escaped alias, whatever it had before; every other object keeps its alias and nothing else in the builder changes |
| Builder.SetAliasPrefix | src/main/java/com/googlecode/sqb/query/select/SelectQueryBuilder.java:71-76 | each given object gets prefix_preferred, escaped; the other aliases and the rest of the builder are unchanged |
| Builder.SetAliasOverwrites | src/main/java/com/googlecode/sqb/query/select/SelectQueryBuilder.java:67-69 | the last setAlias for an object wins |
| Builder.SelectOne | src/main/java/com/googlecode/sqb/query/select/SelectQueryBuilder.java:116-120 | fails exactly when a new projection has no preferred alias; on success the projection is registered and added, the alias keys grow by exactly that projection, and nothing else changes |
| Builder.Select | src/main/java/com/googlecode/sqb/query/select/SelectQueryBuilder.java:116-120 | select(projection) extends the builder and the projection is in the SELECT clause |
| Builder.SelectAll | src/main/java/com/googlecode/sqb/query/select/SelectQueryBuilder.java:108-114 | succeeds exactly when every projection is already registered or has a preferred alias; then all are added in order and the builder only grows |
| Builder.SelectableStep | src/main/java/com/googlecode/sqb/query/select/SelectQueryBuilder.java:108-114 | once the first projection is registered, the remaining ones are selectable exactly when all of them were |
| Builder.SelectAllOfOne | src/main/java/com/googlecode/sqb/query/select/SelectQueryBuilder.java:108-120 | selecting an array of one is selecting that projection |
| Builder.SelectOneAlias | src/main/java/com/googlecode/sqb/query/select/SelectQueryBuilder.java:116-120 | a newly selected column gets exactly the alias addAlias chooses |
| Builder.SelectExpression | src/main/java/com/googlecode/sqb/query/select/SelectQueryBuilder.java:122-127 | select(String) fails exactly for blank text; otherwise the raw projection is registered and added |
| Builder.SelectExpressionAlias | src/main/java/com/googlecode/sqb/query/select/SelectQueryBuilder.java:122-127 | the raw projection's alias is its escaped first non-blank character, numbered when taken |
| Builder.Distinct | src/main/java/com/googlecode/sqb/query/select/SelectQueryBuilder.java:129-132 | only the quantifier changes, to DISTINCT |
| Builder.From | src/main/java/com/googlecode/sqb/query/select/SelectQueryBuilder.java:134-138 | the source is aliased and becomes the FROM source; joins, select, where and order-by are kept; at most one alias is numbered |
| Builder.JoinOn | src/main/java/com/googlecode/sqb/query/select/SelectQueryBuilder.java:148-156 | a new join with the given source, type and restriction is aliased and appended; nothing else changes |
| Builder.JoinTyped | src/main/java/com/googlecode/sqb/query/select/SelectQueryBuilder.java:144-146 | the appended join has the given type and no restriction |
| Builder.JoinCross | src/main/java/com/googlecode/sqb/query/select/SelectQueryBuilder.java:140-142 | the appended join is a CROSS join with no restriction |
| Builder.Where | src/main/java/com/googlecode/sqb/query/select/SelectQueryBuilder.java:158-161 | the WHERE clause holds the restriction; nothing else changes |
| Builder.OrderByDir | src/main/java/com/googlecode/sqb/query/select/SelectQueryBuilder.java:167-170 | one order-by item is appended; aliases and counter unchanged |
| Builder.OrderByAsc | src/main/java/com/googlecode/sqb/query/select/SelectQueryBuilder.java:163-165 | one ascending item is appended; aliases and counter unchanged |
| Builder.DistinctProjectionsCanShareAnAlias | src/main/java/com/googlecode/sqb/query/select/SelectQueryBuilder.java:103 | selecting columns "f", "f0" and another "f" leaves two objects with the alias "f0" |
| Dispatch.Sql92RegistryHasTenKeys | src/main/java/com/googlecode/sqb/vendor/sql92/Sql92.java:42-52 | the dialect registers exactly ten serializers |
| Dispatch.Sql92RegistryHasInterfaceKeys | src/main/java/com/googlecode/sqb/vendor/sql92/Sql92.java:42-52 | every key is a node interface, and every node interface is a key |
| Dispatch.Sql92RegistryIsRegisteredFor | src/main/java/com/googlecode/sqb/vendor/sql92/Sql92.java:42-52 | the registry maps each interface to its serializer and nothing else |
| Dispatch.FirstRegistered | src/main/java/com/googlecode/sqb/vendor/sql92/UpdatableContext.java:56-63 | the first declared interface that has a serializer, with none registered before it; none when no interface qualifies |
| Dispatch.Resolve | src/main/java/com/googlecode/sqb/vendor/sql92/UpdatableContext.java:49-66 | a cached class answers from the cache; otherwise the first registered declared interface is used and cached; failure exactly when no declared interface is registered, and then the registry is unchanged |
| Dispatch.FirstRegisteredAgrees | src/main/java/com/googlecode/sqb/vendor/sql92/UpdatableContext.java:49-66 | class entries in the cache do not affect the interface scan |
| Dispatch.ResolveIsCacheTransparent | src/main/java/com/googlecode/sqb/vendor/sql92/UpdatableContext.java:49-66 | with a sound cache a lookup gives what the uncached registry would, and the cache stays sound |
| Dispatch.Sql92RegistryIsCacheSound | src/main/java/com/googlecode/sqb/vendor/sql92/Sql92.java:41-56 | the registry starts out with a sound cache |
| Dispatch.ResolveSingleInterface | src/main/java/com/googlecode/sqb/vendor/sql92/UpdatableContext.java:56-63 | a class declaring one registered interface reaches that interface's serializer |
| Dispatch.ExprReachesItsSerializer | src/main/java/com/googlecode/sqb/vendor/sql92/UpdatableContext.java:56-63 | every expression node reaches the serializer meant for it |
| Dispatch.ExprClassDeclaresOneInterface | src/main/java/com/googlecode/sqb/vendor/sql92/UpdatableContext.java:56-63 | each expression class declares exactly the interface of its serializer |
| Dispatch.SourceClassDeclaresOneInterface | src/main/java/com/googlecode/sqb/vendor/sql92/UpdatableContext.java:56-63 | each source class declares exactly the interface of its serializer |
| Dispatch.UndeclaredInterfacesAreNotScanned | src/main/java/com/googlecode/sqb/vendor/sql92/UpdatableContext.java:56-65 | a class with no declared interface, or only an unknown one, finds no serializer; superclasses are not scanned |
| Dispatch.Clone | src/main/java/com/googlecode/sqb/vendor/sql92/UpdatableContext.java:35-38 | the clone shares the registry and holds the given alias map |
| Dispatch.GetAlias | src/main/java/com/googlecode/sqb/vendor/sql92/UpdatableContext.java:68-71 | an alias exactly for a registered object, and it is that object's alias |
| Sql92.Qualifier | src/main/java/com/googlecode/sqb/vendor/sql92/ColumnSerializer.java:24-33 | empty when the source has no alias, otherwise the alias and a period |
| Sql92.ColumnText | src/main/java/com/googlecode/sqb/vendor/sql92/ColumnSerializer.java:24-33 | alias.name when the source is aliased, otherwise the bare name |
| Sql92.ColumnTextEndsWithName | src/main/java/com/googlecode/sqb/vendor/sql92/ColumnSerializer.java:24-33 | every column reference ends with the column's name |
| Sql92.SetAliasIsWhatSerializersSee | src/main/java/com/googlecode/sqb/vendor/sql92/UpdatableContext.java:69-71 | after setAlias, getAlias in the serializing context returns the escaped alias for that object and the previous alias (or null) for every other object |
| Sql92.SourceText | src/main/java/com/googlecode/sqb/vendor/sql92/Sql92.java:44-50 | a table source prints through the table serializer, a sub-select through the inner select serializer |
| Sql92.ExprText | src/main/java/com/googlecode/sqb/vendor/sql92/RestrictionSerializer.java:24-29 | a column expression prints as its column reference, and an IN-style restriction ends with the closing parenthesis |
| Sql92.ElementsText | src/main/java/com/googlecode/sqb/vendor/sql92/MultiRestrictionSerializer.java:30-35 | no elements print nothing, and one element prints as that element alone, without a separator |
| Sql92.ExprTexts | src/main/java/com/googlecode/sqb/vendor/sql92/MultiRestrictionSerializer.java:25-38 | one serialized text per element, in order |
| Sql92.ElementsTextIsJoin | src/main/java/com/googlecode/sqb/vendor/sql92/MultiRestrictionSerializer.java:25-38 | the IN list is the element texts joined by ", " |
| Sql92.EmptyInListIsEmptyParentheses | src/main/java/com/googlecode/sqb/vendor/sql92/MultiRestrictionSerializer.java:25-38 | an empty element set prints "()" after the operator |
| Sql92.NestedRestrictionsPrintFlat | src/main/java/com/googlecode/sqb/vendor/sql92/BinaryRestrictionSerializer.java:24-30 | (a OR b) AND c and a OR (b AND c) are distinct but print the same, because no parentheses are emitted |
| Sql92.JoinText | src/main/java/com/googlecode/sqb/vendor/sql92/JoinSerializer.java:27-50 | the text opens with the join type (or a bare comma for an unrestricted CROSS join) and the source; the join's own alias from getAlias follows the opening as " AS alias"; with a restriction the text ends with " ON " and the restriction's text; with neither it is just the opening |
| Sql92.JoinTextIgnoresTheSourceAlias | src/main/java/com/googlecode/sqb/vendor/sql92/JoinSerializer.java:40-43 | the alias printed for a join is the join's own: changing the alias of its source leaves an unrestricted join's text unchanged |
| Sql92.JoinTextShape | src/main/java/com/googlecode/sqb/vendor/sql92/JoinSerializer.java:27-50 | the join text is exactly the opening, " AS alias" whenever the join itself has an alias, and " ON restriction" whenever it has a restriction, in that order |
| Sql92.OrderByText | src/main/java/com/googlecode/sqb/vendor/sql92/OrderBySerializer.java:27-36 | an order-by item prints as the column reference of its column (alias-qualified when the column's source is aliased), a space and the direction |
| Sql92.ProjectionText | src/main/java/com/googlecode/sqb/vendor/sql92/SelectQuerySerializer.java:53 | a column projection prints as its column reference, a raw projection through the projection serializer |
| Sql92.SelectBuffer | src/main/java/com/googlecode/sqb/vendor/sql92/SelectQuerySerializer.java:45-62 | the SELECT buffer always begins with "SELECT ", whatever the projections |
| Sql92.Aliased | src/main/java/com/googlecode/sqb/vendor/sql92/SelectQuerySerializer.java:54-59 | only ever appends to the buffer; nothing is appended when the buffer ends in "*" or the projection has no alias, otherwise the buffer ends in "AS alias" |
| Sql92.SelectItem | src/main/java/com/googlecode/sqb/vendor/sql92/SelectQuerySerializer.java:53-59 | an item begins with the projection's text and is that text alone when the projection has no alias |
| Sql92.SelectItems | src/main/java/com/googlecode/sqb/vendor/sql92/SelectQuerySerializer.java:45-62 | one SELECT item per projection, in enumeration order |
| Sql92.EndsWithAppended | src/main/java/com/googlecode/sqb/vendor/sql92/SelectQuerySerializer.java:45-62 | the "*" test on the buffer looks only at the last text |
| Sql92.AliasedAppend | src/main/java/com/googlecode/sqb/vendor/sql92/SelectQuerySerializer.java:45-62 | the AS decision depends only on the item's own text |
| Sql92.JoinedStep | src/main/java/com/googlecode/sqb/vendor/sql92/SelectQuerySerializer.java:45-62 | a further item adds a separator unless it is the first |
| Sql92.SelectBufferIsJoin | src/main/java/com/googlecode/sqb/vendor/sql92/SelectQuerySerializer.java:45-62 | the SELECT list is "SELECT " and the items joined by ", " |
| Sql92.FromPart | src/main/java/com/googlecode/sqb/vendor/sql92/SelectQuerySerializer.java:64-77 | fails exactly without a source; otherwise " FROM", the source, its alias and the joins |
| Sql92.JoinsText | src/main/java/com/googlecode/sqb/vendor/sql92/SelectQuerySerializer.java:64-77 | each join is followed by a space, in clause order |
| Sql92.WherePart | src/main/java/com/googlecode/sqb/vendor/sql92/SelectQuerySerializer.java:79-87 | empty exactly when there is no restriction |
| Sql92.OrderByPart | src/main/java/com/googlecode/sqb/vendor/sql92/SelectQuerySerializer.java:89-100 | empty exactly when there are no items |
| Sql92.OrderByTexts | src/main/java/com/googlecode/sqb/vendor/sql92/SelectQuerySerializer.java:89-100 | one text per order-by item, in order |
| Sql92.OrderByItems | src/main/java/com/googlecode/sqb/vendor/sql92/SelectQuerySerializer.java:89-100 | a non-empty item list ends with the comma that serializeOrderBy then deletes |
| Sql92.OrderByItemsIsJoin | src/main/java/com/googlecode/sqb/vendor/sql92/SelectQuerySerializer.java:89-100 | the items each followed by a comma are the joined items plus one comma |
| Sql92.OrderByPartIsJoin | src/main/java/com/googlecode/sqb/vendor/sql92/SelectQuerySerializer.java:89-100 | once the trailing comma is deleted, the ORDER BY part is the items joined by commas |
| Sql92.SerializeQuery | src/main/java/com/googlecode/sqb/vendor/sql92/SelectQuerySerializer.java:33-42 | fails exactly without a FROM source; otherwise SELECT, FROM, WHERE and ORDER BY parts in that order |
| Sql92.SerializeQueryIsJoin | src/main/java/com/googlecode/sqb/vendor/sql92/SelectQuerySerializer.java:33-100 | with a FROM source, non-empty projection texts and order-by items, the statement is "SELECT " and the items joined by ", ", the FROM and WHERE parts, then " ORDER BY " and the order-by items joined by commas |
| Sql92.Serialize | src/main/java/com/googlecode/sqb/vendor/sql92/Sql92.java:58-62 | serializes under the builder's own aliases, with the same success condition and shape |
| Sql92.DistinctIsNeverPrinted | src/main/java/com/googlecode/sqb/vendor/sql92/SelectQuerySerializer.java:33-62 | a DISTINCT query serializes exactly like the same query without it |
| Ddl.ConstraintText | src/main/java/org/fourthline/android/feeds/database/DDL.java:38-44 | "_id" gets autoincrement, otherwise a primary key, otherwise not null, otherwise nothing |
| Ddl.ReferencesText | src/main/java/org/fourthline/android/feeds/database/DDL.java:50-59 | empty exactly when the column has no foreign key |
| Ddl.ActionsText | src/main/java/org/fourthline/android/feeds/database/DDL.java:55-58 | empty exactly when neither action is set; ON DELETE opens the text and ON UPDATE closes it |
| Ddl.ColumnDefinition | src/main/java/org/fourthline/android/feeds/database/DDL.java:34-59 | a definition opens with the name, a space, the SQL type and a space, and ends with the references clause |
| Ddl.ColumnDefinitions | src/main/java/org/fourthline/android/feeds/database/DDL.java:32-61 | one definition per column, in order |
| Ddl.CreateTableText | src/main/java/org/fourthline/android/feeds/database/DDL.java:29-67 | the statement opens with "create table NAME(" and ends with ")"; no columns give "create table NAME()" and one column gives its definition alone between the parentheses |
| Ddl.WrittenClosed | src/main/java/org/fourthline/android/feeds/database/DDL.java:61-65 | deleting the last comma and closing the parenthesis yields the statement |
| Ddl.CreateTable | src/main/java/org/fourthline/android/feeds/database/DDL.java:29-67 | the loop builds "create table NAME(" + the definitions joined by commas + ")" |
| Ddl.NoColumns | src/main/java/org/fourthline/android/feeds/database/DDL.java:63-66 | with no columns, the statement is "create table NAME()" |
| Ddl.StatementFrame | src/main/java/org/fourthline/android/feeds/database/DDL.java:31-65 | every statement opens with the table header and closes with ")" |
| Ddl.IdColumnIsAutoincrement | src/main/java/org/fourthline/android/feeds/database/DDL.java:38-39 | the "_id" column is "primary key autoincrement" |
| Ddl.PlainColumnKeepsTrailingSpace | src/main/java/org/fourthline/android/feeds/database/DDL.java:34-44 | a nullable plain column keeps a trailing space |
| Ddl.ReferencesWithBothActions | src/main/java/org/fourthline/android/feeds/database/DDL.java:55-58 | ON DELETE is printed before ON UPDATE |
| Values.IndexKey | src/main/java/org/fourthline/android/feeds/database/ValueAdapter.java:59 | the bare name for a null or empty prefix, otherwise prefix_name |
| Values.ColumnIndex | src/main/java/org/fourthline/android/feeds/database/ValueAdapter.java:60 | -1 exactly for an absent name, otherwise its first position |
| Values.GetIndex | src/main/java/org/fourthline/android/feeds/database/ValueAdapter.java:58-72 | fails exactly when the prefixed name is missing, otherwise gives its first position |
| Values.GetInt | src/main/java/com/googlecode/sqb/query/DataType.java:100-112 | always 32-bit, and equal to the long when it fits |
| Values.GetString | src/main/java/com/googlecode/sqb/query/DataType.java:76-78 | null exactly for a NULL cell; a text cell reads as its text; an integer cell reads as a decimal string that parses back to the integer |
| Values.GetLong | src/main/java/com/googlecode/sqb/query/DataType.java:90-92 | an integer cell reads as the integer; a text cell through SQLite's text-to-integer conversion; a NULL cell as 0 |
| Values.IsNull | src/main/java/org/fourthline/android/feeds/database/ValueAdapter.java:75-77 | a cell is null exactly when getString returns null for it; a null cell reads as 0 through getLong |
| Values.ReadValue | src/main/java/com/googlecode/sqb/query/DataType.java:72-146 | fails exactly for a null or unknown enum name; yields null only for a STRING column's NULL cell; a value read from a non-NULL cell is one the column's type accepts |
| Values.Read | src/main/java/com/googlecode/sqb/query/DataType.java:42-46 | fails for a missing column; null only for a null cell; otherwise a value the type accepts |
| Values.ReadAt | src/main/java/com/googlecode/sqb/query/DataType.java:54-58 | yields null exactly for a null cell |
| Values.ReadIsReadAtIndex | src/main/java/org/fourthline/android/feeds/database/ValueAdapter.java:47-50 | reading by name is reading at the resolved index |
| Values.Write | src/main/java/com/googlecode/sqb/query/DataType.java:60-62 | succeeds exactly for an accepted class, and stores under the column name only |
| Values.WriteAll | src/main/java/com/googlecode/sqb/query/DataType.java:64-70 | succeeds exactly when there are enough values and all are accepted; adds the names of the non-null ones |
| Values.WriteEach | src/main/java/com/googlecode/sqb/query/DataType.java:60-62 | succeeds exactly when every value is accepted; adds every column name |
| Values.WriteEachStores | src/main/java/com/googlecode/sqb/query/DataType.java:60-62 | each column holds its stored value, and other keys are untouched |
| Values.WriteAllSplits | src/main/java/com/googlecode/sqb/query/DataType.java:64-70 | acceptance and written names split at the first column |
| Values.WriteAllStores | src/main/java/com/googlecode/sqb/query/DataType.java:64-70 | each non-null value is stored, and other keys are untouched |
| Values.Names | src/main/java/com/googlecode/sqb/query/DataType.java:64-70 | the column names, in order |
| Values.Persist | src/main/java/com/googlecode/sqb/query/DataType.java:72-126 | a null cell exactly for null |
| Values.RowOf | src/main/java/com/googlecode/sqb/query/DataType.java:72-126 | a well-formed row holding the persisted value under each name |
| Values.WrittenCellsHaveTheDeclaredType | src/main/java/com/googlecode/sqb/query/DataType.java:72-135 | the storage class of a written value is the SQL type the column declares |
| Values.WriteThenRead | src/main/java/com/googlecode/sqb/query/DataType.java:60-146 | a value written and read back is the same value |
| Values.NullWriteReadsNull | src/main/java/com/googlecode/sqb/query/DataType.java:42-46 | a null written for a non-enum column reads back as null |
| Values.BooleanIsOnlyOne | src/main/java/com/googlecode/sqb/query/DataType.java:118-120 | BOOLEAN reads true only for an integer 1 (after the int cast) |
| Entity.BoxedLong | src/main/java/org/fourthline/android/feeds/database/PersistentEntity.java:39-42 | null exactly for no id |
| Entity.BoxedString | src/main/java/org/fourthline/android/feeds/database/PersistentEntity.java:39-42 | null exactly for no string |
| Entity.BoxedEnum | src/main/java/org/fourthline/android/feeds/database/PersistentEntity.java:39-42 | null exactly for no constant |
| Entity.FromValues | src/main/java/org/fourthline/android/feeds/database/PersistentEntity.java:44-54 | the ContentValues constructor ignores its argument and yields an empty map |
| Entity.WithId | src/main/java/org/fourthline/android/feeds/database/PersistentEntity.java:39-42 | a map holding only "_id", even for a null id |
| Entity.WritesAfterIdKeys | src/main/java/org/fourthline/android/feeds/database/PersistentEntity.java:39-42 | writes after the id constructor leave "_id" and the written names |
| Entity.WritesAfterIdHold | src/main/java/org/fourthline/android/feeds/database/PersistentEntity.java:39-42 | with distinct keys, the id and each written value are held |
| Entity.GetAsLong | src/main/java/org/fourthline/android/feeds/database/PersistentEntity.java:56-58 | none for a missing key, and the value for a stored Long |
| Entity.GetIdAsString | src/main/java/org/fourthline/android/feeds/database/PersistentEntity.java:60-63 | null exactly when there is no id |
| Entity.GetId | src/main/java/org/fourthline/android/feeds/database/PersistentEntity.java:56-58 | null when _id is missing or null; the stored long when it is a long |
| Entity.IdAsStringParsesBack | src/main/java/org/fourthline/android/feeds/database/PersistentEntity.java:60-63 | the id string parses back to the id |
| Entity.GetIds | src/main/java/org/fourthline/android/feeds/database/PersistentEntity.java:65-71 | one id string per entity, in order |
| Entity.SetId | src/main/java/org/fourthline/android/feeds/database/PersistentEntity.java:73-78 | fails exactly for -1; otherwise only "_id" changes |
| Entity.SetIdThenGetId | src/main/java/org/fourthline/android/feeds/database/PersistentEntity.java:73-78 | an id that is set is the id read back, and other values are untouched |
| Entity.EntityName | src/main/java/org/fourthline/android/feeds/database/PersistentEntity.java:80-82 | the simple name lower-cased, character by character |
| Entity.TableName | src/main/java/org/fourthline/android/feeds/database/PersistentEntity.java:84-86 | the simple name upper-cased, character by character |
| Entity.EntityAndTableNamesAgreeIgnoringCase | src/main/java/org/fourthline/android/feeds/database/PersistentEntity.java:80-86 | entity and table names are equal ignoring case |
| Entity.GetValue | src/main/java/org/fourthline/android/feeds/database/PersistentEntity.java:88-93 | fails exactly for an enum column; otherwise the stored value, or null when absent |
| Entity.GetValueAsString | src/main/java/org/fourthline/android/feeds/database/PersistentEntity.java:95-97 | null for a missing or null value; a string's own text otherwise |
| Entity.EnumValuesReadAsString | src/main/java/org/fourthline/android/feeds/database/PersistentEntity.java:88-97 | an enum cannot be read by getValue, but its name comes back as a string |
| Entity.ReadAll | src/main/java/org/fourthline/android/feeds/content/FeedConfig.java:124-137 | each value is the column's read; if every read succeeds, the whole read succeeds |
| Entity.Unbox | src/main/java/org/fourthline/android/feeds/content/FeedConfig.java:124-137 | fails exactly when a primitive parameter receives null |
| Entity.ReadArguments | src/main/java/org/fourthline/android/feeds/content/FeedConfig.java:124-137 | succeeds exactly when all reads succeed and no primitive receives null; the values are accepted |
| Schema.ColumnProjections | src/main/java/org/fourthline/android/feeds/content/FeedConfig.java:83-85 | one column projection per column, in order |
| Schema.FeedConfigTable | src/main/java/org/fourthline/android/feeds/content/FeedConfig.java:66 | the table is the escaped "FEEDCONFIG" |
| Schema.FeedConfigColumns | src/main/java/org/fourthline/android/feeds/content/FeedConfig.java:68-81 | ten columns, in declaration order |
| Schema.FeedConfigColumnsDeclared | src/main/java/org/fourthline/android/feeds/content/FeedConfig.java:68-81 | each column's name, type and flags are as declared |
| Schema.FeedConfigProjectionWithFeed | src/main/java/org/fourthline/android/feeds/content/FeedConfig.java:83-85 | COLUMNS, then Feed's _ID, TITLE and DESCRIPTION |
| Schema.FeedTable | src/main/java/org/fourthline/android/feeds/content/Feed.java:43 | the table is the escaped "FEED" |
| Schema.FeedId | src/main/java/org/fourthline/android/feeds/content/Feed.java:45 | Feed._ID references FeedConfig._ID ON DELETE CASCADE |
| Schema.FeedColumns | src/main/java/org/fourthline/android/feeds/content/Feed.java:45-54 | six columns, in declaration order |
| Schema.FeedColumnsDeclared | src/main/java/org/fourthline/android/feeds/content/Feed.java:45-54 | each column's name and type are as declared |
| Schema.FeedEntryTable | src/main/java/org/fourthline/android/feeds/content/FeedEntry.java:45 | the table is the escaped "FEEDENTRY" |
| Schema.FeedEntryFeedId | src/main/java/org/fourthline/android/feeds/content/FeedEntry.java:48-49 | FEED_ID references Feed._ID ON DELETE CASCADE |
| Schema.FeedEntryColumns | src/main/java/org/fourthline/android/feeds/content/FeedEntry.java:47-62 | eleven columns, in declaration order |
| Schema.FeedEntryColumnsDeclared | src/main/java/org/fourthline/android/feeds/content/FeedEntry.java:47-62 | each column's name and type are as declared |
| Schema.FeedEntryColumnsAreNotEnums | src/main/java/org/fourthline/android/feeds/content/FeedEntry.java:47-62 | no FeedEntry column is an enum |
| Schema.FeedEntryProjectionWithFeed | src/main/java/org/fourthline/android/feeds/content/FeedEntry.java:64-67 | COLUMNS, then the FeedConfig and Feed columns the list view needs |
| Schema.FeedWidgetConfigTable | src/main/java/org/fourthline/android/feeds/content/FeedWidgetConfig.java:59 | the table is the escaped "FEEDWIDGETCONFIG" |
| Schema.FeedWidgetConfigId | src/main/java/org/fourthline/android/feeds/content/FeedWidgetConfig.java:61 | the "_id" LONG column, flagged as a primary key |
| Schema.FeedWidgetConfigColumns | src/main/java/org/fourthline/android/feeds/content/FeedWidgetConfig.java:61-68 | four columns; only the first is a primary key; LONG, BOOLEAN, INTEGER and the TextSize enum |
| Schema.FeedWidgetFeedTable | src/main/java/org/fourthline/android/feeds/content/FeedWidgetFeed.java:41 | the table is the escaped "FEEDWIDGETFEED" |
| Schema.FeedWidgetFeedColumns | src/main/java/org/fourthline/android/feeds/content/FeedWidgetFeed.java:43-51 | three columns; the two foreign keys cascade to the widget and to the configuration |
| Rows.ProjectedRow | src/main/java/com/googlecode/sqb/query/DataType.java:42-46 | a well-formed row holding each column's persisted value under its lookup key |
| Rows.LookupKeys | src/main/java/org/fourthline/android/feeds/database/ValueAdapter.java:59-60 | one prefixed lookup key per column |
| Rows.ReadBack | src/main/java/com/googlecode/sqb/query/DataType.java:42-46 | a stored value reads back as itself |
| Rows.ReadOneOfProjectedRow | src/main/java/com/googlecode/sqb/query/DataType.java:42-46 | one column of a projected row reads back its written value |
| Rows.ReadAllOfProjectedRow | src/main/java/com/googlecode/sqb/query/DataType.java:42-46 | all columns of a projected row read back their written values |
| Rows.WriteAllLayout | src/main/java/com/googlecode/sqb/query/DataType.java:64-70 | writeAll leaves null values out and stores the others |
| Entities.CursorPrefixes | src/main/java/org/fourthline/android/feeds/content/FeedConfig.java:124-137 | the id is read bare and every other column under the alias prefix |
| Entities.FeedConfigArguments | src/main/java/org/fourthline/android/feeds/content/FeedConfig.java:96-104 | the boxed parameter list: ten values |
| Entities.NewFeedConfig | src/main/java/org/fourthline/android/feeds/content/FeedConfig.java:96-104 | succeeds exactly when both enum arguments are null or constants |
| Entities.NewFeedConfigWritesTheNonNullArguments | src/main/java/org/fourthline/android/feeds/content/FeedConfig.java:96-104 | a new FeedConfig holds the keys of exactly the non-null arguments |
| Entities.FeedConfigOfKeys | src/main/java/org/fourthline/android/feeds/content/FeedConfig.java:96-104 | the keys left are those of the non-null arguments |
| Entities.FeedConfigArgumentsAccepted | src/main/java/org/fourthline/android/feeds/content/FeedConfig.java:96-104 | writeAll accepts exactly the argument lists whose enums are null or constants |
| Entities.FeedConfigArgumentsWritten | src/main/java/org/fourthline/android/feeds/content/FeedConfig.java:96-104 | the written names are the columns of the non-null arguments |
| Entities.FeedConfigWrittenAreKeys | src/main/java/org/fourthline/android/feeds/content/FeedConfig.java:96-104 | every written name is a FeedConfig key |
| Entities.FeedConfigKeysAreWritten | src/main/java/org/fourthline/android/feeds/content/FeedConfig.java:96-104 | every expected key is written |
| Entities.NewFeedConfigSettings | src/main/java/org/fourthline/android/feeds/content/FeedConfig.java:106-116 | the seven settings are written in order; fails exactly when an enum argument is null or not a constant |
| Entities.FeedConfigRefreshed | src/main/java/org/fourthline/android/feeds/content/FeedConfig.java:118-122 | the keys are exactly _id, LAST_REFRESH and LAST_REFRESH_ETAG |
| Entities.FeedConfigRefreshedHoldsItsArguments | src/main/java/org/fourthline/android/feeds/content/FeedConfig.java:118-122 | with distinct keys, the id, the time and the ETag are held |
| Entities.FeedConfigReadPrefixes | src/main/java/org/fourthline/android/feeds/content/FeedConfig.java:124-137 | _ID is read bare and the other nine under "fc" |
| Entities.FeedConfigFromCursor | src/main/java/org/fourthline/android/feeds/content/FeedConfig.java:124-137 | succeeds exactly when all ten reads succeed and no primitive receives null |
| Entities.FeedConfigValuesTyped | src/main/java/org/fourthline/android/feeds/content/FeedConfig.java:124-137 | a well-shaped argument list fits its columns' types |
| Entities.FeedConfigArgumentsShape | src/main/java/org/fourthline/android/feeds/content/FeedConfig.java:124-137 | the boxed arguments have the classes of the parameters |
| Entities.FeedConfigValuesUnbox | src/main/java/org/fourthline/android/feeds/content/FeedConfig.java:124-137 | primitive parameters never receive null |
| Entities.FeedConfigCursorRoundTrip | src/main/java/org/fourthline/android/feeds/content/FeedConfig.java:124-137 | a FeedConfig read from the row of a new FeedConfig is the same FeedConfig |
| Entities.CursorKeysDistinct | src/main/java/org/fourthline/android/feeds/content/FeedConfig.java:124-137 | prefixed lookup keys are distinct when the names are |
| Entities.FeedConfigPlainNamesDistinct | src/main/java/org/fourthline/android/feeds/content/FeedConfig.java:68-81 | without escaping, the names and lookup keys are distinct |
| Entities.NewFeed | src/main/java/org/fourthline/android/feeds/content/Feed.java:60-69 | the keys are _id and the written columns |
| Entities.NewFeedHoldsItsArguments | src/main/java/org/fourthline/android/feeds/content/Feed.java:60-69 | each argument is held, and LINK (written twice) holds the link |
| Entities.NewFeedHoldsItsId | src/main/java/org/fourthline/android/feeds/content/Feed.java:60-69 | the id is the one given |
| Entities.StringOf | src/main/java/org/fourthline/android/feeds/content/Feed.java:71-76 | null exactly for a null cell |
| Entities.FeedTitleOrUrl | src/main/java/org/fourthline/android/feeds/content/Feed.java:71-76 | null only when both the feed title and the configuration URL are null |
| Entities.FeedTitleOrUrlOfRow | src/main/java/org/fourthline/android/feeds/content/Feed.java:71-76 | on a row, the title when non-null, otherwise the URL |
| Entities.FeedEntryKeys | src/main/java/org/fourthline/android/feeds/content/FeedEntry.java:95-110 | eleven keys, one per column |
| Entities.FeedEntryKeysAreEscapedNames | src/main/java/org/fourthline/android/feeds/content/FeedEntry.java:95-110 | keys after _id are the escaped column names |
| Entities.LongOf | src/main/java/org/fourthline/android/feeds/content/FeedEntry.java:95-110 | boxing the result gives back the value |
| Entities.FeedEntryArguments | src/main/java/org/fourthline/android/feeds/content/FeedEntry.java:95-110 | the boxed parameter list: eleven values |
| Entities.NewFeedEntry | src/main/java/org/fourthline/android/feeds/content/FeedEntry.java:95-110 | the keys are exactly _id and the ten column names |
| Entities.FeedEntryOfKeys | src/main/java/org/fourthline/android/feeds/content/FeedEntry.java:95-110 | the keys of a writable argument list |
| Entities.FeedEntryOfHoldsItsArguments | src/main/java/org/fourthline/android/feeds/content/FeedEntry.java:95-110 | argument i is held under key i |
| Entities.NewFeedEntryHoldsItsArguments | src/main/java/org/fourthline/android/feeds/content/FeedEntry.java:95-110 | each argument and the id are held |
| Entities.FeedEntryReadFlag | src/main/java/org/fourthline/android/feeds/content/FeedEntry.java:112-116 | the keys are exactly _id and IS_READ |
| Entities.FeedEntryReadFlagHoldsItsArguments | src/main/java/org/fourthline/android/feeds/content/FeedEntry.java:112-116 | the id and the flag are held |
| Entities.FeedEntryReadPrefixes | src/main/java/org/fourthline/android/feeds/content/FeedEntry.java:118-132 | _ID is read bare and the other ten under "fe" |
| Entities.FeedEntryFromCursor | src/main/java/org/fourthline/android/feeds/content/FeedEntry.java:118-132 | succeeds exactly when all reads succeed and no primitive receives null |
| Entities.FeedEntryReadWritable | src/main/java/org/fourthline/android/feeds/content/FeedEntry.java:118-132 | values read can be written back |
| Entities.FeedEntryArgumentsWritable | src/main/java/org/fourthline/android/feeds/content/FeedEntry.java:118-132 | constructor arguments fit their columns |
| Entities.FeedEntryArgumentsTyped | src/main/java/org/fourthline/android/feeds/content/FeedEntry.java:118-132 | constructor arguments have their columns' types |
| Entities.FeedEntryWritableIsTyped | src/main/java/org/fourthline/android/feeds/content/FeedEntry.java:118-132 | a writable list without an int is typed |
| Entities.FeedEntryArgumentsUnboxed | src/main/java/org/fourthline/android/feeds/content/FeedEntry.java:118-132 | no int is passed and no primitive receives null |
| Entities.FeedEntryCursorRoundTrip | src/main/java/org/fourthline/android/feeds/content/FeedEntry.java:118-132 | a FeedEntry read from the row of a new FeedEntry is the same FeedEntry |
| Entities.Description | src/main/java/org/fourthline/android/feeds/content/FeedEntry.java:166-172 | fails for a null description. Any result other than the "NO DESCRIPTION" marker is the stored description, or the title when the marker was stored |
| Entities.DescriptionOfRow | src/main/java/org/fourthline/android/feeds/content/FeedEntry.java:166-172 | on a row: the description, or the title when the description is the default |
| Entities.IsDescriptionHtml | src/main/java/org/fourthline/android/feeds/content/FeedEntry.java:174-176 | fails exactly when the type cannot be read or is null; true exactly for "text/html" |
| Entities.PolledDate | src/main/java/org/fourthline/android/feeds/content/FeedEntry.java:178-182 | succeeds exactly for a stored Long, and yields it |
| Entities.IsExpiredAsWritten | src/main/java/org/fourthline/android/feeds/content/FeedEntry.java:178-182 | isExpired with the int product: it fails exactly when the polled date cannot be read |
| Entities.IsExpired | src/main/java/org/fourthline/android/feeds/content/FeedEntry.java:178-182 | isExpired with the long product: it fails exactly when the polled date cannot be read |
| Entities.IsExpiredWhenMaxAgeHasPassed | src/main/java/org/fourthline/android/feeds/content/FeedEntry.java:178-182 | an entry is expired exactly when maxAgeDays days have passed since it was polled |
| Entities.IsExpiredAsWrittenAgreesUpTo24Days | src/main/java/org/fourthline/android/feeds/content/FeedEntry.java:178-182 | up to 24 days the code as written agrees with the intent |
| Entities.IsExpiredAsWrittenWrapsAt25Days | src/main/java/org/fourthline/android/feeds/content/FeedEntry.java:178-182 | at 25 days an entry polled at 0 is expired at 0 |
| Entities.FeedWidgetConfigArguments | src/main/java/org/fourthline/android/feeds/content/FeedWidgetConfig.java:74-80 | the boxed parameter list: four values |
| Entities.NewFeedWidgetConfig | src/main/java/org/fourthline/android/feeds/content/FeedWidgetConfig.java:74-80 | succeeds exactly for a null or known text size; TEXT_SIZE is written only when given |
| Entities.FeedWidgetConfigArgumentsAccepted | src/main/java/org/fourthline/android/feeds/content/FeedWidgetConfig.java:74-80 | accepted exactly when the text size is null or a constant |
| Entities.FeedWidgetConfigArgumentsWritten | src/main/java/org/fourthline/android/feeds/content/FeedWidgetConfig.java:74-80 | the first three names are written, and TEXT_SIZE unless it is null |
| Entities.DefaultFeedWidgetConfigIsValid | src/main/java/org/fourthline/android/feeds/content/FeedWidgetConfig.java:70-80 | the defaults make a valid configuration |
| Entities.FeedWidgetConfigReadPrefixes | src/main/java/org/fourthline/android/feeds/content/FeedWidgetConfig.java:82-89 | _ID is read bare and the other three under "fwc" |
| Entities.FeedWidgetConfigFromCursor | src/main/java/org/fourthline/android/feeds/content/FeedWidgetConfig.java:82-89 | succeeds exactly when all reads succeed and no primitive receives null |
| Entities.FeedWidgetConfigArgumentsTyped | src/main/java/org/fourthline/android/feeds/content/FeedWidgetConfig.java:82-89 | valid arguments fit their columns, with no null where a primitive is expected |
| Entities.FeedWidgetConfigCursorRoundTrip | src/main/java/org/fourthline/android/feeds/content/FeedWidgetConfig.java:82-89 | a configuration read from the row of a new configuration is the same configuration |
| Entities.FeedWidgetConfigPlainNamesDistinct | src/main/java/org/fourthline/android/feeds/content/FeedWidgetConfig.java:61-68 | without escaping, the names and lookup keys are distinct |
| Entities.NewFeedWidgetFeed | src/main/java/org/fourthline/android/feeds/content/FeedWidgetFeed.java:55-60 | the keys are exactly _id, FEED_WIDGET_ID and FEED_CONFIG_ID |
| Entities.NewFeedWidgetFeedHoldsItsArguments | src/main/java/org/fourthline/android/feeds/content/FeedWidgetFeed.java:55-60 | with distinct keys, each argument is held |
| StringUtil.Truncate | src/main/java/org/fourthline/android/feeds/util/StringUtil.java:24-27 | a string that fits is kept. A longer one keeps its first length - 1 characters and then the marker. It fails exactly when it does not fit and length < 1 |
| StringUtil.TruncateFitsWithOneCharMarker | src/main/java/org/fourthline/android/feeds/util/StringUtil.java:24-27 | with a one-character marker the result has exactly the allowed length |
| StringUtil.LastSpace | src/main/java/org/fourthline/android/feeds/util/StringUtil.java:29-46 | the last space at or before the limit, or 0 |
| StringUtil.WordBoundaryTruncation | src/main/java/org/fourthline/android/feeds/util/StringUtil.java:29-46 | the result stays within the limit plus the marker |
| StringUtil.WordBoundaryTruncationCutsAtLastSpace | src/main/java/org/fourthline/android/feeds/util/StringUtil.java:29-46 | the cut is at the last space, with the marker appended |
| StringUtil.TruncateOnWordBoundary | src/main/java/org/fourthline/android/feeds/util/StringUtil.java:29-46 | the loop computes the reference; a string that fits is kept |
| StringUtil.ReplaceControlChars | src/main/java/org/fourthline/android/feeds/util/StringUtil.java:48-50 | every control character becomes a space and every other character stays |
| StringUtil.ReplaceControlCharsIdempotent | src/main/java/org/fourthline/android/feeds/util/StringUtil.java:48-50 | a string without control characters is unchanged; the replacement is idempotent |
| StringUtil.DropWhitespace | src/main/java/org/fourthline/android/feeds/util/StringUtil.java:52-54 | drops exactly the leading run of whitespace |
| StringUtil.ReplaceMultipleWhitespace | src/main/java/org/fourthline/android/feeds/util/StringUtil.java:52-54 | the result is collapsed and no longer than the input |
| StringUtil.VisibleOfDropWhitespace | src/main/java/org/fourthline/android/feeds/util/StringUtil.java:52-54 | dropping whitespace keeps every visible character |
| StringUtil.ReplaceMultipleWhitespaceKeepsVisible | src/main/java/org/fourthline/android/feeds/util/StringUtil.java:52-54 | collapsing keeps every visible character, in order |
| StringUtil.ReplaceMultipleWhitespaceOfCollapsed | src/main/java/org/fourthline/android/feeds/util/StringUtil.java:52-54 | an already collapsed string is unchanged |
| StringUtil.ReplaceMultipleWhitespaceIdempotent | src/main/java/org/fourthline/android/feeds/util/StringUtil.java:52-54 | collapsing twice is collapsing once |
| StringUtil.SqueezedAppend | src/main/java/org/fourthline/android/feeds/util/StringUtil.java:52-54 | the character-by-character reference reads a concatenation part by part, carrying whether the last character was whitespace |
| StringUtil.SqueezedSkipsRun | src/main/java/org/fourthline/android/feeds/util/StringUtil.java:52-54 | after whitespace, a further run of whitespace prints nothing |
| StringUtil.ReplaceMultipleWhitespaceIsSqueezed | src/main/java/org/fourthline/android/feeds/util/StringUtil.java:52-54 | the replacement equals the character-by-character reference: a whitespace character prints one space unless the previous one was whitespace, every other character prints itself |
| StringUtil.SqueezedRun | src/main/java/org/fourthline/android/feeds/util/StringUtil.java:52-54 | a non-empty run of whitespace prints exactly one space |
| StringUtil.SqueezedOfRun | src/main/java/org/fourthline/android/feeds/util/StringUtil.java:52-54 | the reference prints a whitespace run between a part ending in a visible character and a part starting with one as exactly one space between the two parts' own readings |
| StringUtil.ReplaceMultipleWhitespaceOfRun | src/main/java/org/fourthline/android/feeds/util/StringUtil.java:52-54 | a maximal whitespace run between two parts becomes exactly one space, and each part is collapsed on its own |
| StringUtil.ConcatAll | src/main/java/org/fourthline/android/feeds/util/StringUtil.java:62-71 | the result is the first array followed by the second |
| StringUtil.FlattenSnoc | src/main/java/org/fourthline/android/feeds/util/StringUtil.java:73-85 | appending an array extends the flattening by that array |
| StringUtil.FlattenLength | src/main/java/org/fourthline/android/feeds/util/StringUtil.java:73-85 | the flattened length is the sum of the lengths |
| StringUtil.ConcatAllArrays | src/main/java/org/fourthline/android/feeds/util/StringUtil.java:73-85 | the first array followed by all the others, with the summed length |
| FeedReader.Initial | src/main/java/org/fourthline/android/feeds/model/FeedReader.java:32-40 | a new reader has nothing selected and no details |
| FeedReader.OnFeedEntriesLoaded | src/main/java/org/fourthline/android/feeds/model/FeedReader.java:42-44 | only the entries flag changes |
| FeedReader.OnFeedConfigSelected | src/main/java/org/fourthline/android/feeds/model/FeedReader.java:46-50 | position, id and URL are recorded; the flag and details are kept |
| FeedReader.OnFeedConfigDeselected | src/main/java/org/fourthline/android/feeds/model/FeedReader.java:52-57 | the reader is deselected and the details are kept |
| FeedReader.DeselectForgetsTheSelection | src/main/java/org/fourthline/android/feeds/model/FeedReader.java:46-57 | a deselect forgets any earlier selection or load |
| FeedReader.DeselectIsIdempotent | src/main/java/org/fourthline/android/feeds/model/FeedReader.java:46-57 | deselecting twice is deselecting once, and a new reader is already deselected |
| FeedReader.SelectOverridesSelect | src/main/java/org/fourthline/android/feeds/model/FeedReader.java:46-50 | a later selection overrides an earlier one |
| Refresh.Link | src/main/java/org/fourthline/android/feeds/refresh/FeedRefreshService.java:342 | succeeds exactly for a missing, null or string LINK |
| Refresh.UnboxedLong | src/main/java/org/fourthline/android/feeds/refresh/FeedRefreshService.java:372-373 | succeeds exactly for a stored Long, and yields it |
| Refresh.StillPresent | src/main/java/org/fourthline/android/feeds/refresh/FeedRefreshService.java:344-351 | true exactly when a new entry carries the link; cannot fail when all links are present |
| Refresh.Deleted | src/main/java/org/fourthline/android/feeds/refresh/FeedRefreshService.java:341-359 | deleted exactly when expired and no longer present; a fresh entry is never deleted |
| Refresh.Split | src/main/java/org/fourthline/android/feeds/refresh/FeedRefreshService.java:337-361 | a permutation into accepted and rejected elements; fails exactly when some decision fails |
| Refresh.DeletePass | src/main/java/org/fourthline/android/feeds/refresh/FeedRefreshService.java:337-361 | the existing entries are split into deleted and kept, by Deleted |
| Refresh.Match | src/main/java/org/fourthline/android/feeds/refresh/FeedRefreshService.java:368-396 | a kept entry with the same link exactly when one exists |
| Refresh.CopiedLong | src/main/java/org/fourthline/android/feeds/refresh/FeedRefreshService.java:377-388 | fails exactly for a non-long; null stays null |
| Refresh.Updated | src/main/java/org/fourthline/android/feeds/refresh/FeedRefreshService.java:377-388 | the new entry with _id, POLLED_DATE and PUBLISHED_DATE taken from the existing one; the rest is kept |
| Refresh.NewEntryAction | src/main/java/org/fourthline/android/feeds/refresh/FeedRefreshService.java:363-407 | INSERT exactly when no kept entry has the link; never DELETE |
| Refresh.NewEntryActionOnMatch | src/main/java/org/fourthline/android/feeds/refresh/FeedRefreshService.java:363-407 | a matched entry is updated exactly when its UPDATED_DATE is strictly newer, and then takes over the match's _id and dates |
| Refresh.HasInsertConcat | src/main/java/org/fourthline/android/feeds/refresh/FeedRefreshService.java:363-407 | inserts and deletes distribute over concatenation |
| Refresh.NewPass | src/main/java/org/fourthline/android/feeds/refresh/FeedRefreshService.java:363-407 | the flag is set exactly when an INSERT is scheduled; no DELETE is scheduled |
| Refresh.NewPassFlagsUnmatchedEntries | src/main/java/org/fourthline/android/feeds/refresh/FeedRefreshService.java:363-407 | new entries are reported exactly when some link is unmatched |
| Refresh.UnmatchedSplits | src/main/java/org/fourthline/android/feeds/refresh/FeedRefreshService.java:363-407 | an unmatched entry is the first or in the rest |
| Refresh.PartitionMembers | src/main/java/org/fourthline/android/feeds/refresh/FeedRefreshService.java:337-361 | the parts of a split hold exactly the whole's elements |
| Refresh.DeleteActions | src/main/java/org/fourthline/android/feeds/refresh/FeedRefreshService.java:354-358 | one DELETE per deleted entry, in order |
| Refresh.DeletesOfDeleteActions | src/main/java/org/fourthline/android/feeds/refresh/FeedRefreshService.java:410-412 | the DELETEs are exactly the deleted entries |
| Refresh.RefreshFeedEntries | src/main/java/org/fourthline/android/feeds/refresh/FeedRefreshService.java:332-415 | returns true exactly when an INSERT is scheduled, after a delete pass that succeeded |
| Refresh.RefreshFeedEntriesSchedules | src/main/java/org/fourthline/android/feeds/refresh/FeedRefreshService.java:332-415 | every DELETE is an expired existing entry no longer present, and such an entry is deleted |
| Refresh.DeletePassSeparates | src/main/java/org/fourthline/android/feeds/refresh/FeedRefreshService.java:337-361 | no entry is both deleted and kept |
| Refresh.FreshEntriesAreKept | src/main/java/org/fourthline/android/feeds/refresh/FeedRefreshService.java:337-361 | an entry that has not expired is kept |
| Refresh.FreshEntriesAreKeptUpTo24Days | src/main/java/org/fourthline/android/feeds/refresh/FeedRefreshService.java:337-361 | for a maximum age of at most 24 days, an entry that isExpired as written reports not expired is kept and not deleted |
| Refresh.RefreshDue | src/main/java/org/fourthline/android/feeds/refresh/FeedRefreshService.java:440-447 | never refreshed means due; otherwise due once the interval has passed |
| Refresh.RefreshDueIsMonotoneInTime | src/main/java/org/fourthline/android/feeds/refresh/FeedRefreshService.java:440-447 | once due, a feed stays due |
| Refresh.Unboxed | src/main/java/org/fourthline/android/feeds/refresh/FeedRefreshService.java:441 | fails exactly for null |
| Refresh.IsFeedRequiringRefresh | src/main/java/org/fourthline/android/feeds/refresh/FeedRefreshService.java:440-447 | fails for a null LAST_REFRESH; 0 means due; otherwise RefreshDue |
| Refresh.IsFeedDataStale | src/main/java/org/fourthline/android/feeds/refresh/FeedRefreshService.java:565-596 | fresh exactly when the response is OK and its date or ETag shows no change |
| Refresh.StalenessIgnoresEtagWhenDated | src/main/java/org/fourthline/android/feeds/refresh/FeedRefreshService.java:565-596 | with a Last-Modified date, the response's ETag does not affect staleness |
| Refresh.LastRefreshUpdate | src/main/java/org/fourthline/android/feeds/refresh/FeedRefreshService.java:321-327 | with distinct column names the update holds the feed config's id, the time, and the response's ETag or "" when it had none |
| Refresh.LastRefreshUpdateValidatesTheEtag | src/main/java/org/fourthline/android/feeds/refresh/FeedRefreshService.java:243-256 | after storing a refresh with an ETag, a later undated 200 response is not stale exactly when it carries the same ETag |
| Refresh.LastRefreshUpdateValidatesTheDate | src/main/java/org/fourthline/android/feeds/refresh/FeedRefreshService.java:243-246 | after storing a refresh at time now, a later dated 200 response is not stale exactly when its Last-Modified date is not after now |
| Refresh.FeedRefreshOf | src/main/java/org/fourthline/android/feeds/refresh/FeedRefreshService.java:173-197 | a row is picked up exactly when its id is in the filter (if any) and the run is forced or the configuration is due; without force, a row in the filter is picked up exactly when isFeedRequiringRefresh says it is due; a picked-up row carries its own id and the values RefreshValues reads, and is an UPDATE exactly when the joined feed row exists |
| Refresh.RefreshValues | src/main/java/org/fourthline/android/feeds/refresh/FeedRefreshService.java:185-195 | the values read for a picked-up row: UPDATE exactly when the feed row exists |
| Refresh.Collect | src/main/java/org/fourthline/android/feeds/refresh/FeedRefreshService.java:165-204 | fails exactly when some outcome fails. Each collected value comes from some outcome, every value an outcome yields is collected, and all are kept when every outcome yields one |
| Refresh.SelectForRefresh | src/main/java/org/fourthline/android/feeds/refresh/FeedRefreshService.java:165-204 | fails exactly when some row fails; at most one refresh per row |
| Refresh.Outcomes | src/main/java/org/fourthline/android/feeds/refresh/FeedRefreshService.java:165-204 | the per-row outcomes, from which SelectForRefresh collects |
| Refresh.SelectForRefreshHonoursTheFilter | src/main/java/org/fourthline/android/feeds/refresh/FeedRefreshService.java:165-204 | only ids the filter names are refreshed |
| Refresh.ForcedRefreshSelectsEveryRow | src/main/java/org/fourthline/android/feeds/refresh/FeedRefreshService.java:165-204 | a forced run without a filter picks up every row |
| Refresh.SelectForRefreshPicksExactlyThePickedRows | src/main/java/org/fourthline/android/feeds/refresh/FeedRefreshService.java:165-204 | every selected refresh is the values of some picked-up row, and every picked-up row contributes its values |
| Refresh.UnforcedRefreshPicksTheDueRows | src/main/java/org/fourthline/android/feeds/refresh/FeedRefreshService.java:176-184 | without force, a row the filter admits is picked up exactly when it is due |
| Refresh.NotifyNewEntries | src/main/java/org/fourthline/android/feeds/refresh/FeedRefreshService.java:223-234 | notify exactly when some feed had new entries and asks for notification |
| Opml.ElementName | src/main/java/org/fourthline/android/feeds/imexport/OPML.java:35-40 | every element name is one of the OPML element names |
| Opml.ElementValueOrNullOf | src/main/java/org/fourthline/android/feeds/imexport/OPML.java:42-48 | fails exactly for null; otherwise the constant exactly when the name is known |
| Opml.ElementEqualsAgreesWithValueOf | src/main/java/org/fourthline/android/feeds/imexport/OPML.java:50-52 | an element matches a node exactly when the node's name maps back to it |
| Opml.AttributeNamesAreDistinct | src/main/java/org/fourthline/android/feeds/imexport/OPML.java:55-69 | no two attributes share a name |
| Opml.AttributeName | src/main/java/org/fourthline/android/feeds/imexport/OPML.java:55-69 | every attribute has a non-empty XML name |
| Opml.Value | src/main/java/org/fourthline/android/feeds/imexport/OPML.java:84-124 | an attribute's value is present exactly when the element carries the attribute's name, and is that value |
| Opml.IntegerOr | src/main/java/org/fourthline/android/feeds/imexport/OPML.java:81-127 | the default when absent, otherwise Integer.valueOf |
| Opml.EnumOr | src/main/java/org/fourthline/android/feeds/imexport/OPML.java:81-127 | a known constant is kept; an absent or unknown name gives the default |
| Opml.OutlineOfAttributes | src/main/java/org/fourthline/android/feeds/imexport/OPML.java:81-127 | succeeds exactly when a URL is present and normalises and the numbers parse; the outline is complete and in range, with the normalised URL |
| Opml.AbsentAttributesTakeTheDefaults | src/main/java/org/fourthline/android/feeds/imexport/OPML.java:84-88 | absent attributes take the FeedConfig defaults |
| Opml.ImportFailsWithoutUrl | src/main/java/org/fourthline/android/feeds/imexport/OPML.java:84-88 | without a URL the outline cannot be imported |
| Opml.SetAttributes | src/main/java/org/fourthline/android/feeds/imexport/OPML.java:154-162 | fails exactly for a null non-URL field; other attributes are kept and all six non-URL attributes are set |
| Opml.SetAttributesWritesTheFields | src/main/java/org/fourthline/android/feeds/imexport/OPML.java:154-162 | each attribute carries its field's text |
| Opml.ImportOfExportIsIdentity | src/main/java/org/fourthline/android/feeds/imexport/OPML.java:81-162 | a complete, in-range outline with a normal URL comes back unchanged |
| Opml.OutlineColumns | src/main/java/org/fourthline/android/feeds/imexport/OPML.java:129-137 | the seven columns, in field order |
| Opml.OutlineOfCursor | src/main/java/org/fourthline/android/feeds/imexport/OPML.java:129-137 | succeeds exactly when all seven reads succeed |
| Opml.OutlineOfCursorReadsConstants | src/main/java/org/fourthline/android/feeds/imexport/OPML.java:129-137 | the enum fields are null or constants |
| Opml.ReadEnumIsConstant | src/main/java/org/fourthline/android/feeds/imexport/OPML.java:129-137 | an enum read yields null or a constant |
| Opml.OutlineOfCursorReadsTheUrl | src/main/java/org/fourthline/android/feeds/imexport/OPML.java:129-137 | the URL field is the row's URL |
| Opml.ToFeedConfig | src/main/java/org/fourthline/android/feeds/imexport/OPML.java:139-152 | succeeds exactly when the four primitive fields are non-null and each enum field is null or one of its constants |
| Opml.ImportedOutlinesConvert | src/main/java/org/fourthline/android/feeds/imexport/OPML.java:81-152 | every imported outline converts, to a FeedConfig holding every key except the id |

## Left out

- **I/O and Android.** The network, the notification manager, the in-progress flag, preferences and
  connectivity (FeedRefreshService.java:97-163) are left out. So are the HTTP client, the XML DOM
  and SAX parsers, and the content provider. The HEAD response and the clock are parameters.
- **The rest of FeedRefreshService.** createFeed, createFeedEntry and getExistingFeedEntries
  (FeedRefreshService.java:449-508) are left out. They parse a syndication feed and query the
  provider, so the model takes their results as parameters.
- **HTML handling.** `StringUtil.removeHtml` and `FeedEntry.getDescriptionAsText` /
  `getDescriptionAsHTML` are left out. They call the Android HTML parser.
- **Color, TextSize floats and toString.** Color and the TextSize floats are display data and are
  not modelled. The `toString` methods and the MIME type and URI constants are also left out.
- **Collaborator parameters.**
  - The SQL escaping function and a table's preferred alias are parameters (`Env`). The dialect's
    punctuation, join-type text and order text are parameters too (`Dialect`).
  - SQLite's text-to-integer conversion is a parameter (`Cursor.textToInteger`).
  - OPML's URL normalisation (`java.net.URL`) and the default text colour (`Color.WHITE`) are
    parameters.
- **Iteration order.** Java HashSet iteration order is a parameter: the projection order of the
  SELECT clause, and the element order of an IN list.
- Builder.AddAlias: the alias counter is a `nat`, so the int wrap after 2^31 collisions is not modelled.
- StringUtil.ConcatAll: the int overflow of the summed array length is not modelled, because a
  sequence cannot be that long.
- Entity.ReadAll: the failure side is stated only as "if every read succeeds, the read succeeds",
  not as which read fails first.
- Opml.SetAttributes: a null xmlUrl leaves the attribute unset, because the DOM's behaviour for a
  null value is not part of this model.
- Refresh.Deleted: uses the corrected `Entities.IsExpired`, not the code as written (see
  "## Findings").
- Refresh.DeletePass: decides with the corrected `Entities.IsExpired`. As written, the int
  product wraps for a maximum age of 25 days or more, and a freshly polled entry can be deleted.
- Refresh.RefreshFeedEntries: schedules its DELETEs through `Refresh.DeletePass`, so the same
  wrap-around is not modelled.
- Refresh.RefreshFeedEntriesSchedules: states the DELETEs in terms of the corrected expiry. As
  written, they differ from 25 days on.
- Refresh.FreshEntriesAreKept: holds for the corrected expiry only. From 25 days on, the code as
  written deletes fresh entries. `Refresh.FreshEntriesAreKeptUpTo24Days` states the guarantee for
  the code as written in the range where the product does not wrap.
- JavaLang.ParseInt: accepts only the ASCII digits 0-9, while `Integer.parseInt` also accepts
  the other Unicode decimal digits (`Character.digit`).
- JavaLang.ParseLong: accepts only the ASCII digits 0-9, while `Long.parseLong` also accepts the
  other Unicode decimal digits.
- JavaLang.ToLower: maps only the ASCII letters, one character to one, as the root locale does
  for them; locale-sensitive and full Unicode case mapping (which can change the length) is not
  modelled.
- JavaLang.ToUpper: maps only the ASCII letters, one character to one; locale-sensitive and full
  Unicode case mapping (for example "ß" to "SS") is not modelled.
- Entity.EntityName: assumes ASCII class names and root-locale case mapping (see
  JavaLang.ToLower).
- Entity.TableName: assumes ASCII class names and root-locale case mapping (see JavaLang.ToUpper).
- Query.StringProjectionAlias: assumes root-locale ASCII case mapping of the expression text. The
  default alias is one code point of the text, where Java's `charAt(0)` takes one UTF-16 unit, so
  for text starting outside the Basic Multilingual Plane Java yields a lone surrogate.
- Builder.SelectExpressionAlias: its default alias is one code point, not one UTF-16 unit, for the
  same reason as Query.StringProjectionAlias.
- Schema.FeedConfigTable: the table name relies on the ASCII root-locale case mapping of
  Entity.TableName.
- Schema.FeedTable: the table name relies on the ASCII root-locale case mapping of
  Entity.TableName.
- Schema.FeedEntryTable: the table name relies on the ASCII root-locale case mapping of
  Entity.TableName.
- Schema.FeedWidgetConfigTable: the table name relies on the ASCII root-locale case mapping of
  Entity.TableName.
- Schema.FeedWidgetFeedTable: the table name relies on the ASCII root-locale case mapping of
  Entity.TableName.
- StringUtil.Truncate: lengths count `char`s of the model's strings (code points), not the UTF-16
  code units Java's `length()` and `substring` count; a cut inside a surrogate pair is not modelled.
- StringUtil.TruncateFitsWithOneCharMarker: the length bound is in code points, not UTF-16 code
  units (see StringUtil.Truncate).
- StringUtil.WordBoundaryTruncation: positions and lengths are in code points, not UTF-16 code
  units (see StringUtil.Truncate).
- StringUtil.TruncateOnWordBoundary: positions and lengths are in code points, not UTF-16 code
  units (see StringUtil.Truncate).
- Values.Persist: a STRING column is declared with the type name "string", which gives it
  SQLite's NUMERIC affinity; the model keeps text as text, so the conversion SQLite applies to
  numeric-looking text (for example "1.0" stored as the integer 1) is not modelled.
- Values.WriteThenRead: holds for text only without SQLite's NUMERIC affinity conversion (see
  Values.Persist); numeric-looking text such as "1.0" or "0123" would read back changed.
- Values.WrittenCellsHaveTheDeclaredType: a text value written to a STRING column stays a text
  cell in the model; SQLite may store numeric-looking text as a number (see Values.Persist).
- Values.WriteAll: on the first failing write it returns only the failure, not the values
  written before it, which the Java `ContentValues` would still hold.
- Builder.Where: assumes that `WhereClauseImpl.addRestriction` replaces an earlier restriction, so
  a second `where` call keeps only the last one; WhereClauseImpl is not part of this model.
- Builder.OrderByDir: assumes that `OrderByClauseImpl.addOrderBy` appends in call order;
  OrderByClauseImpl is not part of this model, and the serializer prints the items in that order.
- Builder.SelectAll: on the first failing projection it returns only the failure, not the
  builder state the earlier projections already changed.
- Values.ColumnIndex: returns the first position of an exact match; the platform cursor's own
  lookup (case handling, a name-to-index map in which a duplicate name maps to its last
  position, stripping of a prefix up to the last '.') is not modelled.
- Rows.ReadBack: the round trip ignores SQLite's NUMERIC affinity conversion of numeric-looking
  text in STRING columns (see Values.Persist).
- Rows.ReadOneOfProjectedRow: ignores SQLite's NUMERIC affinity conversion of numeric-looking
  text (see Values.Persist).
- Rows.ReadAllOfProjectedRow: ignores SQLite's NUMERIC affinity conversion of numeric-looking
  text (see Values.Persist).
- Entities.FeedConfigCursorRoundTrip: ignores SQLite's NUMERIC affinity conversion of
  numeric-looking text such as a URL or prefix made of digits (see Values.Persist).
- Entities.FeedEntryCursorRoundTrip: ignores SQLite's NUMERIC affinity conversion of
  numeric-looking text (see Values.Persist).
- Entities.FeedWidgetConfigCursorRoundTrip: ignores SQLite's NUMERIC affinity conversion of
  numeric-looking text (see Values.Persist).
- Refresh.SelectForRefresh: its own contract states only the success condition and the size
  bound; which rows are selected is stated by Refresh.SelectForRefreshPicksExactlyThePickedRows,
  and the order of the selected refreshes (the row order) is not stated.
- StringUtil.ReplaceMultipleWhitespace: its own contract states only collapsing and the length
  bound; the full behaviour is stated by StringUtil.ReplaceMultipleWhitespaceIsSqueezed and
  StringUtil.ReplaceMultipleWhitespaceOfRun.
- Some lemmas require that the escaped column names are distinct, or that none of them is "_id".
  For example, Entities.FeedConfigCursorRoundTrip and Entities.NewFeedHoldsItsArguments do. The
  escaping function is a parameter, so distinctness is an assumption. For the identity escaping,
  Entities.FeedConfigPlainNamesDistinct and Entities.FeedWidgetConfigPlainNamesDistinct prove it.

## Findings

| source | as written | input that shows it | evidently intended | confidence | as-written member | corrected member |
|---|---|---|---|---|---|---|
| src/main/java/org/fourthline/android/feeds/content/FeedEntry.java:178-182 | `maxAgeDays * 86400000` is an int multiplication, which wraps for 25 days or more before it is widened to long | maxAgeDays = 25, POLLED_DATE = 0, now = 0: the product wraps to -2134967296 and the entry counts as expired | the product is computed in long, so the entry expires 25 days after it was polled | not executed | Entities.IsExpiredAsWritten (Entities.IsExpiredAsWrittenWrapsAt25Days) | Entities.IsExpired (Entities.IsExpiredWhenMaxAgeHasPassed) |

=== FILE: builder.dfy ===
/**
 * SelectQueryBuilder: the fluent builder. Its state is the four clauses plus the alias map and the
 * collision counter; each builder call is a function from the old state to the new one.
 *
 * Objects the Java builder creates itself (the JoinImpl of join, the StringProjection of
 * select(String)) are passed in with the identity they receive, together with the fact `new`
 * guarantees: they are not yet keys of the alias map.
 */
module Builder {
  import opened Wrappers
  import opened Query
  import opened Clauses
  import JavaLang

  /** The identity-keyed alias map. */
  type Aliases = map<Aliasable, string>

  /**
   * The builder's state. The WHERE clause holds the restriction last given to where, the ORDER BY
   * clause the order-by items in call order.
   */
  datatype Builder = Builder(
    select: SelectClause,
    from: FromClause,
    where: Option<Restriction>,
    orderBys: seq<OrderBy>,
    aliases: Aliases,
    counter: nat)

  /** A new builder: empty clauses, no aliases, counter 0. */
  const Empty: Builder := Builder(EmptySelectClause, EmptyFromClause, None, [], map[], 0)

  /** The outcome of addAlias: the alias returned and the updated map and counter. */
  datatype AliasResult = AliasResult(alias: string, aliases: Aliases, counter: nat)

  /**
   * addAlias: an object already in the map keeps its alias. Otherwise it gets its escaped
   * preferred alias, or, when some object already has that alias, the preferred alias followed by
   * the decimal counter, which is then incremented. The suffixed alias is not checked again.
   */
  function AddAlias(env: Env, aliases: Aliases, counter: nat, a: Aliasable): (r: AliasResult)
    requires a in aliases || HasPreferredAlias(a)
    ensures a in aliases ==> r == AliasResult(aliases[a], aliases, counter)
    ensures a !in aliases ==> r.aliases == aliases[a := r.alias]
    ensures a !in aliases ==>
      var preferred := env.escape(PreferredAlias(env, a));
      && (preferred !in aliases.Values ==> r.alias == preferred && r.counter == counter)
      && (preferred in aliases.Values ==>
            r.alias == preferred + JavaLang.IntToString(counter) && r.counter == counter + 1)
  {
    if a in aliases then AliasResult(aliases[a], aliases, counter)
    else
      var preferred := env.escape(PreferredAlias(env, a));
      if preferred !in aliases.Values then AliasResult(preferred, aliases[a := preferred], counter)
      else
        var alias := preferred + JavaLang.IntToString(counter);
        AliasResult(alias, aliases[a := alias], counter + 1)
  }

  /** Every object has at most one alias and no two objects share one. */
  predicate Injective(aliases: Aliases) {
    forall a, b :: a in aliases && b in aliases && a != b ==> aliases[a] != aliases[b]
  }

  /** What addAlias needs for distinct objects to keep distinct aliases. */
  predicate SuffixUnused(env: Env, aliases: Aliases, counter: nat, a: Aliasable)
    requires HasPreferredAlias(a)
  {
    var preferred := env.escape(PreferredAlias(env, a));
    preferred in aliases.Values ==> preferred + JavaLang.IntToString(counter) !in aliases.Values
  }

  /** Calling addAlias again for the same object changes nothing and returns the same alias. */
  lemma AddAliasIdempotent(env: Env, aliases: Aliases, counter: nat, a: Aliasable)
    requires a in aliases || HasPreferredAlias(a)
    ensures var r := AddAlias(env, aliases, counter, a);
      AddAlias(env, r.aliases, r.counter, a) == r
  {
  }

  /**
   * addAlias keeps aliases distinct exactly when the suffixed alias it may produce is unused:
   * the alias map stays injective under that condition.
   */
  lemma AddAliasKeepsInjective(env: Env, aliases: Aliases, counter: nat, a: Aliasable)
    requires HasPreferredAlias(a) && Injective(aliases)
    requires SuffixUnused(env, aliases, counter, a)
    ensures Injective(AddAlias(env, aliases, counter, a).aliases)
  {
    var r := AddAlias(env, aliases, counter, a);
    if a !in aliases {
      assert r.alias !in aliases.Values;
      forall x, y | x in r.aliases && y in r.aliases && x != y
        ensures r.aliases[x] != r.aliases[y]
      {
        if x == a {
          assert r.aliases[y] == aliases[y];
        } else if y == a {
          assert r.aliases[x] == aliases[x];
        }
      }
    }
  }

  /**
   * A state extends another when the counter has not decreased, every alias already given is
   * kept, no projection is lost and the joins only grew at the end.
   */
  predicate Extends(b: Builder, r: Builder) {
    && b.counter <= r.counter
    && (forall a :: a in b.aliases ==> a in r.aliases && r.aliases[a] == b.aliases[a])
    && b.select.projections <= r.select.projections
    && |b.from.joins| <= |r.from.joins| && r.from.joins[..|b.from.joins|] == b.from.joins
  }

  lemma ExtendsTransitive(a: Builder, b: Builder, c: Builder)
    requires Extends(a, b) && Extends(b, c)
    ensures Extends(a, c)
  {
    assert c.from.joins[..|a.from.joins|] == c.from.joins[..|b.from.joins|][..|a.from.joins|];
  }

  /** setAlias: store the escaped alias for the object, overwriting, with no collision check. */
  function SetAlias(env: Env, b: Builder, a: Aliasable, alias: string): (r: Builder)
    ensures a in r.aliases && r.aliases[a] == env.escape(alias)
    ensures r.aliases.Keys == b.aliases.Keys + {a}
    ensures forall x :: x in b.aliases && x != a ==> r.aliases[x] == b.aliases[x]
    ensures r == b.(aliases := r.aliases)
  {
    b.(aliases := b.aliases[a := env.escape(alias)])
  }

  /** The alias setAliasPrefix gives an object: prefix, the separator "_", its preferred alias. */
  function PrefixedAlias(env: Env, prefix: string, a: Aliasable): string
    requires HasPreferredAlias(a)
  {
    prefix + "_" + PreferredAlias(env, a)
  }

  /**
   * setAliasPrefix: every listed object gets the escaped prefixed alias, whatever it had before;
   * every other object keeps its alias; nothing else changes.
   */
  function SetAliasPrefix(env: Env, b: Builder, objects: seq<Aliasable>, prefix: string): (r: Builder)
    requires forall i :: 0 <= i < |objects| ==> HasPreferredAlias(objects[i])
    ensures r == b.(aliases := r.aliases)
    ensures r.aliases.Keys == b.aliases.Keys + set a | a in objects
    ensures forall a :: a in objects ==> r.aliases[a] == env.escape(PrefixedAlias(env, prefix, a))
    ensures forall a :: a in b.aliases && a !in objects ==> r.aliases[a] == b.aliases[a]
    decreases |objects|
  {
    if |objects| == 0 then b
    else
      var a := objects[0];
      SetAliasPrefix(env, SetAlias(env, b, a, PrefixedAlias(env, prefix, a)), objects[1..], prefix)
  }

  /** Registering and adding a projection (the body shared by the select overloads). */
  function SelectOne(env: Env, b: Builder, p: Projection): (r: Result<Builder>)
    ensures r.Success? <==> ProjectionKey(p) in b.aliases || HasPreferredAlias(ProjectionKey(p))
    ensures r.Success? ==>
      && Extends(b, r.value)
      && r.value.select.projections == b.select.projections + {p}
      && r.value.select.quantifier == b.select.quantifier
      && ProjectionKey(p) in r.value.aliases
      && r.value.aliases.Keys == b.aliases.Keys + {ProjectionKey(p)}
      && r.value.from == b.from && r.value.where == b.where && r.value.orderBys == b.orderBys
      && r.value.counter <= b.counter + 1
  {
    if ProjectionKey(p) !in b.aliases && !HasPreferredAlias(ProjectionKey(p)) then
      Failure("StringIndexOutOfBoundsException: blank projection has no preferred alias")
    else
      var ar := AddAlias(env, b.aliases, b.counter, ProjectionKey(p));
      Success(b.(select := AddProjection(b.select, p), aliases := ar.aliases, counter := ar.counter))
  }

  /** select(projection). */
  function Select(env: Env, b: Builder, p: Projection): (r: Result<Builder>)
    ensures r.Success? <==> ProjectionKey(p) in b.aliases || HasPreferredAlias(ProjectionKey(p))
    ensures r.Success? ==> Extends(b, r.value) && p in r.value.select.projections
  {
    SelectOne(env, b, p)
  }

  /** Every projection already has an alias or can be given one: select accepts each of them. */
  predicate Selectable(aliases: Aliases, ps: seq<Projection>) {
    forall i :: 0 <= i < |ps| ==> ProjectionKey(ps[i]) in aliases || HasPreferredAlias(ProjectionKey(ps[i]))
  }

  /** After the first projection is registered, the rest are selectable exactly when all were. */
  lemma SelectableStep(aliases: Aliases, after: Aliases, ps: seq<Projection>)
    requires |ps| > 0 && Selectable(aliases, ps[..1])
    requires after.Keys == aliases.Keys + {ProjectionKey(ps[0])}
    ensures Selectable(after, ps[1..]) <==> Selectable(aliases, ps)
  {
    assert ps[..1][0] == ps[0];
    assert forall i :: 1 <= i < |ps| ==> ps[1..][i - 1] == ps[i];
  }

  /** select(projections): each projection in array order, stopping at the first that throws. */
  function SelectAll(env: Env, b: Builder, ps: seq<Projection>): (r: Result<Builder>)
    ensures (forall i :: 0 <= i < |ps| ==> HasPreferredAlias(ProjectionKey(ps[i]))) ==> r.Success?
    ensures r.Success? <==> Selectable(b.aliases, ps)
    ensures r.Success? ==>
      && Extends(b, r.value)
      && r.value.select.projections == b.select.projections + (set p | p in ps)
      && (forall p :: p in ps ==> ProjectionKey(p) in r.value.aliases)
      && r.value.from == b.from && r.value.where == b.where && r.value.orderBys == b.orderBys
      && r.value.counter <= b.counter + |ps|
    decreases |ps|
  {
    if |ps| == 0 then Success(b)
    else
      match SelectOne(env, b, ps[0])
      case Failure(e) => Failure(e)
      case Success(b1) =>
        var r := SelectAll(env, b1, ps[1..]);
        SelectableStep(b.aliases, b1.aliases, ps);
        if r.Success? then
          ExtendsTransitive(b, b1, r.value);
          assert forall x :: x in ps <==> x == ps[0] || x in ps[1..];
          assert (set p | p in ps) == {ps[0]} + (set p | p in ps[1..]);
          r
        else r
  }

  /**
   * select(expression): wraps the text in a new StringProjection without explicit alias; it
   * throws when the text is blank, since the default alias is then undefined.
   */
  function SelectExpression(env: Env, b: Builder, oid: nat, expression: string): (r: Result<Builder>)
    requires ProjectionKey(StringProj(RawProjection(oid, expression))) !in b.aliases
    ensures r.Success? <==> HasNonBlank(expression)
    ensures r.Success? ==>
      && Extends(b, r.value)
      && StringProj(RawProjection(oid, expression)) in r.value.select.projections
      && ProjectionKey(StringProj(RawProjection(oid, expression))) in r.value.aliases
  {
    SelectOne(env, b, StringProj(RawProjection(oid, expression)))
  }

  /**
   * The alias select(expression) registers is the escaped default alias of the new projection
   * (its first non-blank character, lower-cased), with the counter appended when that is taken.
   */
  lemma SelectExpressionAlias(env: Env, b: Builder, oid: nat, expression: string)
    requires ProjectionKey(StringProj(RawProjection(oid, expression))) !in b.aliases
    requires HasNonBlank(expression)
    ensures var first := env.escape(StringProjectionAlias(RawProjection(oid, expression)));
      var alias := SelectExpression(env, b, oid, expression).value.aliases[ProjectionKey(StringProj(RawProjection(oid, expression)))];
      && (first !in b.aliases.Values ==> alias == first)
      && (first in b.aliases.Values ==> alias == first + JavaLang.IntToString(b.counter))
  {
    var sp := RawProjection(oid, expression);
    var a := ProjectionKey(StringProj(sp));
    assert PreferredAlias(env, a) == StringProjectionAlias(sp);
    var ar := AddAlias(env, b.aliases, b.counter, a);
    assert SelectExpression(env, b, oid, expression).value.aliases == ar.aliases;
  }

  /** distinct(): sets the quantifier and nothing else. */
  function Distinct(b: Builder): (r: Builder)
    ensures r.select.quantifier == Query.Distinct
    ensures r.select.projections == b.select.projections
    ensures r == b.(select := r.select)
  {
    b.(select := SetQuantifier(b.select, Query.Distinct))
  }

  /** from(source): alias the source, then make it the FROM source (replacing any earlier one). */
  function From(env: Env, b: Builder, s: Source): (r: Builder)
    ensures Extends(b, r)
    ensures r.from.source == Some(s) && r.from.joins == b.from.joins
    ensures SourceKey(s) in r.aliases
    ensures r.select == b.select && r.where == b.where && r.orderBys == b.orderBys
    ensures r.counter <= b.counter + 1
  {
    var ar := AddAlias(env, b.aliases, b.counter, SourceKey(s));
    b.(from := SetSource(b.from, s), aliases := ar.aliases, counter := ar.counter)
  }

  /**
   * join(source, type, restriction): a new join is aliased like any object; the joined source
   * then receives the join's alias (escaped once more, through setAlias) only when it had no
   * alias of its own; the join is appended to the FROM clause.
   */
  function JoinOn(env: Env, b: Builder, oid: nat, s: Source, joinType: JoinType,
                  restriction: Option<Restriction>): (r: Builder)
    requires JoinKey(Join(oid, s, joinType, restriction)) !in b.aliases
    ensures Extends(b, r)
    ensures var j := Join(oid, s, joinType, restriction);
      && r.from.joins == b.from.joins + [j]
      && r.from.source == b.from.source
      && JoinKey(j) in r.aliases
      && (SourceKey(s) in b.aliases ==> r.aliases[SourceKey(s)] == b.aliases[SourceKey(s)])
      && SourceKey(s) in r.aliases
      && (SourceKey(s) !in b.aliases ==> r.aliases[SourceKey(s)] == env.escape(r.aliases[JoinKey(j)]))
      && r.aliases.Keys == b.aliases.Keys + {JoinKey(j), SourceKey(s)}
    ensures r.select == b.select && r.where == b.where && r.orderBys == b.orderBys
    ensures r.counter <= b.counter + 1
  {
    var j := Join(oid, s, joinType, restriction);
    var ar := AddAlias(env, b.aliases, b.counter, JoinKey(j));
    var aliases := if SourceKey(s) !in ar.aliases then ar.aliases[SourceKey(s) := env.escape(ar.alias)]
                   else ar.aliases;
    b.(from := AddJoin(b.from, j), aliases := aliases, counter := ar.counter)
  }

  /** join(source, type): no restriction. */
  function JoinTyped(env: Env, b: Builder, oid: nat, s: Source, joinType: JoinType): (r: Builder)
    requires JoinKey(Join(oid, s, joinType, None)) !in b.aliases
    ensures |r.from.joins| > 0
    ensures var j := r.from.joins[|r.from.joins| - 1];
      j.joinType == joinType && j.restriction.None? && j.source == s
  {
    JoinOn(env, b, oid, s, joinType, None)
  }

  /** join(source): a CROSS join with no restriction. */
  function JoinCross(env: Env, b: Builder, oid: nat, s: Source): (r: Builder)
    requires JoinKey(Join(oid, s, Cross, None)) !in b.aliases
    ensures |r.from.joins| > 0
    ensures var j := r.from.joins[|r.from.joins| - 1];
      j.joinType == Cross && j.restriction.None? && j.source == s
  {
    JoinTyped(env, b, oid, s, Cross)
  }

  /** where(restriction): the WHERE clause holds the given restriction; no alias is registered. */
  function Where(b: Builder, restriction: Restriction): (r: Builder)
    ensures r.where == Some(restriction)
    ensures r == b.(where := r.where)
  {
    b.(where := Some(restriction))
  }

  /** orderBy(column, order): appends an item; no alias is registered, the counter is untouched. */
  function OrderByDir(b: Builder, c: Column, order: Order): (r: Builder)
    ensures r.orderBys == b.orderBys + [OrderBy(c, order)]
    ensures r == b.(orderBys := r.orderBys)
  {
    b.(orderBys := b.orderBys + [OrderBy(c, order)])
  }

  /** orderBy(column): ascending. */
  function OrderByAsc(b: Builder, c: Column): (r: Builder)
    ensures r.orderBys == b.orderBys + [OrderBy(c, Asc)]
    ensures r.aliases == b.aliases && r.counter == b.counter
  {
    OrderByDir(b, c, Asc)
  }

  /** setAlias overwrites: only the last alias set for an object survives. */
  lemma SetAliasOverwrites(env: Env, b: Builder, a: Aliasable, x: string, y: string)
    ensures SetAlias(env, SetAlias(env, b, a, x), a, y) == SetAlias(env, b, a, y)
  {
  }

  /**
   * Three columns selected in turn, named "f", "f0" and "f": the third collides with the first,
   * receives "f" + "0", and so shares its alias with the second.
   */
  /** An environment that escapes nothing and aliases a table by its name. */
  function PlainEnv(): Env {
    Env(s => s, (t: Table) => t.name)
  }

  /** A string column of table "t". */
  function ColumnOfT(oid: nat, name: string): Projection {
    ColumnProj(Column(oid, TableSource(Table(0, "t")), name, StringType, false, false, false, None))
  }

  /** Selecting columns "f", "f0" and then another "f". */
  function CollidingSelects(): Result<Builder> {
    SelectAll(PlainEnv(), Empty, [ColumnOfT(1, "f"), ColumnOfT(2, "f0"), ColumnOfT(3, "f")])
  }

  /** Selecting one more column: its alias is what addAlias returns for it. */
  lemma SelectOneAlias(env: Env, b: Builder, p: Projection)
    requires ProjectionKey(p) !in b.aliases && p.ColumnProj?
    ensures SelectOne(env, b, p).Success?
    ensures var ar := AddAlias(env, b.aliases, b.counter, ProjectionKey(p));
      SelectOne(env, b, p).value.aliases == ar.aliases && SelectOne(env, b, p).value.counter == ar.counter
  {
  }

  /** Selecting a single projection is selectOne. */
  lemma SelectAllOfOne(env: Env, b: Builder, p: Projection)
    ensures SelectAll(env, b, [p]) == SelectOne(env, b, p)
  {
    assert [p][1..] == [];
  }

  /** The first select of CollidingSelects registers "f". */
  lemma CollidingFirst() returns (b1: Builder)
    ensures SelectOne(PlainEnv(), Empty, ColumnOfT(1, "f")) == Success(b1)
    ensures b1.aliases == map[ProjectionKey(ColumnOfT(1, "f")) := "f"] && b1.counter == 0
  {
    SelectOneAlias(PlainEnv(), Empty, ColumnOfT(1, "f"));
    b1 := SelectOne(PlainEnv(), Empty, ColumnOfT(1, "f")).value;
  }

  /** The second select registers "f0", which is still free. */
  lemma CollidingSecond(b1: Builder) returns (b2: Builder)
    requires b1.aliases == map[ProjectionKey(ColumnOfT(1, "f")) := "f"] && b1.counter == 0
    ensures SelectOne(PlainEnv(), b1, ColumnOfT(2, "f0")) == Success(b2)
    ensures b2.aliases == map[ProjectionKey(ColumnOfT(1, "f")) := "f", ProjectionKey(ColumnOfT(2, "f0")) := "f0"]
    ensures b2.counter == 0
  {
    var c2 := ColumnOfT(2, "f0");
    SelectOneAlias(PlainEnv(), b1, c2);
    b2 := SelectOne(PlainEnv(), b1, c2).value;
    assert "f0" !in b1.aliases.Values;
  }

  /** The third select finds "f" taken and numbers it, giving "f0" a second time. */
  lemma CollidingThird(b2: Builder) returns (b3: Builder)
    requires b2.aliases == map[ProjectionKey(ColumnOfT(1, "f")) := "f", ProjectionKey(ColumnOfT(2, "f0")) := "f0"]
    requires b2.counter == 0
    ensures SelectOne(PlainEnv(), b2, ColumnOfT(3, "f")) == Success(b3)
    ensures ProjectionKey(ColumnOfT(2, "f0")) in b3.aliases && ProjectionKey(ColumnOfT(3, "f")) in b3.aliases
    ensures b3.aliases[ProjectionKey(ColumnOfT(2, "f0"))] == "f0"
    ensures b3.aliases[ProjectionKey(ColumnOfT(3, "f"))] == "f0"
  {
    var c3 := ColumnOfT(3, "f");
    assert b2.aliases[ProjectionKey(ColumnOfT(1, "f"))] == "f";
    assert JavaLang.IntToString(0) == "0";
    SelectOneAlias(PlainEnv(), b2, c3);
    b3 := SelectOne(PlainEnv(), b2, c3).value;
  }

  /**
   * Distinct projections of one builder can end up with the same alias: the suffixed alias is
   * not checked against the aliases already given.
   */
  lemma DistinctProjectionsCanShareAnAlias()
    ensures CollidingSelects().Success?
    ensures !Injective(CollidingSelects().value.aliases)
  {
    var env := PlainEnv();
    var c1, c2, c3 := ColumnOfT(1, "f"), ColumnOfT(2, "f0"), ColumnOfT(3, "f");
    var b1 := CollidingFirst();
    var b2 := CollidingSecond(b1);
    var b3 := CollidingThird(b2);
    SelectAllOfOne(env, b2, c3);
    assert [c1, c2, c3][1..] == [c2, c3];
    assert [c2, c3][1..] == [c3];
    assert CollidingSelects() == Success(b3);
    assert ProjectionKey(c2) != ProjectionKey(c3);
  }
}

=== FILE: clauses.dfy ===
/**
 * The clause records a select query is assembled from: the SELECT clause (quantifier and
 * projection set) and the FROM clause (primary source and ordered joins).
 */
module Clauses {
  import opened Wrappers
  import opened Query

  /**
   * SelectClauseImpl. The projections live in a hash set: adding one twice keeps one copy and the
   * iteration order is not part of the value.
   */
  datatype SelectClause = SelectClause(quantifier: Quantifier, projections: set<Projection>)

  /** A new SelectClauseImpl: quantifier NONE, no projections. */
  const EmptySelectClause: SelectClause := SelectClause(NoQuantifier, {})

  /** addProjection: set insertion; the quantifier is untouched. */
  function AddProjection(c: SelectClause, p: Projection): (r: SelectClause)
    ensures r.quantifier == c.quantifier
    ensures r.projections == c.projections + {p}
    ensures p in c.projections ==> r == c
  {
    c.(projections := c.projections + {p})
  }

  /** setQuantifier overwrites the quantifier and keeps the projections. */
  function SetQuantifier(c: SelectClause, q: Quantifier): (r: SelectClause)
    ensures r.quantifier == q && r.projections == c.projections
  {
    c.(quantifier := q)
  }

  /** FromClauseImpl: the source (null until set) and the joins in call order. */
  datatype FromClause = FromClause(source: Option<Source>, joins: seq<Join>)

  /** A new FromClauseImpl: no source, no joins. */
  const EmptyFromClause: FromClause := FromClause(None, [])

  /** setSource replaces any earlier source and leaves the joins alone. */
  function SetSource(c: FromClause, s: Source): (r: FromClause)
    ensures r.source == Some(s) && r.joins == c.joins
  {
    c.(source := Some(s))
  }

  /** addJoin appends at the end: the earlier joins keep their positions. */
  function AddJoin(c: FromClause, j: Join): (r: FromClause)
    ensures r.source == c.source
    ensures |r.joins| == |c.joins| + 1 && r.joins[..|c.joins|] == c.joins && r.joins[|c.joins|] == j
  {
    c.(joins := c.joins + [j])
  }

  /** Adding projections in either order gives the same clause: the order of calls is not kept. */
  lemma AddProjectionCommutes(c: SelectClause, p: Projection, q: Projection)
    ensures AddProjection(AddProjection(c, p), q) == AddProjection(AddProjection(c, q), p)
  {
  }

  /** Setting the source twice keeps only the second. */
  lemma SetSourceReplaces(c: FromClause, s: Source, t: Source)
    ensures SetSource(SetSource(c, s), t) == SetSource(c, t)
  {
  }
}

=== FILE: ddl.dfy ===
/**
 * DDL.createTable: the CREATE TABLE statement for a table and its columns. The text of a foreign
 * key's referenced source (the source's toString) is a parameter, since that class is not part
 * of this model.
 */
module Ddl {
  import opened Wrappers
  import opened Query
  import Text

  /** BaseColumns._ID: the column name that gets the autoincrement primary key. */
  const IdColumnName: string := "_id"

  /** The column constraint: _ID first, then primary key, then not null; at most one of them. */
  function ConstraintText(c: Column): (r: string)
    ensures c.name == IdColumnName ==> r == "primary key autoincrement"
    ensures c.name != IdColumnName && c.primaryKey ==> r == "primary key"
    ensures c.name != IdColumnName && !c.primaryKey && !c.nullable ==> r == "not null"
    ensures c.name != IdColumnName && !c.primaryKey && c.nullable ==> r == ""
  {
    if c.name == IdColumnName then "primary key autoincrement"
    else if c.primaryKey then "primary key"
    else if !c.nullable then "not null"
    else ""
  }

  /** The " on delete X" and " on update Y" clauses, each only when that action is set. */
  function ActionsText(fk: ForeignKey): (r: string)
    ensures r == "" <==> fk.onDelete.None? && fk.onUpdate.None?
    ensures fk.onDelete.Some? ==>
      (|" on delete " + ActionSql(fk.onDelete.value)| <= |r|
       && r[..|" on delete " + ActionSql(fk.onDelete.value)|] == " on delete " + ActionSql(fk.onDelete.value))
    ensures fk.onUpdate.Some? ==> Text.EndsWith(r, " on update " + ActionSql(fk.onUpdate.value))
  {
    (match fk.onDelete case Some(a) => " on delete " + ActionSql(a) case None => "")
    + (match fk.onUpdate case Some(a) => " on update " + ActionSql(a) case None => "")
  }

  /** The " references source(name)" clause with its actions, when the column has a foreign key. */
  function ReferencesText(sourceText: Source -> string, c: Column): (r: string)
    ensures c.foreignKey.None? <==> r == ""
  {
    match c.foreignKey
    case None => ""
    case Some(fk) =>
      " references " + sourceText(fk.references.source) + "(" + fk.references.name + ")" + ActionsText(fk)
  }

  /**
   * One column definition: name, SPACE, SQLite type, SPACE (always, even when no constraint
   * follows), the constraint, " unique" and the references clause.
   */
  function ColumnDefinition(sourceText: Source -> string, c: Column): (r: string)
    ensures |c.name + " " + SqlType(c.dataType) + " "| <= |r|
    ensures r[..|c.name + " " + SqlType(c.dataType) + " "|] == c.name + " " + SqlType(c.dataType) + " "
    ensures Text.EndsWith(r, ReferencesText(sourceText, c))
  {
    c.name + " " + SqlType(c.dataType) + " " + ConstraintText(c)
      + (if c.unique then " unique" else "") + ReferencesText(sourceText, c)
  }

  function ColumnDefinitions(sourceText: Source -> string, cs: seq<Column>): (r: seq<string>)
    ensures |r| == |cs|
    ensures forall i :: 0 <= i < |cs| ==> r[i] == ColumnDefinition(sourceText, cs[i])
  {
    seq(|cs|, i requires 0 <= i < |cs| => ColumnDefinition(sourceText, cs[i]))
  }

  /** The statement: "create table NAME(", the column definitions separated by commas, ")". */
  function CreateTableText(sourceText: Source -> string, t: Table, cs: seq<Column>): (r: string)
    ensures |"create table " + t.name + "("| < |r| && r[..|"create table " + t.name + "("|] == "create table " + t.name + "("
    ensures r[|r| - 1] == ')'
    ensures |cs| == 0 ==> r == "create table " + t.name + "()"
    ensures |cs| == 1 ==> r == "create table " + t.name + "(" + ColumnDefinition(sourceText, cs[0]) + ")"
  {
    "create table " + t.name + "(" + Text.JoinWith(ColumnDefinitions(sourceText, cs), ",") + ")"
  }

  /** Deleting the last comma and closing the parenthesis gives the statement. */
  lemma WrittenClosed(sourceText: Source -> string, t: Table, cs: seq<Column>)
    ensures var sb := Text.Buffered("create table " + t.name + "(", ColumnDefinitions(sourceText, cs), |cs|, ",");
      (if |cs| > 0 then sb[..|sb| - 1] else sb) + ")" == CreateTableText(sourceText, t, cs)
  {
    var head, parts := "create table " + t.name + "(", ColumnDefinitions(sourceText, cs);
    assert CreateTableText(sourceText, t, cs) == head + Text.JoinWith(parts, ",") + ")";
    if |cs| > 0 {
      Text.BufferedAllDropLast(head, parts, ",");
    } else {
      assert parts[..0] == [];
    }
  }

  /**
   * createTable's loop: every definition followed by a comma, then (when there is at least one
   * column) the last character deleted, then the closing parenthesis.
   */
  method CreateTable(sourceText: Source -> string, t: Table, cs: seq<Column>) returns (sql: string)
    ensures sql == CreateTableText(sourceText, t, cs)
  {
    var head := "create table " + t.name + "(";
    var sb := head;
    var i := 0;
    while i < |cs|
      invariant 0 <= i <= |cs|
      invariant sb == Text.Buffered(head, ColumnDefinitions(sourceText, cs), i, ",")
    {
      Text.BufferedStep(head, ColumnDefinitions(sourceText, cs), i, ",");
      var definition := ColumnDefinition(sourceText, cs[i]);
      assert definition == ColumnDefinitions(sourceText, cs)[i];
      sb := sb + definition + ",";
      i := i + 1;
    }
    WrittenClosed(sourceText, t, cs);
    if |cs| > 0 {
      sb := sb[..|sb| - 1];
    }
    sql := sb + ")";
  }

  /** A table without columns gives "create table NAME()". */
  lemma NoColumns(sourceText: Source -> string, t: Table)
    ensures CreateTableText(sourceText, t, []) == "create table " + t.name + "()"
  {
  }

  /** Every statement opens with "create table NAME(" and closes with ")". */
  lemma StatementFrame(sourceText: Source -> string, t: Table, cs: seq<Column>)
    ensures var sql := CreateTableText(sourceText, t, cs);
      && |sql| >= |"create table " + t.name + "("| + 1
      && sql[..|"create table " + t.name + "("|] == "create table " + t.name + "("
      && sql[|sql| - 1] == ')'
  {
    var head := "create table " + t.name + "(";
    var body := Text.JoinWith(ColumnDefinitions(sourceText, cs), ",");
    assert CreateTableText(sourceText, t, cs) == head + body + ")";
    assert (head + body + ")")[..|head|] == head;
  }

  /**
   * A column definition always carries its type after the name; a column named _ID is an
   * autoincrement key whatever its primary-key and nullable flags say.
   */
  lemma IdColumnIsAutoincrement(sourceText: Source -> string, c: Column)
    requires c.name == IdColumnName && !c.unique && c.foreignKey.None?
    ensures ColumnDefinition(sourceText, c) == "_id " + SqlType(c.dataType) + " primary key autoincrement"
  {
    assert "_id " == IdColumnName + " ";
    assert " primary key autoincrement" == " " + "primary key autoincrement";
  }

  /** A nullable, non-key, non-unique column without foreign key keeps a trailing space. */
  lemma PlainColumnKeepsTrailingSpace(sourceText: Source -> string, c: Column)
    requires c.name != IdColumnName && !c.primaryKey && c.nullable && !c.unique && c.foreignKey.None?
    ensures ColumnDefinition(sourceText, c) == c.name + " " + SqlType(c.dataType) + " "
  {
  }

  /** A foreign key with both actions prints delete before update. */
  lemma ReferencesWithBothActions(sourceText: Source -> string, c: Column, d: Action, u: Action)
    requires c.foreignKey.Some? && c.foreignKey.value.onDelete == Some(d) && c.foreignKey.value.onUpdate == Some(u)
    ensures ReferencesText(sourceText, c) ==
      " references " + sourceText(c.foreignKey.value.references.source) + "(" + c.foreignKey.value.references.name + ")"
      + " on delete " + ActionSql(d) + " on update " + ActionSql(u)
  {
  }
}

=== FILE: dispatch.dfy ===
/**
 * Serializer dispatch (UpdatableContext) and the SQL-92 registry (Sql92). A lookup tries the exact
 * runtime class, then the class's directly declared interfaces in declaration order; an interface
 * hit is cached under the class in the shared registry. Superclass interfaces and
 * super-interfaces are never consulted.
 */
module Dispatch {
  import opened Wrappers
  import opened Query

  /** The node interfaces the registry knows, and any other interface by name. */
  datatype Iface =
    | ColumnI | TableI | ProjectionI | JoinI | RestrictionI | BinaryRestrictionI
    | MultiRestrictionI | SelectQueryI | ExpressionI | OrderByI
    | OtherI(name: string)

  /** A runtime class: its name and its directly declared interfaces, in declaration order. */
  datatype RuntimeClass = RuntimeClass(name: string, interfaces: seq<Iface>)

  /** Registry keys: interfaces (as registered) and concrete classes (as cached). */
  datatype Key = InterfaceKey(iface: Iface) | ClassKey(cls: RuntimeClass)

  /** The ten serializers of the SQL-92 dialect. */
  datatype SerializerKind =
    | ColumnSerializer | TableSerializer | ProjectionSerializer | JoinSerializer
    | RestrictionSerializer | BinaryRestrictionSerializer | MultiRestrictionSerializer
    | InnerSelectQuerySerializer | ExpressionSerializer | OrderBySerializer

  type Registry = map<Key, SerializerKind>

  /** The map Sql92's constructor fills: one serializer per node interface. */
  const Sql92Registry: Registry := map[
    InterfaceKey(ColumnI) := ColumnSerializer,
    InterfaceKey(TableI) := TableSerializer,
    InterfaceKey(ProjectionI) := ProjectionSerializer,
    InterfaceKey(JoinI) := JoinSerializer,
    InterfaceKey(RestrictionI) := RestrictionSerializer,
    InterfaceKey(BinaryRestrictionI) := BinaryRestrictionSerializer,
    InterfaceKey(MultiRestrictionI) := MultiRestrictionSerializer,
    InterfaceKey(SelectQueryI) := InnerSelectQuerySerializer,
    InterfaceKey(ExpressionI) := ExpressionSerializer,
    InterfaceKey(OrderByI) := OrderBySerializer]

  /** The registry holds exactly ten entries. */
  lemma Sql92RegistryHasTenKeys()
    ensures |Sql92Registry.Keys| == 10
  {
    var ks5 := {InterfaceKey(ColumnI), InterfaceKey(TableI), InterfaceKey(ProjectionI), InterfaceKey(JoinI),
                InterfaceKey(RestrictionI)};
    var more := {InterfaceKey(BinaryRestrictionI), InterfaceKey(MultiRestrictionI),
                 InterfaceKey(SelectQueryI), InterfaceKey(ExpressionI), InterfaceKey(OrderByI)};
    assert |ks5| == 5 && |more| == 5 && ks5 !! more;
    assert Sql92Registry.Keys == ks5 + more;
  }

  /** All of them are keyed by a node interface, and every node interface has one. */
  lemma Sql92RegistryHasInterfaceKeys()
    ensures forall k :: k in Sql92Registry ==> k.InterfaceKey? && !k.iface.OtherI?
    ensures forall i: Iface :: !i.OtherI? ==> InterfaceKey(i) in Sql92Registry
  {
  }

  /** The first directly declared interface with a registered serializer, by position. */
  function FirstRegistered(reg: Registry, ifaces: seq<Iface>): (r: Option<nat>)
    ensures r.Some? ==> r.value < |ifaces| && InterfaceKey(ifaces[r.value]) in reg
    ensures r.Some? ==> forall i :: 0 <= i < r.value ==> InterfaceKey(ifaces[i]) !in reg
    ensures r.None? ==> forall i :: 0 <= i < |ifaces| ==> InterfaceKey(ifaces[i]) !in reg
  {
    if |ifaces| == 0 then None
    else if InterfaceKey(ifaces[0]) in reg then Some(0)
    else match FirstRegistered(reg, ifaces[1..])
      case None => None
      case Some(k) => Some(k + 1)
  }

  /** The outcome of a lookup: the serializer (or the exception) and the registry afterwards. */
  datatype Lookup = Lookup(serializer: Result<SerializerKind>, registry: Registry)

  /**
   * UpdatableContext.serialize's choice of serializer: exact class first, then the first
   * registered direct interface (cached under the class), else UnsupportedOperationException.
   */
  function Resolve(reg: Registry, cls: RuntimeClass): (r: Lookup)
    ensures ClassKey(cls) in reg ==> r == Lookup(Success(reg[ClassKey(cls)]), reg)
    ensures ClassKey(cls) !in reg && r.serializer.Success? ==>
      exists i :: 0 <= i < |cls.interfaces| && InterfaceKey(cls.interfaces[i]) in reg
        && r.serializer.value == reg[InterfaceKey(cls.interfaces[i])]
        && r.registry == reg[ClassKey(cls) := r.serializer.value]
    ensures r.serializer.Failure? <==>
      ClassKey(cls) !in reg && forall i :: 0 <= i < |cls.interfaces| ==> InterfaceKey(cls.interfaces[i]) !in reg
    ensures r.serializer.Failure? ==> r.registry == reg
  {
    if ClassKey(cls) in reg then Lookup(Success(reg[ClassKey(cls)]), reg)
    else match FirstRegistered(reg, cls.interfaces)
      case Some(i) =>
        var s := reg[InterfaceKey(cls.interfaces[i])];
        Lookup(Success(s), reg[ClassKey(cls) := s])
      case None => Lookup(Failure("UnsupportedOperationException: No serializer for " + cls.name), reg)
  }

  /** The serializer a registry without cache entries would pick for a class. */
  function Uncached(base: Registry, cls: RuntimeClass): Result<SerializerKind> {
    match FirstRegistered(base, cls.interfaces)
    case Some(i) => Success(base[InterfaceKey(cls.interfaces[i])])
    case None => Failure("UnsupportedOperationException: No serializer for " + cls.name)
  }

  /** A registry with only interface keys, as Sql92 builds it. */
  predicate InterfaceKeysOnly(base: Registry) {
    forall k :: k in base ==> k.InterfaceKey?
  }

  /**
   * A registry grown from `base` by caching: the interface entries are those of base and every
   * class entry records what the uncached lookup picks for that class.
   */
  predicate CacheSound(base: Registry, reg: Registry) {
    && InterfaceKeysOnly(base)
    && (forall k :: k in reg && k.InterfaceKey? ==> k in base)
    && (forall k :: k in base ==> k in reg && reg[k] == base[k])
    && (forall k :: k in reg && k.ClassKey? ==> Uncached(base, k.cls) == Success(reg[k]))
  }

  lemma FirstRegisteredAgrees(base: Registry, reg: Registry, ifaces: seq<Iface>)
    requires forall i: Iface :: InterfaceKey(i) in reg <==> InterfaceKey(i) in base
    ensures FirstRegistered(reg, ifaces) == FirstRegistered(base, ifaces)
  {
    if |ifaces| > 0 {
      FirstRegisteredAgrees(base, reg, ifaces[1..]);
    }
  }

  /**
   * The cache is transparent: a lookup through any cache-sound registry picks what the uncached
   * lookup picks, and leaves the registry cache-sound.
   */
  lemma {:induction false} ResolveIsCacheTransparent(base: Registry, reg: Registry, cls: RuntimeClass)
    requires CacheSound(base, reg)
    ensures Resolve(reg, cls).serializer == Uncached(base, cls)
    ensures CacheSound(base, Resolve(reg, cls).registry)
  {
    FirstRegisteredAgrees(base, reg, cls.interfaces);
    var r := Resolve(reg, cls);
    if ClassKey(cls) !in reg {
      match FirstRegistered(reg, cls.interfaces)
      case Some(i) =>
        assert InterfaceKey(cls.interfaces[i]) in base;
        assert r.registry == reg[ClassKey(cls) := reg[InterfaceKey(cls.interfaces[i])]];
      case None =>
    }
  }

  /** The registry starts cache-sound: Sql92's map has no class entries. */
  lemma Sql92RegistryIsCacheSound()
    ensures CacheSound(Sql92Registry, Sql92Registry)
  {
  }

  /** The runtime class of each model node, with the interfaces it declares directly. */
  function ClassOfExpr(e: Expr): RuntimeClass {
    match e
    case ProjectionExpr(ColumnProj(_)) => RuntimeClass("ColumnImpl", [ColumnI])
    case ProjectionExpr(StringProj(_)) => RuntimeClass("StringProjection", [ProjectionI])
    case StringExpression(_) => RuntimeClass("StringExpression", [ExpressionI])
    case SubQueryExpr(_) => RuntimeClass("SelectQueryBuilder", [SelectQueryI])
    case UnaryRestriction(_, _) => RuntimeClass("RestrictionImpl", [RestrictionI])
    case BinaryRestriction(_, _, _) => RuntimeClass("BinaryRestrictionImpl", [BinaryRestrictionI])
    case MultiRestriction(_, _, _) => RuntimeClass("MultiRestrictionImpl", [MultiRestrictionI])
  }

  function ClassOfSource(s: Source): RuntimeClass {
    match s
    case TableSource(_) => RuntimeClass("TableImpl", [TableI])
    case SubQuerySource(_) => RuntimeClass("SelectQueryBuilder", [SelectQueryI])
  }

  const JoinClass: RuntimeClass := RuntimeClass("JoinImpl", [JoinI])
  const OrderByClass: RuntimeClass := RuntimeClass("OrderByImpl", [OrderByI])

  /** The serializer each expression node is meant to reach. */
  function ExpectedSerializer(e: Expr): SerializerKind {
    match e
    case ProjectionExpr(ColumnProj(_)) => ColumnSerializer
    case ProjectionExpr(StringProj(_)) => ProjectionSerializer
    case StringExpression(_) => ExpressionSerializer
    case SubQueryExpr(_) => InnerSelectQuerySerializer
    case UnaryRestriction(_, _) => RestrictionSerializer
    case BinaryRestriction(_, _, _) => BinaryRestrictionSerializer
    case MultiRestriction(_, _, _) => MultiRestrictionSerializer
  }

  /** The serializer Sql92 registers for each node interface. */
  function RegisteredFor(i: Iface): Option<SerializerKind> {
    match i
    case ColumnI => Some(ColumnSerializer)
    case TableI => Some(TableSerializer)
    case ProjectionI => Some(ProjectionSerializer)
    case JoinI => Some(JoinSerializer)
    case RestrictionI => Some(RestrictionSerializer)
    case BinaryRestrictionI => Some(BinaryRestrictionSerializer)
    case MultiRestrictionI => Some(MultiRestrictionSerializer)
    case SelectQueryI => Some(InnerSelectQuerySerializer)
    case ExpressionI => Some(ExpressionSerializer)
    case OrderByI => Some(OrderBySerializer)
    case OtherI(_) => None
  }

  lemma Sql92RegistryIsRegisteredFor(i: Iface)
    ensures InterfaceKey(i) in Sql92Registry <==> RegisteredFor(i).Some?
    ensures InterfaceKey(i) in Sql92Registry ==> Sql92Registry[InterfaceKey(i)] == RegisteredFor(i).value
  {
  }

  /** A class declaring one registered interface reaches that interface's serializer. */
  lemma ResolveSingleInterface(reg: Registry, cls: RuntimeClass)
    requires CacheSound(Sql92Registry, reg)
    requires |cls.interfaces| == 1 && RegisteredFor(cls.interfaces[0]).Some?
    ensures Resolve(reg, cls).serializer == Success(RegisteredFor(cls.interfaces[0]).value)
  {
    Sql92RegistryIsRegisteredFor(cls.interfaces[0]);
    ResolveIsCacheTransparent(Sql92Registry, reg, cls);
    assert FirstRegistered(Sql92Registry, cls.interfaces) == Some(0);
  }

  /**
   * Through any cache-sound registry grown from Sql92's, every expression node reaches its own
   * serializer; in particular a binary restriction reaches the binary serializer, not the one
   * registered for Restriction, because only directly declared interfaces count.
   */
  lemma ExprReachesItsSerializer(reg: Registry, e: Expr)
    requires CacheSound(Sql92Registry, reg)
    ensures Resolve(reg, ClassOfExpr(e)).serializer == Success(ExpectedSerializer(e))
  {
    var cls := ClassOfExpr(e);
    ExprClassDeclaresOneInterface(e);
    ResolveSingleInterface(reg, cls);
  }

  /** Each expression class declares exactly the interface its expected serializer is registered for. */
  lemma ExprClassDeclaresOneInterface(e: Expr)
    ensures |ClassOfExpr(e).interfaces| == 1
    ensures RegisteredFor(ClassOfExpr(e).interfaces[0]) == Some(ExpectedSerializer(e))
  {
  }

  /** Each source class declares exactly the interface of its serializer. */
  lemma SourceClassDeclaresOneInterface(s: Source)
    ensures |ClassOfSource(s).interfaces| == 1
    ensures RegisteredFor(ClassOfSource(s).interfaces[0])
         == Some(if s.TableSource? then TableSerializer else InnerSelectQuerySerializer)
  {
  }

  /**
   * A subclass that declares no interface of its own (say, a subclass of BinaryRestrictionImpl)
   * finds no serializer: the interfaces of its superclass are not scanned.
   */
  lemma UndeclaredInterfacesAreNotScanned(name: string)
    ensures Resolve(Sql92Registry, RuntimeClass(name, [])).serializer.Failure?
    ensures Resolve(Sql92Registry, RuntimeClass(name, [OtherI("SubRestriction")])).serializer.Failure?
  {
  }

  /** UpdatableContext: the shared registry and the alias map of the statement being serialized. */
  datatype Context = Context(registry: Registry, aliases: map<Aliasable, string>)

  /** Sql92's default context: the registry and an empty alias map. */
  const DefaultContext: Context := Context(Sql92Registry, map[])

  /** clone(aliases): the same registry, cache included; only the alias map is replaced. */
  function Clone(ctx: Context, aliases: map<Aliasable, string>): (r: Context)
    ensures r.registry == ctx.registry && r.aliases == aliases
  {
    Context(ctx.registry, aliases)
  }

  /** getAlias: a plain lookup; None (Java's null) for an object never registered. */
  function GetAlias(ctx: Context, a: Aliasable): (r: Option<string>)
    ensures r.Some? <==> a in ctx.aliases
    ensures r.Some? ==> r.value == ctx.aliases[a]
  {
    if a in ctx.aliases then Some(ctx.aliases[a]) else None
  }
}

=== FILE: entities.dfy ===
/**
 * The entity classes' constructors and queries: FeedConfig, Feed, FeedEntry, FeedWidgetConfig
 * and FeedWidgetFeed. A constructor builds the entity's value map with DataType.write or
 * DataType.writeAll; a cursor constructor reads every column back with DataType.read (the id
 * bare, the others under the entity's alias prefix) and hands the values to the full
 * constructor, whose primitive parameters refuse a null.
 */
module Entities {
  import opened Wrappers
  import opened Query
  import opened Values
  import JavaLang
  import E = Entity
  import S = Schema
  import Rows

  /** A nullable enum argument: null or one of the type's constants. */
  predicate NullOrIn(name: Option<string>, constants: seq<string>) {
    name.None? || name.value in constants
  }

  /** The key a conditional write adds: the name when the value was written, nothing otherwise. */
  function KeyIf(written: bool, name: string): set<string> {
    if written then {name} else {}
  }

  /** The prefixes a cursor constructor reads its n columns with: the id bare, the rest under the alias prefix. */
  function CursorPrefixes(n: nat, aliasPrefix: string): (ps: seq<Option<string>>)
    requires n > 0
    ensures |ps| == n && ps[0] == Some("")
    ensures forall i :: 1 <= i < n ==> ps[i] == Some(aliasPrefix)
  {
    [Some("")] + seq(n - 1, _ => Some(aliasPrefix))
  }

  // ---------------------------------------------------------------------------------------------
  // FeedConfig

  /** FeedConfig's full parameter list, boxed: id, URL, enums and ETag may be null. */
  function FeedConfigArguments(id: Option<int>, url: Option<string>, refreshInterval: int,
                               previewLength: Option<string>, entryPrefix: Option<string>, textColor: int,
                               lastRefresh: int, lastRefreshEtag: Option<string>, maxAgeDays: int,
                               notifyNew: bool): (vs: seq<JavaValue>)
    ensures |vs| == 10
  {
    [E.BoxedLong(id), E.BoxedString(url), JInt(refreshInterval), E.BoxedEnum(previewLength),
     E.BoxedEnum(entryPrefix), JInt(textColor), JLong(lastRefresh), E.BoxedString(lastRefreshEtag),
     JInt(maxAgeDays), JBool(notifyNew)]
  }

  /** Which of the full constructor's parameters are primitives (int, long, boolean). */
  const FeedConfigPrimitives: seq<bool> := [false, false, true, false, false, true, true, false, true, true]

  /** The full FeedConfig constructor on its argument list: writeAll over COLUMNS into a new map. */
  function FeedConfigOf(env: Env, vs: seq<JavaValue>): Result<E.EntityValues>
    requires |vs| == 10
  {
    WriteAll(E.FromValues(map[]), S.FeedConfigColumns(env), vs)
  }

  /**
   * FeedConfig(id, url, refreshInterval, previewLength, entryPrefix, textColor, lastRefresh,
   * lastRefreshEtag, maxAgeDays, notifyNew): writeAll skips the null arguments, so the five
   * primitive columns are always written and every other column only when its argument is set.
   */
  function NewFeedConfig(env: Env, id: Option<int>, url: Option<string>, refreshInterval: int,
                         previewLength: Option<string>, entryPrefix: Option<string>, textColor: int,
                         lastRefresh: int, lastRefreshEtag: Option<string>, maxAgeDays: int,
                         notifyNew: bool): (r: Result<E.EntityValues>)
    ensures r.Success? <==> NullOrIn(previewLength, S.PreviewLengths) && NullOrIn(entryPrefix, S.EntryPrefixes)
  {
    var vs := FeedConfigArguments(id, url, refreshInterval, previewLength, entryPrefix, textColor,
                                  lastRefresh, lastRefreshEtag, maxAgeDays, notifyNew);
    FeedConfigArgumentsAccepted(env, vs);
    FeedConfigOf(env, vs)
  }

  /**
   * The full constructor writes exactly the five primitive columns and those of the non-null
   * id, URL, enum and ETag arguments.
   */
  lemma NewFeedConfigWritesTheNonNullArguments(env: Env, id: Option<int>, url: Option<string>, refreshInterval: int,
                                               previewLength: Option<string>, entryPrefix: Option<string>,
                                               textColor: int, lastRefresh: int, lastRefreshEtag: Option<string>,
                                               maxAgeDays: int, notifyNew: bool)
    requires NullOrIn(previewLength, S.PreviewLengths) && NullOrIn(entryPrefix, S.EntryPrefixes)
    ensures NewFeedConfig(env, id, url, refreshInterval, previewLength, entryPrefix, textColor, lastRefresh,
                          lastRefreshEtag, maxAgeDays, notifyNew).Success?
    ensures NewFeedConfig(env, id, url, refreshInterval, previewLength, entryPrefix, textColor, lastRefresh,
                          lastRefreshEtag, maxAgeDays, notifyNew).value.Keys
         == FeedConfigKeys(env, id.Some?, url.Some?, previewLength.Some?, entryPrefix.Some?, lastRefreshEtag.Some?)
  {
    var vs := FeedConfigArguments(id, url, refreshInterval, previewLength, entryPrefix, textColor,
                                  lastRefresh, lastRefreshEtag, maxAgeDays, notifyNew);
    FeedConfigOfKeys(env, vs);
    assert (vs[0] != JNull) == id.Some? && (vs[1] != JNull) == url.Some? && (vs[7] != JNull) == lastRefreshEtag.Some?;
    assert (vs[3] != JNull) == previewLength.Some? && (vs[4] != JNull) == entryPrefix.Some?;
  }

  /** The keys writeAll leaves for a FeedConfig argument list, from which arguments are null. */
  lemma FeedConfigOfKeys(env: Env, vs: seq<JavaValue>)
    requires |vs| == 10
    requires vs[2] != JNull && vs[5] != JNull && vs[6] != JNull && vs[8] != JNull && vs[9] != JNull
    ensures FeedConfigOf(env, vs).Success? ==>
      FeedConfigOf(env, vs).value.Keys
        == FeedConfigKeys(env, vs[0] != JNull, vs[1] != JNull, vs[3] != JNull, vs[4] != JNull, vs[7] != JNull)
  {
    FeedConfigArgumentsWritten(env, vs);
  }

  /**
   * The keys of a FeedConfig built by the full constructor: the five primitive columns always,
   * the id, URL, enum and ETag columns as given.
   */
  function FeedConfigKeys(env: Env, hasId: bool, hasUrl: bool, hasPreviewLength: bool, hasEntryPrefix: bool,
                          hasEtag: bool): set<string>
  {
    KeyIf(hasId, env.escape("_id")) + KeyIf(hasUrl, env.escape("URL"))
    + {env.escape("REFRESH_INTERVAL")} + KeyIf(hasPreviewLength, env.escape("PREVIEW_LENGTH"))
    + KeyIf(hasEntryPrefix, env.escape("ENTRY_PREFIX")) + {env.escape("TEXT_COLOR"), env.escape("LAST_REFRESH")}
    + KeyIf(hasEtag, env.escape("LAST_REFRESH_ETAG")) + {env.escape("MAX_AGE_DAYS"), env.escape("NOTIFY_NEW")}
  }

  /** writeAll over FeedConfig.COLUMNS accepts exactly the argument lists whose enums are null or constants. */
  lemma FeedConfigArgumentsAccepted(env: Env, vs: seq<JavaValue>)
    requires |vs| == 10
    requires vs[0].JNull? || vs[0].JLong?
    requires vs[1].JNull? || vs[1].JString?
    requires vs[2].JInt? && vs[5].JInt? && vs[6].JLong? && vs[8].JInt? && vs[9].JBool?
    requires vs[3].JNull? || vs[3].JEnum?
    requires vs[4].JNull? || vs[4].JEnum?
    requires vs[7].JNull? || vs[7].JString?
    ensures AllAccepted(S.FeedConfigColumns(env), vs) <==>
      (vs[3].JNull? || vs[3].name in S.PreviewLengths) && (vs[4].JNull? || vs[4].name in S.EntryPrefixes)
  {
    var cs := S.FeedConfigColumns(env);
    S.FeedConfigColumnsDeclared(env);
    if (vs[3].JNull? || vs[3].name in S.PreviewLengths) && (vs[4].JNull? || vs[4].name in S.EntryPrefixes) {
      forall i | 0 <= i < 10 && vs[i] != JNull ensures Accepts(cs[i].dataType, vs[i]) {
        if i == 3 || i == 4 {
        } else {
          assert !cs[i].dataType.EnumType?;
        }
      }
    }
  }

  /** The names writeAll writes for a FeedConfig argument list: the columns of the non-null arguments. */
  lemma FeedConfigArgumentsWritten(env: Env, vs: seq<JavaValue>)
    requires |vs| == 10
    requires vs[2] != JNull && vs[5] != JNull && vs[6] != JNull && vs[8] != JNull && vs[9] != JNull
    ensures WrittenNames(S.FeedConfigColumns(env), vs) ==
      FeedConfigKeys(env, vs[0] != JNull, vs[1] != JNull, vs[3] != JNull, vs[4] != JNull, vs[7] != JNull)
  {
    FeedConfigWrittenAreKeys(env, vs);
    FeedConfigKeysAreWritten(env, vs);
  }

  lemma FeedConfigWrittenAreKeys(env: Env, vs: seq<JavaValue>)
    requires |vs| == 10
    ensures WrittenNames(S.FeedConfigColumns(env), vs) <=
      FeedConfigKeys(env, vs[0] != JNull, vs[1] != JNull, vs[3] != JNull, vs[4] != JNull, vs[7] != JNull)
  {
    var cs := S.FeedConfigColumns(env);
    S.FeedConfigColumnsDeclared(env);
    var ks := FeedConfigKeys(env, vs[0] != JNull, vs[1] != JNull, vs[3] != JNull, vs[4] != JNull, vs[7] != JNull);
    forall i | 0 <= i < 10 && vs[i] != JNull ensures cs[i].name in ks {
      assert cs[i].name == env.escape(S.FeedConfigColumnNames[i]);
    }
  }

  lemma FeedConfigKeysAreWritten(env: Env, vs: seq<JavaValue>)
    requires |vs| == 10
    requires vs[2] != JNull && vs[5] != JNull && vs[6] != JNull && vs[8] != JNull && vs[9] != JNull
    ensures FeedConfigKeys(env, vs[0] != JNull, vs[1] != JNull, vs[3] != JNull, vs[4] != JNull, vs[7] != JNull)
         <= WrittenNames(S.FeedConfigColumns(env), vs)
  {
    var cs := S.FeedConfigColumns(env);
    S.FeedConfigColumnsDeclared(env);
    var ns := S.FeedConfigColumnNames;
    var w := WrittenNames(cs, vs);
    forall i | 0 <= i < 10 && vs[i] != JNull ensures env.escape(ns[i]) in w {
      assert cs[i].name == env.escape(ns[i]);
    }
  }

  /**
   * FeedConfig(url, refreshInterval, previewLength, entryPrefix, textColor, maxAgeDays, notifyNew):
   * seven writes, URL, PREVIEW_LENGTH, REFRESH_INTERVAL, ENTRY_PREFIX, TEXT_COLOR, MAX_AGE_DAYS and
   * NOTIFY_NEW, into a new map without an id. Unlike writeAll, a single write does not skip a null:
   * the enum type dereferences it and throws NullPointerException.
   */
  function NewFeedConfigSettings(env: Env, url: Option<string>, refreshInterval: int, previewLength: Option<string>,
                                 entryPrefix: Option<string>, textColor: int, maxAgeDays: int,
                                 notifyNew: bool): (r: Result<E.EntityValues>)
    ensures r.Success? <==>
      previewLength.Some? && previewLength.value in S.PreviewLengths
      && entryPrefix.Some? && entryPrefix.value in S.EntryPrefixes
    ensures r.Success? ==>
      r.value.Keys == {env.escape("URL"), env.escape("PREVIEW_LENGTH"), env.escape("REFRESH_INTERVAL"),
                       env.escape("ENTRY_PREFIX"), env.escape("TEXT_COLOR"), env.escape("MAX_AGE_DAYS"),
                       env.escape("NOTIFY_NEW")}
  {
    var e1 := Write(E.FromValues(map[]), S.FeedConfigUrl(env), E.BoxedString(url)).value;
    var e2 :- Write(e1, S.FeedConfigPreviewLength(env), E.BoxedEnum(previewLength));
    var e3 := Write(e2, S.FeedConfigRefreshInterval(env), JInt(refreshInterval)).value;
    var e4 :- Write(e3, S.FeedConfigEntryPrefix(env), E.BoxedEnum(entryPrefix));
    var e5 := Write(e4, S.FeedConfigTextColor(env), JInt(textColor)).value;
    var e6 := Write(e5, S.FeedConfigMaxAgeDays(env), JInt(maxAgeDays)).value;
    Success(Write(e6, S.FeedConfigNotifyNew(env), JBool(notifyNew)).value)
  }

  /** FeedConfig(id, lastRefresh, lastRefreshEtag): the id entry, then LAST_REFRESH and LAST_REFRESH_ETAG. */
  function FeedConfigRefreshed(env: Env, id: Option<int>, lastRefresh: int, lastRefreshEtag: Option<string>)
    : (e: E.EntityValues)
    ensures e.Keys == {E.IdKey, env.escape("LAST_REFRESH"), env.escape("LAST_REFRESH_ETAG")}
  {
    var e1 := Write(E.WithId(id), S.FeedConfigLastRefresh(env), JLong(lastRefresh)).value;
    Write(e1, S.FeedConfigLastRefreshEtag(env), E.BoxedString(lastRefreshEtag)).value
  }

  /**
   * When the escaped names differ from each other and from "_id", the refresh entity holds the
   * id, the refresh time and the ETag it was given.
   */
  lemma FeedConfigRefreshedHoldsItsArguments(env: Env, id: Option<int>, lastRefresh: int, lastRefreshEtag: Option<string>)
    requires env.escape("LAST_REFRESH") != E.IdKey && env.escape("LAST_REFRESH_ETAG") != E.IdKey
    requires env.escape("LAST_REFRESH") != env.escape("LAST_REFRESH_ETAG")
    ensures E.GetId(FeedConfigRefreshed(env, id, lastRefresh, lastRefreshEtag)) == id
    ensures FeedConfigRefreshed(env, id, lastRefresh, lastRefreshEtag)[env.escape("LAST_REFRESH")] == JLong(lastRefresh)
    ensures FeedConfigRefreshed(env, id, lastRefresh, lastRefreshEtag)[env.escape("LAST_REFRESH_ETAG")]
         == E.BoxedString(lastRefreshEtag)
  {
  }

  /** The prefixes FeedConfig(Cursor) reads with: _ID bare, the other nine under "fc". */
  function FeedConfigReadPrefixes(): (ps: seq<Option<string>>)
    ensures |ps| == 10
  {
    CursorPrefixes(10, S.FeedConfigAliasPrefix)
  }

  /**
   * FeedConfig(Cursor): DataType.read of every column, unboxed into the full constructor. It
   * succeeds exactly when every column is found, every enum cell names a constant and no
   * primitive parameter receives a null.
   */
  function FeedConfigFromCursor(env: Env, cur: Cursor): (r: Result<E.EntityValues>)
    requires WellFormed(cur)
    ensures r.Success? <==> forall i :: 0 <= i < 10 ==>
      var read := Read(cur, S.FeedConfigColumns(env)[i], FeedConfigReadPrefixes()[i]);
      read.Success? && (FeedConfigPrimitives[i] ==> read.value != JNull)
  {
    var cs := S.FeedConfigColumns(env);
    var args :- E.ReadArguments(cur, cs, FeedConfigReadPrefixes(), FeedConfigPrimitives);
    FeedConfigOf(env, args)
  }

  /** Every value of a well-shaped FeedConfig argument list is one its column's type can hold. */
  lemma FeedConfigValuesTyped(env: Env, vs: seq<JavaValue>)
    requires |vs| == 10
    requires vs[0].JNull? || vs[0].JLong?
    requires vs[1].JNull? || vs[1].JString?
    requires vs[2].JInt? && vs[5].JInt? && vs[6].JLong? && vs[8].JInt? && vs[9].JBool?
    requires vs[3].JNull? || (vs[3].JEnum? && vs[3].name in S.PreviewLengths)
    requires vs[4].JNull? || (vs[4].JEnum? && vs[4].name in S.EntryPrefixes)
    requires vs[7].JNull? || vs[7].JString?
    requires JavaLang.IsInt32(vs[2].i) && JavaLang.IsInt32(vs[5].i) && JavaLang.IsInt32(vs[8].i)
    ensures forall i :: 0 <= i < 10 ==> Rows.Typed(S.FeedConfigColumns(env)[i], vs[i])
  {
    var cs := S.FeedConfigColumns(env);
    S.FeedConfigColumnsDeclared(env);
    assert Rows.Typed(cs[0], vs[0]) && Rows.Typed(cs[1], vs[1]) && Rows.Typed(cs[2], vs[2]);
    assert Rows.Typed(cs[3], vs[3]) && Rows.Typed(cs[4], vs[4]) && Rows.Typed(cs[5], vs[5]);
    assert Rows.Typed(cs[6], vs[6]) && Rows.Typed(cs[7], vs[7]) && Rows.Typed(cs[8], vs[8]);
    assert Rows.Typed(cs[9], vs[9]);
    forall i | 0 <= i < 10 ensures Rows.Typed(cs[i], vs[i]) {
      if i < 5 {
        assert i == 0 || i == 1 || i == 2 || i == 3 || i == 4;
      } else {
        assert i == 5 || i == 6 || i == 7 || i == 8 || i == 9;
      }
    }
  }

  /** The shape of the full constructor's boxed argument list. */
  lemma FeedConfigArgumentsShape(id: Option<int>, url: Option<string>, refreshInterval: int,
                                 previewLength: Option<string>, entryPrefix: Option<string>, textColor: int,
                                 lastRefresh: int, lastRefreshEtag: Option<string>, maxAgeDays: int,
                                 notifyNew: bool)
    requires NullOrIn(previewLength, S.PreviewLengths) && NullOrIn(entryPrefix, S.EntryPrefixes)
    ensures var vs := FeedConfigArguments(id, url, refreshInterval, previewLength, entryPrefix, textColor,
                                          lastRefresh, lastRefreshEtag, maxAgeDays, notifyNew);
      && (vs[0].JNull? || vs[0].JLong?) && (vs[1].JNull? || vs[1].JString?)
      && vs[2] == JInt(refreshInterval) && vs[5] == JInt(textColor) && vs[6] == JLong(lastRefresh)
      && vs[8] == JInt(maxAgeDays) && vs[9] == JBool(notifyNew)
      && (vs[3].JNull? || (vs[3].JEnum? && vs[3].name in S.PreviewLengths))
      && (vs[4].JNull? || (vs[4].JEnum? && vs[4].name in S.EntryPrefixes))
      && (vs[7].JNull? || vs[7].JString?)
  {
  }

  /** The full constructor's primitive parameters never receive a null from a well-shaped argument list. */
  lemma FeedConfigValuesUnbox(vs: seq<JavaValue>)
    requires |vs| == 10
    requires vs[2] != JNull && vs[5] != JNull && vs[6] != JNull && vs[8] != JNull && vs[9] != JNull
    ensures E.Unbox(vs, FeedConfigPrimitives) == Success(vs)
  {
    forall i | 0 <= i < 10 && FeedConfigPrimitives[i] ensures vs[i] != JNull {
      assert i == 2 || i == 5 || i == 6 || i == 8 || i == 9;
    }
  }

  /**
   * A FeedConfig made by the full constructor, stored, and selected back under its lookup keys
   * is rebuilt by FeedConfig(Cursor) as the same entity, provided the escaped column names and
   * the lookup keys are distinct and the int parameters hold Java ints.
   */
  lemma FeedConfigCursorRoundTrip(env: Env, id: Option<int>, url: Option<string>, refreshInterval: int,
                                  previewLength: Option<string>, entryPrefix: Option<string>, textColor: int,
                                  lastRefresh: int, lastRefreshEtag: Option<string>, maxAgeDays: int,
                                  notifyNew: bool, textToInteger: string -> int)
    requires NoDuplicates(Names(S.FeedConfigColumns(env)))
    requires NoDuplicates(Rows.LookupKeys(S.FeedConfigColumns(env), FeedConfigReadPrefixes()))
    requires NullOrIn(previewLength, S.PreviewLengths) && NullOrIn(entryPrefix, S.EntryPrefixes)
    requires JavaLang.IsInt32(refreshInterval) && JavaLang.IsInt32(textColor) && JavaLang.IsInt32(maxAgeDays)
    ensures var e := NewFeedConfig(env, id, url, refreshInterval, previewLength, entryPrefix, textColor,
                                   lastRefresh, lastRefreshEtag, maxAgeDays, notifyNew);
      var cs := S.FeedConfigColumns(env);
      e.Success?
      && FeedConfigFromCursor(env, Rows.ProjectedRow(Rows.LookupKeys(cs, FeedConfigReadPrefixes()), cs, e.value,
                                                     textToInteger)) == e
  {
    var cs := S.FeedConfigColumns(env);
    var prefixes := FeedConfigReadPrefixes();
    var vs := FeedConfigArguments(id, url, refreshInterval, previewLength, entryPrefix, textColor,
                                  lastRefresh, lastRefreshEtag, maxAgeDays, notifyNew);
    var e := NewFeedConfig(env, id, url, refreshInterval, previewLength, entryPrefix, textColor,
                           lastRefresh, lastRefreshEtag, maxAgeDays, notifyNew);
    assert e == WriteAll(map[], cs, vs);
    Rows.WriteAllLayout(cs, vs);
    FeedConfigArgumentsShape(id, url, refreshInterval, previewLength, entryPrefix, textColor,
                             lastRefresh, lastRefreshEtag, maxAgeDays, notifyNew);
    FeedConfigValuesTyped(env, vs);
    FeedConfigValuesUnbox(vs);
    var cur := Rows.ProjectedRow(Rows.LookupKeys(cs, prefixes), cs, e.value, textToInteger);
    Rows.ReadAllOfProjectedRow(cs, prefixes, vs, e.value, textToInteger);
    assert E.ReadAll(cur, cs, prefixes) == Success(vs);
  }

  /**
   * A cursor constructor's lookup keys are distinct when the column names are, and the bare id
   * name is none of the prefixed ones.
   */
  lemma CursorKeysDistinct(cs: seq<Column>, aliasPrefix: string)
    requires |cs| > 0 && aliasPrefix != ""
    requires NoDuplicates(Names(cs))
    requires forall i :: 1 <= i < |cs| ==> cs[0].name != aliasPrefix + PrefixSeparator + cs[i].name
    ensures NoDuplicates(Rows.LookupKeys(cs, CursorPrefixes(|cs|, aliasPrefix)))
  {
    var keys := Rows.LookupKeys(cs, CursorPrefixes(|cs|, aliasPrefix));
    forall i, j | 0 <= i < j < |keys| ensures keys[i] != keys[j] {
      if i > 0 {
        var n := |aliasPrefix + PrefixSeparator|;
        assert keys[i][n..] == cs[i].name && keys[j][n..] == cs[j].name;
        assert Names(cs)[i] != Names(cs)[j];
      }
    }
  }

  /** With names left as they are, the FeedConfig columns and lookup keys are distinct. */
  lemma FeedConfigPlainNamesDistinct()
    ensures NoDuplicates(Names(S.FeedConfigColumns(S.PlainEnv)))
    ensures NoDuplicates(Rows.LookupKeys(S.FeedConfigColumns(S.PlainEnv), FeedConfigReadPrefixes()))
  {
    var cs := S.FeedConfigColumns(S.PlainEnv);
    S.FeedConfigColumnsDeclared(S.PlainEnv);
    assert Names(cs) == S.FeedConfigColumnNames;
    forall i | 1 <= i < |cs| ensures cs[0].name != S.FeedConfigAliasPrefix + PrefixSeparator + cs[i].name {
      assert cs[0].name[0] == '_';
    }
    CursorKeysDistinct(cs, S.FeedConfigAliasPrefix);
  }

  // ---------------------------------------------------------------------------------------------
  // Feed

  /** The keys a new Feed holds: "_id", then the escaped names of the columns it writes. */
  function FeedKeys(env: Env): seq<string> {
    [E.IdKey, env.escape("CATEGORY"), env.escape("LINK"), env.escape("TITLE"), env.escape("DESCRIPTION"),
     env.escape("PUBLISHED_DATE")]
  }

  /**
   * Feed(id, category, link, title, description, publishedDate): the id entry, then one write per
   * column, LINK twice. None of the writes can fail: the only typed values are a primitive int
   * and long, and a null string is stored as null.
   */
  function NewFeed(env: Env, id: Option<int>, category: int, link: Option<string>, title: Option<string>,
                   description: Option<string>, publishedDate: int): (e: E.EntityValues)
    ensures e.Keys == set k | k in FeedKeys(env)
  {
    var e1 := Write(E.WithId(id), S.FeedCategory(env), JInt(category)).value;
    var e2 := Write(e1, S.FeedLink(env), E.BoxedString(link)).value;
    var e3 := Write(e2, S.FeedLink(env), E.BoxedString(link)).value;
    var e4 := Write(e3, S.FeedTitle(env), E.BoxedString(title)).value;
    var e5 := Write(e4, S.FeedDescription(env), E.BoxedString(description)).value;
    Write(e5, S.FeedPublishedDate(env), JLong(publishedDate)).value
  }

  /** When the keys are distinct, a new Feed holds every argument under its column; LINK, written twice, the link. */
  lemma NewFeedHoldsItsArguments(env: Env, id: Option<int>, category: int, link: Option<string>, title: Option<string>,
                                 description: Option<string>, publishedDate: int)
    requires NoDuplicates(FeedKeys(env))
    ensures var e := NewFeed(env, id, category, link, title, description, publishedDate);
      && e[env.escape("CATEGORY")] == JInt(category)
      && e[env.escape("LINK")] == E.BoxedString(link)
      && e[env.escape("TITLE")] == E.BoxedString(title)
      && e[env.escape("DESCRIPTION")] == E.BoxedString(description)
      && e[env.escape("PUBLISHED_DATE")] == JLong(publishedDate)
  {
    var ks := FeedKeys(env);
    assert ks[1] != ks[2] && ks[1] != ks[3] && ks[1] != ks[4] && ks[1] != ks[5];
    assert ks[2] != ks[3] && ks[2] != ks[4] && ks[2] != ks[5];
    assert ks[3] != ks[4] && ks[3] != ks[5] && ks[4] != ks[5];
  }

  /** When no escaped column name is "_id", a new Feed's id is the one it was given. */
  lemma NewFeedHoldsItsId(env: Env, id: Option<int>, category: int, link: Option<string>, title: Option<string>,
                          description: Option<string>, publishedDate: int)
    requires E.IdKey !in FeedKeys(env)[1..]
    ensures E.GetId(NewFeed(env, id, category, link, title, description, publishedDate)) == id
  {
    var ks := FeedKeys(env);
    assert ks[1..] == [ks[1], ks[2], ks[3], ks[4], ks[5]];
  }

  /** A string column's value as read: null or the string. */
  function StringOf(v: JavaValue): (s: Option<string>)
    requires v.JNull? || v.JString?
    ensures s.None? <==> v.JNull?
  {
    if v.JString? then Some(v.s) else None
  }

  /**
   * Feed.getFeedTitleOrUrl: Feed.TITLE under "f" when it is not null, otherwise FeedConfig.URL
   * under "fc" (which may itself be null). A missing column fails the read.
   */
  function FeedTitleOrUrl(env: Env, cur: Cursor): (r: Result<Option<string>>)
    requires WellFormed(cur)
    ensures r.Success? && r.value.None? ==>
      Read(cur, S.FeedTitle(env), Some(S.FeedAliasPrefix)) == Success(JNull)
      && Read(cur, S.FeedConfigUrl(env), Some(S.FeedConfigAliasPrefix)) == Success(JNull)
  {
    var title :- Read(cur, S.FeedTitle(env), Some(S.FeedAliasPrefix));
    if title != JNull then Success(StringOf(title))
    else
      var url :- Read(cur, S.FeedConfigUrl(env), Some(S.FeedConfigAliasPrefix));
      Success(StringOf(url))
  }

  /**
   * Over a row holding a feed's title under "f" and its configuration's URL under "fc", the
   * title is chosen when there is one and the URL otherwise.
   */
  lemma FeedTitleOrUrlOfRow(env: Env, title: Option<string>, url: Option<string>, textToInteger: string -> int)
    requires S.FeedTitle(env).name != S.FeedConfigUrl(env).name
    requires Rows.LookupKeys([S.FeedTitle(env), S.FeedConfigUrl(env)], [Some(S.FeedAliasPrefix), Some(S.FeedConfigAliasPrefix)])[0]
          != Rows.LookupKeys([S.FeedTitle(env), S.FeedConfigUrl(env)], [Some(S.FeedAliasPrefix), Some(S.FeedConfigAliasPrefix)])[1]
    ensures var cs := [S.FeedTitle(env), S.FeedConfigUrl(env)];
      var prefixes := [Some(S.FeedAliasPrefix), Some(S.FeedConfigAliasPrefix)];
      var stored := WriteAll(map[], cs, [E.BoxedString(title), E.BoxedString(url)]);
      && stored.Success?
      && FeedTitleOrUrl(env, Rows.ProjectedRow(Rows.LookupKeys(cs, prefixes), cs, stored.value, textToInteger))
         == Success(if title.Some? then title else url)
  {
    var cs := [S.FeedTitle(env), S.FeedConfigUrl(env)];
    var prefixes := [Some(S.FeedAliasPrefix), Some(S.FeedConfigAliasPrefix)];
    var vs := [E.BoxedString(title), E.BoxedString(url)];
    var stored := WriteAll(map[], cs, vs);
    assert AllAccepted(cs, vs);
    assert NoDuplicates(Names(cs));
    Rows.WriteAllLayout(cs, vs);
    var cur := Rows.ProjectedRow(Rows.LookupKeys(cs, prefixes), cs, stored.value, textToInteger);
    Rows.ReadOneOfProjectedRow(cs, prefixes, stored.value, textToInteger, 0, vs[0]);
    Rows.ReadOneOfProjectedRow(cs, prefixes, stored.value, textToInteger, 1, vs[1]);
  }

  // ---------------------------------------------------------------------------------------------
  // FeedEntry

  /** The keys a new FeedEntry holds: "_id", then the names of the ten other columns. */
  function FeedEntryKeys(env: Env): (ks: seq<string>)
    ensures |ks| == |S.FeedEntryColumnNames|
  {
    [E.IdKey] + Names(S.FeedEntryColumns(env)[1..])
  }

  /** Those names are the escaped FEED_ID, LINK, TITLE, AUTHOR, the three dates, the description's type and value, and IS_READ. */
  lemma FeedEntryKeysAreEscapedNames(env: Env)
    ensures forall i :: 1 <= i < 11 ==> FeedEntryKeys(env)[i] == env.escape(S.FeedEntryColumnNames[i])
  {
    S.FeedEntryColumnsDeclared(env);
  }

  /**
   * The values the full FeedEntry constructor can write: a boxed id, and for every other column a
   * value its DataType accepts.
   */
  predicate FeedEntryWritable(env: Env, vs: seq<JavaValue>) {
    && |vs| == 11
    && (vs[0].JNull? || vs[0].JLong?)
    && forall i :: 1 <= i < 11 ==> Accepts(S.FeedEntryColumns(env)[i].dataType, vs[i])
  }

  /** A boxed Long parameter's value. */
  function LongOf(v: JavaValue): (id: Option<int>)
    requires v.JNull? || v.JLong?
    ensures E.BoxedLong(id) == v
  {
    if v.JLong? then Some(v.l) else None
  }

  /**
   * The full FeedEntry constructor on its argument list: the id entry, then one DataType.write
   * per remaining column of COLUMNS, in that order. A null string is stored as null.
   */
  function FeedEntryOf(env: Env, vs: seq<JavaValue>): (e: E.EntityValues)
    requires FeedEntryWritable(env, vs)
  {
    var cs := S.FeedEntryColumns(env);
    assert forall i :: 0 <= i < 10 ==> cs[1..][i] == cs[i + 1] && vs[1..][i] == vs[i + 1];
    WriteEach(E.WithId(LongOf(vs[0])), cs[1..], vs[1..]).value
  }

  /** FeedEntry's full parameter list, boxed: the id and the five strings may be null. */
  function FeedEntryArguments(id: Option<int>, feedId: int, link: Option<string>, title: Option<string>,
                              author: Option<string>, polledDate: int, publishedDate: int, updatedDate: int,
                              descriptionType: Option<string>, descriptionValue: Option<string>,
                              isRead: bool): (vs: seq<JavaValue>)
    ensures |vs| == 11
  {
    [E.BoxedLong(id), JLong(feedId), E.BoxedString(link), E.BoxedString(title), E.BoxedString(author),
     JLong(polledDate), JLong(publishedDate), JLong(updatedDate), E.BoxedString(descriptionType),
     E.BoxedString(descriptionValue), JBool(isRead)]
  }

  /**
   * FeedEntry(id, feedId, link, title, author, polledDate, publishedDate, updatedDate,
   * descriptionType, descriptionValue, isRead): "_id" and all ten other columns are written,
   * null or not.
   */
  function NewFeedEntry(env: Env, id: Option<int>, feedId: int, link: Option<string>, title: Option<string>,
                        author: Option<string>, polledDate: int, publishedDate: int, updatedDate: int,
                        descriptionType: Option<string>, descriptionValue: Option<string>,
                        isRead: bool): (e: E.EntityValues)
    ensures e.Keys == set k | k in FeedEntryKeys(env)
  {
    var vs := FeedEntryArguments(id, feedId, link, title, author, polledDate, publishedDate, updatedDate,
                                 descriptionType, descriptionValue, isRead);
    FeedEntryArgumentsWritable(env, id, feedId, link, title, author, polledDate, publishedDate, updatedDate,
                               descriptionType, descriptionValue, isRead);
    FeedEntryOfKeys(env, vs);
    FeedEntryOf(env, vs)
  }

  /** A new FeedEntry's keys: "_id" and the names of the ten other columns. */
  lemma FeedEntryOfKeys(env: Env, vs: seq<JavaValue>)
    requires FeedEntryWritable(env, vs)
    ensures FeedEntryOf(env, vs).Keys == set k | k in FeedEntryKeys(env)
  {
    E.WritesAfterIdKeys(LongOf(vs[0]), S.FeedEntryColumns(env)[1..], vs[1..]);
  }

  /** When the keys are distinct, the entity built from an argument list holds argument i under key i. */
  lemma FeedEntryOfHoldsItsArguments(env: Env, vs: seq<JavaValue>)
    requires FeedEntryWritable(env, vs)
    requires NoDuplicates(FeedEntryKeys(env))
    ensures forall i :: 0 <= i < 11 ==> FeedEntryOf(env, vs)[FeedEntryKeys(env)[i]] == vs[i]
  {
    var rest := S.FeedEntryColumns(env)[1..];
    S.FeedEntryColumnsAreNotEnums(env);
    assert forall i :: 0 <= i < 10 ==> rest[i] == S.FeedEntryColumns(env)[i + 1];
    assert vs == [E.BoxedLong(LongOf(vs[0]))] + vs[1..];
    E.WritesAfterIdHold(LongOf(vs[0]), rest, vs[1..]);
  }

  /** When the keys are distinct, a new FeedEntry holds every argument under its column and its id as given. */
  lemma NewFeedEntryHoldsItsArguments(env: Env, id: Option<int>, feedId: int, link: Option<string>,
                                     title: Option<string>, author: Option<string>, polledDate: int,
                                     publishedDate: int, updatedDate: int, descriptionType: Option<string>,
                                     descriptionValue: Option<string>, isRead: bool)
    requires NoDuplicates(FeedEntryKeys(env))
    ensures var e := NewFeedEntry(env, id, feedId, link, title, author, polledDate, publishedDate, updatedDate,
                                  descriptionType, descriptionValue, isRead);
      var vs := FeedEntryArguments(id, feedId, link, title, author, polledDate, publishedDate, updatedDate,
                                   descriptionType, descriptionValue, isRead);
      && E.GetId(e) == id
      && forall i :: 0 <= i < 11 ==> e[FeedEntryKeys(env)[i]] == vs[i]
  {
    var vs := FeedEntryArguments(id, feedId, link, title, author, polledDate, publishedDate, updatedDate,
                                 descriptionType, descriptionValue, isRead);
    FeedEntryArgumentsWritable(env, id, feedId, link, title, author, polledDate, publishedDate, updatedDate,
                               descriptionType, descriptionValue, isRead);
    FeedEntryOfHoldsItsArguments(env, vs);
    assert FeedEntryOf(env, vs)[FeedEntryKeys(env)[0]] == vs[0];
  }

  /** FeedEntry(long id, boolean isRead): the id entry and IS_READ, nothing else. */
  function FeedEntryReadFlag(env: Env, id: int, isRead: bool): (e: E.EntityValues)
    ensures e.Keys == {E.IdKey, env.escape("IS_READ")}
  {
    Write(E.WithId(Some(id)), S.FeedEntryIsRead(env), JBool(isRead)).value
  }

  /** When IS_READ is not escaped to "_id", the read-flag entity holds the id and the flag it was given. */
  lemma FeedEntryReadFlagHoldsItsArguments(env: Env, id: int, isRead: bool)
    requires env.escape("IS_READ") != E.IdKey
    ensures E.GetId(FeedEntryReadFlag(env, id, isRead)) == Some(id)
    ensures FeedEntryReadFlag(env, id, isRead)[env.escape("IS_READ")] == JBool(isRead)
  {
  }

  /** Which of the full constructor's parameters are primitives (long, boolean). */
  const FeedEntryPrimitives: seq<bool> := [false, true, false, false, false, true, true, true, false, false, true]

  /** The prefixes FeedEntry(Cursor) reads with: _ID bare, the other ten under "fe". */
  function FeedEntryReadPrefixes(): (ps: seq<Option<string>>)
    ensures |ps| == 11
  {
    CursorPrefixes(11, S.FeedEntryAliasPrefix)
  }

  /**
   * FeedEntry(Cursor): DataType.read of every column, unboxed into the full constructor. It
   * succeeds exactly when every column is found and no primitive parameter receives a null.
   */
  function FeedEntryFromCursor(env: Env, cur: Cursor): (r: Result<E.EntityValues>)
    requires WellFormed(cur)
    ensures r.Success? <==> forall i :: 0 <= i < 11 ==>
      var read := Read(cur, S.FeedEntryColumns(env)[i], FeedEntryReadPrefixes()[i]);
      read.Success? && (FeedEntryPrimitives[i] ==> read.value != JNull)
  {
    var cs := S.FeedEntryColumns(env);
    var args :- E.ReadArguments(cur, cs, FeedEntryReadPrefixes(), FeedEntryPrimitives);
    FeedEntryReadWritable(env, args);
    Success(FeedEntryOf(env, args))
  }

  /** Values read for the FeedEntry columns can be written back: no FeedEntry column is an enum. */
  lemma FeedEntryReadWritable(env: Env, vs: seq<JavaValue>)
    requires |vs| == 11
    requires forall i :: 0 <= i < 11 ==> vs[i] == JNull || Accepts(S.FeedEntryColumns(env)[i].dataType, vs[i])
    ensures FeedEntryWritable(env, vs)
  {
    var cs := S.FeedEntryColumns(env);
    S.FeedEntryColumnsAreNotEnums(env);
    assert cs[0].dataType == LongType;
    forall i | 1 <= i < 11 ensures Accepts(cs[i].dataType, vs[i]) {
      assert !cs[i].dataType.EnumType?;
    }
  }

  /** The arguments of a full-constructor call fit its columns. */
  lemma FeedEntryArgumentsWritable(env: Env, id: Option<int>, feedId: int, link: Option<string>, title: Option<string>,
                                   author: Option<string>, polledDate: int, publishedDate: int, updatedDate: int,
                                   descriptionType: Option<string>, descriptionValue: Option<string>, isRead: bool)
    ensures FeedEntryWritable(env, FeedEntryArguments(id, feedId, link, title, author, polledDate, publishedDate,
                                                      updatedDate, descriptionType, descriptionValue, isRead))
  {
    var vs := FeedEntryArguments(id, feedId, link, title, author, polledDate, publishedDate, updatedDate,
                                 descriptionType, descriptionValue, isRead);
    var cs := S.FeedEntryColumns(env);
    S.FeedEntryColumnsDeclared(env);
    forall i | 1 <= i < 11 ensures Accepts(cs[i].dataType, vs[i]) {
      if i < 5 {
        assert i == 1 || i == 2 || i == 3 || i == 4;
      } else if i < 8 {
        assert i == 5 || i == 6 || i == 7;
      } else {
        assert i == 8 || i == 9 || i == 10;
      }
    }
  }

  /** The values of a full-constructor call are ones their columns can hold: no int among them. */
  lemma FeedEntryArgumentsTyped(env: Env, id: Option<int>, feedId: int, link: Option<string>, title: Option<string>,
                                author: Option<string>, polledDate: int, publishedDate: int, updatedDate: int,
                                descriptionType: Option<string>, descriptionValue: Option<string>, isRead: bool)
    ensures var vs := FeedEntryArguments(id, feedId, link, title, author, polledDate, publishedDate, updatedDate,
                                         descriptionType, descriptionValue, isRead);
      && (forall i :: 0 <= i < 11 ==> Rows.Typed(S.FeedEntryColumns(env)[i], vs[i]))
      && E.Unbox(vs, FeedEntryPrimitives) == Success(vs)
  {
    var vs := FeedEntryArguments(id, feedId, link, title, author, polledDate, publishedDate, updatedDate,
                                 descriptionType, descriptionValue, isRead);
    FeedEntryArgumentsWritable(env, id, feedId, link, title, author, polledDate, publishedDate, updatedDate,
                               descriptionType, descriptionValue, isRead);
    FeedEntryArgumentsUnboxed(id, feedId, link, title, author, polledDate, publishedDate, updatedDate,
                              descriptionType, descriptionValue, isRead);
    FeedEntryWritableIsTyped(env, vs);
  }

  /** A writable FeedEntry argument list without an int holds values its columns' types can hold. */
  lemma FeedEntryWritableIsTyped(env: Env, vs: seq<JavaValue>)
    requires FeedEntryWritable(env, vs)
    requires forall i :: 0 <= i < 11 ==> !vs[i].JInt?
    ensures forall i :: 0 <= i < 11 ==> Rows.Typed(S.FeedEntryColumns(env)[i], vs[i])
  {
    assert S.FeedEntryColumns(env)[0].dataType == LongType;
  }

  /** A full-constructor call passes no int, and no null to a primitive parameter. */
  lemma FeedEntryArgumentsUnboxed(id: Option<int>, feedId: int, link: Option<string>, title: Option<string>,
                                  author: Option<string>, polledDate: int, publishedDate: int, updatedDate: int,
                                  descriptionType: Option<string>, descriptionValue: Option<string>, isRead: bool)
    ensures var vs := FeedEntryArguments(id, feedId, link, title, author, polledDate, publishedDate, updatedDate,
                                         descriptionType, descriptionValue, isRead);
      && (forall i :: 0 <= i < 11 ==> !vs[i].JInt?)
      && E.Unbox(vs, FeedEntryPrimitives) == Success(vs)
  {
    var vs := FeedEntryArguments(id, feedId, link, title, author, polledDate, publishedDate, updatedDate,
                                 descriptionType, descriptionValue, isRead);
    forall i | 0 <= i < 11 ensures !vs[i].JInt? && (FeedEntryPrimitives[i] ==> vs[i] != JNull) {
      if i < 6 {
        assert i == 0 || i == 1 || i == 2 || i == 3 || i == 4 || i == 5;
      } else {
        assert i == 6 || i == 7 || i == 8 || i == 9 || i == 10;
      }
    }
  }

  /**
   * A FeedEntry made by the full constructor, stored, and selected back under its lookup keys is
   * rebuilt by FeedEntry(Cursor) as the same entity, provided "_id" is not escaped and the keys
   * and lookup keys are distinct.
   */
  lemma FeedEntryCursorRoundTrip(env: Env, id: Option<int>, feedId: int, link: Option<string>, title: Option<string>,
                                 author: Option<string>, polledDate: int, publishedDate: int, updatedDate: int,
                                 descriptionType: Option<string>, descriptionValue: Option<string>, isRead: bool,
                                 textToInteger: string -> int)
    requires env.escape("_id") == E.IdKey
    requires NoDuplicates(FeedEntryKeys(env))
    requires NoDuplicates(Rows.LookupKeys(S.FeedEntryColumns(env), FeedEntryReadPrefixes()))
    ensures var e := NewFeedEntry(env, id, feedId, link, title, author, polledDate, publishedDate, updatedDate,
                                  descriptionType, descriptionValue, isRead);
      var cs := S.FeedEntryColumns(env);
      FeedEntryFromCursor(env, Rows.ProjectedRow(Rows.LookupKeys(cs, FeedEntryReadPrefixes()), cs, e, textToInteger))
        == Success(e)
  {
    var cs := S.FeedEntryColumns(env);
    var prefixes := FeedEntryReadPrefixes();
    var vs := FeedEntryArguments(id, feedId, link, title, author, polledDate, publishedDate, updatedDate,
                                 descriptionType, descriptionValue, isRead);
    var e := NewFeedEntry(env, id, feedId, link, title, author, polledDate, publishedDate, updatedDate,
                          descriptionType, descriptionValue, isRead);
    FeedEntryArgumentsWritable(env, id, feedId, link, title, author, polledDate, publishedDate, updatedDate,
                               descriptionType, descriptionValue, isRead);
    FeedEntryArgumentsTyped(env, id, feedId, link, title, author, polledDate, publishedDate, updatedDate,
                            descriptionType, descriptionValue, isRead);
    FeedEntryOfHoldsItsArguments(env, vs);
    FeedEntryOfKeys(env, vs);
    S.FeedEntryColumnsAreNotEnums(env);
    var ks := FeedEntryKeys(env);
    forall i | 0 <= i < 11 ensures cs[i].name in e && e[cs[i].name] == Stored(cs[i].dataType, vs[i]) {
      if i > 0 {
        assert ks[i] == cs[i].name;
      }
      assert ks[i] in ks;
    }
    Rows.ReadAllOfProjectedRow(cs, prefixes, vs, e, textToInteger);
  }

  /**
   * FeedEntry.getDescription: DESCRIPTION_VALUE under "fe", unless it is "NO DESCRIPTION", in
   * which case TITLE under "fe" (which may be null). A null description throws
   * NullPointerException on equals.
   */
  function Description(env: Env, cur: Cursor): (r: Result<Option<string>>)
    requires WellFormed(cur)
    ensures Read(cur, S.FeedEntryDescriptionValue(env), Some(S.FeedEntryAliasPrefix)) == Success(JNull) ==> r.Failure?
    ensures r.Success? && r.value != Some(S.FeedEntryDefaultDescriptionValue) ==>
      Read(cur, S.FeedEntryDescriptionValue(env), Some(S.FeedEntryAliasPrefix)) == Success(JString(S.FeedEntryDefaultDescriptionValue))
      || Read(cur, S.FeedEntryDescriptionValue(env), Some(S.FeedEntryAliasPrefix)) == Success(E.BoxedString(r.value))
  {
    var description :- Read(cur, S.FeedEntryDescriptionValue(env), Some(S.FeedEntryAliasPrefix));
    if description.JNull? then Failure("NullPointerException: description is null")
    else if description.s == S.FeedEntryDefaultDescriptionValue then
      var title :- Read(cur, S.FeedEntryTitle(env), Some(S.FeedEntryAliasPrefix));
      Success(StringOf(title))
    else Success(Some(description.s))
  }

  /**
   * Over a row holding an entry's title and description under "fe", the description is chosen
   * unless it is "NO DESCRIPTION", when the title is; a null description fails.
   */
  lemma DescriptionOfRow(env: Env, title: Option<string>, description: Option<string>, textToInteger: string -> int)
    requires S.FeedEntryTitle(env).name != S.FeedEntryDescriptionValue(env).name
    requires S.FeedEntryAliasPrefix + PrefixSeparator + S.FeedEntryTitle(env).name
          != S.FeedEntryAliasPrefix + PrefixSeparator + S.FeedEntryDescriptionValue(env).name
    ensures var cs := [S.FeedEntryTitle(env), S.FeedEntryDescriptionValue(env)];
      var prefixes := [Some(S.FeedEntryAliasPrefix), Some(S.FeedEntryAliasPrefix)];
      var stored := WriteAll(map[], cs, [E.BoxedString(title), E.BoxedString(description)]);
      && stored.Success?
      && var r := Description(env, Rows.ProjectedRow(Rows.LookupKeys(cs, prefixes), cs, stored.value, textToInteger));
      && (description.None? ==> r.Failure?)
      && (description.Some? ==>
            r == Success(if description.value == S.FeedEntryDefaultDescriptionValue then title else description))
  {
    var cs := [S.FeedEntryTitle(env), S.FeedEntryDescriptionValue(env)];
    var prefixes := [Some(S.FeedEntryAliasPrefix), Some(S.FeedEntryAliasPrefix)];
    var vs := [E.BoxedString(title), E.BoxedString(description)];
    var stored := WriteAll(map[], cs, vs);
    assert AllAccepted(cs, vs);
    assert NoDuplicates(Names(cs));
    Rows.WriteAllLayout(cs, vs);
    var keys := Rows.LookupKeys(cs, prefixes);
    assert NoDuplicates(keys);
    Rows.ReadOneOfProjectedRow(cs, prefixes, stored.value, textToInteger, 0, vs[0]);
    Rows.ReadOneOfProjectedRow(cs, prefixes, stored.value, textToInteger, 1, vs[1]);
  }

  /**
   * FeedEntry.isDescriptionHTML: the DESCRIPTION_TYPE under "fe" equals "text/html" exactly; a
   * null type throws NullPointerException on equals.
   */
  function IsDescriptionHtml(env: Env, cur: Cursor): (r: Result<bool>)
    requires WellFormed(cur)
    ensures var read := Read(cur, S.FeedEntryDescriptionType(env), Some(S.FeedEntryAliasPrefix));
      && (r.Success? <==> read.Success? && read.value != JNull)
      && (r.Success? ==> (r.value <==> read.value == JString("text/html")))
  {
    var descriptionType :- Read(cur, S.FeedEntryDescriptionType(env), Some(S.FeedEntryAliasPrefix));
    if descriptionType.JNull? then Failure("NullPointerException: description type is null")
    else Success(descriptionType.s == "text/html")
  }

  /** Milliseconds per day, the factor isExpired multiplies the day count by. */
  const MillisPerDay: int := 86400000

  /** The stored POLLED_DATE as getValue returns it and isExpired unboxes it: a null throws NullPointerException. */
  function PolledDate(env: Env, e: E.EntityValues): (r: Result<int>)
    ensures var k := S.FeedEntryPolledDate(env).name;
      r.Success? <==> k in e && e[k].JLong?
    ensures r.Success? ==> e[S.FeedEntryPolledDate(env).name] == JLong(r.value)
  {
    var polled := E.GetValue(e, S.FeedEntryPolledDate(env)).value;
    if polled.JNull? then Failure("NullPointerException: POLLED_DATE is null")
    else if !polled.JLong? then Failure("ClassCastException: POLLED_DATE is not a Long")
    else Success(polled.l)
  }

  /**
   * isExpired as written: polledDate + (maxAgeDays * 86400000) <= now, where the product of two
   * ints is computed, and wraps, in 32 bits before it is widened for the long addition.
   */
  function IsExpiredAsWritten(env: Env, e: E.EntityValues, maxAgeDays: int, now: int): (r: Result<bool>)
    requires JavaLang.IsInt32(maxAgeDays)
    ensures r.Success? <==> PolledDate(env, e).Success?
  {
    var polled :- PolledDate(env, e);
    Success(JavaLang.Wrap64(polled + JavaLang.Wrap32(maxAgeDays * MillisPerDay)) <= now)
  }

  /**
   * isExpired as intended: the entry is expired once maxAgeDays days have passed since it was
   * polled, the product computed in long arithmetic.
   */
  function IsExpired(env: Env, e: E.EntityValues, maxAgeDays: int, now: int): (r: Result<bool>)
    requires JavaLang.IsInt32(maxAgeDays)
    ensures r.Success? <==> PolledDate(env, e).Success?
  {
    var polled :- PolledDate(env, e);
    Success(JavaLang.Wrap64(polled + maxAgeDays * MillisPerDay) <= now)
  }

  /**
   * An entry polled at p is expired at now exactly when maxAgeDays days of milliseconds have
   * passed, provided the expiry time fits a long.
   */
  lemma IsExpiredWhenMaxAgeHasPassed(env: Env, e: E.EntityValues, maxAgeDays: int, now: int)
    requires JavaLang.IsInt32(maxAgeDays) && PolledDate(env, e).Success?
    requires JavaLang.IsInt64(PolledDate(env, e).value + maxAgeDays * MillisPerDay)
    ensures IsExpired(env, e, maxAgeDays, now) == Success(now - PolledDate(env, e).value >= maxAgeDays * MillisPerDay)
  {
  }

  /** Up to 24 days the int product does not wrap, and the code as written agrees with the intent. */
  lemma IsExpiredAsWrittenAgreesUpTo24Days(env: Env, e: E.EntityValues, maxAgeDays: int, now: int)
    requires -24 <= maxAgeDays <= 24
    ensures IsExpiredAsWritten(env, e, maxAgeDays, now) == IsExpired(env, e, maxAgeDays, now)
  {
    assert -24 * MillisPerDay <= maxAgeDays * MillisPerDay <= 24 * MillisPerDay;
    assert JavaLang.IsInt32(maxAgeDays * MillisPerDay);
  }

  /**
   * At 25 days the product 2160000000 wraps to -2134967296: an entry polled at time 0 counts as
   * expired at time 0, although the intended expiry is 25 days later.
   */
  lemma IsExpiredAsWrittenWrapsAt25Days(env: Env)
    ensures var e := map[S.FeedEntryPolledDate(env).name := JLong(0)];
      && IsExpiredAsWritten(env, e, 25, 0) == Success(true)
      && IsExpired(env, e, 25, 0) == Success(false)
  {
    assert JavaLang.Wrap32(25 * MillisPerDay) == -2134967296;
  }

  // ---------------------------------------------------------------------------------------------
  // FeedWidgetConfig

  /** FeedWidgetConfig's parameter list, boxed: only the text size may be null. */
  function FeedWidgetConfigArguments(id: int, toolbar: bool, backgroundColor: int, textSize: Option<string>)
    : (vs: seq<JavaValue>)
    ensures |vs| == 4
  {
    [JLong(id), JBool(toolbar), JInt(backgroundColor), E.BoxedEnum(textSize)]
  }

  /**
   * FeedWidgetConfig(id, toolbar, backgroundColor, textSize): writeAll over COLUMNS into a new map.
   * The id is a primitive, so _ID, TOOLBAR and BACKGROUND_COLOR are always written, TEXT_SIZE
   * when it is not null; a text size that is not a constant is refused.
   */
  function NewFeedWidgetConfig(env: Env, id: int, toolbar: bool, backgroundColor: int, textSize: Option<string>)
    : (r: Result<E.EntityValues>)
    ensures r.Success? <==> NullOrIn(textSize, S.TextSizes)
    ensures r.Success? ==> r.value.Keys == FeedWidgetConfigKeys(env, textSize.Some?)
  {
    var vs := FeedWidgetConfigArguments(id, toolbar, backgroundColor, textSize);
    FeedWidgetConfigArgumentsAccepted(env, vs);
    FeedWidgetConfigArgumentsWritten(env, vs);
    WriteAll(E.FromValues(map[]), S.FeedWidgetConfigColumns(env), vs)
  }

  /** The keys of a new widget configuration: _ID, TOOLBAR and BACKGROUND_COLOR, and TEXT_SIZE when given. */
  function FeedWidgetConfigKeys(env: Env, hasTextSize: bool): set<string> {
    {env.escape("_id"), env.escape("TOOLBAR"), env.escape("BACKGROUND_COLOR")} + KeyIf(hasTextSize, env.escape("TEXT_SIZE"))
  }

  /** writeAll over FeedWidgetConfig.COLUMNS accepts exactly the argument lists whose text size is null or a constant. */
  lemma FeedWidgetConfigArgumentsAccepted(env: Env, vs: seq<JavaValue>)
    requires |vs| == 4 && vs[0].JLong? && vs[1].JBool? && vs[2].JInt? && (vs[3].JNull? || vs[3].JEnum?)
    ensures AllAccepted(S.FeedWidgetConfigColumns(env), vs) <==> vs[3].JNull? || vs[3].name in S.TextSizes
  {
    var cs := S.FeedWidgetConfigColumns(env);
    assert Accepts(cs[0].dataType, vs[0]) && Accepts(cs[1].dataType, vs[1]) && Accepts(cs[2].dataType, vs[2]);
    if vs[3].JNull? || vs[3].name in S.TextSizes {
      forall i | 0 <= i < 4 && vs[i] != JNull ensures Accepts(cs[i].dataType, vs[i]) {
        assert i == 0 || i == 1 || i == 2 || i == 3;
      }
    }
  }

  /** The names writeAll writes for a FeedWidgetConfig argument list: the first three, and TEXT_SIZE unless it is null. */
  lemma FeedWidgetConfigArgumentsWritten(env: Env, vs: seq<JavaValue>)
    requires |vs| == 4 && vs[0] != JNull && vs[1] != JNull && vs[2] != JNull
    ensures WrittenNames(S.FeedWidgetConfigColumns(env), vs) == FeedWidgetConfigKeys(env, vs[3] != JNull)
  {
    var cs := S.FeedWidgetConfigColumns(env);
    var ns := S.FeedWidgetConfigColumnNames;
    assert cs[0].name == env.escape(ns[0]) && cs[1].name == env.escape(ns[1]);
    assert cs[2].name == env.escape(ns[2]) && cs[3].name == env.escape(ns[3]);
    assert cs[0].name in WrittenNames(cs, vs) && cs[1].name in WrittenNames(cs, vs) && cs[2].name in WrittenNames(cs, vs);
    assert vs[3] != JNull ==> cs[3].name in WrittenNames(cs, vs);
  }

  /** The defaults, toolbar shown and text size MEDIUM, make a valid widget configuration. */
  lemma DefaultFeedWidgetConfigIsValid(env: Env, id: int, backgroundColor: int)
    ensures NewFeedWidgetConfig(env, id, S.DefaultToolbar, backgroundColor, Some(S.DefaultTextSize)).Success?
  {
    assert S.TextSizes[1] == S.DefaultTextSize;
  }

  /** Which of the constructor's parameters are primitives. */
  const FeedWidgetConfigPrimitives: seq<bool> := [true, true, true, false]

  /** The prefixes FeedWidgetConfig(Cursor) reads with: _ID bare, the other three under "fwc". */
  function FeedWidgetConfigReadPrefixes(): (ps: seq<Option<string>>)
    ensures |ps| == 4
  {
    CursorPrefixes(4, S.FeedWidgetConfigAliasPrefix)
  }

  /**
   * FeedWidgetConfig(Cursor): DataType.read of every column, unboxed into the constructor. It
   * succeeds exactly when every column is found, the text size cell names a constant or is null,
   * and the id, toolbar and background colour are not null.
   */
  function FeedWidgetConfigFromCursor(env: Env, cur: Cursor): (r: Result<E.EntityValues>)
    requires WellFormed(cur)
    ensures r.Success? <==> forall i :: 0 <= i < 4 ==>
      var read := Read(cur, S.FeedWidgetConfigColumns(env)[i], FeedWidgetConfigReadPrefixes()[i]);
      read.Success? && (FeedWidgetConfigPrimitives[i] ==> read.value != JNull)
  {
    var cs := S.FeedWidgetConfigColumns(env);
    var args :- E.ReadArguments(cur, cs, FeedWidgetConfigReadPrefixes(), FeedWidgetConfigPrimitives);
    WriteAll(E.FromValues(map[]), cs, args)
  }

  /** The arguments of a valid constructor call are values their columns can hold, none null where a primitive is. */
  lemma FeedWidgetConfigArgumentsTyped(env: Env, id: int, toolbar: bool, backgroundColor: int, textSize: Option<string>)
    requires NullOrIn(textSize, S.TextSizes) && JavaLang.IsInt32(backgroundColor)
    ensures var vs := FeedWidgetConfigArguments(id, toolbar, backgroundColor, textSize);
      && (forall i :: 0 <= i < 4 ==> Rows.Typed(S.FeedWidgetConfigColumns(env)[i], vs[i]))
      && E.Unbox(vs, FeedWidgetConfigPrimitives) == Success(vs)
  {
    var vs := FeedWidgetConfigArguments(id, toolbar, backgroundColor, textSize);
    var cs := S.FeedWidgetConfigColumns(env);
    assert Rows.Typed(cs[0], vs[0]) && Rows.Typed(cs[1], vs[1]) && Rows.Typed(cs[2], vs[2]) && Rows.Typed(cs[3], vs[3]);
    forall i | 0 <= i < 4 ensures Rows.Typed(cs[i], vs[i]) && (FeedWidgetConfigPrimitives[i] ==> vs[i] != JNull) {
      assert i == 0 || i == 1 || i == 2 || i == 3;
    }
  }

  /**
   * A widget configuration made by the constructor, stored, and selected back under its lookup
   * keys is rebuilt by FeedWidgetConfig(Cursor) as the same entity, provided the escaped names and
   * lookup keys are distinct and the background colour is a Java int.
   */
  lemma FeedWidgetConfigCursorRoundTrip(env: Env, id: int, toolbar: bool, backgroundColor: int,
                                        textSize: Option<string>, textToInteger: string -> int)
    requires NoDuplicates(Names(S.FeedWidgetConfigColumns(env)))
    requires NoDuplicates(Rows.LookupKeys(S.FeedWidgetConfigColumns(env), FeedWidgetConfigReadPrefixes()))
    requires NullOrIn(textSize, S.TextSizes) && JavaLang.IsInt32(backgroundColor)
    ensures var e := NewFeedWidgetConfig(env, id, toolbar, backgroundColor, textSize);
      var cs := S.FeedWidgetConfigColumns(env);
      && e.Success?
      && FeedWidgetConfigFromCursor(env, Rows.ProjectedRow(Rows.LookupKeys(cs, FeedWidgetConfigReadPrefixes()), cs,
                                                           e.value, textToInteger)) == e
  {
    var cs := S.FeedWidgetConfigColumns(env);
    var prefixes := FeedWidgetConfigReadPrefixes();
    var vs := FeedWidgetConfigArguments(id, toolbar, backgroundColor, textSize);
    var e := NewFeedWidgetConfig(env, id, toolbar, backgroundColor, textSize);
    assert e == WriteAll(map[], cs, vs);
    Rows.WriteAllLayout(cs, vs);
    FeedWidgetConfigArgumentsTyped(env, id, toolbar, backgroundColor, textSize);
    Rows.ReadAllOfProjectedRow(cs, prefixes, vs, e.value, textToInteger);
  }

  /** With names left as they are, the FeedWidgetConfig columns and lookup keys are distinct. */
  lemma FeedWidgetConfigPlainNamesDistinct()
    ensures NoDuplicates(Names(S.FeedWidgetConfigColumns(S.PlainEnv)))
    ensures NoDuplicates(Rows.LookupKeys(S.FeedWidgetConfigColumns(S.PlainEnv), FeedWidgetConfigReadPrefixes()))
  {
    var cs := S.FeedWidgetConfigColumns(S.PlainEnv);
    assert Names(cs) == S.FeedWidgetConfigColumnNames;
    forall i | 1 <= i < |cs| ensures cs[0].name != S.FeedWidgetConfigAliasPrefix + PrefixSeparator + cs[i].name {
      assert cs[0].name[0] == '_';
    }
    CursorKeysDistinct(cs, S.FeedWidgetConfigAliasPrefix);
  }

  // ---------------------------------------------------------------------------------------------
  // FeedWidgetFeed

  /**
   * FeedWidgetFeed(id, feedWidgetId, feedId): the id entry, possibly null, then FEED_WIDGET_ID and
   * FEED_CONFIG_ID.
   */
  function NewFeedWidgetFeed(env: Env, id: Option<int>, feedWidgetId: int, feedConfigId: int): (e: E.EntityValues)
    ensures e.Keys == {E.IdKey, env.escape("FEED_WIDGET_ID"), env.escape("FEED_CONFIG_ID")}
  {
    var cs := S.FeedWidgetFeedColumns(env);
    var e1 := Write(E.WithId(id), cs[1], JLong(feedWidgetId)).value;
    Write(e1, cs[2], JLong(feedConfigId)).value
  }

  /**
   * When the two escaped names differ from each other and from "_id", the link entity holds the
   * id, the widget and the feed configuration it was given.
   */
  lemma NewFeedWidgetFeedHoldsItsArguments(env: Env, id: Option<int>, feedWidgetId: int, feedConfigId: int)
    requires NoDuplicates([E.IdKey, env.escape("FEED_WIDGET_ID"), env.escape("FEED_CONFIG_ID")])
    ensures var e := NewFeedWidgetFeed(env, id, feedWidgetId, feedConfigId);
      && E.GetId(e) == id
      && e[env.escape("FEED_WIDGET_ID")] == JLong(feedWidgetId)
      && e[env.escape("FEED_CONFIG_ID")] == JLong(feedConfigId)
  {
    var ks := [E.IdKey, env.escape("FEED_WIDGET_ID"), env.escape("FEED_CONFIG_ID")];
    assert ks[0] != ks[1] && ks[0] != ks[2] && ks[1] != ks[2];
  }
}

=== FILE: entity.dfy ===
/**
 * PersistentEntity: an entity is the ContentValues map it wraps. The constructors, the id
 * accessors, the name casing of entity and table names, and the typed value getters.
 */
module Entity {
  import opened Wrappers
  import opened Query
  import JavaLang
  import opened Values

  /** BaseColumns._ID: the key the id accessors use, whatever the schema's _ID column is called. */
  const IdKey: string := "_id"

  /** The entity's value map. */
  type EntityValues = ContentValues

  /** A boxed Long: null or a value. */
  function BoxedLong(id: Option<int>): (v: JavaValue)
    ensures id.None? <==> v == JNull
  {
    match id
    case Some(l) => JLong(l)
    case None => JNull
  }

  /** A boxed String: null or a value. */
  function BoxedString(s: Option<string>): (v: JavaValue)
    ensures s.None? <==> v == JNull
  {
    match s
    case Some(t) => JString(t)
    case None => JNull
  }

  /** A boxed enum constant: null or the constant's name. */
  function BoxedEnum(name: Option<string>): (v: JavaValue)
    ensures name.None? <==> v == JNull
  {
    match name
    case Some(n) => JEnum(n)
    case None => JNull
  }

  /**
   * PersistentEntity(), PersistentEntity(Entity) and PersistentEntity(ContentValues): all three
   * start from a new, empty map; the argument is never read.
   */
  function FromValues(ignored: ContentValues): (e: EntityValues)
    ensures e == map[]
  {
    map[]
  }

  /** PersistentEntity(Long id): a new map holding "_id", even when the id is null. */
  function WithId(id: Option<int>): (e: EntityValues)
    ensures e.Keys == {IdKey}
    ensures e[IdKey] == BoxedLong(id)
  {
    FromValues(map[])[IdKey := BoxedLong(id)]
  }

  /**
   * An entity made by PersistentEntity(Long id) and then one write per column: its keys are "_id"
   * and the written columns' names.
   */
  lemma WritesAfterIdKeys(id: Option<int>, cs: seq<Column>, vs: seq<JavaValue>)
    requires |cs| == |vs| && WriteEach(WithId(id), cs, vs).Success?
    ensures WriteEach(WithId(id), cs, vs).value.Keys == set k | k in [IdKey] + Names(cs)
  {
    assert forall k :: k in Names(cs) <==> exists c :: c in cs && c.name == k;
  }

  /**
   * When "_id" and the column names are distinct and no column is an enum, such an entity holds
   * the id under "_id" and each written value under its column's name.
   */
  lemma WritesAfterIdHold(id: Option<int>, cs: seq<Column>, vs: seq<JavaValue>)
    requires |cs| == |vs| && WriteEach(WithId(id), cs, vs).Success?
    requires NoDuplicates([IdKey] + Names(cs))
    requires forall i :: 0 <= i < |cs| ==> !cs[i].dataType.EnumType?
    ensures var e := WriteEach(WithId(id), cs, vs).value;
      forall i :: 0 <= i < |cs| + 1 ==> e[([IdKey] + Names(cs))[i]] == ([BoxedLong(id)] + vs)[i]
  {
    var ks := [IdKey] + Names(cs);
    assert Names(cs) == ks[1..];
    assert NoDuplicates(Names(cs));
    assert IdKey !in Names(cs) by {
      forall j | 0 <= j < |cs| ensures Names(cs)[j] != IdKey {
        assert ks[0] != ks[j + 1];
      }
    }
    WriteEachStores(WithId(id), cs, vs);
  }

  /**
   * ContentValues.getAsLong: a number's long value; a string parsed as a long, or null when it
   * is not one; null for a missing key, a null value or any other type.
   */
  function GetAsLong(e: EntityValues, key: string): (r: Option<int>)
    ensures key !in e ==> r.None?
    ensures key in e && e[key].JLong? ==> r == Some(e[key].l)
  {
    if key !in e then None
    else
      match e[key]
      case JLong(l) => Some(l)
      case JInt(i) => Some(i)
      case JString(s) => if JavaLang.ParseLong(s).Success? then Some(JavaLang.ParseLong(s).value) else None
      case _ => None
  }

  /** getId. */
  function GetId(e: EntityValues): (r: Option<int>)
    ensures IdKey !in e ==> r.None?
    ensures IdKey in e && e[IdKey].JLong? ==> r == Some(e[IdKey].l)
    ensures IdKey in e && e[IdKey].JNull? ==> r.None?
  {
    GetAsLong(e, IdKey)
  }

  /** getIdAsString: Long.toString of the id, or null when there is none. */
  function GetIdAsString(e: EntityValues): (r: Option<string>)
    ensures r.None? <==> GetId(e).None?
  {
    match GetId(e)
    case Some(l) => Some(JavaLang.IntToString(l))
    case None => None
  }

  /** The id string parses back to the id whenever the stored numbers have Java sizes. */
  lemma IdAsStringParsesBack(e: EntityValues)
    requires NumbersAreJavaSized(e)
    ensures GetIdAsString(e).Some? ==> JavaLang.ParseLong(GetIdAsString(e).value) == Success(GetId(e).value)
  {
    if GetId(e).Some? {
      JavaLang.ParseLongOfIntToString(GetId(e).value);
    }
  }

  /** Every stored Long is 64-bit and every stored Integer 32-bit, as Java guarantees. */
  predicate NumbersAreJavaSized(e: EntityValues) {
    forall k :: k in e ==>
      (e[k].JLong? ==> JavaLang.IsInt64(e[k].l)) && (e[k].JInt? ==> JavaLang.IsInt32(e[k].i))
  }

  /** getIds: one entry per entity, in collection order. */
  function GetIds(es: seq<EntityValues>): (r: seq<Option<string>>)
    ensures |r| == |es|
    ensures forall i :: 0 <= i < |es| ==> r[i] == GetIdAsString(es[i])
  {
    if |es| == 0 then [] else [GetIdAsString(es[0])] + GetIds(es[1..])
  }

  /**
   * setId: -1 is refused with IllegalArgumentException (it signals a failed insert); any other
   * value, null included, is stored under "_id".
   */
  function SetId(e: EntityValues, id: Option<int>): (r: Result<EntityValues>)
    ensures r.Failure? <==> id == Some(-1)
    ensures r.Success? ==> r.value == e[IdKey := BoxedLong(id)]
  {
    if id == Some(-1) then Failure("IllegalArgumentException: Entity can't have ID value -1, failed database insert?")
    else Success(e[IdKey := BoxedLong(id)])
  }

  /** An id set is the id read back, and the other values are untouched. */
  lemma SetIdThenGetId(e: EntityValues, id: Option<int>)
    requires id != Some(-1)
    ensures SetId(e, id).Success?
    ensures GetId(SetId(e, id).value) == id
    ensures forall k :: k in e && k != IdKey ==> SetId(e, id).value[k] == e[k]
  {
  }

  /** getEntityName: the class's simple name lower-cased. */
  function EntityName(simpleName: string): (r: string)
    ensures |r| == |simpleName|
    ensures forall i :: 0 <= i < |r| ==> r[i] == JavaLang.ToLowerChar(simpleName[i])
  {
    JavaLang.ToLower(simpleName)
  }

  /** getTableName: the class's simple name upper-cased. */
  function TableName(simpleName: string): (r: string)
    ensures |r| == |simpleName|
    ensures forall i :: 0 <= i < |r| ==> r[i] == JavaLang.ToUpperChar(simpleName[i])
  {
    JavaLang.ToUpper(simpleName)
  }

  /** The entity and the table name of a class name differ only in case. */
  lemma EntityAndTableNamesAgreeIgnoringCase(simpleName: string)
    ensures JavaLang.EqualsIgnoreCase(EntityName(simpleName), TableName(simpleName))
  {
    assert forall i :: 0 <= i < |simpleName| ==>
      JavaLang.ToUpperChar(JavaLang.ToLowerChar(simpleName[i])) == JavaLang.ToUpperChar(JavaLang.ToUpperChar(simpleName[i]));
  }

  /**
   * getValue: refused for an enum column (IllegalArgumentException); otherwise the stored value
   * under the column's name, null when there is none.
   */
  function GetValue(e: EntityValues, c: Column): (r: Result<JavaValue>)
    ensures r.Failure? <==> c.dataType.EnumType?
    ensures r.Success? ==> (c.name in e ==> r.value == e[c.name]) && (c.name !in e ==> r.value == JNull)
  {
    if c.dataType.EnumType? then Failure("IllegalArgumentException: Can't instantiate enum, use getValueAsString()")
    else if c.name in e then Success(e[c.name])
    else Success(JNull)
  }

  /** ContentValues.getAsString: the stored value's toString, null for a missing or null value. */
  function GetValueAsString(e: EntityValues, c: Column): (r: Option<string>)
    ensures c.name !in e || e[c.name] == JNull ==> r.None?
    ensures c.name in e && e[c.name].JString? ==> r == Some(e[c.name].s)
  {
    if c.name !in e then None
    else
      match e[c.name]
      case JNull => None
      case JString(s) => Some(s)
      case JLong(l) => Some(JavaLang.IntToString(l))
      case JInt(i) => Some(JavaLang.IntToString(i))
      case JBool(b) => Some(JavaLang.BoolToString(b))
      case JEnum(n) => Some(n)
  }

  /** An enum column cannot be read through getValue but its stored name comes back as a string. */
  lemma EnumValuesReadAsString(c: Column, name: string)
    requires c.dataType.EnumType? && name in c.dataType.constants
    ensures Write(map[], c, JEnum(name)).Success?
    ensures GetValue(Write(map[], c, JEnum(name)).value, c).Failure?
    ensures GetValueAsString(Write(map[], c, JEnum(name)).value, c) == Some(name)
  {
  }

  /** DataType.read of a boxed parameter: a missing column fails, a null cell stays null. */
  function ReadAll(cur: Cursor, cs: seq<Column>, prefixes: seq<Option<string>>): (r: Result<seq<JavaValue>>)
    requires WellFormed(cur) && |cs| == |prefixes|
    ensures r.Success? ==> |r.value| == |cs|
    ensures r.Success? ==> forall i :: 0 <= i < |cs| ==> Read(cur, cs[i], prefixes[i]) == Success(r.value[i])
    ensures (forall i :: 0 <= i < |cs| ==> Read(cur, cs[i], prefixes[i]).Success?) ==> r.Success?
  {
    var outcomes := seq(|cs|, i requires 0 <= i < |cs| => Read(cur, cs[i], prefixes[i]));
    assert forall i :: 0 <= i < |cs| ==> outcomes[i] == Read(cur, cs[i], prefixes[i]);
    AllValues(outcomes)
  }


  /** Passing a value read from the cursor to a primitive parameter: null unboxes to a NullPointerException. */
  function Unbox(vs: seq<JavaValue>, primitive: seq<bool>): (r: Result<seq<JavaValue>>)
    requires |vs| == |primitive|
    ensures r.Success? <==> forall i :: 0 <= i < |vs| && primitive[i] ==> vs[i] != JNull
    ensures r.Success? ==> r.value == vs
  {
    if forall i :: 0 <= i < |vs| && primitive[i] ==> vs[i] != JNull then Success(vs)
    else Failure("NullPointerException: null passed to a primitive parameter")
  }

  /**
   * A cursor constructor's arguments: DataType.read of every column, each passed to a parameter
   * that is a primitive or not. It succeeds exactly when every read does and no primitive
   * receives a null; the values read are ones writeAll takes back.
   */
  function ReadArguments(cur: Cursor, cs: seq<Column>, prefixes: seq<Option<string>>, primitive: seq<bool>)
    : (r: Result<seq<JavaValue>>)
    requires WellFormed(cur) && |cs| == |prefixes| == |primitive|
    ensures r.Success? <==> forall i :: 0 <= i < |cs| ==>
      Read(cur, cs[i], prefixes[i]).Success? && (primitive[i] ==> Read(cur, cs[i], prefixes[i]).value != JNull)
    ensures r.Success? ==> |r.value| == |cs| && AllAccepted(cs, r.value)
    ensures r.Success? ==> forall i :: 0 <= i < |cs| ==> Read(cur, cs[i], prefixes[i]) == Success(r.value[i])
  {
    var vs :- ReadAll(cur, cs, prefixes);
    assert forall i :: 0 <= i < |cs| && vs[i] != JNull ==> Accepts(cs[i].dataType, vs[i]) by {
      forall i | 0 <= i < |cs| && vs[i] != JNull ensures Accepts(cs[i].dataType, vs[i]) {
        assert Read(cur, cs[i], prefixes[i]) == Success(vs[i]);
      }
    }
    Unbox(vs, primitive)
  }
}

=== FILE: feed_reader.dfy ===
/**
 * model/FeedReader: the reader's selection state. Selecting a feed configuration records its list
 * position, id and URL; deselecting resets them and forgets whether entries were loaded.
 */
module FeedReader {
  import opened Wrappers

  /** The reader's fields; D stands for the FeedEntryDetails value, which these operations never touch. */
  datatype FeedReader<D> = FeedReader(feedPosition: int, feedId: int, feedUrl: Option<string>,
                                      haveEntries: bool, feedEntryDetails: Option<D>)

  const NoPosition: int := -1
  const NoId: int := -1

  /** Nothing selected: no position, no id, no URL and no loaded entries. */
  predicate Deselected<D>(r: FeedReader<D>) {
    r.feedPosition == NoPosition && r.feedId == NoId && r.feedUrl == None && !r.haveEntries
  }

  /** A freshly constructed reader: the field initialisers, with nulls and false elsewhere. */
  function Initial<D>(): (r: FeedReader<D>)
    ensures Deselected(r) && r.feedEntryDetails == None
  {
    FeedReader(-1, -1, None, false, None)
  }

  /** onFeedEntriesLoaded: records whether the selected feed has entries and changes nothing else. */
  function OnFeedEntriesLoaded<D>(r: FeedReader<D>, haveEntries: bool): (r': FeedReader<D>)
    ensures r'.haveEntries == haveEntries
    ensures r'.feedPosition == r.feedPosition && r'.feedId == r.feedId && r'.feedUrl == r.feedUrl
    ensures r'.feedEntryDetails == r.feedEntryDetails
  {
    r.(haveEntries := haveEntries)
  }

  /** onFeedConfigSelected: records the selection and keeps the entries flag and the details. */
  function OnFeedConfigSelected<D>(r: FeedReader<D>, position: int, id: int, url: Option<string>): (r': FeedReader<D>)
    ensures r'.feedPosition == position && r'.feedId == id && r'.feedUrl == url
    ensures r'.haveEntries == r.haveEntries && r'.feedEntryDetails == r.feedEntryDetails
  {
    r.(feedPosition := position, feedId := id, feedUrl := url)
  }

  /** onFeedConfigDeselected: resets the selection and the entries flag, keeps the details. */
  function OnFeedConfigDeselected<D>(r: FeedReader<D>): (r': FeedReader<D>)
    ensures Deselected(r')
    ensures r'.feedEntryDetails == r.feedEntryDetails
  {
    r.(feedPosition := -1, feedId := -1, feedUrl := None, haveEntries := false)
  }

  /** Deselecting forgets everything a selection or a load recorded. */
  lemma DeselectForgetsTheSelection<D>(r: FeedReader<D>, position: int, id: int, url: Option<string>, have: bool)
    ensures OnFeedConfigDeselected(OnFeedConfigSelected(r, position, id, url)) == OnFeedConfigDeselected(r)
    ensures OnFeedConfigDeselected(OnFeedEntriesLoaded(r, have)) == OnFeedConfigDeselected(r)
  {
  }

  /** Deselecting is idempotent, and a fresh reader is already deselected. */
  lemma DeselectIsIdempotent<D>(r: FeedReader<D>)
    ensures OnFeedConfigDeselected(OnFeedConfigDeselected(r)) == OnFeedConfigDeselected(r)
    ensures OnFeedConfigDeselected(Initial<D>()) == Initial<D>()
  {
  }

  /** A later selection overrides an earlier one, whatever was loaded in between. */
  lemma SelectOverridesSelect<D>(r: FeedReader<D>, p1: int, i1: int, u1: Option<string>, p2: int, i2: int, u2: Option<string>)
    ensures OnFeedConfigSelected(OnFeedConfigSelected(r, p1, i1, u1), p2, i2, u2) == OnFeedConfigSelected(r, p2, i2, u2)
  {
  }
}

=== FILE: java_lang.dfy ===
/**
 * The slice of the Java runtime the application relies on: fixed-width integer arithmetic,
 * decimal conversion (Integer.toString / Integer.valueOf), Boolean.valueOf, String.trim and
 * ASCII case mapping.
 */
module JavaLang {
  import opened Wrappers

  const TwoTo31: int := 0x8000_0000
  const TwoTo32: int := 0x1_0000_0000
  const TwoTo63: int := 0x8000_0000_0000_0000
  const TwoTo64: int := 0x1_0000_0000_0000_0000

  predicate IsInt32(x: int) {
    -TwoTo31 <= x < TwoTo31
  }

  predicate IsInt64(x: int) {
    -TwoTo63 <= x < TwoTo63
  }

  /** Java `int` arithmetic: the two's-complement wrap of an exact result. */
  function Wrap32(x: int): (r: int)
    ensures IsInt32(r)
    ensures (x - r) % TwoTo32 == 0
    ensures IsInt32(x) ==> r == x
  {
    (x + TwoTo31) % TwoTo32 - TwoTo31
  }

  /** Java `long` arithmetic: the two's-complement wrap of an exact result. */
  function Wrap64(x: int): (r: int)
    ensures IsInt64(r)
    ensures (x - r) % TwoTo64 == 0
    ensures IsInt64(x) ==> r == x
  {
    (x + TwoTo63) % TwoTo64 - TwoTo63
  }

  // ---------------------------------------------------------------------------------------------
  // Decimal text

  predicate IsDigit(c: char) {
    '0' <= c <= '9'
  }

  predicate AllDigits(s: string) {
    forall i :: 0 <= i < |s| ==> IsDigit(s[i])
  }

  function DigitChar(d: nat): (c: char)
    requires d < 10
    ensures IsDigit(c)
  {
    ('0' as int + d) as char
  }

  function DigitValue(c: char): (d: nat)
    requires IsDigit(c)
    ensures d < 10
  {
    c as int - '0' as int
  }

  /** The value of a string of decimal digits, most significant first. */
  function DecimalValue(s: string): nat
    requires AllDigits(s)
  {
    if |s| == 0 then 0 else 10 * DecimalValue(s[..|s| - 1]) + DigitValue(s[|s| - 1])
  }

  /** The canonical decimal digits of a natural number: no leading zero except for 0 itself. */
  function NatToDecimal(n: nat): (s: string)
    ensures |s| > 0 && AllDigits(s)
    ensures s[0] == '0' <==> n == 0
  {
    if n < 10 then [DigitChar(n)] else NatToDecimal(n / 10) + [DigitChar(n % 10)]
  }

  lemma {:induction false} DecimalValueOfNatToDecimal(n: nat)
    ensures DecimalValue(NatToDecimal(n)) == n
  {
    if n >= 10 {
      var s := NatToDecimal(n);
      assert s[..|s| - 1] == NatToDecimal(n / 10);
      DecimalValueOfNatToDecimal(n / 10);
    }
  }

  /** Integer.toString / Long.toString: an optional minus sign followed by canonical digits. */
  function IntToString(i: int): (s: string)
    ensures |s| > 0
    ensures i < 0 <==> s[0] == '-'
    ensures i >= 0 ==> AllDigits(s)
    ensures i < 0 ==> |s| > 1 && AllDigits(s[1..])
  {
    if i < 0 then "-" + NatToDecimal(-i) else NatToDecimal(i)
  }

  /**
   * The decimal grammar of Integer.valueOf and Long.valueOf: an optional sign ('-' or '+')
   * followed by at least one decimal digit; anything else is a NumberFormatException.
   */
  function ParseSigned(s: string): (r: Result<int>)
    ensures |s| == 0 ==> r.Failure?
    ensures r.Success? <==>
      (|s| > 0 && if s[0] == '-' || s[0] == '+' then |s| > 1 && AllDigits(s[1..]) else AllDigits(s))
    ensures r.Success? && r.value < 0 ==> s[0] == '-'
    ensures r.Success? && s[0] != '-' ==> r.value >= 0
  {
    if |s| == 0 then Failure("NumberFormatException: empty string")
    else
      var negative := s[0] == '-';
      var signed := s[0] == '-' || s[0] == '+';
      var digits := if signed then s[1..] else s;
      if |digits| == 0 || !AllDigits(digits) then Failure("NumberFormatException: " + s)
      else
        var magnitude: int := DecimalValue(digits);
        Success(if negative then -magnitude else magnitude)
  }

  /** Integer.valueOf(String): the decimal value, which must fit in 32 bits. */
  function ParseInt(s: string): (r: Result<int>)
    ensures r.Success? ==> IsInt32(r.value) && ParseSigned(s) == r
    ensures r.Failure? ==> ParseSigned(s).Failure? || !IsInt32(ParseSigned(s).value)
  {
    var v :- ParseSigned(s);
    if IsInt32(v) then Success(v) else Failure("NumberFormatException: out of range " + s)
  }

  /** Long.valueOf(String): the decimal value, which must fit in 64 bits. */
  function ParseLong(s: string): (r: Result<int>)
    ensures r.Success? ==> IsInt64(r.value) && ParseSigned(s) == r
    ensures r.Failure? ==> ParseSigned(s).Failure? || !IsInt64(ParseSigned(s).value)
  {
    var v :- ParseSigned(s);
    if IsInt64(v) then Success(v) else Failure("NumberFormatException: out of range " + s)
  }

  /** Parsing the decimal text of any integer gives the integer back. */
  lemma ParseSignedOfIntToString(i: int)
    ensures ParseSigned(IntToString(i)) == Success(i)
  {
    var s := IntToString(i);
    if i < 0 {
      assert s[1..] == NatToDecimal(-i);
      DecimalValueOfNatToDecimal(-i);
    } else {
      DecimalValueOfNatToDecimal(i);
    }
  }

  /** A leading plus sign changes nothing: "+" followed by digits parses like the digits alone. */
  lemma ParseSignedIgnoresPlus(t: string)
    requires |t| > 0 && IsDigit(t[0])
    ensures ParseSigned("+" + t).Success? <==> ParseSigned(t).Success?
    ensures ParseSigned(t).Success? ==> ParseSigned("+" + t).value == ParseSigned(t).value
  {
    var p := "+" + t;
    assert p[0] == '+' && p[1..] == t && t[0] != '-' && t[0] != '+';
  }

  /** Integer.valueOf(Integer.toString(i)) == i for every 32-bit i. */
  lemma ParseIntOfIntToString(i: int)
    requires IsInt32(i)
    ensures ParseInt(IntToString(i)) == Success(i)
  {
    ParseSignedOfIntToString(i);
  }

  /** Long.valueOf(Long.toString(l)) == l for every 64-bit l. */
  lemma ParseLongOfIntToString(l: int)
    requires IsInt64(l)
    ensures ParseLong(IntToString(l)) == Success(l)
  {
    ParseSignedOfIntToString(l);
  }

  // ---------------------------------------------------------------------------------------------
  // Characters and case

  /** The characters the regular-expression class `\s` matches: space, \t, \n, \x0B, \f, \r. */
  predicate IsRegexWhitespace(c: char) {
    c == ' ' || c == '\t' || c == '\n' || c == 11 as char || c == 12 as char || c == '\r'
  }

  function ToLowerChar(c: char): (r: char)
    ensures 'A' <= c <= 'Z' ==> 'a' <= r <= 'z'
    ensures !('A' <= c <= 'Z') ==> r == c
  {
    if 'A' <= c <= 'Z' then (c as int + 32) as char else c
  }

  function ToUpperChar(c: char): (r: char)
    ensures 'a' <= c <= 'z' ==> 'A' <= r <= 'Z'
    ensures !('a' <= c <= 'z') ==> r == c
  {
    if 'a' <= c <= 'z' then (c as int - 32) as char else c
  }

  /** String.toLowerCase, restricted to the ASCII letters. */
  function ToLower(s: string): (r: string)
    ensures |r| == |s|
    ensures forall i :: 0 <= i < |s| ==> r[i] == ToLowerChar(s[i])
  {
    seq(|s|, i requires 0 <= i < |s| => ToLowerChar(s[i]))
  }

  /** String.toUpperCase, restricted to the ASCII letters. */
  function ToUpper(s: string): (r: string)
    ensures |r| == |s|
    ensures forall i :: 0 <= i < |s| ==> r[i] == ToUpperChar(s[i])
  {
    seq(|s|, i requires 0 <= i < |s| => ToUpperChar(s[i]))
  }

  /** String.equalsIgnoreCase, restricted to the ASCII letters. */
  predicate EqualsIgnoreCase(a: string, b: string)
    ensures EqualsIgnoreCase(a, b) ==> |a| == |b|
    ensures a == b ==> EqualsIgnoreCase(a, b)
  {
    ToLower(a) == ToLower(b)
  }

  /** Comparing the lower-case forms is the same as comparing the upper-case forms. */
  lemma EqualsIgnoreCaseByUpperCase(a: string, b: string)
    ensures EqualsIgnoreCase(a, b) <==> ToUpper(a) == ToUpper(b)
  {
    if |a| == |b| {
      assert (forall i :: 0 <= i < |a| ==> ToLowerChar(a[i]) == ToLowerChar(b[i]))
         <==> (forall i :: 0 <= i < |a| ==> ToUpperChar(a[i]) == ToUpperChar(b[i]));
      if ToLower(a) == ToLower(b) {
        assert forall i :: 0 <= i < |a| ==> ToLower(a)[i] == ToLower(b)[i];
      }
      if ToUpper(a) == ToUpper(b) {
        assert forall i :: 0 <= i < |a| ==> ToUpper(a)[i] == ToUpper(b)[i];
      }
    }
  }

  /** String.trim's notion of blank: every character at or below U+0020. */
  predicate IsTrimmable(c: char) {
    c <= ' '
  }

  function TrimStart(s: string): (r: string)
    ensures |r| <= |s| && r == s[|s| - |r|..]
    ensures |r| > 0 ==> !IsTrimmable(r[0])
    ensures forall i :: 0 <= i < |s| - |r| ==> IsTrimmable(s[i])
  {
    if |s| > 0 && IsTrimmable(s[0]) then TrimStart(s[1..]) else s
  }

  function TrimEnd(s: string): (r: string)
    ensures |r| <= |s| && r == s[..|r|]
    ensures |r| > 0 ==> !IsTrimmable(r[|r| - 1])
    ensures forall i :: |r| <= i < |s| ==> IsTrimmable(s[i])
  {
    if |s| > 0 && IsTrimmable(s[|s| - 1]) then TrimEnd(s[..|s| - 1]) else s
  }

  /** String.trim: the input without its leading and trailing blanks. */
  function Trim(s: string): (r: string)
    ensures |r| <= |s|
    ensures |r| > 0 ==> !IsTrimmable(r[0]) && !IsTrimmable(r[|r| - 1])
    ensures |r| <= |TrimStart(s)| && r == TrimStart(s)[..|r|]
    ensures |r| > 0 <==> exists i :: 0 <= i < |s| && !IsTrimmable(s[i])
  {
    TrimKeepsNonBlank(s);
    TrimEnd(TrimStart(s))
  }

  lemma TrimKeepsNonBlank(s: string)
    ensures (exists i :: 0 <= i < |s| && !IsTrimmable(s[i])) ==> |TrimEnd(TrimStart(s))| > 0
  {
    var t := TrimStart(s);
    if exists i :: 0 <= i < |s| && !IsTrimmable(s[i]) {
      var i :| 0 <= i < |s| && !IsTrimmable(s[i]);
      assert |s| - |t| <= i;
      assert |t| > 0;
    }
  }

  /** Boolean.toString. */
  function BoolToString(b: bool): string {
    if b then "true" else "false"
  }

  /** Boolean.valueOf(String): true exactly for a non-null "true" in any letter case. */
  function BoolValueOf(s: Option<string>): (b: bool)
    ensures b <==> s.Some? && |s.value| == 4 && ToLower(s.value) == "true"
  {
    s.Some? && EqualsIgnoreCase(s.value, "true")
  }

  lemma BoolValueOfBoolToString(b: bool)
    ensures BoolValueOf(Some(BoolToString(b))) == b
  {
    if !b {
      assert ToLower("false")[0] == 'f';
    }
  }
}

=== FILE: opml.dfy ===
/**
 * imexport/OPML: the element and attribute names of an OPML document and the Outline, the
 * feed-configuration settings one `outline` element carries. An outline is read from the
 * attributes of an imported element or from a row of the feed-configuration query, written back
 * onto an element for export, and turned into a FeedConfig for insertion. URL normalisation
 * (`new URL(v).toString()`) is a parameter, and so is the default text colour.
 */
module Opml {
  import opened Wrappers
  import opened Query
  import opened Values
  import opened JavaLang
  import E = Entity
  import S = Schema
  import Entities

  // ---------------------------------------------------------------------------------------------
  // Element names

  datatype Element = OpmlElement | HeadElement | TitleElement | BodyElement | OutlineElement

  const ElementNames: seq<string> := ["opml", "head", "title", "body", "outline"]

  /** The enum constant's name. */
  function ElementName(e: Element): (n: string)
    ensures n in ElementNames
  {
    match e
    case OpmlElement => "opml"
    case HeadElement => "head"
    case TitleElement => "title"
    case BodyElement => "body"
    case OutlineElement => "outline"
  }

  /**
   * ELEMENT.valueOrNullOf: the constant with exactly this name, or null for any other name; a null
   * name is not caught (valueOf throws NullPointerException for it).
   */
  function ElementValueOrNullOf(name: Option<string>): (r: Result<Option<Element>>)
    ensures r.Failure? <==> name.None?
    ensures r.Success? ==> (r.value.Some? <==> name.value in ElementNames)
    ensures r.Success? && r.value.Some? ==> ElementName(r.value.value) == name.value
  {
    match name
    case None => Failure("NullPointerException: Name is null")
    case Some(s) =>
      if s == "opml" then Success(Some(OpmlElement))
      else if s == "head" then Success(Some(HeadElement))
      else if s == "title" then Success(Some(TitleElement))
      else if s == "body" then Success(Some(BodyElement))
      else if s == "outline" then Success(Some(OutlineElement))
      else Success(None)
  }

  /** ELEMENT.equals(Node): the constant's name against the node's local name, false for none. */
  predicate ElementEquals(e: Element, localName: Option<string>) {
    localName.Some? && ElementName(e) == localName.value
  }

  /** An element matches a node exactly when valueOrNullOf maps the node's name back to it. */
  lemma ElementEqualsAgreesWithValueOf(e: Element, localName: Option<string>)
    ensures ElementEquals(e, localName) <==> ElementValueOrNullOf(localName) == Success(Some(e))
  {
    if localName.Some? {
      match e
      case OpmlElement =>
      case HeadElement =>
      case TitleElement =>
      case BodyElement =>
      case OutlineElement =>
    }
  }

  // ---------------------------------------------------------------------------------------------
  // Attribute names

  datatype Attribute =
    | Version | Title | Text | Type | XmlUrl
    | RefreshInterval | PreviewLength | EntryPrefix | TextColor | MaxAgeDays | NotifyNew

  /** The enum constant's name, which is the XML attribute's name. */
  function AttributeName(a: Attribute): (r: string)
    ensures r != ""
  {
    match a
    case Version => "version"
    case Title => "title"
    case Text => "text"
    case Type => "type"
    case XmlUrl => "xmlUrl"
    case RefreshInterval => "refreshInterval"
    case PreviewLength => "previewLength"
    case EntryPrefix => "entryPrefix"
    case TextColor => "textColor"
    case MaxAgeDays => "maxAgeDays"
    case NotifyNew => "notifyNew"
  }

  /** The seven attributes an Outline reads and writes. */
  const OutlineAttributes: set<Attribute> :=
    {XmlUrl, RefreshInterval, PreviewLength, EntryPrefix, TextColor, MaxAgeDays, NotifyNew}

  /** No two attributes share a name, so writing one never overwrites another. */
  lemma AttributeNamesAreDistinct(a: Attribute, b: Attribute)
    ensures AttributeName(a) == AttributeName(b) ==> a == b
  {
    if a != b {
      var n, m := AttributeName(a), AttributeName(b);
      assert |n| != |m| || n[0] != m[0] || n[1] != m[1] || n[|n| - 1] != m[|m| - 1];
    }
  }

  // ---------------------------------------------------------------------------------------------
  // Outline

  /** The SAX attributes of an element: Attributes.getValue gives null for an absent name. */
  type Attributes = map<string, string>

  function Value(attrs: Attributes, a: Attribute): (r: Option<string>)
    ensures r.Some? <==> AttributeName(a) in attrs
    ensures r.Some? ==> r.value == attrs[AttributeName(a)]
  {
    if AttributeName(a) in attrs then Some(attrs[AttributeName(a)]) else None
  }

  /**
   * Outline's fields; every one is a nullable reference in the source. The enum fields hold the
   * constant's name.
   */
  datatype Outline = Outline(xmlUrl: Option<string>, refreshInterval: Option<int>,
                             previewLength: Option<string>, entryPrefix: Option<string>,
                             textColor: Option<int>, maxAgeDays: Option<int>, notifyNew: Option<bool>)

  /** No field is null. */
  predicate Complete(o: Outline) {
    o.xmlUrl.Some? && o.refreshInterval.Some? && o.previewLength.Some? && o.entryPrefix.Some?
    && o.textColor.Some? && o.maxAgeDays.Some? && o.notifyNew.Some?
  }

  /** What an Integer field and the two enum fields can hold. */
  predicate InRange(o: Outline) {
    (o.refreshInterval.Some? ==> IsInt32(o.refreshInterval.value))
    && (o.textColor.Some? ==> IsInt32(o.textColor.value))
    && (o.maxAgeDays.Some? ==> IsInt32(o.maxAgeDays.value))
    && Entities.NullOrIn(o.previewLength, S.PreviewLengths)
    && Entities.NullOrIn(o.entryPrefix, S.EntryPrefixes)
  }

  /** An Integer attribute: Integer.valueOf of the text when present, the default otherwise. */
  function IntegerOr(v: Option<string>, default: int): (r: Result<int>)
    ensures v.None? ==> r == Success(default)
    ensures v.Some? ==> r == ParseInt(v.value)
  {
    if v.Some? then ParseInt(v.value) else Success(default)
  }

  /** An enum attribute: valueOf of the text, with an absent or unknown name giving the default. */
  function EnumOr(v: Option<string>, constants: seq<string>, default: string): (r: string)
    ensures default in constants ==> r in constants
    ensures v.Some? && v.value in constants ==> r == v.value
    ensures v.None? || v.value !in constants ==> r == default
  {
    if v.Some? && v.value in constants then v.value else default
  }

  /** An attribute that is absent or that Integer.valueOf accepts. */
  predicate ParsesIfPresent(attrs: Attributes, a: Attribute) {
    Value(attrs, a).None? || ParseInt(Value(attrs, a).value).Success?
  }

  /**
   * Outline(Attributes): xmlUrl is required and normalised; the three Integer attributes are
   * parsed when present (a malformed number propagates) and default otherwise; an absent or
   * unknown enum name gives the default; notifyNew is Boolean.valueOf when present.
   */
  function OutlineOfAttributes(attrs: Attributes, normalizeUrl: string -> Result<string>,
                               defaultTextColor: int): (r: Result<Outline>)
    ensures r.Success? <==>
      (Value(attrs, XmlUrl).Some? && normalizeUrl(Value(attrs, XmlUrl).value).Success?
       && ParsesIfPresent(attrs, RefreshInterval) && ParsesIfPresent(attrs, TextColor)
       && ParsesIfPresent(attrs, MaxAgeDays))
    ensures r.Success? ==> Complete(r.value)
    ensures r.Success? && IsInt32(defaultTextColor) ==> InRange(r.value)
    ensures r.Success? ==> r.value.xmlUrl == Some(normalizeUrl(Value(attrs, XmlUrl).value).value)
  {
    var url :- (if Value(attrs, XmlUrl).Some? then normalizeUrl(Value(attrs, XmlUrl).value)
                else Failure("Missing attribute: xmlUrl"));
    var refreshInterval :- IntegerOr(Value(attrs, RefreshInterval), S.DefaultRefreshInterval);
    var previewLength := EnumOr(Value(attrs, PreviewLength), S.PreviewLengths, S.DefaultPreviewLength);
    var entryPrefix := EnumOr(Value(attrs, EntryPrefix), S.EntryPrefixes, S.DefaultEntryPrefix);
    var textColor :- IntegerOr(Value(attrs, TextColor), defaultTextColor);
    var maxAgeDays :- IntegerOr(Value(attrs, MaxAgeDays), S.DefaultMaxAgeDays);
    var notifyNew := if Value(attrs, NotifyNew).Some? then BoolValueOf(Value(attrs, NotifyNew))
                     else S.DefaultNotifyNew;
    Success(Outline(Some(url), Some(refreshInterval), Some(previewLength), Some(entryPrefix),
                    Some(textColor), Some(maxAgeDays), Some(notifyNew)))
  }

  /** Absent optional attributes take the FeedConfig defaults. */
  lemma AbsentAttributesTakeTheDefaults(attrs: Attributes, normalizeUrl: string -> Result<string>,
                                        defaultTextColor: int)
    requires OutlineOfAttributes(attrs, normalizeUrl, defaultTextColor).Success?
    ensures var o := OutlineOfAttributes(attrs, normalizeUrl, defaultTextColor).value;
      && (Value(attrs, RefreshInterval).None? ==> o.refreshInterval == Some(S.DefaultRefreshInterval))
      && (Value(attrs, PreviewLength).None? ==> o.previewLength == Some(S.DefaultPreviewLength))
      && (Value(attrs, EntryPrefix).None? ==> o.entryPrefix == Some(S.DefaultEntryPrefix))
      && (Value(attrs, TextColor).None? ==> o.textColor == Some(defaultTextColor))
      && (Value(attrs, MaxAgeDays).None? ==> o.maxAgeDays == Some(S.DefaultMaxAgeDays))
      && (Value(attrs, NotifyNew).None? ==> o.notifyNew == Some(S.DefaultNotifyNew))
  {
  }

  /**
   * setAttributes: writes the seven attributes by toString. A null Integer, enum or Boolean field
   * is dereferenced (NullPointerException); a null xmlUrl leaves the attribute unset. Attributes
   * already on the element keep their value unless overwritten.
   */
  function SetAttributes(o: Outline, attrs: Attributes): (r: Result<Attributes>)
    ensures r.Success? <==>
      (o.refreshInterval.Some? && o.previewLength.Some? && o.entryPrefix.Some? && o.textColor.Some?
       && o.maxAgeDays.Some? && o.notifyNew.Some?)
    ensures r.Success? ==> forall k :: k in attrs && k !in AttributeNames(OutlineAttributes) ==>
      k in r.value && r.value[k] == attrs[k]
    ensures r.Success? ==> forall a :: a in OutlineAttributes && a != XmlUrl ==> Value(r.value, a).Some?
  {
    if o.refreshInterval.None? || o.previewLength.None? || o.entryPrefix.None? || o.textColor.None?
       || o.maxAgeDays.None? || o.notifyNew.None?
    then Failure("NullPointerException: outline field is null")
    else
      var withUrl := if o.xmlUrl.Some? then attrs[AttributeName(XmlUrl) := o.xmlUrl.value] else attrs;
      Success(withUrl[AttributeName(RefreshInterval) := IntToString(o.refreshInterval.value)]
                     [AttributeName(PreviewLength) := o.previewLength.value]
                     [AttributeName(EntryPrefix) := o.entryPrefix.value]
                     [AttributeName(TextColor) := IntToString(o.textColor.value)]
                     [AttributeName(MaxAgeDays) := IntToString(o.maxAgeDays.value)]
                     [AttributeName(NotifyNew) := BoolToString(o.notifyNew.value)])
  }

  function AttributeNames(as_: set<Attribute>): set<string> {
    set a | a in as_ :: AttributeName(a)
  }

  /** Each attribute setAttributes writes carries the field's text. */
  lemma SetAttributesWritesTheFields(o: Outline, attrs: Attributes)
    requires SetAttributes(o, attrs).Success?
    ensures var w := SetAttributes(o, attrs).value;
      && Value(w, XmlUrl) == (if o.xmlUrl.Some? then o.xmlUrl else Value(attrs, XmlUrl))
      && Value(w, RefreshInterval) == Some(IntToString(o.refreshInterval.value))
      && Value(w, PreviewLength) == o.previewLength
      && Value(w, EntryPrefix) == o.entryPrefix
      && Value(w, TextColor) == Some(IntToString(o.textColor.value))
      && Value(w, MaxAgeDays) == Some(IntToString(o.maxAgeDays.value))
      && Value(w, NotifyNew) == Some(BoolToString(o.notifyNew.value))
  {
  }

  /**
   * Export then import: an outline with every field set and in range, whose URL is already in
   * normal form, is read back unchanged from the attributes setAttributes wrote.
   */
  lemma {:induction false} ImportOfExportIsIdentity(o: Outline, attrs: Attributes,
                                                    normalizeUrl: string -> Result<string>, defaultTextColor: int)
    requires Complete(o) && InRange(o)
    requires normalizeUrl(o.xmlUrl.value) == Success(o.xmlUrl.value)
    ensures SetAttributes(o, attrs).Success?
    ensures OutlineOfAttributes(SetAttributes(o, attrs).value, normalizeUrl, defaultTextColor) == Success(o)
  {
    SetAttributesWritesTheFields(o, attrs);
    ParseIntOfIntToString(o.refreshInterval.value);
    ParseIntOfIntToString(o.textColor.value);
    ParseIntOfIntToString(o.maxAgeDays.value);
    BoolValueOfBoolToString(o.notifyNew.value);
  }

  /** An outline without a URL, exported onto an element without one, cannot be imported again. */
  lemma ImportFailsWithoutUrl(o: Outline, attrs: Attributes, normalizeUrl: string -> Result<string>,
                              defaultTextColor: int)
    requires o.xmlUrl.None? && AttributeName(XmlUrl) !in attrs
    requires SetAttributes(o, attrs).Success?
    ensures OutlineOfAttributes(SetAttributes(o, attrs).value, normalizeUrl, defaultTextColor).Failure?
  {
    SetAttributesWritesTheFields(o, attrs);
  }

  // ---------------------------------------------------------------------------------------------
  // Outline from a query row, and to a FeedConfig

  function AsString(v: JavaValue): Option<string> {
    match v
    case JString(s) => Some(s)
    case JEnum(n) => Some(n)
    case _ => None
  }

  function AsInt(v: JavaValue): Option<int> {
    match v
    case JInt(i) => Some(i)
    case JLong(l) => Some(l)
    case _ => None
  }

  function AsBool(v: JavaValue): Option<bool> {
    match v
    case JBool(b) => Some(b)
    case _ => None
  }

  /** The columns Outline(Cursor) reads, in field order. */
  function OutlineColumns(env: Env): (cs: seq<Column>)
    ensures |cs| == 7
  {
    [S.FeedConfigUrl(env), S.FeedConfigRefreshInterval(env), S.FeedConfigPreviewLength(env),
     S.FeedConfigEntryPrefix(env), S.FeedConfigTextColor(env), S.FeedConfigMaxAgeDays(env),
     S.FeedConfigNotifyNew(env)]
  }

  /** Every column is read under the FeedConfig alias prefix. */
  const OutlinePrefixes: seq<Option<string>> :=
    [Some("fc"), Some("fc"), Some("fc"), Some("fc"), Some("fc"), Some("fc"), Some("fc")]

  /** The fields of an outline read from a row: a null cell leaves the field null. */
  function OutlineOfValues(vs: seq<JavaValue>): (o: Outline)
    requires |vs| == 7
  {
    Outline(AsString(vs[0]), AsInt(vs[1]), AsString(vs[2]), AsString(vs[3]), AsInt(vs[4]), AsInt(vs[5]),
            AsBool(vs[6]))
  }

  /**
   * Outline(Cursor): the seven columns read under the FeedConfig alias prefix; a column missing
   * from the row or an unknown enum name fails the read.
   */
  function OutlineOfCursor(env: Env, cur: Cursor): (r: Result<Outline>)
    requires WellFormed(cur)
    ensures r.Success? <==> forall i :: 0 <= i < 7 ==> Read(cur, OutlineColumns(env)[i], OutlinePrefixes[i]).Success?
  {
    var vs :- E.ReadAll(cur, OutlineColumns(env), OutlinePrefixes);
    Success(OutlineOfValues(vs))
  }

  /** The enum fields of an outline read from a row hold constants of their enums, or null. */
  lemma OutlineOfCursorReadsConstants(env: Env, cur: Cursor)
    requires WellFormed(cur) && OutlineOfCursor(env, cur).Success?
    ensures Entities.NullOrIn(OutlineOfCursor(env, cur).value.previewLength, S.PreviewLengths)
    ensures Entities.NullOrIn(OutlineOfCursor(env, cur).value.entryPrefix, S.EntryPrefixes)
  {
    var cs := OutlineColumns(env);
    var vs := E.ReadAll(cur, cs, OutlinePrefixes).value;
    ReadEnumIsConstant(cur, cs[2], OutlinePrefixes[2], S.PreviewLengths, vs[2]);
    ReadEnumIsConstant(cur, cs[3], OutlinePrefixes[3], S.EntryPrefixes, vs[3]);
  }

  /** A value read from an enum column is null or one of the enum's constants. */
  lemma ReadEnumIsConstant(cur: Cursor, c: Column, prefix: Option<string>, constants: seq<string>, v: JavaValue)
    requires WellFormed(cur) && c.dataType == EnumType(constants)
    requires Read(cur, c, prefix) == Success(v)
    ensures Entities.NullOrIn(AsString(v), constants)
  {
  }

  /** The URL field holds the text of the row's URL column, null when the cell is. */
  lemma OutlineOfCursorReadsTheUrl(env: Env, cur: Cursor)
    requires WellFormed(cur) && OutlineOfCursor(env, cur).Success?
    ensures Read(cur, S.FeedConfigUrl(env), Some(S.FeedConfigAliasPrefix)).Success?
    ensures OutlineOfCursor(env, cur).value.xmlUrl
         == AsString(Read(cur, S.FeedConfigUrl(env), Some(S.FeedConfigAliasPrefix)).value)
  {
    var cs := OutlineColumns(env);
    var vs := E.ReadAll(cur, cs, OutlinePrefixes).value;
    assert Read(cur, cs[0], Some(S.FeedConfigAliasPrefix)) == Success(vs[0]);
  }

  /**
   * toFeedConfig: the full FeedConfig constructor with no id, the default last refresh and ETag;
   * unboxing a null Integer or Boolean field throws.
   */
  function ToFeedConfig(env: Env, o: Outline): (r: Result<E.EntityValues>)
    ensures r.Success? <==>
      (o.refreshInterval.Some? && o.textColor.Some? && o.maxAgeDays.Some? && o.notifyNew.Some?
       && Entities.NullOrIn(o.previewLength, S.PreviewLengths) && Entities.NullOrIn(o.entryPrefix, S.EntryPrefixes))
  {
    if o.refreshInterval.None? || o.textColor.None? || o.maxAgeDays.None? || o.notifyNew.None?
    then Failure("NullPointerException: unboxing a null outline field")
    else
      Entities.NewFeedConfig(env, None, o.xmlUrl, o.refreshInterval.value, o.previewLength, o.entryPrefix,
                             o.textColor.value, S.DefaultLastRefresh, Some(S.DefaultLastRefreshEtag),
                             o.maxAgeDays.value, o.notifyNew.value)
  }

  /**
   * Every imported outline converts: the FeedConfig it gives has no id and writes the URL, both
   * enums, the five primitive columns and the empty ETag.
   */
  lemma ImportedOutlinesConvert(env: Env, attrs: Attributes, normalizeUrl: string -> Result<string>,
                                defaultTextColor: int)
    requires OutlineOfAttributes(attrs, normalizeUrl, defaultTextColor).Success?
    ensures ToFeedConfig(env, OutlineOfAttributes(attrs, normalizeUrl, defaultTextColor).value).Success?
    ensures ToFeedConfig(env, OutlineOfAttributes(attrs, normalizeUrl, defaultTextColor).value).value.Keys
         == Entities.FeedConfigKeys(env, false, true, true, true, true)
  {
    var o := OutlineOfAttributes(attrs, normalizeUrl, defaultTextColor).value;
    var ri, tc, mad, nn := o.refreshInterval.value, o.textColor.value, o.maxAgeDays.value, o.notifyNew.value;
    assert o.previewLength.value in S.PreviewLengths && o.entryPrefix.value in S.EntryPrefixes;
    Entities.NewFeedConfigWritesTheNonNullArguments(env, None, o.xmlUrl, ri, o.previewLength, o.entryPrefix, tc,
                                                    S.DefaultLastRefresh, Some(S.DefaultLastRefreshEtag), mad, nn);
    assert ToFeedConfig(env, o) == Entities.NewFeedConfig(env, None, o.xmlUrl, ri, o.previewLength, o.entryPrefix, tc,
                                                          S.DefaultLastRefresh, Some(S.DefaultLastRefreshEtag), mad, nn);
  }
}

=== FILE: query.dfy ===
/**
 * The typed query model: tables, columns, foreign keys, projections, expressions and
 * restrictions, joins and order-by items, and the "preferred alias" every aliasable node
 * proposes for itself.
 *
 * Java object identity matters here (aliases are kept in an identity-keyed map), so every node
 * that can be aliased carries an `oid`: two nodes are the same object exactly when they are
 * equal values.
 */
module Query {
  import opened Wrappers
  import JavaLang

  /**
   * Collaborators the query package calls whose code is not part of this model; every
   * property proved here holds for any choice of them.
   */
  datatype Env = Env(
    escape: string -> string,              // Sql.escape
    tablePreferredAlias: Table -> string   // TableImpl.getPreferredAlias
  )

  /** DataType.SQLiteType: the storage classes a column can declare. */
  datatype SQLiteType = StringStorage | IntegerStorage | RealStorage

  function SQLiteTypeName(t: SQLiteType): string {
    match t
    case StringStorage => "string"
    case IntegerStorage => "integer"
    case RealStorage => "real"
  }

  /** The DataType constants STRING, LONG, INTEGER, BOOLEAN and DataType.Enum over named constants. */
  datatype DataType =
    | StringType
    | LongType
    | IntegerType
    | BooleanType
    | EnumType(constants: seq<string>)

  /** DataType.getSqlType: text for STRING and enums, integer for LONG, INTEGER and BOOLEAN. */
  function SqlType(d: DataType): (r: string)
    ensures r == "string" <==> d.StringType? || d.EnumType?
    ensures r == "integer" <==> d.LongType? || d.IntegerType? || d.BooleanType?
  {
    match d
    case StringType => SQLiteTypeName(StringStorage)
    case EnumType(_) => SQLiteTypeName(StringStorage)
    case LongType => SQLiteTypeName(IntegerStorage)
    case IntegerType => SQLiteTypeName(IntegerStorage)
    case BooleanType => SQLiteTypeName(IntegerStorage)
  }

  /** ForeignKey.Action. */
  datatype Action = NoAction | Restrict | SetNull | SetDefault | Cascade

  /** The SQL text of a referential action. */
  function ActionSql(a: Action): (r: string)
    ensures r != ""
    ensures forall i :: 0 <= i < |r| ==> 'a' <= r[i] <= 'z' || r[i] == ' '
  {
    match a
    case NoAction => "no action"
    case Restrict => "restrict"
    case SetNull => "set null"
    case SetDefault => "set default"
    case Cascade => "cascade"
  }

  /** Distinct actions print differently, so the DDL text determines the action. */
  lemma ActionSqlInjective(a: Action, b: Action)
    ensures ActionSql(a) == ActionSql(b) ==> a == b
  {
  }

  /** A table (TableImpl): its name is already escaped by the factory that made it. */
  datatype Table = Table(oid: nat, name: string)

  /** What may follow FROM: a table, or a sub-select (a SelectQueryBuilder) known by its id. */
  datatype Source = TableSource(table: Table) | SubQuerySource(qid: nat)

  /** ColumnImpl: every field final and returned unchanged by its getter. */
  datatype Column = Column(
    oid: nat,
    source: Source,
    name: string,
    dataType: DataType,
    primaryKey: bool,
    nullable: bool,
    unique: bool,
    foreignKey: Option<ForeignKey>)

  /** ForeignKey: the referenced column and the optional ON DELETE / ON UPDATE actions. */
  datatype ForeignKey = ForeignKey(references: Column, onDelete: Option<Action>, onUpdate: Option<Action>)

  /** new ForeignKey(references): neither action set. */
  function ForeignKeyTo(references: Column): (fk: ForeignKey)
    ensures fk.references == references && fk.onDelete.None? && fk.onUpdate.None?
  {
    ForeignKeyOnDelete'(references, None)
  }

  /** new ForeignKey(references, onDelete): ON UPDATE left unset. */
  function ForeignKeyOnDelete(references: Column, onDelete: Action): (fk: ForeignKey)
    ensures fk.references == references && fk.onDelete == Some(onDelete) && fk.onUpdate.None?
  {
    ForeignKeyOnDelete'(references, Some(onDelete))
  }

  /** The two-argument constructor, with Java's nullable action as an Option. */
  function ForeignKeyOnDelete'(references: Column, onDelete: Option<Action>): ForeignKey {
    ForeignKey(references, onDelete, None)
  }

  /** StringProjection: raw SQL text with an optional explicit preferred alias. */
  datatype StringProjection = StringProjection(oid: nat, value: string, preferredAlias: Option<string>)

  /** The one-argument StringProjection constructor: no explicit preferred alias. */
  function RawProjection(oid: nat, value: string): (p: StringProjection)
    ensures p.value == value && p.preferredAlias.None?
  {
    StringProjection(oid, value, None)
  }

  /** StringProjection.toString: the raw text. */
  function StringProjectionText(p: StringProjection): string {
    p.value
  }

  /** What may appear in a SELECT list. */
  datatype Projection = ColumnProj(column: Column) | StringProj(sp: StringProjection)

  /** The binary operators (BinaryOperator) the factories use, and the others by name. */
  datatype Operator = AndOp | OrOp | EqualOp | InOp | OtherOp(name: string)

  /**
   * Expressions: projections, string literals (StringExpression), sub-selects, and the three
   * restriction shapes RestrictionImpl, BinaryRestrictionImpl and MultiRestrictionImpl. The
   * elements of a multi restriction are listed in the iteration order of the set holding them.
   */
  datatype Expr =
    | ProjectionExpr(projection: Projection)
    | StringExpression(text: string)
    | SubQueryExpr(qid: nat)
    | UnaryRestriction(op: Operator, expression: Expr)
    | BinaryRestriction(op: Operator, expression: Expr, other: Expr)
    | MultiRestriction(op: Operator, expression: Expr, others: seq<Expr>)
  {
    predicate IsRestriction() {
      UnaryRestriction? || BinaryRestriction? || MultiRestriction?
    }
  }

  /** Expressions of the Restriction interface. */
  type Restriction = e: Expr | e.IsRestriction()
    witness UnaryRestriction(OtherOp(""), StringExpression(""))

  /** JoinType: the kinds the application uses, and the others by name. */
  datatype JoinType = Cross | Inner | Left | OtherJoinType(name: string)

  /** JoinImpl: all fields final; the restriction may be absent (null). */
  datatype Join = Join(oid: nat, source: Source, joinType: JoinType, restriction: Option<Restriction>)

  /** Sort direction (Order). */
  datatype Order = Asc | Desc

  /** OrderByImpl: a column and a direction. */
  datatype OrderBy = OrderBy(column: Column, order: Order)

  /** OrderByImpl.getSource: the column's source. */
  function OrderBySource(o: OrderBy): (s: Source)
    ensures s == o.column.source
  {
    o.column.source
  }

  /** OrderByImpl.name(): the column's name. */
  function OrderByName(o: OrderBy): (n: string)
    ensures n == o.column.name
  {
    o.column.name
  }

  /** SelectQuantifier. */
  datatype Quantifier = NoQuantifier | Distinct

  /** The objects that can be given an alias. */
  datatype Aliasable =
    | ProjectionKey(projection: Projection)
    | SourceKey(source: Source)
    | JoinKey(join: Join)
    | OrderByKey(orderBy: OrderBy)

  /** The preferred alias of a sub-select (SelectQueryBuilder.getPreferredAlias). */
  const QueryPreferredAlias: string := "q"

  /** A string with a character that String.trim keeps. */
  predicate HasNonBlank(s: string) {
    exists i :: 0 <= i < |s| && !JavaLang.IsTrimmable(s[i])
  }

  /** StringProjection.getPreferredAlias is defined (it indexes the trimmed text otherwise). */
  predicate StringProjectionHasAlias(p: StringProjection) {
    p.preferredAlias.Some? || HasNonBlank(p.value)
  }

  /**
   * StringProjection.getPreferredAlias: the explicit alias when present, else the first
   * character of the trimmed, lower-cased text.
   */
  function StringProjectionAlias(p: StringProjection): (r: string)
    requires StringProjectionHasAlias(p)
    ensures p.preferredAlias.Some? ==> r == p.preferredAlias.value
    ensures p.preferredAlias.None? ==>
      |r| == 1 && r[0] == JavaLang.ToLowerChar(JavaLang.Trim(p.value)[0])
  {
    if p.preferredAlias.Some? then p.preferredAlias.value
    else
      JavaLang.TrimKeepsNonBlank(p.value);
      [JavaLang.ToLower(JavaLang.Trim(p.value))[0]]
  }

  /** The default rule picks the first non-blank character of the text, lower-cased. */
  lemma StringProjectionAliasIsFirstNonBlank(p: StringProjection, k: nat)
    requires p.preferredAlias.None?
    requires k < |p.value| && !JavaLang.IsTrimmable(p.value[k])
    requires forall i :: 0 <= i < k ==> JavaLang.IsTrimmable(p.value[i])
    ensures StringProjectionAlias(p) == [JavaLang.ToLowerChar(p.value[k])]
  {
    var t := JavaLang.TrimStart(p.value);
    assert |t| == |p.value| - k;
    assert t[0] == p.value[k];
  }

  /** The preferred alias of a FROM source: the table's own, or "q" for a sub-select. */
  function SourcePreferredAlias(env: Env, s: Source): (r: string)
    ensures s.SubQuerySource? ==> r == QueryPreferredAlias
    ensures s.TableSource? ==> r == env.tablePreferredAlias(s.table)
  {
    match s
    case TableSource(t) => env.tablePreferredAlias(t)
    case SubQuerySource(_) => QueryPreferredAlias
  }

  /** Whether getPreferredAlias returns normally for the object. */
  predicate HasPreferredAlias(a: Aliasable) {
    a.ProjectionKey? && a.projection.StringProj? ==> StringProjectionHasAlias(a.projection.sp)
  }

  /**
   * getPreferredAlias of each kind of aliasable: a column's name, a raw projection's rule, a
   * source's own, a join's source's, and an order-by item's column's.
   */
  function PreferredAlias(env: Env, a: Aliasable): (r: string)
    requires HasPreferredAlias(a)
    ensures a.ProjectionKey? && a.projection.ColumnProj? ==> r == a.projection.column.name
    ensures a.JoinKey? ==> r == SourcePreferredAlias(env, a.join.source)
    ensures a.OrderByKey? ==> r == a.orderBy.column.name
    ensures a.SourceKey? && a.source.SubQuerySource? ==> r == "q"
  {
    match a
    case ProjectionKey(ColumnProj(c)) => c.name
    case ProjectionKey(StringProj(sp)) => StringProjectionAlias(sp)
    case SourceKey(s) => SourcePreferredAlias(env, s)
    case JoinKey(j) => SourcePreferredAlias(env, j.source)
    case OrderByKey(o) => o.column.name
  }

  /** A join and an order-by item propose exactly what their source and column propose. */
  lemma PreferredAliasInherited(env: Env, j: Join, o: OrderBy)
    ensures PreferredAlias(env, JoinKey(j)) == PreferredAlias(env, SourceKey(j.source))
    ensures PreferredAlias(env, OrderByKey(o)) == PreferredAlias(env, ProjectionKey(ColumnProj(o.column)))
  {
  }
}

=== FILE: references.dfy ===
/**
 * The table and column factories (References). Each overload delegates to the next as the Java
 * overloads do, so the defaults a column receives are derived through the chain rather than
 * restated. Every factory escapes the name it is given with the environment's escape function.
 */
module References {
  import opened Wrappers
  import opened Query

  /** The name of the Android primary-key column (BaseColumns._ID). */
  const IdColumnName: string := "_id"

  /** References.table(name): a table whose name is the escaped argument. */
  function TableNamed(env: Env, oid: nat, name: string): (t: Table)
    ensures t.name == env.escape(name) && t.oid == oid
  {
    Table(oid, env.escape(name))
  }

  /** columnPK(source): the LONG column "_id" with no flags set and no foreign key. */
  function ColumnPK(env: Env, oid: nat, source: Source): (c: Column)
    ensures c.name == env.escape(IdColumnName) && c.source == source && c.oid == oid
    ensures c.dataType == LongType
    ensures !c.primaryKey && !c.nullable && !c.unique && c.foreignKey.None?
  {
    ColumnOfType(env, oid, source, IdColumnName, LongType)
  }

  /** columnPK(source, fk): as columnPK, with the given foreign key. */
  function ColumnPKWithFk(env: Env, oid: nat, source: Source, fk: Option<ForeignKey>): (c: Column)
    ensures c.name == env.escape(IdColumnName) && c.source == source && c.oid == oid
    ensures c.dataType == LongType
    ensures !c.primaryKey && !c.nullable && !c.unique && c.foreignKey == fk
  {
    ColumnWithFk(env, oid, source, IdColumnName, LongType, fk)
  }

  /** column(source, name): a STRING column with the defaults of the typed overload. */
  function ColumnNamed(env: Env, oid: nat, source: Source, name: string): (c: Column)
    ensures c.name == env.escape(name) && c.source == source && c.oid == oid
    ensures c.dataType == StringType
    ensures !c.primaryKey && !c.nullable && !c.unique && c.foreignKey.None?
  {
    ColumnOfType(env, oid, source, name, StringType)
  }

  /** column(source, name, dataType): delegates to the (nullable, unique) overload with both false. */
  function ColumnOfType(env: Env, oid: nat, source: Source, name: string, dataType: DataType): (c: Column)
    ensures c.name == env.escape(name) && c.source == source && c.oid == oid
    ensures c.dataType == dataType
    ensures !c.primaryKey && !c.nullable && !c.unique && c.foreignKey.None?
  {
    ColumnNullableUnique(env, oid, source, name, dataType, false, false)
  }

  /** column(source, name, dataType, fk): no flags, the given foreign key. */
  function ColumnWithFk(env: Env, oid: nat, source: Source, name: string, dataType: DataType,
                        fk: Option<ForeignKey>): (c: Column)
    ensures c.name == env.escape(name) && c.source == source && c.oid == oid
    ensures c.dataType == dataType
    ensures !c.primaryKey && !c.nullable && !c.unique && c.foreignKey == fk
  {
    ColumnFull(env, oid, source, name, dataType, false, false, false, fk)
  }

  /** column(source, name, dataType, primaryKey): the single flag is the primary-key flag. */
  function ColumnPrimary(env: Env, oid: nat, source: Source, name: string, dataType: DataType,
                         primaryKey: bool): (c: Column)
    ensures c.name == env.escape(name) && c.source == source && c.oid == oid
    ensures c.dataType == dataType
    ensures c.primaryKey == primaryKey && !c.nullable && !c.unique && c.foreignKey.None?
  {
    ColumnFull(env, oid, source, name, dataType, primaryKey, false, false, None)
  }

  /** column(source, name, dataType, primaryKey, fk). */
  function ColumnPrimaryWithFk(env: Env, oid: nat, source: Source, name: string, dataType: DataType,
                               primaryKey: bool, fk: Option<ForeignKey>): (c: Column)
    ensures c.name == env.escape(name) && c.source == source && c.oid == oid
    ensures c.dataType == dataType
    ensures c.primaryKey == primaryKey && !c.nullable && !c.unique && c.foreignKey == fk
  {
    ColumnFull(env, oid, source, name, dataType, primaryKey, false, false, fk)
  }

  /** column(source, name, dataType, nullable, unique): two flags are (nullable, unique). */
  function ColumnNullableUnique(env: Env, oid: nat, source: Source, name: string, dataType: DataType,
                                nullable: bool, unique: bool): (c: Column)
    ensures c.name == env.escape(name) && c.source == source && c.oid == oid
    ensures c.dataType == dataType
    ensures !c.primaryKey && c.nullable == nullable && c.unique == unique && c.foreignKey.None?
  {
    ColumnFull(env, oid, source, name, dataType, false, nullable, unique, None)
  }

  /** column(source, name, dataType, nullable, unique, fk). */
  function ColumnNullableUniqueWithFk(env: Env, oid: nat, source: Source, name: string, dataType: DataType,
                                      nullable: bool, unique: bool, fk: Option<ForeignKey>): (c: Column)
    ensures c.name == env.escape(name) && c.source == source && c.oid == oid
    ensures c.dataType == dataType
    ensures !c.primaryKey && c.nullable == nullable && c.unique == unique && c.foreignKey == fk
  {
    ColumnFull(env, oid, source, name, dataType, false, nullable, unique, fk)
  }

  /** The full overload: the escaped name and every argument stored as given. */
  function ColumnFull(env: Env, oid: nat, source: Source, name: string, dataType: DataType,
                      primaryKey: bool, nullable: bool, unique: bool, fk: Option<ForeignKey>): (c: Column)
    ensures c.name == env.escape(name) && c.source == source && c.oid == oid
    ensures c.dataType == dataType && c.primaryKey == primaryKey
    ensures c.nullable == nullable && c.unique == unique && c.foreignKey == fk
  {
    Column(oid, source, env.escape(name), dataType, primaryKey, nullable, unique, fk)
  }
}

=== FILE: refresh.dfy ===
/**
 * The decisions of refresh/FeedRefreshService: which feed configurations a refresh run picks up,
 * whether a feed is due and whether its data is stale, and how the fetched entries are reconciled
 * with the stored ones (which existing entries are deleted, which new ones inserted or updated).
 * The clock, the HTTP HEAD response and the parsed entries are parameters.
 */
module Refresh {
  import opened Wrappers
  import opened Query
  import opened Values
  import JavaLang
  import E = Entity
  import S = Schema
  import R = References
  import Entities

  datatype RefreshAction = Insert | Update | Delete

  /** FeedEntryRefresh: an entry and what to do with it. */
  datatype EntryRefresh = EntryRefresh(entry: E.EntityValues, action: RefreshAction)

  // ---------------------------------------------------------------------------------------------
  // Reading entry values

  /** FeedEntry.LINK read through getValue into a String variable: the cast fails for a non-string. */
  function Link(env: Env, fe: E.EntityValues): (r: Result<Option<string>>)
    ensures r.Success? <==> S.FeedEntryLink(env).name !in fe || fe[S.FeedEntryLink(env).name].JNull?
                            || fe[S.FeedEntryLink(env).name].JString?
    ensures r.Success? && r.value.Some? ==>
      S.FeedEntryLink(env).name in fe && fe[S.FeedEntryLink(env).name] == JString(r.value.value)
  {
    var v := E.GetValue(fe, S.FeedEntryLink(env)).value;
    match v
    case JNull => Success(None)
    case JString(s) => Success(Some(s))
    case _ => Failure("ClassCastException: LINK is not a String")
  }

  /** A long column read into a primitive long: null throws, a non-long fails the cast. */
  function UnboxedLong(e: E.EntityValues, c: Column): (r: Result<int>)
    requires !c.dataType.EnumType?
    ensures r.Success? <==> c.name in e && e[c.name].JLong?
    ensures r.Success? ==> e[c.name] == JLong(r.value)
  {
    var v := E.GetValue(e, c).value;
    if v.JNull? then Failure("NullPointerException: " + c.name + " is null")
    else if !v.JLong? then Failure("ClassCastException: " + c.name + " is not a Long")
    else Success(v.l)
  }

  /** Every entry's link can be read and is not null. */
  predicate LinksPresent(env: Env, entries: seq<E.EntityValues>) {
    forall i :: 0 <= i < |entries| ==> Link(env, entries[i]).Success? && Link(env, entries[i]).value.Some?
  }

  /** Some entry carries exactly this (non-null) link. */
  predicate HasLink(env: Env, link: Option<string>, entries: seq<E.EntityValues>) {
    link.Some? && exists i :: 0 <= i < |entries| && Link(env, entries[i]) == Success(link)
  }

  // ---------------------------------------------------------------------------------------------
  // The delete pass

  /**
   * The inner loop of the delete pass: newLink.equals(existingLink) over the new entries, stopping
   * at the first match. A new entry without a link throws before a match is found.
   */
  function StillPresent(env: Env, existingLink: Option<string>, newEntries: seq<E.EntityValues>): (r: Result<bool>)
    ensures LinksPresent(env, newEntries) ==> r.Success?
    ensures r.Success? ==> (r.value <==> HasLink(env, existingLink, newEntries))
  {
    if |newEntries| == 0 then Success(false)
    else
      var newLink :- Link(env, newEntries[0]);
      if newLink.None? then Failure("NullPointerException: new entry without LINK")
      else if newLink == existingLink then Success(true)
      else
        var rest :- StillPresent(env, existingLink, newEntries[1..]);
        assert LinksPresent(env, newEntries) ==> LinksPresent(env, newEntries[1..]) by {
          if LinksPresent(env, newEntries) {
            forall i | 0 <= i < |newEntries[1..]|
              ensures Link(env, newEntries[1..][i]).Success? && Link(env, newEntries[1..][i]).value.Some? {
              assert newEntries[1..][i] == newEntries[i + 1];
            }
          }
        }
        assert HasLink(env, existingLink, newEntries) ==> HasLink(env, existingLink, newEntries[1..]) by {
          if HasLink(env, existingLink, newEntries) {
            var i :| 0 <= i < |newEntries| && Link(env, newEntries[i]) == Success(existingLink);
            assert i != 0;
            assert newEntries[1..][i - 1] == newEntries[i];
          }
        }
        assert HasLink(env, existingLink, newEntries[1..]) ==> HasLink(env, existingLink, newEntries) by {
          if HasLink(env, existingLink, newEntries[1..]) {
            var i :| 0 <= i < |newEntries[1..]| && Link(env, newEntries[1..][i]) == Success(existingLink);
            assert newEntries[1..][i] == newEntries[i + 1];
          }
        }
        Success(rest)
  }

  /**
   * Whether the delete pass removes an existing entry: it is expired and no new entry carries its
   * link. Expiry is the corrected FeedEntry.isExpired (see Entities.IsExpiredAsWritten).
   */
  function Deleted(env: Env, maxAgeDays: int, now: int, fe: E.EntityValues, newEntries: seq<E.EntityValues>): (r: Result<bool>)
    requires JavaLang.IsInt32(maxAgeDays)
    ensures r.Success? ==> Entities.IsExpired(env, fe, maxAgeDays, now).Success?
    ensures r.Success? ==> (r.value <==> Entities.IsExpired(env, fe, maxAgeDays, now).value
                                         && Link(env, fe).Success? && !HasLink(env, Link(env, fe).value, newEntries))
    ensures Entities.IsExpired(env, fe, maxAgeDays, now) == Success(false) ==> r == Success(false)
  {
    var expired :- Entities.IsExpired(env, fe, maxAgeDays, now);
    if !expired then Success(false)
    else
      var existingLink :- Link(env, fe);
      var present :- StillPresent(env, existingLink, newEntries);
      Success(!present)
  }

  /**
   * A pass that removes the elements a decision selects, in order: the removed ones and the kept
   * ones, or the first exception a decision throws.
   */
  function Split<T>(xs: seq<T>, decide: T -> Result<bool>): (r: Result<(seq<T>, seq<T>)>)
    ensures r.Success? <==> forall i :: 0 <= i < |xs| ==> decide(xs[i]).Success?
    ensures r.Success? ==> multiset(r.value.0) + multiset(r.value.1) == multiset(xs)
    ensures r.Success? ==> forall x :: x in r.value.0 ==> decide(x) == Success(true)
    ensures r.Success? ==> forall x :: x in r.value.1 ==> decide(x) == Success(false)
  {
    if |xs| == 0 then Success(([], []))
    else
      var d := decide(xs[0]);
      if d.Failure? then Failure(d.error)
      else
        var rest := Split(xs[1..], decide);
        assert forall i :: 1 <= i < |xs| ==> xs[i] == xs[1..][i - 1];
        if rest.Failure? then
          assert exists i :: 0 <= i < |xs[1..]| && !decide(xs[1..][i]).Success?;
          Failure(rest.error)
        else
          assert xs == [xs[0]] + xs[1..];
          if d.value then Success(([xs[0]] + rest.value.0, rest.value.1))
          else Success((rest.value.0, [xs[0]] + rest.value.1))
  }

  /**
   * The delete pass over the existing entries, in order: the entries it schedules for DELETE and
   * the ones the iterator keeps.
   */
  function DeletePass(env: Env, maxAgeDays: int, now: int, existing: seq<E.EntityValues>, newEntries: seq<E.EntityValues>)
    : (r: Result<(seq<E.EntityValues>, seq<E.EntityValues>)>)
    requires JavaLang.IsInt32(maxAgeDays)
    ensures r.Success? <==> forall i :: 0 <= i < |existing| ==> Deleted(env, maxAgeDays, now, existing[i], newEntries).Success?
    ensures r.Success? ==> multiset(r.value.0) + multiset(r.value.1) == multiset(existing)
    ensures r.Success? ==> forall fe :: fe in r.value.0 ==> Deleted(env, maxAgeDays, now, fe, newEntries) == Success(true)
    ensures r.Success? ==> forall fe :: fe in r.value.1 ==> Deleted(env, maxAgeDays, now, fe, newEntries) == Success(false)
  {
    Split(existing, fe => Deleted(env, maxAgeDays, now, fe, newEntries))
  }

  // ---------------------------------------------------------------------------------------------
  // The new-entry pass

  /**
   * The inner loop of the second pass: the first remaining existing entry whose link equals the
   * new link. An existing entry without a link throws (existingLink.equals).
   */
  function Match(env: Env, newLink: Option<string>, kept: seq<E.EntityValues>): (r: Result<Option<E.EntityValues>>)
    ensures LinksPresent(env, kept) ==> r.Success?
    ensures r.Success? && r.value.Some? ==> r.value.value in kept && newLink.Some? && Link(env, r.value.value) == Success(newLink)
    ensures r.Success? ==> (r.value.Some? <==> HasLink(env, newLink, kept))
  {
    if |kept| == 0 then Success(None)
    else
      var existingLink :- Link(env, kept[0]);
      if existingLink.None? then Failure("NullPointerException: existing entry without LINK")
      else if existingLink == newLink then Success(Some(kept[0]))
      else
        var rest :- Match(env, newLink, kept[1..]);
        assert LinksPresent(env, kept) ==> LinksPresent(env, kept[1..]) by {
          if LinksPresent(env, kept) {
            forall i | 0 <= i < |kept[1..]|
              ensures Link(env, kept[1..][i]).Success? && Link(env, kept[1..][i]).value.Some? {
              assert kept[1..][i] == kept[i + 1];
            }
          }
        }
        assert HasLink(env, newLink, kept) ==> HasLink(env, newLink, kept[1..]) by {
          if HasLink(env, newLink, kept) {
            var i :| 0 <= i < |kept| && Link(env, kept[i]) == Success(newLink);
            assert i != 0;
            assert kept[1..][i - 1] == kept[i];
          }
        }
        assert HasLink(env, newLink, kept[1..]) ==> HasLink(env, newLink, kept) by {
          if HasLink(env, newLink, kept[1..]) {
            var i :| 0 <= i < |kept[1..]| && Link(env, kept[1..][i]) == Success(newLink);
            assert kept[1..][i] == kept[i + 1];
          }
        }
        Success(rest)
  }

  /** A long value copied from one entry into a Long put: null stays null, a non-long fails the cast. */
  function CopiedLong(e: E.EntityValues, c: Column): (r: Result<JavaValue>)
    requires !c.dataType.EnumType?
    ensures r.Success? <==> c.name !in e || e[c.name].JNull? || e[c.name].JLong?
    ensures r.Success? ==> r.value == E.GetValue(e, c).value
  {
    var v := E.GetValue(e, c).value;
    if v.JNull? || v.JLong? then Success(v) else Failure("ClassCastException: " + c.name + " is not a Long")
  }

  /** The entries an update takes over from the existing entry: _id, POLLED_DATE and PUBLISHED_DATE. */
  function UpdatedKeys(env: Env): set<string> {
    {env.escape("_id"), S.FeedEntryPolledDate(env).name, S.FeedEntryPublishedDate(env).name}
  }

  /**
   * The new entry prepared for an UPDATE of the existing one: it takes over the existing entry's
   * _id, POLLED_DATE and PUBLISHED_DATE, so the display order does not change.
   */
  function Updated(env: Env, fe: E.EntityValues, existing: E.EntityValues): (r: Result<E.EntityValues>)
    ensures r.Success? <==> CopiedLong(existing, S.FeedEntryPolledDate(env)).Success?
                            && CopiedLong(existing, S.FeedEntryPublishedDate(env)).Success?
    ensures r.Success? ==> r.value.Keys == fe.Keys + UpdatedKeys(env)
    ensures r.Success? ==> r.value[S.FeedEntryPublishedDate(env).name] == E.GetValue(existing, S.FeedEntryPublishedDate(env)).value
    ensures r.Success? && S.FeedEntryPolledDate(env).name != S.FeedEntryPublishedDate(env).name ==>
      r.value[S.FeedEntryPolledDate(env).name] == E.GetValue(existing, S.FeedEntryPolledDate(env)).value
    ensures r.Success? && env.escape("_id") !in {S.FeedEntryPolledDate(env).name, S.FeedEntryPublishedDate(env).name} ==>
      r.value[env.escape("_id")] == E.BoxedLong(E.GetId(existing))
    ensures r.Success? ==> forall k :: k in fe && k !in UpdatedKeys(env) ==> r.value[k] == fe[k]
  {
    var id := R.ColumnPK(env, 300, S.FeedEntrySource(env)).name;
    var polled :- CopiedLong(existing, S.FeedEntryPolledDate(env));
    var published :- CopiedLong(existing, S.FeedEntryPublishedDate(env));
    Success(fe[id := E.BoxedLong(E.GetId(existing))][S.FeedEntryPolledDate(env).name := polled]
              [S.FeedEntryPublishedDate(env).name := published])
  }

  /**
   * The second pass for one new entry: INSERT when no remaining existing entry has its link;
   * otherwise UPDATE when its UPDATED_DATE is strictly newer than the existing one's, and nothing
   * when it is not.
   */
  function NewEntryAction(env: Env, fe: E.EntityValues, kept: seq<E.EntityValues>): (r: Result<Option<EntryRefresh>>)
    ensures r.Success? ==> Link(env, fe).Success? && Match(env, Link(env, fe).value, kept).Success?
    ensures r.Success? ==> (r.value == Some(EntryRefresh(fe, Insert)) <==> !HasLink(env, Link(env, fe).value, kept))
    ensures r.Success? && r.value.Some? ==> r.value.value.action != Delete
  {
    var newLink :- Link(env, fe);
    var m :- Match(env, newLink, kept);
    if m.None? then Success(Some(EntryRefresh(fe, Insert)))
    else
      var existingUpdated :- UnboxedLong(m.value, S.FeedEntryUpdatedDate(env));
      var newUpdated :- UnboxedLong(fe, S.FeedEntryUpdatedDate(env));
      if newUpdated > existingUpdated then
        var updated :- Updated(env, fe, m.value);
        Success(Some(EntryRefresh(updated, Update)))
      else Success(None)
  }

  /**
   * A new entry whose link matches a kept entry is updated exactly when its UPDATED_DATE is
   * strictly newer, and then it carries the kept entry's _id, POLLED_DATE and PUBLISHED_DATE.
   */
  lemma NewEntryActionOnMatch(env: Env, fe: E.EntityValues, kept: seq<E.EntityValues>)
    requires NewEntryAction(env, fe, kept).Success? && HasLink(env, Link(env, fe).value, kept)
    ensures var existing := Match(env, Link(env, fe).value, kept).value.value;
      var r := NewEntryAction(env, fe, kept).value;
      UnboxedLong(fe, S.FeedEntryUpdatedDate(env)).Success? && UnboxedLong(existing, S.FeedEntryUpdatedDate(env)).Success?
      && (r.Some? <==> UnboxedLong(fe, S.FeedEntryUpdatedDate(env)).value > UnboxedLong(existing, S.FeedEntryUpdatedDate(env)).value)
      && (r.Some? ==> r.value.action == Update && Updated(env, fe, existing) == Success(r.value.entry))
  {
  }

  /** Some scheduled action is an INSERT. */
  predicate HasInsert(actions: seq<EntryRefresh>) {
    exists i :: 0 <= i < |actions| && actions[i].action == Insert
  }

  lemma HasInsertConcat(a: seq<EntryRefresh>, b: seq<EntryRefresh>)
    ensures HasInsert(a + b) <==> HasInsert(a) || HasInsert(b)
    ensures forall i :: 0 <= i < |a + b| && (a + b)[i].action == Delete ==>
      (i < |a| && a[i].action == Delete) || (i >= |a| && b[i - |a|].action == Delete)
  {
    if HasInsert(a) {
      var i :| 0 <= i < |a| && a[i].action == Insert;
      assert (a + b)[i] == a[i];
    }
    if HasInsert(b) {
      var i :| 0 <= i < |b| && b[i].action == Insert;
      assert (a + b)[i + |a|] == b[i];
    }
    if HasInsert(a + b) {
      var i :| 0 <= i < |a + b| && (a + b)[i].action == Insert;
      if i >= |a| {
        assert b[i - |a|].action == Insert;
      } else {
        assert a[i].action == Insert;
      }
    }
  }

  /**
   * The second pass over the new entries, in order: the actions it schedules, and whether any new
   * entry was inserted.
   */
  function NewPass(env: Env, newEntries: seq<E.EntityValues>, kept: seq<E.EntityValues>): (r: Result<(seq<EntryRefresh>, bool)>)
    ensures r.Success? <==> forall i :: 0 <= i < |newEntries| ==> NewEntryAction(env, newEntries[i], kept).Success?
    ensures r.Success? ==> (r.value.1 <==> HasInsert(r.value.0))
    ensures r.Success? ==> |r.value.0| <= |newEntries|
    ensures r.Success? ==> forall i :: 0 <= i < |r.value.0| ==> r.value.0[i].action != Delete
    decreases |newEntries|
  {
    if |newEntries| == 0 then Success(([], false))
    else
      var a := NewEntryAction(env, newEntries[0], kept);
      var rest := NewPass(env, newEntries[1..], kept);
      assert forall i :: 1 <= i < |newEntries| ==> newEntries[i] == newEntries[1..][i - 1];
      if a.Failure? then Failure(a.error)
      else if rest.Failure? then
        assert exists i :: 0 <= i < |newEntries[1..]| && !NewEntryAction(env, newEntries[1..][i], kept).Success?;
        Failure(rest.error)
      else
        var here := if a.value.Some? then [a.value.value] else [];
        var actions := here + rest.value.0;
        HasInsertConcat(here, rest.value.0);
        assert a.value.Some? && a.value.value.action == Insert ==> here[0].action == Insert;
        Success((actions, rest.value.1 || (a.value.Some? && a.value.value.action == Insert)))
  }

  /** Some new entry's link matches no kept entry: the entry the second pass inserts. */
  predicate HasUnmatched(env: Env, newEntries: seq<E.EntityValues>, kept: seq<E.EntityValues>) {
    exists i :: 0 <= i < |newEntries| && Unmatched(env, newEntries[i], kept)
  }

  /** The entry's link can be read and no kept entry carries it. */
  predicate Unmatched(env: Env, fe: E.EntityValues, kept: seq<E.EntityValues>) {
    Link(env, fe).Success? && !HasLink(env, Link(env, fe).value, kept)
  }

  /** The second pass reports new entries exactly when some new entry's link matches no kept entry. */
  lemma {:induction false} NewPassFlagsUnmatchedEntries(env: Env, newEntries: seq<E.EntityValues>, kept: seq<E.EntityValues>)
    requires NewPass(env, newEntries, kept).Success?
    ensures NewPass(env, newEntries, kept).value.1 <==> HasUnmatched(env, newEntries, kept)
    decreases |newEntries|
  {
    if |newEntries| > 0 {
      NewPassFlagsUnmatchedEntries(env, newEntries[1..], kept);
      var a := NewEntryAction(env, newEntries[0], kept).value;
      var insertHere := a.Some? && a.value.action == Insert;
      assert insertHere <==> Unmatched(env, newEntries[0], kept);
      assert NewPass(env, newEntries, kept).value.1 == (NewPass(env, newEntries[1..], kept).value.1 || insertHere);
      UnmatchedSplits(env, newEntries, kept);
    }
  }

  /** An unmatched entry is the first one or an unmatched entry of the rest. */
  lemma UnmatchedSplits(env: Env, newEntries: seq<E.EntityValues>, kept: seq<E.EntityValues>)
    requires |newEntries| > 0
    ensures HasUnmatched(env, newEntries, kept) <==>
      Unmatched(env, newEntries[0], kept) || HasUnmatched(env, newEntries[1..], kept)
  {
    if HasUnmatched(env, newEntries[1..], kept) {
      var j :| 0 <= j < |newEntries[1..]| && Unmatched(env, newEntries[1..][j], kept);
      assert newEntries[j + 1] == newEntries[1..][j];
    }
    if HasUnmatched(env, newEntries, kept) {
      var i :| 0 <= i < |newEntries| && Unmatched(env, newEntries[i], kept);
      if i > 0 {
        assert newEntries[1..][i - 1] == newEntries[i];
      }
    }
  }

  /** The two parts of a split hold exactly the elements of the whole. */
  lemma PartitionMembers<T>(whole: seq<T>, left: seq<T>, right: seq<T>)
    requires multiset(left) + multiset(right) == multiset(whole)
    ensures forall x :: x in whole <==> x in left || x in right
  {
    forall x ensures x in whole <==> x in left || x in right {
      assert x in whole <==> x in multiset(whole);
      assert x in left <==> x in multiset(left);
      assert x in right <==> x in multiset(right);
    }
  }

  /** One DELETE per entry, in order. */
  function DeleteActions(deleted: seq<E.EntityValues>): (r: seq<EntryRefresh>)
    ensures |r| == |deleted| && forall i :: 0 <= i < |r| ==> r[i] == EntryRefresh(deleted[i], Delete)
  {
    seq(|deleted|, i requires 0 <= i < |deleted| => EntryRefresh(deleted[i], Delete))
  }

  /** Behind a run of DELETEs, actions that are not DELETEs add no DELETE. */
  lemma DeletesOfDeleteActions(deleted: seq<E.EntityValues>, rest: seq<EntryRefresh>)
    requires forall i :: 0 <= i < |rest| ==> rest[i].action != Delete
    ensures forall fe :: EntryRefresh(fe, Delete) in DeleteActions(deleted) + rest <==> fe in deleted
    ensures forall a :: a in DeleteActions(deleted) + rest && a.action == Delete ==> a.entry in deleted
  {
    var all := DeleteActions(deleted) + rest;
    forall a | a in all && a.action == Delete ensures a.entry in deleted && a == EntryRefresh(a.entry, Delete) {
      var i :| 0 <= i < |all| && all[i] == a;
    }
    forall fe | fe in deleted ensures EntryRefresh(fe, Delete) in all {
      var i :| 0 <= i < |deleted| && deleted[i] == fe;
      assert all[i] == EntryRefresh(fe, Delete);
    }
  }

  /**
   * refreshFeedEntries: the DELETEs of the delete pass first, in the existing entries' order, then
   * the new-entry actions in the new entries' order; and whether any entry was inserted. An
   * exception in either pass leaves no action applied.
   */
  function RefreshFeedEntries(env: Env, maxAgeDays: int, now: int, existing: seq<E.EntityValues>,
                              newEntries: seq<E.EntityValues>): (r: Result<(seq<EntryRefresh>, bool)>)
    requires JavaLang.IsInt32(maxAgeDays)
    ensures r.Success? ==> (r.value.1 <==> HasInsert(r.value.0))
    ensures r.Success? ==> DeletePass(env, maxAgeDays, now, existing, newEntries).Success?
    ensures r.Success? ==>
      var passed := DeletePass(env, maxAgeDays, now, existing, newEntries).value;
      NewPass(env, newEntries, passed.1).Success?
      && r.value == (DeleteActions(passed.0) + NewPass(env, newEntries, passed.1).value.0, NewPass(env, newEntries, passed.1).value.1)
  {
    var passed :- DeletePass(env, maxAgeDays, now, existing, newEntries);
    var scheduled :- NewPass(env, newEntries, passed.1);
    var deletes := DeleteActions(passed.0);
    HasInsertConcat(deletes, scheduled.0);
    Success((deletes + scheduled.0, scheduled.1))
  }

  /**
   * An existing entry is scheduled for DELETE exactly when it is expired and no new entry carries
   * its link; a new entry is scheduled for INSERT exactly when no kept entry carries its link.
   */
  lemma RefreshFeedEntriesSchedules(env: Env, maxAgeDays: int, now: int, existing: seq<E.EntityValues>,
                                    newEntries: seq<E.EntityValues>)
    requires JavaLang.IsInt32(maxAgeDays)
    requires RefreshFeedEntries(env, maxAgeDays, now, existing, newEntries).Success?
    ensures forall fe :: fe in existing ==>
      (EntryRefresh(fe, Delete) in RefreshFeedEntries(env, maxAgeDays, now, existing, newEntries).value.0
       <==> Deleted(env, maxAgeDays, now, fe, newEntries) == Success(true))
    ensures forall a :: a in RefreshFeedEntries(env, maxAgeDays, now, existing, newEntries).value.0 && a.action == Delete ==>
      a.entry in existing
  {
    var actions := RefreshFeedEntries(env, maxAgeDays, now, existing, newEntries).value.0;
    var passed := DeletePass(env, maxAgeDays, now, existing, newEntries).value;
    var rest := NewPass(env, newEntries, passed.1).value.0;
    DeletesOfDeleteActions(passed.0, rest);
    PartitionMembers(existing, passed.0, passed.1);
  }

  /** The first pass keeps exactly the entries it does not delete: none is both deleted and kept. */
  lemma DeletePassSeparates(env: Env, maxAgeDays: int, now: int, existing: seq<E.EntityValues>, newEntries: seq<E.EntityValues>)
    requires JavaLang.IsInt32(maxAgeDays)
    requires DeletePass(env, maxAgeDays, now, existing, newEntries).Success?
    ensures var (deleted, kept) := DeletePass(env, maxAgeDays, now, existing, newEntries).value;
      forall fe :: fe in existing ==> (fe in deleted <==> fe !in kept)
  {
    var (deleted, kept) := DeletePass(env, maxAgeDays, now, existing, newEntries).value;
    forall fe | fe in existing ensures fe in deleted <==> fe !in kept {
      assert fe in multiset(existing);
    }
  }

  /** An entry that is not expired is never deleted, whatever the new entries are. */
  lemma FreshEntriesAreKept(env: Env, maxAgeDays: int, now: int, existing: seq<E.EntityValues>,
                            newEntries: seq<E.EntityValues>, fe: E.EntityValues)
    requires JavaLang.IsInt32(maxAgeDays)
    requires DeletePass(env, maxAgeDays, now, existing, newEntries).Success?
    requires fe in existing && Entities.IsExpired(env, fe, maxAgeDays, now) == Success(false)
    ensures fe in DeletePass(env, maxAgeDays, now, existing, newEntries).value.1
    ensures fe !in DeletePass(env, maxAgeDays, now, existing, newEntries).value.0
  {
    DeletePassSeparates(env, maxAgeDays, now, existing, newEntries);
  }

  /**
   * For the code as written: up to 24 days the int product in isExpired does not wrap, so an
   * entry that isExpired, as written, reports not expired is kept by the delete pass.
   */
  lemma FreshEntriesAreKeptUpTo24Days(env: Env, maxAgeDays: int, now: int, existing: seq<E.EntityValues>,
                                      newEntries: seq<E.EntityValues>, fe: E.EntityValues)
    requires -24 <= maxAgeDays <= 24
    requires DeletePass(env, maxAgeDays, now, existing, newEntries).Success?
    requires fe in existing && Entities.IsExpiredAsWritten(env, fe, maxAgeDays, now) == Success(false)
    ensures fe in DeletePass(env, maxAgeDays, now, existing, newEntries).value.1
    ensures fe !in DeletePass(env, maxAgeDays, now, existing, newEntries).value.0
  {
    Entities.IsExpiredAsWrittenAgreesUpTo24Days(env, fe, maxAgeDays, now);
    FreshEntriesAreKept(env, maxAgeDays, now, existing, newEntries, fe);
  }

  // ---------------------------------------------------------------------------------------------
  // Refresh and staleness decisions

  /**
   * isFeedRequiringRefresh on the values it reads: a feed never refreshed is due; otherwise it is
   * due once lastRefresh + refreshInterval (a long addition, which wraps) is not after now.
   */
  function RefreshDue(lastRefresh: int, refreshInterval: int, now: int): (r: bool)
    ensures lastRefresh == S.DefaultLastRefresh ==> r
    ensures JavaLang.IsInt64(lastRefresh + refreshInterval) ==>
      (r <==> lastRefresh == 0 || lastRefresh + refreshInterval <= now)
  {
    if lastRefresh == S.DefaultLastRefresh then true
    else JavaLang.Wrap64(lastRefresh + refreshInterval) <= now
  }

  /** Once due, a feed stays due as time passes (when the due time fits a long). */
  lemma RefreshDueIsMonotoneInTime(lastRefresh: int, refreshInterval: int, now: int, later: int)
    requires JavaLang.IsInt64(lastRefresh + refreshInterval) && now <= later
    requires RefreshDue(lastRefresh, refreshInterval, now)
    ensures RefreshDue(lastRefresh, refreshInterval, later)
  {
  }

  /** A primitive read: null throws on unboxing. */
  function Unboxed(v: JavaValue, what: string): (r: Result<JavaValue>)
    ensures r.Success? <==> !v.JNull?
    ensures r.Success? ==> r.value == v
  {
    if v.JNull? then Failure("NullPointerException: " + what + " is null") else Success(v)
  }
  /** A column read and then unboxed to a primitive: the read's exception, or NullPointerException for null. */
  function ReadUnboxed(cur: Cursor, c: Column, prefix: Option<string>, what: string): (r: Result<JavaValue>)
    requires WellFormed(cur)
    ensures r.Success? <==> Read(cur, c, prefix).Success? && Read(cur, c, prefix).value != JNull
    ensures r.Success? ==> Read(cur, c, prefix) == Success(r.value) && Accepts(c.dataType, r.value)
  {
    var v :- Read(cur, c, prefix);
    Unboxed(v, what)
  }


  /** isFeedRequiringRefresh(cursor): LAST_REFRESH and, unless it is 0, REFRESH_INTERVAL read under "fc". */
  function IsFeedRequiringRefresh(env: Env, cur: Cursor, now: int): (r: Result<bool>)
    requires WellFormed(cur)
    ensures r.Success? ==> Read(cur, S.FeedConfigLastRefresh(env), Some(S.FeedConfigAliasPrefix)).Success?
    ensures Read(cur, S.FeedConfigLastRefresh(env), Some(S.FeedConfigAliasPrefix)) == Success(JNull) ==> r.Failure?
    ensures Read(cur, S.FeedConfigLastRefresh(env), Some(S.FeedConfigAliasPrefix)) == Success(JLong(0)) ==> r == Success(true)
    ensures forall last, interval ::
      Read(cur, S.FeedConfigLastRefresh(env), Some(S.FeedConfigAliasPrefix)) == Success(JLong(last)) &&
      Read(cur, S.FeedConfigRefreshInterval(env), Some(S.FeedConfigAliasPrefix)) == Success(JInt(interval)) ==>
      r == Success(RefreshDue(last, interval, now))
  {
    var lv :- Read(cur, S.FeedConfigLastRefresh(env), Some(S.FeedConfigAliasPrefix));
    var last :- Unboxed(lv, "LAST_REFRESH");
    if last.l == S.DefaultLastRefresh then Success(true)
    else
      var iv :- Read(cur, S.FeedConfigRefreshInterval(env), Some(S.FeedConfigAliasPrefix));
      var interval :- Unboxed(iv, "REFRESH_INTERVAL");
      Success(JavaLang.Wrap64(last.l + interval.i) <= now)
  }

  /** The HEAD response isFeedDataStale looks at; a Failure stands for any exception on the way. */
  datatype HeadResponse = HeadResponse(code: int, lastModified: int, etag: Option<string>)

  const HttpOk: int := 200

  /**
   * isFeedDataStale: data is not stale only after a 200 response that either carries a
   * Last-Modified date not after the last refresh, or carries no date but the ETag stored at the
   * last refresh.
   */
  function IsFeedDataStale(response: Result<HeadResponse>, lastRefresh: int, lastRefreshEtag: Option<string>): (stale: bool)
    ensures !stale <==> (response.Success? && response.value.code == HttpOk
      && (if response.value.lastModified > 0 then response.value.lastModified <= lastRefresh
          else response.value.etag.Some? && Some(response.value.etag.value) == lastRefreshEtag))
  {
    if response.Failure? then true
    else if response.value.code != HttpOk then true
    else if response.value.lastModified > 0 then response.value.lastModified > lastRefresh
    else if response.value.etag.Some? then Some(response.value.etag.value) != lastRefreshEtag
    else true
  }

  /**
   * Date validation wins over the ETag: with a Last-Modified date the ETag is not looked at.
   */
  lemma StalenessIgnoresEtagWhenDated(code: int, lastModified: int, e1: Option<string>, e2: Option<string>,
                                      lastRefresh: int, lastRefreshEtag: Option<string>)
    requires lastModified > 0
    ensures IsFeedDataStale(Success(HeadResponse(code, lastModified, e1)), lastRefresh, lastRefreshEtag)
         == IsFeedDataStale(Success(HeadResponse(code, lastModified, e2)), lastRefresh, lastRefreshEtag)
  {
  }

  /**
   * The last-refresh update refreshFeed stores at its end: the feed config's id, the time and the
   * response's ETag, or "" when there was none. It is stored also after a caught exception, but
   * not when refreshFeed returned early because the data was not stale or the fetched feed had no
   * link.
   */
  function LastRefreshUpdate(env: Env, id: int, now: int, etagHeader: Option<string>): (e: E.EntityValues)
    ensures e.Keys == {E.IdKey, env.escape("LAST_REFRESH"), env.escape("LAST_REFRESH_ETAG")}
    ensures (env.escape("LAST_REFRESH") != E.IdKey && env.escape("LAST_REFRESH_ETAG") != E.IdKey
             && env.escape("LAST_REFRESH") != env.escape("LAST_REFRESH_ETAG")) ==>
      E.GetId(e) == Some(id) && e[env.escape("LAST_REFRESH")] == JLong(now)
      && e[env.escape("LAST_REFRESH_ETAG")] == JString(etagHeader.GetOr(S.DefaultLastRefreshEtag))
  {
    var etag := if etagHeader.None? then S.DefaultLastRefreshEtag else etagHeader.value;
    var e := Entities.FeedConfigRefreshed(env, Some(id), now, Some(etag));
    if env.escape("LAST_REFRESH") != E.IdKey && env.escape("LAST_REFRESH_ETAG") != E.IdKey
       && env.escape("LAST_REFRESH") != env.escape("LAST_REFRESH_ETAG")
    then
      Entities.FeedConfigRefreshedHoldsItsArguments(env, Some(id), now, Some(etag));
      e
    else e
  }

  /**
   * The stored values validate an unchanged feed: a later 200 response without a date whose ETag
   * equals the header stored here is not stale, and one with a different ETag or none is.
   */
  lemma LastRefreshUpdateValidatesTheEtag(env: Env, id: int, now: int, etag: string, next: HeadResponse)
    requires env.escape("LAST_REFRESH") != E.IdKey && env.escape("LAST_REFRESH_ETAG") != E.IdKey
    requires env.escape("LAST_REFRESH") != env.escape("LAST_REFRESH_ETAG")
    requires next.code == HttpOk && next.lastModified <= 0
    ensures var e := LastRefreshUpdate(env, id, now, Some(etag));
      !IsFeedDataStale(Success(next), e[env.escape("LAST_REFRESH")].l, Some(e[env.escape("LAST_REFRESH_ETAG")].s))
      <==> next.etag == Some(etag)
  {
  }

  /**
   * The stored time validates a dated feed: a later 200 response whose Last-Modified date is
   * positive and not after the stored time is not stale; a later date makes it stale.
   */
  lemma LastRefreshUpdateValidatesTheDate(env: Env, id: int, now: int, etagHeader: Option<string>, next: HeadResponse)
    requires env.escape("LAST_REFRESH") != E.IdKey && env.escape("LAST_REFRESH_ETAG") != E.IdKey
    requires env.escape("LAST_REFRESH") != env.escape("LAST_REFRESH_ETAG")
    requires next.code == HttpOk && next.lastModified > 0
    ensures var e := LastRefreshUpdate(env, id, now, etagHeader);
      !IsFeedDataStale(Success(next), e[env.escape("LAST_REFRESH")].l, Some(e[env.escape("LAST_REFRESH_ETAG")].s))
      <==> next.lastModified <= now
  {
  }

  // ---------------------------------------------------------------------------------------------
  // Selecting the feed configurations to refresh

  /** FeedRefresh: what the refresh of one feed configuration needs. */
  datatype FeedRefresh = FeedRefresh(id: int, url: Option<string>, lastRefresh: int, lastRefreshEtag: Option<string>,
                                     maxAgeDays: int, notifyNew: bool, action: RefreshAction)

  /**
   * Whether refreshFeeds picks up a row: its id reads as a long that the id filter (when one is
   * given) names, and the run is forced or the configuration is due for a refresh.
   */
  predicate Picked(env: Env, cur: Cursor, force: bool, ids: seq<int>, now: int)
    requires WellFormed(cur)
  {
    var idv := Read(cur, S.FeedConfigId(env), None);
    && idv.Success? && idv.value.JLong?
    && (|ids| == 0 || idv.value.l in ids)
    && (force || IsFeedRequiringRefresh(env, cur, now) == Success(true))
  }

  /**
   * One row of refreshFeeds' loop: skip it when an id filter is given that does not hold its id;
   * otherwise pick it up when forced or due, reading the refresh values under "fc" and the outer
   * joined Feed id under "f", which decides between UPDATE and INSERT of the feed.
   */
  function FeedRefreshOf(env: Env, cur: Cursor, force: bool, ids: seq<int>, now: int): (r: Result<Option<FeedRefresh>>)
    requires WellFormed(cur)
    ensures r.Success? ==> Read(cur, S.FeedConfigId(env), None).Success? && Read(cur, S.FeedConfigId(env), None).value.JLong?
    ensures r.Success? && r.value.Some? ==> r.value.value.id == Read(cur, S.FeedConfigId(env), None).value.l
    ensures r.Success? && r.value.Some? && |ids| > 0 ==> r.value.value.id in ids
    ensures r.Success? && r.value.Some? ==>
      (r.value.value.action == Update <==> Read(cur, S.FeedId(env), Some(S.FeedAliasPrefix)) != Success(JNull))
    ensures r.Success? && r.value.None? ==> (|ids| > 0 && Read(cur, S.FeedConfigId(env), None).value.l !in ids) || !force
    ensures r.Success? ==> (r.value.Some? <==> Picked(env, cur, force, ids, now))
    ensures r.Success? && !force && (|ids| == 0 || Read(cur, S.FeedConfigId(env), None).value.l in ids) ==>
      (r.value.Some? <==> IsFeedRequiringRefresh(env, cur, now) == Success(true))
    ensures r.Success? && r.value.Some? ==> Success(r.value.value) == RefreshValues(env, cur, r.value.value.id)
  {
    var idv :- Read(cur, S.FeedConfigId(env), None);
    var id :- Unboxed(idv, "_id");
    if |ids| > 0 && id.l !in ids then Success(None)
    else
      var due :- if force then Success(true) else IsFeedRequiringRefresh(env, cur, now);
      if !due then Success(None)
      else
        var refresh :- RefreshValues(env, cur, id.l);
        Success(Some(refresh))
  }

  /** The values refreshFeeds reads for a configuration it picks up; the primitive ones refuse a null. */
  function RefreshValues(env: Env, cur: Cursor, id: int): (r: Result<FeedRefresh>)
    requires WellFormed(cur)
    ensures r.Success? ==> r.value.id == id
    ensures r.Success? ==> (r.value.action == Update <==> Read(cur, S.FeedId(env), Some(S.FeedAliasPrefix)) != Success(JNull))
    ensures r.Success? ==> Read(cur, S.FeedId(env), Some(S.FeedAliasPrefix)).Success?
    ensures r.Success? ==> Read(cur, S.FeedConfigLastRefresh(env), Some(S.FeedConfigAliasPrefix)) == Success(JLong(r.value.lastRefresh))
    ensures r.Success? ==> Read(cur, S.FeedConfigMaxAgeDays(env), Some(S.FeedConfigAliasPrefix)) == Success(JInt(r.value.maxAgeDays))
    ensures r.Success? ==> Read(cur, S.FeedConfigNotifyNew(env), Some(S.FeedConfigAliasPrefix)) == Success(JBool(r.value.notifyNew))
  {
        var fc := Some(S.FeedConfigAliasPrefix);
        var lastRefresh :- ReadUnboxed(cur, S.FeedConfigLastRefresh(env), fc, "LAST_REFRESH");
        var etag :- Read(cur, S.FeedConfigLastRefreshEtag(env), fc);
        var maxAgeDays :- ReadUnboxed(cur, S.FeedConfigMaxAgeDays(env), fc, "MAX_AGE_DAYS");
        var url :- Read(cur, S.FeedConfigUrl(env), fc);
        var notifyNew :- ReadUnboxed(cur, S.FeedConfigNotifyNew(env), fc, "NOTIFY_NEW");
        var feedId :- Read(cur, S.FeedId(env), Some(S.FeedAliasPrefix));
        Success(FeedRefresh(id, if url.JString? then Some(url.s) else None, lastRefresh.l,
                            if etag.JString? then Some(etag.s) else None, maxAgeDays.i, notifyNew.b,
                            if feedId != JNull then Update else Insert))
  }

  /**
   * The loop's list: the picked-up values in order, or the first exception. A row that is not
   * picked up adds nothing.
   */
  function Collect<T>(outcomes: seq<Result<Option<T>>>): (r: Result<seq<T>>)
    ensures r.Success? <==> forall i :: 0 <= i < |outcomes| ==> outcomes[i].Success?
    ensures r.Success? ==> |r.value| <= |outcomes|
    ensures r.Success? ==> forall x :: x in r.value ==> exists i :: 0 <= i < |outcomes| && outcomes[i] == Success(Some(x))
    ensures r.Success? && (forall i :: 0 <= i < |outcomes| ==> outcomes[i].value.Some?) ==> |r.value| == |outcomes|
    ensures r.Success? ==> forall i :: 0 <= i < |outcomes| && outcomes[i].value.Some? ==> outcomes[i].value.value in r.value
  {
    if |outcomes| == 0 then Success([])
    else
      var rest := Collect(outcomes[1..]);
      assert forall i :: 1 <= i < |outcomes| ==> outcomes[i] == outcomes[1..][i - 1];
      if outcomes[0].Failure? then Failure(outcomes[0].error)
      else if rest.Failure? then
        assert exists i :: 0 <= i < |outcomes[1..]| && !outcomes[1..][i].Success?;
        Failure(rest.error)
      else
        var here: seq<T> := if outcomes[0].value.Some? then [outcomes[0].value.value] else [];
        assert forall x :: x in here + rest.value ==> x in here || x in rest.value;
        Success(here + rest.value)
  }

  /** refreshFeeds' loop over the query's rows, in order; an exception ends the run. */
  function SelectForRefresh(env: Env, rows: seq<Cursor>, force: bool, ids: seq<int>, now: int): (r: Result<seq<FeedRefresh>>)
    requires forall i :: 0 <= i < |rows| ==> WellFormed(rows[i])
    ensures r.Success? <==> forall i :: 0 <= i < |rows| ==> FeedRefreshOf(env, rows[i], force, ids, now).Success?
    ensures r.Success? ==> |r.value| <= |rows|
  {
    var outcomes := seq(|rows|, i requires 0 <= i < |rows| => FeedRefreshOf(env, rows[i], force, ids, now));
    assert forall i :: 0 <= i < |rows| ==> outcomes[i] == FeedRefreshOf(env, rows[i], force, ids, now);
    Collect(outcomes)
  }

  /** The per-row outcomes SelectForRefresh collects. */
  function Outcomes(env: Env, rows: seq<Cursor>, force: bool, ids: seq<int>, now: int): (os: seq<Result<Option<FeedRefresh>>>)
    requires forall i :: 0 <= i < |rows| ==> WellFormed(rows[i])
    ensures |os| == |rows| && forall i :: 0 <= i < |rows| ==> os[i] == FeedRefreshOf(env, rows[i], force, ids, now)
    ensures SelectForRefresh(env, rows, force, ids, now) == Collect(os)
  {
    seq(|rows|, i requires 0 <= i < |rows| => FeedRefreshOf(env, rows[i], force, ids, now))
  }

  /** With an id filter, only configurations it names are picked up. */
  lemma SelectForRefreshHonoursTheFilter(env: Env, rows: seq<Cursor>, force: bool, ids: seq<int>, now: int)
    requires forall i :: 0 <= i < |rows| ==> WellFormed(rows[i])
    requires SelectForRefresh(env, rows, force, ids, now).Success? && |ids| > 0
    ensures forall x :: x in SelectForRefresh(env, rows, force, ids, now).value ==> x.id in ids
  {
    var os := Outcomes(env, rows, force, ids, now);
    forall x: FeedRefresh | x in Collect(os).value ensures x.id in ids {
      var i :| 0 <= i < |os| && os[i] == Success(Some(x));
      assert FeedRefreshOf(env, rows[i], force, ids, now) == Success(Some(x));
    }
  }

  /**
   * The refreshes a run selects are exactly the values read from the rows it picks up: every
   * selected refresh comes from a picked-up row, and every picked-up row contributes its values.
   * Without force, a row in the filter is picked up exactly when it is due.
   */
  lemma SelectForRefreshPicksExactlyThePickedRows(env: Env, rows: seq<Cursor>, force: bool, ids: seq<int>, now: int)
    requires forall i :: 0 <= i < |rows| ==> WellFormed(rows[i])
    requires SelectForRefresh(env, rows, force, ids, now).Success?
    ensures forall x :: x in SelectForRefresh(env, rows, force, ids, now).value ==>
      exists i :: 0 <= i < |rows| && Picked(env, rows[i], force, ids, now) && Success(x) == RefreshValues(env, rows[i], x.id)
    ensures forall i :: 0 <= i < |rows| && Picked(env, rows[i], force, ids, now) ==>
      RefreshValues(env, rows[i], Read(rows[i], S.FeedConfigId(env), None).value.l).Success? &&
      RefreshValues(env, rows[i], Read(rows[i], S.FeedConfigId(env), None).value.l).value
        in SelectForRefresh(env, rows, force, ids, now).value
  {
    var os := Outcomes(env, rows, force, ids, now);
    var selected := SelectForRefresh(env, rows, force, ids, now).value;
    forall x | x in selected
      ensures exists i :: 0 <= i < |rows| && Picked(env, rows[i], force, ids, now) && Success(x) == RefreshValues(env, rows[i], x.id)
    {
      var i :| 0 <= i < |os| && os[i] == Success(Some(x));
      assert FeedRefreshOf(env, rows[i], force, ids, now) == Success(Some(x));
    }
    forall i | 0 <= i < |rows| && Picked(env, rows[i], force, ids, now)
      ensures RefreshValues(env, rows[i], Read(rows[i], S.FeedConfigId(env), None).value.l).Success?
      ensures RefreshValues(env, rows[i], Read(rows[i], S.FeedConfigId(env), None).value.l).value in selected
    {
      assert os[i] == FeedRefreshOf(env, rows[i], force, ids, now);
      assert os[i].Success?;
    }
  }

  /** Without force, the rows a run picks up among those the filter admits are exactly the due ones. */
  lemma UnforcedRefreshPicksTheDueRows(env: Env, cur: Cursor, ids: seq<int>, now: int)
    requires WellFormed(cur)
    requires Read(cur, S.FeedConfigId(env), None).Success? && Read(cur, S.FeedConfigId(env), None).value.JLong?
    requires |ids| == 0 || Read(cur, S.FeedConfigId(env), None).value.l in ids
    ensures Picked(env, cur, false, ids, now) <==> IsFeedRequiringRefresh(env, cur, now) == Success(true)
  {
  }

  /** A forced run without an id filter picks up every row. */
  lemma ForcedRefreshSelectsEveryRow(env: Env, rows: seq<Cursor>, now: int)
    requires forall i :: 0 <= i < |rows| ==> WellFormed(rows[i])
    requires SelectForRefresh(env, rows, true, [], now).Success?
    ensures |SelectForRefresh(env, rows, true, [], now).value| == |rows|
  {
    var os := Outcomes(env, rows, true, [], now);
    forall i | 0 <= i < |os| ensures os[i].value.Some? {
      assert FeedRefreshOf(env, rows[i], true, [], now).Success?;
    }
  }

  /** refreshFeeds notifies of new entries when some refreshed feed had new entries and asks for notification. */
  function NotifyNewEntries(refreshes: seq<FeedRefresh>, hadNewEntries: seq<bool>): (r: bool)
    requires |refreshes| == |hadNewEntries|
    ensures r <==> exists i :: 0 <= i < |refreshes| && hadNewEntries[i] && refreshes[i].notifyNew
    decreases |refreshes|
  {
    if |refreshes| == 0 then false
    else
      assert forall i :: 1 <= i < |refreshes| ==> refreshes[i] == refreshes[1..][i - 1] && hadNewEntries[i] == hadNewEntries[1..][i - 1];
      (hadNewEntries[0] && refreshes[0].notifyNew) || NotifyNewEntries(refreshes[1..], hadNewEntries[1..])
  }
}

=== FILE: restrictions.dfy ===
/**
 * The restriction factories (Restrictions): AND/OR combinations, equality against a string or an
 * expression, and IN over a set of strings.
 */
module Restrictions {
  import opened Query

  /** and(left, right): a binary AND whose left and right operands are the arguments. */
  function And(left: Restriction, right: Restriction): (r: Restriction)
    ensures r.BinaryRestriction? && r.op == AndOp
    ensures r.expression == left && r.other == right
  {
    BinaryRestriction(AndOp, left, right)
  }

  /** or(left, right): a binary OR whose left and right operands are the arguments. */
  function Or(left: Restriction, right: Restriction): (r: Restriction)
    ensures r.BinaryRestriction? && r.op == OrOp
    ensures r.expression == left && r.other == right
  {
    BinaryRestriction(OrOp, left, right)
  }

  /** eq(projection, string): the string becomes a StringExpression on the right. */
  function EqString(left: Projection, right: string): (r: Restriction)
    ensures r.BinaryRestriction? && r.op == EqualOp
    ensures r.expression == ProjectionExpr(left) && r.other == StringExpression(right)
  {
    EqExpr(left, StringExpression(right))
  }

  /** eq(projection, expression): the expression is the right operand as given. */
  function EqExpr(left: Projection, right: Expr): (r: Restriction)
    ensures r.BinaryRestriction? && r.op == EqualOp
    ensures r.expression == ProjectionExpr(left) && r.other == right
  {
    BinaryRestriction(EqualOp, ProjectionExpr(left), right)
  }

  /** The strings of a Java Set<String>, in its iteration order: no repeats. */
  predicate Distinct(xs: seq<string>) {
    forall i, j :: 0 <= i < j < |xs| ==> xs[i] != xs[j]
  }

  /**
   * in(projection, strings): an IN restriction over one StringExpression per string, in the
   * iteration order of the given set.
   */
  function In(left: Projection, right: seq<string>): (r: Restriction)
    requires Distinct(right)
    ensures r.MultiRestriction? && r.op == InOp && r.expression == ProjectionExpr(left)
    ensures |r.others| == |right|
    ensures forall i :: 0 <= i < |right| ==> r.others[i] == StringExpression(right[i])
  {
    MultiRestriction(InOp, ProjectionExpr(left), StringExpressions(right))
  }

  /** One StringExpression per string, keeping order. */
  function StringExpressions(xs: seq<string>): (es: seq<Expr>)
    ensures |es| == |xs|
    ensures forall i :: 0 <= i < |xs| ==> es[i] == StringExpression(xs[i])
  {
    if |xs| == 0 then [] else [StringExpression(xs[0])] + StringExpressions(xs[1..])
  }

  /** The elements of an IN restriction are exactly the given strings, each once. */
  lemma InElementsAreTheStrings(left: Projection, right: seq<string>)
    requires Distinct(right)
    ensures forall e: Expr :: e in In(left, right).others <==> e.StringExpression? && e.text in right
    ensures forall i, j :: 0 <= i < j < |In(left, right).others| ==>
      In(left, right).others[i] != In(left, right).others[j]
  {
    var r := In(left, right);
    forall e: Expr | e.StringExpression? && e.text in right
      ensures e in r.others
    {
      var i :| 0 <= i < |right| && right[i] == e.text;
      assert r.others[i] == e;
    }
  }
}

=== FILE: rows.dfy ===
/**
 * Result rows of a query over stored entities, and reading them back through the cursor
 * constructors' DataType.read calls. A projected column appears in the row under its result name
 * (for the entity queries, the prefixed alias), holding what SQLite stored for the entity's entry.
 */
module Rows {
  import opened Wrappers
  import opened Query
  import opened Values
  import JavaLang
  import E = Entity

  /**
   * The row a query returns for stored values: result column i is named keys[i] and holds the
   * stored entry of column cs[i], or NULL when the entity has none.
   */
  function ProjectedRow(keys: seq<string>, cs: seq<Column>, cv: ContentValues, textToInteger: string -> int): (cur: Cursor)
    requires |keys| == |cs|
    ensures WellFormed(cur) && cur.names == keys && cur.textToInteger == textToInteger
    ensures forall i :: 0 <= i < |cs| ==>
      cur.cells[i] == if cs[i].name in cv then Persist(cv[cs[i].name]) else NullCell
  {
    Cursor(keys, seq(|cs|, i requires 0 <= i < |cs| => if cs[i].name in cv then Persist(cv[cs[i].name]) else NullCell),
      textToInteger)
  }

  /** The lookup keys the cursor constructor's reads use: getIndex's prefixed name per column. */
  function LookupKeys(cs: seq<Column>, prefixes: seq<Option<string>>): (keys: seq<string>)
    requires |cs| == |prefixes|
    ensures |keys| == |cs| && forall i :: 0 <= i < |cs| ==> keys[i] == IndexKey(prefixes[i], cs[i])
  {
    seq(|cs|, i requires 0 <= i < |cs| => IndexKey(prefixes[i], cs[i]))
  }

  /** A value a Java parameter of the column's type can hold: null or an accepted value, an int within 32 bits. */
  predicate Typed(c: Column, v: JavaValue) {
    (v == JNull || Accepts(c.dataType, v)) && (v.JInt? ==> JavaLang.IsInt32(v.i))
  }

  /** A non-null value stored for a column reads back as itself from the cell SQLite keeps for it. */
  lemma ReadBack(cur: Cursor, c: Column, index: nat, v: JavaValue)
    requires WellFormed(cur) && index < |cur.cells|
    requires Typed(c, v)
    requires cur.cells[index] == Persist(Stored(c.dataType, v))
    ensures ReadAt(cur, c, index) == Success(v)
  {
  }

  /** One column of a projected row, read under its own lookup key, gives back the value written for it. */
  lemma ReadOneOfProjectedRow(cs: seq<Column>, prefixes: seq<Option<string>>, cv: ContentValues,
                              textToInteger: string -> int, i: nat, v: JavaValue)
    requires |cs| == |prefixes| && i < |cs|
    requires NoDuplicates(LookupKeys(cs, prefixes))
    requires Typed(cs[i], v)
    requires if v == JNull then cs[i].name !in cv || cv[cs[i].name] == JNull
             else cs[i].name in cv && cv[cs[i].name] == Stored(cs[i].dataType, v)
    ensures Read(ProjectedRow(LookupKeys(cs, prefixes), cs, cv, textToInteger), cs[i], prefixes[i]) == Success(v)
  {
    var keys := LookupKeys(cs, prefixes);
    var cur := ProjectedRow(keys, cs, cv, textToInteger);
    var index := ColumnIndex(keys, keys[i]);
    assert index == i by {
      assert keys[i] in keys;
      assert keys[index] == keys[i];
    }
    ReadIsReadAtIndex(cur, cs[i], prefixes[i]);
    ReadBack(cur, cs[i], i, v);
  }

  /**
   * Reading every column of a projected row under the keys it was projected with gives back the
   * values that were written, provided the keys are distinct. A null may be stored or absent.
   */
  lemma ReadAllOfProjectedRow(cs: seq<Column>, prefixes: seq<Option<string>>, vs: seq<JavaValue>,
                              cv: ContentValues, textToInteger: string -> int)
    requires |cs| == |prefixes| == |vs|
    requires NoDuplicates(LookupKeys(cs, prefixes))
    requires forall i :: 0 <= i < |cs| ==> Typed(cs[i], vs[i])
    requires forall i :: 0 <= i < |cs| && vs[i] == JNull ==> cs[i].name !in cv || cv[cs[i].name] == JNull
    requires forall i :: 0 <= i < |cs| && vs[i] != JNull ==>
      cs[i].name in cv && cv[cs[i].name] == Stored(cs[i].dataType, vs[i])
    ensures E.ReadAll(ProjectedRow(LookupKeys(cs, prefixes), cs, cv, textToInteger), cs, prefixes) == Success(vs)
  {
    var cur := ProjectedRow(LookupKeys(cs, prefixes), cs, cv, textToInteger);
    forall i | 0 <= i < |cs| ensures Read(cur, cs[i], prefixes[i]) == Success(vs[i]) {
      ReadOneOfProjectedRow(cs, prefixes, cv, textToInteger, i, vs[i]);
    }
    var r := E.ReadAll(cur, cs, prefixes);
    assert r.Success?;
    assert r.value == vs;
  }

  /**
   * The values written by writeAll into a fresh map over distinct names, as the previous lemma
   * needs them: a null leaves its column absent, any other value is stored under its column.
   */
  lemma WriteAllLayout(cs: seq<Column>, vs: seq<JavaValue>)
    requires |cs| == |vs| && NoDuplicates(Names(cs)) && WriteAll(map[], cs, vs).Success?
    ensures forall i :: 0 <= i < |cs| && vs[i] == JNull ==> cs[i].name !in WriteAll(map[], cs, vs).value
    ensures forall i :: 0 <= i < |cs| && vs[i] != JNull ==>
      cs[i].name in WriteAll(map[], cs, vs).value && WriteAll(map[], cs, vs).value[cs[i].name] == Stored(cs[i].dataType, vs[i])
  {
    WriteAllStores(map[], cs, vs);
    var r := WriteAll(map[], cs, vs).value;
    forall i | 0 <= i < |cs| && vs[i] == JNull ensures cs[i].name !in r {
      forall j | 0 <= j < |cs| && vs[j] != JNull ensures cs[j].name != cs[i].name {
        if j < i { assert Names(cs)[j] != Names(cs)[i]; } else { assert Names(cs)[i] != Names(cs)[j]; }
      }
    }
  }
}

=== FILE: schema.dfy ===
/**
 * The five entity schemas: each entity's table, its columns (built with the References
 * factories), the COLUMNS arrays in declaration order, the alias prefixes, the enum constants
 * and the default values. Every name goes through the environment's escape function, exactly as
 * the factories do.
 */
module Schema {
  import opened Wrappers
  import opened Query
  import R = References
  import E = Entity

  /** An environment whose escape leaves names as they are. */
  const PlainEnv: Env := Env(s => s, (t: Table) => t.name)

  /** A column array used as a projection array, element by element. */
  function ColumnProjections(cs: seq<Column>): (ps: seq<Projection>)
    ensures |ps| == |cs|
    ensures forall i :: 0 <= i < |cs| ==> ps[i] == ColumnProj(cs[i])
  {
    seq(|cs|, i requires 0 <= i < |cs| => ColumnProj(cs[i]))
  }

  // ---------------------------------------------------------------------------------------------
  // FeedConfig

  const PreviewLengths: seq<string> := ["NONE", "LESS", "REGULAR", "MORE", "ALL"]
  const EntryPrefixes: seq<string> := ["NONE", "AUTHOR", "TIMESTAMP", "FEED_TITLE"]

  const FeedConfigAliasPrefix: string := "fc"
  const DefaultRefreshInterval: int := 1800000
  const DefaultPreviewLength: string := "REGULAR"
  const DefaultLastRefresh: int := 0
  const DefaultLastRefreshEtag: string := ""
  const DefaultMaxAgeDays: int := 14
  const DefaultNotifyNew: bool := true
  const DefaultEntryPrefix: string := "NONE"

  const FeedConfigColumnNames: seq<string> :=
    ["_id", "URL", "REFRESH_INTERVAL", "PREVIEW_LENGTH", "ENTRY_PREFIX", "TEXT_COLOR",
     "LAST_REFRESH", "LAST_REFRESH_ETAG", "MAX_AGE_DAYS", "NOTIFY_NEW"]

  /** FeedConfig.TABLE: the upper-cased class name. */
  function FeedConfigTable(env: Env): (t: Table)
    ensures t.name == env.escape("FEEDCONFIG")
  {
    assert E.TableName("FeedConfig") == "FEEDCONFIG";
    R.TableNamed(env, 1, E.TableName("FeedConfig"))
  }

  function FeedConfigSource(env: Env): Source {
    TableSource(FeedConfigTable(env))
  }

  function FeedConfigId(env: Env): Column {
    R.ColumnPK(env, 100, FeedConfigSource(env))
  }

  function FeedConfigUrl(env: Env): Column {
    R.ColumnNamed(env, 101, FeedConfigSource(env), "URL")
  }

  function FeedConfigPreviewLength(env: Env): Column {
    R.ColumnOfType(env, 103, FeedConfigSource(env), "PREVIEW_LENGTH", EnumType(PreviewLengths))
  }

  function FeedConfigEntryPrefix(env: Env): Column {
    R.ColumnOfType(env, 104, FeedConfigSource(env), "ENTRY_PREFIX", EnumType(EntryPrefixes))
  }

  function FeedConfigTextColor(env: Env): Column {
    R.ColumnOfType(env, 105, FeedConfigSource(env), "TEXT_COLOR", IntegerType)
  }

  function FeedConfigRefreshInterval(env: Env): Column {
    R.ColumnOfType(env, 102, FeedConfigSource(env), "REFRESH_INTERVAL", IntegerType)
  }

  function FeedConfigLastRefresh(env: Env): Column {
    R.ColumnOfType(env, 106, FeedConfigSource(env), "LAST_REFRESH", LongType)
  }

  function FeedConfigLastRefreshEtag(env: Env): Column {
    R.ColumnNamed(env, 107, FeedConfigSource(env), "LAST_REFRESH_ETAG")
  }

  function FeedConfigMaxAgeDays(env: Env): Column {
    R.ColumnOfType(env, 108, FeedConfigSource(env), "MAX_AGE_DAYS", IntegerType)
  }

  function FeedConfigNotifyNew(env: Env): Column {
    R.ColumnOfType(env, 109, FeedConfigSource(env), "NOTIFY_NEW", BooleanType)
  }

  /** FeedConfig.COLUMNS, in declaration order. */
  function FeedConfigColumns(env: Env): (cs: seq<Column>)
    ensures |cs| == |FeedConfigColumnNames|
  {
    [FeedConfigId(env), FeedConfigUrl(env), FeedConfigRefreshInterval(env),
     FeedConfigPreviewLength(env), FeedConfigEntryPrefix(env), FeedConfigTextColor(env),
     FeedConfigLastRefresh(env), FeedConfigLastRefreshEtag(env), FeedConfigMaxAgeDays(env),
     FeedConfigNotifyNew(env)]
  }

  /**
   * FeedConfig.COLUMNS holds the ten declared columns of the table in order, with their types;
   * none is flagged primary key, nullable or unique, and none has a foreign key.
   */
  lemma FeedConfigColumnsDeclared(env: Env)
    ensures var cs := FeedConfigColumns(env);
      && (forall i :: 0 <= i < |cs| ==> cs[i].name == env.escape(FeedConfigColumnNames[i]))
      && (forall i :: 0 <= i < |cs| ==> cs[i].source == FeedConfigSource(env))
      && (forall i :: 0 <= i < |cs| ==> !cs[i].primaryKey && !cs[i].nullable && !cs[i].unique && cs[i].foreignKey.None?)
      && cs[0].dataType == LongType && cs[1].dataType == StringType && cs[2].dataType == IntegerType
      && cs[3].dataType == EnumType(PreviewLengths) && cs[4].dataType == EnumType(EntryPrefixes)
      && cs[5].dataType == IntegerType && cs[6].dataType == LongType && cs[7].dataType == StringType
      && cs[8].dataType == IntegerType && cs[9].dataType == BooleanType
  {
    var cs := FeedConfigColumns(env);
    var ns := FeedConfigColumnNames;
    assert cs[0].name == env.escape(ns[0]);
    assert cs[1].name == env.escape(ns[1]);
    assert cs[2].name == env.escape(ns[2]);
    assert cs[3].name == env.escape(ns[3]);
    assert cs[4].name == env.escape(ns[4]);
    assert cs[5].name == env.escape(ns[5]);
    assert cs[6].name == env.escape(ns[6]);
    assert cs[7].name == env.escape(ns[7]);
    assert cs[8].name == env.escape(ns[8]);
    assert cs[9].name == env.escape(ns[9]);
  }

  /** FeedConfig.PROJECTION_WITH_FEED: COLUMNS, then Feed._ID, Feed.TITLE and Feed.DESCRIPTION. */
  function FeedConfigProjectionWithFeed(env: Env): (ps: seq<Projection>)
    ensures |ps| == |FeedConfigColumnNames| + 3
    ensures forall i :: 0 <= i < |FeedConfigColumnNames| ==> ps[i] == ColumnProj(FeedConfigColumns(env)[i])
    ensures ps[10] == ColumnProj(FeedId(env)) && ps[11] == ColumnProj(FeedTitle(env))
    ensures ps[12] == ColumnProj(FeedDescription(env))
  {
    ColumnProjections(FeedConfigColumns(env))
      + [ColumnProj(FeedId(env)), ColumnProj(FeedTitle(env)), ColumnProj(FeedDescription(env))]
  }

  // ---------------------------------------------------------------------------------------------
  // Feed

  const FeedAliasPrefix: string := "f"
  const FeedDefaultTitle: string := "NO TITLE"
  const FeedDefaultDescription: string := "NO DESCRIPTION"
  const FeedDefaultDate: int := 0

  const FeedColumnNames: seq<string> := ["_id", "CATEGORY", "LINK", "TITLE", "DESCRIPTION", "PUBLISHED_DATE"]

  function FeedTable(env: Env): (t: Table)
    ensures t.name == env.escape("FEED")
  {
    assert E.TableName("Feed") == "FEED";
    R.TableNamed(env, 2, E.TableName("Feed"))
  }

  function FeedSource(env: Env): Source {
    TableSource(FeedTable(env))
  }

  /** Feed._ID: the primary key, also a foreign key to FeedConfig._ID with ON DELETE CASCADE. */
  function FeedId(env: Env): (c: Column)
    ensures c.foreignKey == Some(ForeignKey(FeedConfigId(env), Some(Cascade), None))
  {
    R.ColumnPKWithFk(env, 200, FeedSource(env), Some(ForeignKeyOnDelete(FeedConfigId(env), Cascade)))
  }

  function FeedLink(env: Env): Column {
    R.ColumnNamed(env, 202, FeedSource(env), "LINK")
  }

  function FeedTitle(env: Env): Column {
    R.ColumnNamed(env, 203, FeedSource(env), "TITLE")
  }

  function FeedDescription(env: Env): Column {
    R.ColumnNamed(env, 204, FeedSource(env), "DESCRIPTION")
  }

  function FeedCategory(env: Env): Column {
    R.ColumnOfType(env, 201, FeedSource(env), "CATEGORY", IntegerType)
  }

  function FeedPublishedDate(env: Env): Column {
    R.ColumnOfType(env, 205, FeedSource(env), "PUBLISHED_DATE", LongType)
  }

  /** Feed.COLUMNS, in declaration order. */
  function FeedColumns(env: Env): (cs: seq<Column>)
    ensures |cs| == |FeedColumnNames|
  {
    [FeedId(env), FeedCategory(env), FeedLink(env), FeedTitle(env), FeedDescription(env), FeedPublishedDate(env)]
  }

  /**
   * Feed.COLUMNS holds the six declared columns of the table in order, with their types; only
   * _ID has a foreign key.
   */
  lemma FeedColumnsDeclared(env: Env)
    ensures var cs := FeedColumns(env);
      && (forall i :: 0 <= i < |cs| ==> cs[i].name == env.escape(FeedColumnNames[i]))
      && (forall i :: 0 <= i < |cs| ==> cs[i].source == FeedSource(env))
      && (forall i :: 1 <= i < |cs| ==> cs[i].foreignKey.None?)
      && cs[0].dataType == LongType && cs[1].dataType == IntegerType && cs[5].dataType == LongType
      && (forall i :: 2 <= i < 5 ==> cs[i].dataType == StringType)
  {
    var cs := FeedColumns(env);
    var ns := FeedColumnNames;
    assert cs[0].name == env.escape(ns[0]);
    assert cs[1].name == env.escape(ns[1]);
    assert cs[2].name == env.escape(ns[2]);
    assert cs[3].name == env.escape(ns[3]);
    assert cs[4].name == env.escape(ns[4]);
    assert cs[5].name == env.escape(ns[5]);
  }

  // ---------------------------------------------------------------------------------------------
  // FeedEntry

  const FeedEntryAliasPrefix: string := "fe"
  const FeedEntryDefaultTitle: string := "NO TITLE"
  const FeedEntryDefaultAuthor: string := "NO AUTHOR"
  const FeedEntryDefaultDate: int := 0
  const FeedEntryDefaultDescriptionType: string := "text/plain"
  const FeedEntryDefaultDescriptionValue: string := "NO DESCRIPTION"

  const FeedEntryColumnNames: seq<string> :=
    ["_id", "FEED_ID", "LINK", "TITLE", "AUTHOR", "POLLED_DATE", "PUBLISHED_DATE", "UPDATED_DATE",
     "DESCRIPTION_TYPE", "DESCRIPTION_VALUE", "IS_READ"]

  function FeedEntryTable(env: Env): (t: Table)
    ensures t.name == env.escape("FEEDENTRY")
  {
    assert E.TableName("FeedEntry") == "FEEDENTRY";
    R.TableNamed(env, 3, E.TableName("FeedEntry"))
  }

  function FeedEntrySource(env: Env): Source {
    TableSource(FeedEntryTable(env))
  }

  /** FeedEntry.FEED_ID: a foreign key to Feed._ID with ON DELETE CASCADE. */
  function FeedEntryFeedId(env: Env): (c: Column)
    ensures c.foreignKey == Some(ForeignKey(FeedId(env), Some(Cascade), None))
  {
    R.ColumnWithFk(env, 301, FeedEntrySource(env), "FEED_ID", LongType, Some(ForeignKeyOnDelete(FeedId(env), Cascade)))
  }

  function FeedEntryLink(env: Env): Column {
    R.ColumnNamed(env, 302, FeedEntrySource(env), "LINK")
  }

  function FeedEntryTitle(env: Env): Column {
    R.ColumnNamed(env, 303, FeedEntrySource(env), "TITLE")
  }

  function FeedEntryAuthor(env: Env): Column {
    R.ColumnNamed(env, 304, FeedEntrySource(env), "AUTHOR")
  }

  function FeedEntryPolledDate(env: Env): Column {
    R.ColumnOfType(env, 305, FeedEntrySource(env), "POLLED_DATE", LongType)
  }

  function FeedEntryPublishedDate(env: Env): Column {
    R.ColumnOfType(env, 306, FeedEntrySource(env), "PUBLISHED_DATE", LongType)
  }

  function FeedEntryUpdatedDate(env: Env): Column {
    R.ColumnOfType(env, 307, FeedEntrySource(env), "UPDATED_DATE", LongType)
  }

  function FeedEntryDescriptionType(env: Env): Column {
    R.ColumnNamed(env, 308, FeedEntrySource(env), "DESCRIPTION_TYPE")
  }

  function FeedEntryDescriptionValue(env: Env): Column {
    R.ColumnNamed(env, 309, FeedEntrySource(env), "DESCRIPTION_VALUE")
  }

  function FeedEntryIsRead(env: Env): Column {
    R.ColumnOfType(env, 310, FeedEntrySource(env), "IS_READ", BooleanType)
  }

  /** FeedEntry.COLUMNS, in declaration order. */
  function FeedEntryColumns(env: Env): (cs: seq<Column>)
    ensures |cs| == |FeedEntryColumnNames|
  {
    [R.ColumnPK(env, 300, FeedEntrySource(env)), FeedEntryFeedId(env), FeedEntryLink(env), FeedEntryTitle(env),
     FeedEntryAuthor(env),
     FeedEntryPolledDate(env), FeedEntryPublishedDate(env), FeedEntryUpdatedDate(env),
     FeedEntryDescriptionType(env), FeedEntryDescriptionValue(env), FeedEntryIsRead(env)]
  }

  /**
   * FeedEntry.COLUMNS holds the eleven declared columns in order, with their types; only FEED_ID
   * has a foreign key.
   */
  lemma FeedEntryColumnsDeclared(env: Env)
    ensures var cs := FeedEntryColumns(env);
      && (forall i :: 0 <= i < |cs| ==> cs[i].name == env.escape(FeedEntryColumnNames[i]))
      && (forall i :: 0 <= i < |cs| ==> cs[i].source == FeedEntrySource(env))
      && cs[0].dataType == LongType && cs[1].dataType == LongType && cs[10].dataType == BooleanType
      && (forall i :: 2 <= i < 5 || 8 <= i < 10 ==> cs[i].dataType == StringType)
      && (forall i :: 5 <= i < 8 ==> cs[i].dataType == LongType)
      && (forall i :: 0 <= i < |cs| && i != 1 ==> cs[i].foreignKey.None?)
  {
    var cs := FeedEntryColumns(env);
    var ns := FeedEntryColumnNames;
    assert cs[0].name == env.escape(ns[0]);
    assert cs[1].name == env.escape(ns[1]);
    assert cs[2].name == env.escape(ns[2]);
    assert cs[3].name == env.escape(ns[3]);
    assert cs[4].name == env.escape(ns[4]);
    assert cs[5].name == env.escape(ns[5]);
    assert cs[6].name == env.escape(ns[6]);
    assert cs[7].name == env.escape(ns[7]);
    assert cs[8].name == env.escape(ns[8]);
    assert cs[9].name == env.escape(ns[9]);
    assert cs[10].name == env.escape(ns[10]);
  }

  /** No FeedEntry column is an enum: each takes a null or a value of its Java type. */
  lemma FeedEntryColumnsAreNotEnums(env: Env)
    ensures forall i :: 0 <= i < |FeedEntryColumns(env)| ==> !FeedEntryColumns(env)[i].dataType.EnumType?
  {
    var cs := FeedEntryColumns(env);
    forall i | 0 <= i < |cs| ensures !cs[i].dataType.EnumType? {
      if i < 6 {
        assert i == 0 || i == 1 || i == 2 || i == 3 || i == 4 || i == 5;
      } else {
        assert i == 6 || i == 7 || i == 8 || i == 9 || i == 10;
      }
    }
  }

  /**
   * FeedEntry.PROJECTION_WITH_FEED: COLUMNS, then FeedConfig's _ID, URL, PREVIEW_LENGTH,
   * TEXT_COLOR and ENTRY_PREFIX, then Feed.TITLE.
   */
  function FeedEntryProjectionWithFeed(env: Env): (ps: seq<Projection>)
    ensures |ps| == |FeedEntryColumnNames| + 6
    ensures forall i :: 0 <= i < |FeedEntryColumnNames| ==> ps[i] == ColumnProj(FeedEntryColumns(env)[i])
    ensures ps[11..] == [ColumnProj(FeedConfigId(env)), ColumnProj(FeedConfigUrl(env)),
      ColumnProj(FeedConfigPreviewLength(env)), ColumnProj(FeedConfigTextColor(env)),
      ColumnProj(FeedConfigEntryPrefix(env)), ColumnProj(FeedTitle(env))]
  {
    ColumnProjections(FeedEntryColumns(env))
      + [ColumnProj(FeedConfigId(env)), ColumnProj(FeedConfigUrl(env)),
         ColumnProj(FeedConfigPreviewLength(env)), ColumnProj(FeedConfigTextColor(env)),
         ColumnProj(FeedConfigEntryPrefix(env)), ColumnProj(FeedTitle(env))]
  }

  // ---------------------------------------------------------------------------------------------
  // FeedWidgetConfig

  const TextSizes: seq<string> := ["LARGE", "MEDIUM", "SMALL"]
  const FeedWidgetConfigAliasPrefix: string := "fwc"
  const DefaultToolbar: bool := true
  const DefaultTextSize: string := "MEDIUM"

  const FeedWidgetConfigColumnNames: seq<string> := ["_id", "TOOLBAR", "BACKGROUND_COLOR", "TEXT_SIZE"]

  function FeedWidgetConfigTable(env: Env): (t: Table)
    ensures t.name == env.escape("FEEDWIDGETCONFIG")
  {
    assert E.TableName("FeedWidgetConfig") == "FEEDWIDGETCONFIG";
    R.TableNamed(env, 4, E.TableName("FeedWidgetConfig"))
  }

  function FeedWidgetConfigSource(env: Env): Source {
    TableSource(FeedWidgetConfigTable(env))
  }

  /** FeedWidgetConfig._ID: declared through the single-boolean overload, so its primary-key flag is set. */
  function FeedWidgetConfigId(env: Env): (c: Column)
    ensures c.primaryKey && c.dataType == LongType && c.name == env.escape("_id")
  {
    R.ColumnPrimary(env, 400, FeedWidgetConfigSource(env), "_id", LongType, true)
  }

  /** FeedWidgetConfig.COLUMNS, in declaration order. */
  function FeedWidgetConfigColumns(env: Env): (cs: seq<Column>)
    ensures |cs| == |FeedWidgetConfigColumnNames|
    ensures forall i :: 0 <= i < |cs| ==>
      cs[i].name == env.escape(FeedWidgetConfigColumnNames[i]) && cs[i].source == FeedWidgetConfigSource(env)
    ensures cs[0].primaryKey && forall i :: 1 <= i < |cs| ==> !cs[i].primaryKey
    ensures cs[0].dataType == LongType && cs[1].dataType == BooleanType && cs[2].dataType == IntegerType
    ensures cs[3].dataType == EnumType(TextSizes)
  {
    var s := FeedWidgetConfigSource(env);
    [FeedWidgetConfigId(env), R.ColumnOfType(env, 401, s, "TOOLBAR", BooleanType),
     R.ColumnOfType(env, 402, s, "BACKGROUND_COLOR", IntegerType),
     R.ColumnOfType(env, 403, s, "TEXT_SIZE", EnumType(TextSizes))]
  }

  // ---------------------------------------------------------------------------------------------
  // FeedWidgetFeed

  const FeedWidgetFeedAliasPrefix: string := "fwf"
  const FeedWidgetFeedColumnNames: seq<string> := ["_id", "FEED_WIDGET_ID", "FEED_CONFIG_ID"]

  function FeedWidgetFeedTable(env: Env): (t: Table)
    ensures t.name == env.escape("FEEDWIDGETFEED")
  {
    assert E.TableName("FeedWidgetFeed") == "FEEDWIDGETFEED";
    R.TableNamed(env, 5, E.TableName("FeedWidgetFeed"))
  }

  function FeedWidgetFeedSource(env: Env): Source {
    TableSource(FeedWidgetFeedTable(env))
  }

  /**
   * FeedWidgetFeed.COLUMNS: _ID, then FEED_WIDGET_ID referencing FeedWidgetConfig._ID and
   * FEED_CONFIG_ID referencing FeedConfig._ID, both with ON DELETE CASCADE.
   */
  function FeedWidgetFeedColumns(env: Env): (cs: seq<Column>)
    ensures |cs| == |FeedWidgetFeedColumnNames|
    ensures forall i :: 0 <= i < |cs| ==>
      cs[i].name == env.escape(FeedWidgetFeedColumnNames[i]) && cs[i].source == FeedWidgetFeedSource(env)
      && cs[i].dataType == LongType
    ensures cs[0].foreignKey.None?
    ensures cs[1].foreignKey == Some(ForeignKey(FeedWidgetConfigId(env), Some(Cascade), None))
    ensures cs[2].foreignKey == Some(ForeignKey(FeedConfigId(env), Some(Cascade), None))
  {
    var s := FeedWidgetFeedSource(env);
    [R.ColumnPK(env, 500, s),
     R.ColumnWithFk(env, 501, s, "FEED_WIDGET_ID", LongType, Some(ForeignKeyOnDelete(FeedWidgetConfigId(env), Cascade))),
     R.ColumnWithFk(env, 502, s, "FEED_CONFIG_ID", LongType, Some(ForeignKeyOnDelete(FeedConfigId(env), Cascade)))]
  }
}

=== FILE: sql92.dfy ===
/**
 * The SQL-92 text generators: one function per serializer (column, join, order-by item, the
 * three restriction shapes) and the select-query serializer that assembles the SELECT, FROM,
 * WHERE and ORDER BY parts. The dispatch module proves that every node reaches the serializer
 * its function here models; serializers whose code is not part of this model, and the
 * punctuation constants, come from the dialect record.
 */
module Sql92 {
  import opened Wrappers
  import opened Query
  import opened Clauses
  import B = Builder
  import Text
  import Dispatch

  /** The keyword constants of QuerySerializer. */
  const SelectKeyword: string := "SELECT"
  const FromKeyword: string := "FROM"
  const WhereKeyword: string := "WHERE"
  const HavingKeyword: string := "HAVING"
  const GroupByKeyword: string := "GROUP BY"
  const OrderByKeyword: string := "ORDER BY"

  /**
   * The Serializer punctuation constants, the SQL values of join types and operators,
   * Order.toString, and the serializers of tables, raw projections, string expressions and
   * sub-selects.
   */
  datatype Dialect = Dialect(
    space: string,
    comma: string,
    aliasKeyword: string,
    on: string,
    period: string,
    openParen: string,
    closeParen: string,
    joinSql: JoinType -> string,
    opSql: Operator -> string,
    orderText: Order -> string,
    tableText: Table -> string,
    projectionText: StringProjection -> string,
    expressionText: string -> string,
    subQueryText: nat -> string)

  /**
   * After setAlias the serializers see the escaped alias for the object, and for every other
   * object the alias it had before (or none).
   */
  lemma SetAliasIsWhatSerializersSee(env: Env, b: B.Builder, a: Aliasable, alias: string, x: Aliasable)
    ensures Dispatch.GetAlias(Dispatch.Clone(Dispatch.DefaultContext, B.SetAlias(env, b, a, alias).aliases), a)
            == Some(env.escape(alias))
    ensures x != a ==>
      Dispatch.GetAlias(Dispatch.Clone(Dispatch.DefaultContext, B.SetAlias(env, b, a, alias).aliases), x)
      == Dispatch.GetAlias(Dispatch.Clone(Dispatch.DefaultContext, b.aliases), x)
  {
  }

  /** The "alias PERIOD" prefix of a column reference, or nothing when the source has no alias. */
  function Qualifier(d: Dialect, ctx: Dispatch.Context, s: Source): (r: string)
    ensures Dispatch.GetAlias(ctx, SourceKey(s)).None? ==> r == ""
    ensures Dispatch.GetAlias(ctx, SourceKey(s)).Some? ==>
      r == Dispatch.GetAlias(ctx, SourceKey(s)).value + d.period
  {
    match Dispatch.GetAlias(ctx, SourceKey(s))
    case Some(a) => a + d.period
    case None => ""
  }

  /**
   * ColumnSerializer: the source's alias and a period when the source has one, then the name.
   * The column's own select alias, type and flags play no part.
   */
  function ColumnText(d: Dialect, ctx: Dispatch.Context, c: Column): (r: string)
    ensures SourceKey(c.source) in ctx.aliases ==> r == ctx.aliases[SourceKey(c.source)] + d.period + c.name
    ensures SourceKey(c.source) !in ctx.aliases ==> r == c.name
  {
    Qualifier(d, ctx, c.source) + c.name
  }

  /** Every column reference ends with the column's name. */
  lemma ColumnTextEndsWithName(d: Dialect, ctx: Dispatch.Context, c: Column)
    ensures Text.EndsWith(ColumnText(d, ctx, c), c.name)
  {
    var r := ColumnText(d, ctx, c);
    assert r[|r| - |c.name|..] == c.name;
  }

  /** The serializer of a FROM source: the table serializer, or the inner select serializer. */
  function SourceText(d: Dialect, s: Source): (r: string)
    ensures s.TableSource? ==> r == d.tableText(s.table)
    ensures s.SubQuerySource? ==> r == d.subQueryText(s.qid)
  {
    match s
    case TableSource(t) => d.tableText(t)
    case SubQuerySource(q) => d.subQueryText(q)
  }

  /**
   * Context.serialize on an expression node: a column, a raw projection, a string expression, a
   * sub-select, or one of the three restriction serializers (operator first for the unary form;
   * left, operator, right for the binary form; left, operator and the parenthesised list for
   * the multi form). No parentheses are put around operands.
   */
  function ExprText(d: Dialect, ctx: Dispatch.Context, e: Expr): (r: string)
    ensures e.ProjectionExpr? && e.projection.ColumnProj? ==> r == ColumnText(d, ctx, e.projection.column)
    ensures e.MultiRestriction? ==> Text.EndsWith(r, d.closeParen)
    decreases e
  {
    match e
    case ProjectionExpr(ColumnProj(c)) => ColumnText(d, ctx, c)
    case ProjectionExpr(StringProj(sp)) => d.projectionText(sp)
    case StringExpression(t) => d.expressionText(t)
    case SubQueryExpr(q) => d.subQueryText(q)
    case UnaryRestriction(op, x) => d.opSql(op) + d.space + ExprText(d, ctx, x)
    case BinaryRestriction(op, x, y) => ExprText(d, ctx, x) + d.space + d.opSql(op) + d.space + ExprText(d, ctx, y)
    case MultiRestriction(op, x, ys) =>
      ExprText(d, ctx, x) + d.space + d.opSql(op) + d.space + d.openParen + ElementsText(d, ctx, ys) + d.closeParen
  }

  /** MultiRestrictionSerializer's loop: COMMA SPACE before every element but the first. */
  function ElementsText(d: Dialect, ctx: Dispatch.Context, es: seq<Expr>): (r: string)
    ensures |es| == 0 ==> r == ""
    ensures |es| == 1 ==> r == ExprText(d, ctx, es[0])
    decreases es
  {
    if |es| == 0 then ""
    else
      ElementsText(d, ctx, es[..|es| - 1]) + (if |es| > 1 then d.comma + d.space else "")
        + ExprText(d, ctx, es[|es| - 1])
  }

  /** The serialized elements, one per element and in order. */
  function ExprTexts(d: Dialect, ctx: Dispatch.Context, es: seq<Expr>): (ts: seq<string>)
    ensures |ts| == |es|
    ensures forall i :: 0 <= i < |es| ==> ts[i] == ExprText(d, ctx, es[i])
  {
    if |es| == 0 then [] else ExprTexts(d, ctx, es[..|es| - 1]) + [ExprText(d, ctx, es[|es| - 1])]
  }

  /** The IN list: n elements joined by n - 1 copies of COMMA SPACE. */
  lemma {:induction false} ElementsTextIsJoin(d: Dialect, ctx: Dispatch.Context, es: seq<Expr>)
    ensures ElementsText(d, ctx, es) == Text.JoinWith(ExprTexts(d, ctx, es), d.comma + d.space)
    decreases |es|
  {
    if |es| > 1 {
      var init := es[..|es| - 1];
      ElementsTextIsJoin(d, ctx, init);
      assert ExprTexts(d, ctx, es) == ExprTexts(d, ctx, init) + [ExprText(d, ctx, es[|es| - 1])];
      Text.JoinWithSnoc(ExprTexts(d, ctx, init), ExprText(d, ctx, es[|es| - 1]), d.comma + d.space);
    } else if |es| == 1 {
      assert ElementsText(d, ctx, es[..0]) == "";
    }
  }

  /** An empty element set gives an empty pair of parentheses after the operator. */
  lemma EmptyInListIsEmptyParentheses(d: Dialect, ctx: Dispatch.Context, op: Operator, x: Expr)
    ensures ExprText(d, ctx, MultiRestriction(op, x, [])) ==
      ExprText(d, ctx, x) + d.space + d.opSql(op) + d.space + d.openParen + d.closeParen
  {
  }

  /**
   * Because no parentheses are emitted, (a OR b) AND c and a OR (b AND c) serialize to the same
   * text although they are different restrictions.
   */
  lemma NestedRestrictionsPrintFlat(d: Dialect, ctx: Dispatch.Context, a: Restriction, b: Restriction, c: Restriction)
    ensures BinaryRestriction(AndOp, BinaryRestriction(OrOp, a, b), c) != BinaryRestriction(OrOp, a, BinaryRestriction(AndOp, b, c))
    ensures ExprText(d, ctx, BinaryRestriction(AndOp, BinaryRestriction(OrOp, a, b), c)) ==
            ExprText(d, ctx, BinaryRestriction(OrOp, a, BinaryRestriction(AndOp, b, c)))
  {
    var ta, tb, tc := ExprText(d, ctx, a), ExprText(d, ctx, b), ExprText(d, ctx, c);
    var and, or, sp := d.opSql(AndOp), d.opSql(OrOp), d.space;
    calc {
      ExprText(d, ctx, BinaryRestriction(AndOp, BinaryRestriction(OrOp, a, b), c));
      (ta + sp + or + sp + tb) + sp + and + sp + tc;
      ta + sp + or + sp + (tb + sp + and + sp + tc);
      ExprText(d, ctx, BinaryRestriction(OrOp, a, BinaryRestriction(AndOp, b, c)));
    }
  }

  /** The opening of a join's text: its type (or a bare COMMA), SPACE, and the source. */
  function JoinOpening(d: Dialect, j: Join): string {
    (if j.restriction.None? && j.joinType == Cross then d.comma else d.space + d.joinSql(j.joinType))
      + d.space + SourceText(d, j.source)
  }

  /**
   * JoinSerializer: a CROSS join without restriction opens with COMMA, any other join with SPACE
   * and its type's SQL; then SPACE and the source; then the join's own alias (not its source's)
   * whenever it has one; then the ON clause when a restriction is present.
   */
  function JoinText(d: Dialect, ctx: Dispatch.Context, j: Join): (r: string)
    ensures |JoinOpening(d, j)| <= |r| && r[..|JoinOpening(d, j)|] == JoinOpening(d, j)
    ensures Dispatch.GetAlias(ctx, JoinKey(j)).Some? ==>
      var clause := d.space + d.aliasKeyword + d.space + Dispatch.GetAlias(ctx, JoinKey(j)).value;
      |JoinOpening(d, j)| + |clause| <= |r| && r[|JoinOpening(d, j)|..|JoinOpening(d, j)| + |clause|] == clause
    ensures j.restriction.Some? ==> Text.EndsWith(r, d.space + d.on + d.space + ExprText(d, ctx, j.restriction.value))
    ensures j.restriction.None? && Dispatch.GetAlias(ctx, JoinKey(j)).None? ==> r == JoinOpening(d, j)
  {
    var head := if j.restriction.None? && j.joinType == Cross then d.comma else d.space + d.joinSql(j.joinType);
    var alias := match Dispatch.GetAlias(ctx, JoinKey(j))
      case Some(a) => d.space + d.aliasKeyword + d.space + a
      case None => "";
    var on := match j.restriction
      case Some(r) => d.space + d.on + d.space + ExprText(d, ctx, r)
      case None => "";
    var r := head + d.space + SourceText(d, j.source) + alias + on;
    assert r == JoinOpening(d, j) + alias + on;
    r
  }

  /**
   * A join's text is exactly its opening, the AS clause of the join's own alias when it has one,
   * and the ON clause when it has a restriction, in that order and nothing else.
   */
  lemma JoinTextShape(d: Dialect, ctx: Dispatch.Context, j: Join)
    ensures JoinText(d, ctx, j) == JoinOpening(d, j)
      + (match Dispatch.GetAlias(ctx, JoinKey(j))
         case Some(a) => d.space + d.aliasKeyword + d.space + a
         case None => "")
      + (match j.restriction
         case Some(x) => d.space + d.on + d.space + ExprText(d, ctx, x)
         case None => "")
  {
  }

  /**
   * The alias printed after a join is the join's own: the alias its source has in the FROM
   * clause plays no part in the text of a join without restriction.
   */
  lemma JoinTextIgnoresTheSourceAlias(d: Dialect, ctx: Dispatch.Context, j: Join, other: string)
    requires j.restriction.None?
    ensures JoinText(d, ctx, j) == JoinText(d, Dispatch.Context(ctx.registry, ctx.aliases[SourceKey(j.source) := other]), j)
  {
  }

  /**
   * OrderBySerializer: the source's alias and a period when it has one, the column name, one
   * SPACE, the direction.
   */
  function OrderByText(d: Dialect, ctx: Dispatch.Context, o: OrderBy): (r: string)
    ensures r == ColumnText(d, ctx, o.column) + d.space + d.orderText(o.order)
  {
    Qualifier(d, ctx, OrderBySource(o)) + OrderByName(o) + d.space + d.orderText(o.order)
  }

  /** A projection's text: the serializer of its class. */
  function ProjectionText(d: Dialect, ctx: Dispatch.Context, p: Projection): (r: string)
    ensures p.ColumnProj? ==> r == ColumnText(d, ctx, p.column)
    ensures p.StringProj? ==> r == d.projectionText(p.sp)
  {
    ExprText(d, ctx, ProjectionExpr(p))
  }

  /**
   * serializeSelect's buffer after the projections `ps` (in set iteration order): "SELECT"
   * SPACE, then for each projection a COMMA SPACE separator (but before the first) and its text,
   * aliased as below.
   */
  function SelectBuffer(d: Dialect, ctx: Dispatch.Context, ps: seq<Projection>): (r: string)
    ensures |SelectKeyword + d.space| <= |r| && r[..|SelectKeyword + d.space|] == SelectKeyword + d.space
    decreases |ps|
  {
    if |ps| == 0 then SelectKeyword + d.space
    else
      var sep := if |ps| > 1 then d.comma + d.space else "";
      var sb := SelectBuffer(d, ctx, ps[..|ps| - 1]) + sep + ProjectionText(d, ctx, ps[|ps| - 1]);
      var r := Aliased(d, ctx, sb, ps[|ps| - 1]);
      assert r[..|SelectKeyword + d.space|] == sb[..|SelectKeyword + d.space|];
      r
  }

  /** " AS alias" is appended unless the buffer so far ends in "*" or the projection has no alias. */
  function Aliased(d: Dialect, ctx: Dispatch.Context, sb: string, p: Projection): (r: string)
    ensures |sb| <= |r| && r[..|sb|] == sb
    ensures Text.EndsWith(sb, "*") || ProjectionKey(p) !in ctx.aliases ==> r == sb
    ensures !Text.EndsWith(sb, "*") && ProjectionKey(p) in ctx.aliases ==>
      Text.EndsWith(r, d.aliasKeyword + d.space + ctx.aliases[ProjectionKey(p)])
  {
    if !Text.EndsWith(sb, "*") && ProjectionKey(p) in ctx.aliases then
      sb + d.space + d.aliasKeyword + d.space + ctx.aliases[ProjectionKey(p)]
    else sb
  }

  /** One SELECT item as it appears when its own text is not empty. */
  function SelectItem(d: Dialect, ctx: Dispatch.Context, p: Projection): (r: string)
    ensures |ProjectionText(d, ctx, p)| <= |r| && r[..|ProjectionText(d, ctx, p)|] == ProjectionText(d, ctx, p)
    ensures ProjectionKey(p) !in ctx.aliases ==> r == ProjectionText(d, ctx, p)
  {
    Aliased(d, ctx, ProjectionText(d, ctx, p), p)
  }

  function SelectItems(d: Dialect, ctx: Dispatch.Context, ps: seq<Projection>): (ts: seq<string>)
    ensures |ts| == |ps|
    ensures forall i :: 0 <= i < |ps| ==> ts[i] == SelectItem(d, ctx, ps[i])
  {
    seq(|ps|, i requires 0 <= i < |ps| => SelectItem(d, ctx, ps[i]))
  }

  lemma EndsWithAppended(a: string, t: string, suffix: string)
    requires |suffix| <= |t|
    ensures Text.EndsWith(a + t, suffix) == Text.EndsWith(t, suffix)
  {
    assert (a + t)[|a + t| - |suffix|..] == t[|t| - |suffix|..];
  }

  /** The "*" test on the buffer is a test on the last item's text when that text is not empty. */
  lemma AliasedAppend(d: Dialect, ctx: Dispatch.Context, prefix: string, t: string, p: Projection)
    requires t != ""
    ensures Aliased(d, ctx, prefix + t, p) == prefix + Aliased(d, ctx, t, p)
  {
    EndsWithAppended(prefix, t, "*");
  }

  /** One more item after a head and the joined items so far: a separator unless it is the first. */
  lemma JoinedStep(head: string, items: seq<string>, item: string, sep: string)
    ensures head + Text.JoinWith(items + [item], sep) == head + Text.JoinWith(items, sep) + (if |items| > 0 then sep else "") + item
  {
    if |items| > 0 {
      Text.JoinWithSnoc(items, item, sep);
    } else {
      assert items + [item] == [item];
    }
  }

  /** One more projection whose text is not empty adds a separator (unless it is the first) and its item. */
  lemma SelectBufferStep(d: Dialect, ctx: Dispatch.Context, ps: seq<Projection>)
    requires |ps| > 0 && ProjectionText(d, ctx, ps[|ps| - 1]) != ""
    ensures SelectBuffer(d, ctx, ps) ==
      SelectBuffer(d, ctx, ps[..|ps| - 1]) + (if |ps| > 1 then d.comma + d.space else "") + SelectItem(d, ctx, ps[|ps| - 1])
  {
    var sep := if |ps| > 1 then d.comma + d.space else "";
    var last := ps[|ps| - 1];
    AliasedAppend(d, ctx, SelectBuffer(d, ctx, ps[..|ps| - 1]) + sep, ProjectionText(d, ctx, last), last);
  }

  lemma SelectItemsSnoc(d: Dialect, ctx: Dispatch.Context, ps: seq<Projection>)
    requires |ps| > 0
    ensures SelectItems(d, ctx, ps) == SelectItems(d, ctx, ps[..|ps| - 1]) + [SelectItem(d, ctx, ps[|ps| - 1])]
  {
  }

  /**
   * When every projection prints some text, the "*" test on the whole buffer is a test on the
   * projection's own text, and the SELECT part is "SELECT" SPACE followed by the items joined by
   * COMMA SPACE: n projections give n - 1 separators.
   */
  lemma {:induction false} SelectBufferIsJoin(d: Dialect, ctx: Dispatch.Context, ps: seq<Projection>)
    requires forall i :: 0 <= i < |ps| ==> ProjectionText(d, ctx, ps[i]) != ""
    ensures SelectBuffer(d, ctx, ps) == SelectKeyword + d.space + Text.JoinWith(SelectItems(d, ctx, ps), d.comma + d.space)
    decreases |ps|
  {
    if |ps| > 0 {
      var init := ps[..|ps| - 1];
      assert forall i :: 0 <= i < |init| ==> init[i] == ps[i];
      SelectBufferIsJoin(d, ctx, init);
      SelectBufferStep(d, ctx, ps);
      SelectItemsSnoc(d, ctx, ps);
      JoinedStep(SelectKeyword + d.space, SelectItems(d, ctx, init), SelectItem(d, ctx, ps[|ps| - 1]), d.comma + d.space);
    }
  }


  /**
   * serializeFrom: SPACE FROM SPACE, the source, " AS alias " (with a trailing SPACE) when the
   * source has an alias, then each join followed by SPACE. A missing source throws.
   */
  function FromPart(d: Dialect, ctx: Dispatch.Context, f: FromClause): (r: Result<string>)
    ensures r.Success? <==> f.source.Some?
  {
    match f.source
    case None => Failure("NullPointerException: no FROM source")
    case Some(s) =>
      var alias := match Dispatch.GetAlias(ctx, SourceKey(s))
        case Some(a) => d.space + d.aliasKeyword + d.space + a + d.space
        case None => "";
      Success(d.space + FromKeyword + d.space + SourceText(d, s) + alias + JoinsText(d, ctx, f.joins))
  }

  /** The joins in clause order, each followed by SPACE. */
  function JoinsText(d: Dialect, ctx: Dispatch.Context, js: seq<Join>): (r: string)
    ensures |js| > 0 ==> r == JoinsText(d, ctx, js[..|js| - 1]) + JoinText(d, ctx, js[|js| - 1]) + d.space
    decreases |js|
  {
    if |js| == 0 then "" else JoinsText(d, ctx, js[..|js| - 1]) + JoinText(d, ctx, js[|js| - 1]) + d.space
  }

  /** serializeWhere: empty without a restriction, else WHERE SPACE and the restriction. */
  function WherePart(d: Dialect, ctx: Dispatch.Context, w: Option<Restriction>): (r: string)
    ensures w.None? <==> r == ""
  {
    match w
    case None => ""
    case Some(x) => WhereKeyword + d.space + ExprText(d, ctx, x)
  }

  /** The order-by items, each followed by COMMA. */
  function OrderByItems(d: Dialect, ctx: Dispatch.Context, os: seq<OrderBy>): (r: string)
    ensures |os| > 0 ==> Text.EndsWith(r, d.comma)
    decreases |os|
  {
    if |os| == 0 then "" else OrderByItems(d, ctx, os[..|os| - 1]) + OrderByText(d, ctx, os[|os| - 1]) + d.comma
  }

  /**
   * serializeOrderBy: empty without items; otherwise SPACE ORDER_BY SPACE and every item followed
   * by COMMA, after which the last character of the buffer is deleted.
   */
  function OrderByPart(d: Dialect, ctx: Dispatch.Context, os: seq<OrderBy>): (r: string)
    ensures |os| == 0 <==> r == ""
  {
    if |os| == 0 then ""
    else
      var sb := d.space + OrderByKeyword + d.space + OrderByItems(d, ctx, os);
      sb[..|sb| - 1]
  }

  function OrderByTexts(d: Dialect, ctx: Dispatch.Context, os: seq<OrderBy>): (ts: seq<string>)
    ensures |ts| == |os|
    ensures forall i :: 0 <= i < |os| ==> ts[i] == OrderByText(d, ctx, os[i])
  {
    if |os| == 0 then [] else OrderByTexts(d, ctx, os[..|os| - 1]) + [OrderByText(d, ctx, os[|os| - 1])]
  }

  lemma {:induction false} OrderByItemsIsJoin(d: Dialect, ctx: Dispatch.Context, os: seq<OrderBy>)
    requires |os| > 0
    ensures OrderByItems(d, ctx, os) == Text.JoinWith(OrderByTexts(d, ctx, os), d.comma) + d.comma
    decreases |os|
  {
    var init := os[..|os| - 1];
    var last := OrderByText(d, ctx, os[|os| - 1]);
    if |os| > 1 {
      OrderByItemsIsJoin(d, ctx, init);
      assert OrderByTexts(d, ctx, os) == OrderByTexts(d, ctx, init) + [last];
      Text.JoinWithSnoc(OrderByTexts(d, ctx, init), last, d.comma);
    } else {
      assert OrderByItems(d, ctx, init) == "";
    }
  }

  /**
   * With a one-character COMMA, the deletion removes exactly the trailing comma: the ORDER BY part
   * is SPACE "ORDER BY" SPACE and the items joined by a bare COMMA, in call order.
   */
  lemma OrderByPartIsJoin(d: Dialect, ctx: Dispatch.Context, os: seq<OrderBy>)
    requires |os| > 0 && |d.comma| == 1
    ensures OrderByPart(d, ctx, os) == d.space + OrderByKeyword + d.space + Text.JoinWith(OrderByTexts(d, ctx, os), d.comma)
  {
    OrderByItemsIsJoin(d, ctx, os);
    var j := Text.JoinWith(OrderByTexts(d, ctx, os), d.comma);
    var sb := d.space + OrderByKeyword + d.space + j + d.comma;
    assert sb[..|sb| - 1] == d.space + OrderByKeyword + d.space + j;
  }

  /** The projections of the SELECT clause in its set's iteration order: each exactly once. */
  ghost predicate Enumerates(order: seq<Projection>, projections: set<Projection>) {
    && (forall i, j :: 0 <= i < j < |order| ==> order[i] != order[j])
    && (forall p :: p in order <==> p in projections)
  }

  /**
   * SelectQuerySerializer.serialize: the SELECT, FROM, WHERE and ORDER BY parts in that order,
   * nothing else; the quantifier is never read.
   */
  function SerializeQuery(d: Dialect, ctx: Dispatch.Context, b: B.Builder, order: seq<Projection>): (r: Result<string>)
    requires Enumerates(order, b.select.projections)
    ensures r.Success? <==> b.from.source.Some?
    ensures r.Success? ==>
      r.value == SelectBuffer(d, ctx, order) + FromPart(d, ctx, b.from).value
                 + WherePart(d, ctx, b.where) + OrderByPart(d, ctx, b.orderBys)
  {
    var from :- FromPart(d, ctx, b.from);
    Success(SelectBuffer(d, ctx, order) + from + WherePart(d, ctx, b.where) + OrderByPart(d, ctx, b.orderBys))
  }
  /**
   * The whole statement in terms of the joined items: "SELECT " and the SELECT items joined by
   * COMMA SPACE, the FROM part, the WHERE part, then SPACE "ORDER BY" SPACE and the order-by
   * items joined by COMMA.
   */
  lemma SerializeQueryIsJoin(d: Dialect, ctx: Dispatch.Context, b: B.Builder, order: seq<Projection>)
    requires Enumerates(order, b.select.projections) && b.from.source.Some?
    requires forall i :: 0 <= i < |order| ==> ProjectionText(d, ctx, order[i]) != ""
    requires |b.orderBys| > 0 && |d.comma| == 1
    ensures SerializeQuery(d, ctx, b, order) ==
      Success((SelectKeyword + d.space + Text.JoinWith(SelectItems(d, ctx, order), d.comma + d.space))
              + FromPart(d, ctx, b.from).value + WherePart(d, ctx, b.where)
              + (d.space + OrderByKeyword + d.space + Text.JoinWith(OrderByTexts(d, ctx, b.orderBys), d.comma)))
  {
    var select, orderBy := SelectBuffer(d, ctx, order), OrderByPart(d, ctx, b.orderBys);
    assert SerializeQuery(d, ctx, b, order) ==
      Success(select + FromPart(d, ctx, b.from).value + WherePart(d, ctx, b.where) + orderBy);
    SelectBufferIsJoin(d, ctx, order);
    OrderByPartIsJoin(d, ctx, b.orderBys);
  }


  /**
   * Sql92.serialize: the default context cloned with the query's own alias map, then the select
   * serializer directly (not through the registry).
   */
  function Serialize(d: Dialect, b: B.Builder, order: seq<Projection>): (r: Result<string>)
    requires Enumerates(order, b.select.projections)
    ensures r.Success? <==> b.from.source.Some?
    ensures r.Success? ==>
      |r.value| >= |SelectKeyword + d.space| && r.value[..|SelectKeyword + d.space|] == SelectKeyword + d.space
  {
    var ctx := Dispatch.Clone(Dispatch.DefaultContext, b.aliases);
    SerializeQuery(d, ctx, b, order)
  }

  /** DISTINCT is never printed: a distinct query serializes exactly like the plain one. */
  lemma DistinctIsNeverPrinted(d: Dialect, b: B.Builder, order: seq<Projection>)
    requires Enumerates(order, b.select.projections)
    ensures Serialize(d, B.Distinct(b), order) == Serialize(d, b, order)
  {
  }
}

=== FILE: string_util.dfy ===
/**
 * The string helpers of util/StringUtil: truncation (plain and on a word boundary), replacement of
 * control characters and of whitespace runs by one space, and array concatenation.
 */
module StringUtil {
  import opened Wrappers
  import JavaLang

  // ---------------------------------------------------------------------------------------------
  // truncate

  /**
   * truncate(string, length, append): a string that fits is returned as it is; a longer one keeps
   * its first length - 1 characters followed by the append string. String.substring throws for a
   * length below 1 when the string does not fit.
   */
  function Truncate(s: string, length: int, append: string): (r: Result<string>)
    ensures r.Success? <==> |s| <= length || length >= 1
    ensures |s| <= length ==> r == Success(s)
    ensures r.Success? && |s| > length ==>
      |r.value| == length - 1 + |append| && r.value[..length - 1] == s[..length - 1] && r.value[length - 1..] == append
  {
    if |s| <= length then Success(s)
    else if length - 1 < 0 then Failure("StringIndexOutOfBoundsException: " + JavaLang.IntToString(length - 1))
    else Success(s[..length - 1] + append)
  }

  /** With a one-character marker the truncated string is exactly as long as the limit allows. */
  lemma TruncateFitsWithOneCharMarker(s: string, length: int, append: string)
    requires length >= 1 && |append| == 1
    ensures Truncate(s, length, append).Success?
    ensures |Truncate(s, length, append).value| <= length
    ensures |s| > length ==> |Truncate(s, length, append).value| == length
  {
  }

  // ---------------------------------------------------------------------------------------------
  // truncateOnWordBoundary

  /**
   * The position of the last space at or before n, or 0 when there is none: the lastWhitespace
   * variable after the loop has seen characters 0 through n.
   */
  function LastSpace(s: string, n: nat): (r: nat)
    requires n < |s|
    ensures r <= n
    ensures r > 0 ==> s[r] == ' '
    ensures forall j :: r < j <= n ==> s[j] != ' '
    decreases n
  {
    if s[n] == ' ' then n else if n == 0 then 0 else LastSpace(s, n - 1)
  }

  /** The value truncateOnWordBoundary returns, as a reference for the loop below. */
  function WordBoundaryTruncation(s: string, length: int, append: string): (r: string)
    ensures |s| > length ==> |r| <= (if length < 0 then 0 else length) + |append|
  {
    if |s| <= length then s
    else if |s| == 0 then append
    else s[..LastSpace(s, if length < 0 then 0 else length)] + append
  }

  /**
   * A truncation on a word boundary keeps a prefix that is followed by a space in the original
   * (or is empty), and no later space lies within the limit: the cut is at the last word boundary.
   */
  lemma WordBoundaryTruncationCutsAtLastSpace(s: string, length: int, append: string)
    requires |s| > length >= 0
    ensures exists k :: (0 <= k <= length && WordBoundaryTruncation(s, length, append) == s[..k] + append
      && (k > 0 ==> s[k] == ' ') && forall j :: k < j <= length ==> s[j] != ' ')
  {
    var k := LastSpace(s, length);
    assert WordBoundaryTruncation(s, length, append) == s[..k] + append;
  }

  /**
   * truncateOnWordBoundary, with its loop: scan the characters, remember the last space, and once
   * the index reaches the limit cut the scanned text before that space. A limit below zero cuts
   * at the first character.
   */
  method TruncateOnWordBoundary(s: string, length: int, append: string) returns (r: string)
    ensures r == WordBoundaryTruncation(s, length, append)
    ensures |s| <= length ==> r == s
  {
    if |s| <= length {
      return s;
    }
    var buffer: string := "";
    var result: string := "";
    var lastWhitespace: nat := 0;
    var i := 0;
    var bound := if length < 0 then 0 else length;
    while i < |s|
      invariant 0 <= i <= bound && i <= |s|
      invariant |s| > 0 ==> bound < |s|
      invariant buffer == s[..i]
      invariant lastWhitespace == (if i == 0 then 0 else LastSpace(s, i - 1))
      invariant lastWhitespace <= i
      decreases |s| - i
    {
      if s[i] == ' ' {
        lastWhitespace := i;
      }
      buffer := buffer + [s[i]];
      if i >= length {
        result := buffer[..lastWhitespace];
        break;
      }
      i := i + 1;
    }
    return result + append;
  }

  // ---------------------------------------------------------------------------------------------
  // replaceControlChars

  /** The characters of the class [\a\e\f\n\r\t]: bell, escape, form feed, newline, return, tab. */
  predicate IsControl(c: char) {
    c == 7 as char || c == 27 as char || c == 12 as char || c == '\n' || c == '\r' || c == '\t'
  }

  /** replaceControlChars: every control character becomes a space, every other one stays. */
  function ReplaceControlChars(s: string): (r: string)
    ensures |r| == |s|
    ensures forall i :: 0 <= i < |r| ==> !IsControl(r[i])
    ensures forall i :: 0 <= i < |s| ==> r[i] == (if IsControl(s[i]) then ' ' else s[i])
  {
    seq(|s|, i requires 0 <= i < |s| => if IsControl(s[i]) then ' ' else s[i])
  }

  /** A string without control characters is left as it is; in particular the replacement is idempotent. */
  lemma ReplaceControlCharsIdempotent(s: string)
    ensures (forall i :: 0 <= i < |s| ==> !IsControl(s[i])) ==> ReplaceControlChars(s) == s
    ensures ReplaceControlChars(ReplaceControlChars(s)) == ReplaceControlChars(s)
  {
  }

  // ---------------------------------------------------------------------------------------------
  // replaceMultipleWhitespace

  /** The characters \s matches. */
  predicate IsWhitespace(c: char) {
    JavaLang.IsRegexWhitespace(c)
  }

  /** The string after its leading run of whitespace. */
  function DropWhitespace(s: string): (r: string)
    ensures |r| <= |s| && r == s[|s| - |r|..]
    ensures |r| > 0 ==> !IsWhitespace(r[0])
    ensures forall i :: 0 <= i < |s| - |r| ==> IsWhitespace(s[i])
  {
    if |s| > 0 && IsWhitespace(s[0]) then
      var r := DropWhitespace(s[1..]);
      assert forall i :: 1 <= i < |s| - |r| ==> s[i] == s[1..][i - 1];
      r
    else s
  }

  /** A string in which every whitespace character is a space and no two of them are adjacent. */
  predicate Collapsed(s: string) {
    (forall i :: 0 <= i < |s| && IsWhitespace(s[i]) ==> s[i] == ' ')
    && (forall i :: 0 <= i < |s| - 1 ==> !(IsWhitespace(s[i]) && IsWhitespace(s[i + 1])))
  }

  /** replaceMultipleWhitespace: every maximal run of whitespace becomes one space. */
  function ReplaceMultipleWhitespace(s: string): (r: string)
    ensures |r| <= |s|
    ensures |s| > 0 ==> |r| > 0 && (IsWhitespace(r[0]) <==> IsWhitespace(s[0]))
    ensures Collapsed(r)
    decreases |s|
  {
    if |s| == 0 then ""
    else if IsWhitespace(s[0]) then
      var rest := ReplaceMultipleWhitespace(DropWhitespace(s));
      assert |rest| > 0 ==> !IsWhitespace(rest[0]);
      " " + rest
    else
      var rest := ReplaceMultipleWhitespace(s[1..]);
      [s[0]] + rest
  }

  /** The non-whitespace characters of a string, in order. */
  function Visible(s: string): string {
    if |s| == 0 then ""
    else if IsWhitespace(s[0]) then Visible(s[1..])
    else [s[0]] + Visible(s[1..])
  }

  /** Dropping leading whitespace drops no visible character. */
  lemma {:induction false} VisibleOfDropWhitespace(s: string)
    ensures Visible(DropWhitespace(s)) == Visible(s)
  {
    if |s| > 0 && IsWhitespace(s[0]) {
      VisibleOfDropWhitespace(s[1..]);
    }
  }

  /** Collapsing whitespace keeps every other character, in order. */
  lemma {:induction false} ReplaceMultipleWhitespaceKeepsVisible(s: string)
    ensures Visible(ReplaceMultipleWhitespace(s)) == Visible(s)
    decreases |s|
  {
    if |s| > 0 {
      if IsWhitespace(s[0]) {
        var d := DropWhitespace(s);
        ReplaceMultipleWhitespaceKeepsVisible(d);
        VisibleOfDropWhitespace(s);
        var r := ReplaceMultipleWhitespace(s);
        assert r == " " + ReplaceMultipleWhitespace(d);
        assert r[1..] == ReplaceMultipleWhitespace(d);
      } else {
        ReplaceMultipleWhitespaceKeepsVisible(s[1..]);
        var r := ReplaceMultipleWhitespace(s);
        assert r[1..] == ReplaceMultipleWhitespace(s[1..]);
      }
    }
  }

  /** A string that is already collapsed is left as it is; in particular the replacement is idempotent. */
  lemma {:induction false} ReplaceMultipleWhitespaceOfCollapsed(s: string)
    requires Collapsed(s)
    ensures ReplaceMultipleWhitespace(s) == s
    decreases |s|
  {
    if |s| > 0 {
      assert Collapsed(s[1..]) by {
        forall i | 0 <= i < |s[1..]| - 1 ensures !(IsWhitespace(s[1..][i]) && IsWhitespace(s[1..][i + 1])) {
          assert s[1..][i] == s[i + 1] && s[1..][i + 1] == s[i + 2];
        }
      }
      ReplaceMultipleWhitespaceOfCollapsed(s[1..]);
      assert s == [s[0]] + s[1..];
      if IsWhitespace(s[0]) {
        assert |s| > 1 ==> !IsWhitespace(s[1]);
        assert DropWhitespace(s[1..]) == s[1..];
        assert DropWhitespace(s) == s[1..];
        assert s[0] == ' ';
      }
    }
  }

  lemma ReplaceMultipleWhitespaceIdempotent(s: string)
    ensures ReplaceMultipleWhitespace(ReplaceMultipleWhitespace(s)) == ReplaceMultipleWhitespace(s)
  {
    ReplaceMultipleWhitespaceOfCollapsed(ReplaceMultipleWhitespace(s));
  }

  /**
   * A reference definition read character by character: a whitespace character prints one space
   * unless the character before it was whitespace too, and every other character prints itself.
   * `afterWhitespace` says whether the character before `s` was whitespace.
   */
  function Squeezed(s: string, afterWhitespace: bool): string
    decreases |s|
  {
    if |s| == 0 then "" else Emitted(s[0], afterWhitespace) + Squeezed(s[1..], IsWhitespace(s[0]))
  }

  /** What the reference prints for one character. */
  function Emitted(c: char, afterWhitespace: bool): string {
    if !IsWhitespace(c) then [c] else if afterWhitespace then "" else " "
  }

  /** Whether the last character read was whitespace, after reading `s` in state `afterWhitespace`. */
  function EndsAfterWhitespace(s: string, afterWhitespace: bool): bool {
    if |s| == 0 then afterWhitespace else IsWhitespace(s[|s| - 1])
  }

  /** Reading a concatenation is reading the first part, then the second from where it left off. */
  lemma {:induction false} SqueezedAppend(x: string, y: string, afterWhitespace: bool)
    ensures Squeezed(x + y, afterWhitespace) == Squeezed(x, afterWhitespace) + Squeezed(y, EndsAfterWhitespace(x, afterWhitespace))
    decreases |x|
  {
    if |x| == 0 {
      assert x + y == y;
    } else {
      var ws := IsWhitespace(x[0]);
      assert (x + y)[0] == x[0] && (x + y)[1..] == x[1..] + y;
      SqueezedAppend(x[1..], y, ws);
      assert EndsAfterWhitespace(x[1..], ws) == EndsAfterWhitespace(x, afterWhitespace);
      calc {
        Squeezed(x + y, afterWhitespace);
        Emitted(x[0], afterWhitespace) + Squeezed(x[1..] + y, ws);
        Emitted(x[0], afterWhitespace) + (Squeezed(x[1..], ws) + Squeezed(y, EndsAfterWhitespace(x[1..], ws)));
        (Emitted(x[0], afterWhitespace) + Squeezed(x[1..], ws)) + Squeezed(y, EndsAfterWhitespace(x, afterWhitespace));
        Squeezed(x, afterWhitespace) + Squeezed(y, EndsAfterWhitespace(x, afterWhitespace));
      }
    }
  }

  /** After whitespace, a leading run of whitespace prints nothing more. */
  lemma {:induction false} SqueezedSkipsRun(s: string)
    ensures Squeezed(s, true) == Squeezed(DropWhitespace(s), true)
    decreases |s|
  {
    if |s| > 0 && IsWhitespace(s[0]) {
      SqueezedSkipsRun(s[1..]);
    }
  }

  /** Before a visible character, or at the end, it makes no difference what came before. */
  lemma SqueezedAtVisible(s: string)
    requires |s| == 0 || !IsWhitespace(s[0])
    ensures Squeezed(s, true) == Squeezed(s, false)
  {
  }

  /** replaceAll("\\s+", " ") agrees with the character-by-character reading from the start. */
  lemma {:induction false} ReplaceMultipleWhitespaceIsSqueezed(s: string)
    ensures ReplaceMultipleWhitespace(s) == Squeezed(s, false)
    decreases |s|
  {
    if |s| > 0 {
      if IsWhitespace(s[0]) {
        var d := DropWhitespace(s);
        assert d == DropWhitespace(s[1..]);
        SqueezedSkipsRun(s[1..]);
        ReplaceMultipleWhitespaceIsSqueezed(d);
        SqueezedAtVisible(d);
      } else {
        ReplaceMultipleWhitespaceIsSqueezed(s[1..]);
      }
    }
  }

  /** A non-empty run of whitespace read from a visible character prints exactly one space. */
  lemma {:induction false} SqueezedRun(w: string)
    requires |w| > 0 && forall i :: 0 <= i < |w| ==> IsWhitespace(w[i])
    ensures Squeezed(w, false) == " " && EndsAfterWhitespace(w, false)
  {
    SqueezedSkipsRun(w[1..]);
    assert DropWhitespace(w[1..]) == "";
  }

  /** The reference reading of a whitespace run between two parts. */
  lemma SqueezedOfRun(a: string, w: string, b: string)
    requires |a| == 0 || !IsWhitespace(a[|a| - 1])
    requires |w| > 0 && forall i :: 0 <= i < |w| ==> IsWhitespace(w[i])
    requires |b| == 0 || !IsWhitespace(b[0])
    ensures Squeezed(a + w + b, false) == Squeezed(a, false) + " " + Squeezed(b, false)
  {
    SqueezedAppend(a + w, b, false);
    SqueezedAppend(a, w, false);
    SqueezedRun(w);
    assert EndsAfterWhitespace(a + w, false) by {
      assert (a + w)[|a + w| - 1] == w[|w| - 1];
    }
    SqueezedAtVisible(b);
  }



  /**
   * A maximal run of whitespace between two parts becomes one space, and the parts on either
   * side are collapsed independently.
   */
  lemma ReplaceMultipleWhitespaceOfRun(a: string, w: string, b: string)
    requires |a| == 0 || !IsWhitespace(a[|a| - 1])
    requires |w| > 0 && forall i :: 0 <= i < |w| ==> IsWhitespace(w[i])
    requires |b| == 0 || !IsWhitespace(b[0])
    ensures ReplaceMultipleWhitespace(a + w + b) == ReplaceMultipleWhitespace(a) + " " + ReplaceMultipleWhitespace(b)
  {
    ReplaceMultipleWhitespaceIsSqueezed(a + w + b);
    ReplaceMultipleWhitespaceIsSqueezed(a);
    ReplaceMultipleWhitespaceIsSqueezed(b);
    SqueezedOfRun(a, w, b);
  }

  // ---------------------------------------------------------------------------------------------
  // concatAll

  /** A Java String[]: its elements are nullable. */
  type Strings = seq<Option<string>>

  /** The arrays one after another. */
  function Flatten(arrays: seq<Strings>): Strings {
    if |arrays| == 0 then [] else arrays[0] + Flatten(arrays[1..])
  }

  /** The total length of the arrays. */
  function TotalLength(arrays: seq<Strings>): nat {
    if |arrays| == 0 then 0 else |arrays[0]| + TotalLength(arrays[1..])
  }

  lemma {:induction false} FlattenSnoc(arrays: seq<Strings>, a: Strings)
    ensures Flatten(arrays + [a]) == Flatten(arrays) + a
    ensures TotalLength(arrays + [a]) == TotalLength(arrays) + |a|
  {
    if |arrays| > 0 {
      assert (arrays + [a])[1..] == arrays[1..] + [a];
      FlattenSnoc(arrays[1..], a);
    }
  }

  /** Flattening keeps every element: the length is the sum of the arrays' lengths. */
  lemma {:induction false} FlattenLength(arrays: seq<Strings>)
    ensures |Flatten(arrays)| == TotalLength(arrays)
  {
    if |arrays| > 0 {
      FlattenLength(arrays[1..]);
    }
  }

  /**
   * concatAll(first, rest...): Arrays.copyOf pads first to the total length with nulls, and the
   * loop fills the padding with rest's elements in order.
   */
  method ConcatAll(first: Strings, rest: Strings) returns (r: Strings)
    ensures r == first + rest
  {
    var totalLength := |first| + |rest|;
    var result := first + seq(|rest|, _ => None);
    var offset := |first|;
    var x := 0;
    var i := offset;
    while i < totalLength
      invariant offset <= i <= totalLength && x == i - offset
      invariant |result| == totalLength
      invariant result[..i] == first + rest[..x]
    {
      result := result[i := rest[x]];
      x := x + 1;
      i := i + 1;
    }
    assert rest[..x] == rest && result[..i] == result;
    assert result == first + rest;
    return result;
  }

  /**
   * concatAll(first, rest[]...): the first loop sums the lengths, Arrays.copyOf pads first to
   * that total, and each array is copied in at the running offset.
   */
  method ConcatAllArrays(first: Strings, rests: seq<Strings>) returns (r: Strings)
    ensures r == first + Flatten(rests)
    ensures |r| == |first| + TotalLength(rests)
  {
    var totalLength := |first|;
    var k := 0;
    while k < |rests|
      invariant 0 <= k <= |rests|
      invariant totalLength == |first| + TotalLength(rests[..k])
    {
      FlattenSnoc(rests[..k], rests[k]);
      assert rests[..k + 1] == rests[..k] + [rests[k]];
      totalLength := totalLength + |rests[k]|;
      k := k + 1;
    }
    assert rests[..k] == rests;
    var result := first + seq(totalLength - |first|, _ => None);
    var offset := |first|;
    k := 0;
    while k < |rests|
      invariant 0 <= k <= |rests|
      invariant offset == |first| + TotalLength(rests[..k])
      invariant offset + TotalLength(rests[k..]) == totalLength
      invariant |result| == totalLength
      invariant result[..offset] == first + Flatten(rests[..k])
    {
      var a := rests[k];
      FlattenSnoc(rests[..k], a);
      assert rests[..k + 1] == rests[..k] + [a];
      assert TotalLength(rests[k..]) == |a| + TotalLength(rests[k + 1..]) by {
        assert rests[k..][1..] == rests[k + 1..];
      }
      result := result[..offset] + a + result[offset + |a|..];
      offset := offset + |a|;
      k := k + 1;
    }
    assert rests[..k] == rests;
    FlattenLength(rests);
    return result[..offset];
  }
}

=== FILE: text.dfy ===
/** Text assembly shared by the serializers, the DDL generator and the string utilities. */
module Text {

  /** String.endsWith. */
  predicate EndsWith(s: string, suffix: string) {
    |suffix| <= |s| && s[|s| - |suffix|..] == suffix
  }

  /** The parts with one separator between neighbours and none at either end. */
  function JoinWith(parts: seq<string>, sep: string): (r: string)
    ensures |parts| == 0 ==> r == ""
    ensures |parts| == 1 ==> r == parts[0]
  {
    if |parts| == 0 then ""
    else if |parts| == 1 then parts[0]
    else parts[0] + sep + JoinWith(parts[1..], sep)
  }

  /** Appending a part appends one separator and the part. */
  lemma {:induction false} JoinWithSnoc(parts: seq<string>, x: string, sep: string)
    requires |parts| > 0
    ensures JoinWith(parts + [x], sep) == JoinWith(parts, sep) + sep + x
  {
    if |parts| > 1 {
      assert (parts + [x])[1..] == parts[1..] + [x];
      JoinWithSnoc(parts[1..], x, sep);
    }
  }

  /** The parts one after another. */
  function Concat(parts: seq<string>): string {
    if |parts| == 0 then "" else parts[0] + Concat(parts[1..])
  }

  lemma {:induction false} ConcatSnoc(parts: seq<string>, x: string)
    ensures Concat(parts + [x]) == Concat(parts) + x
  {
    if |parts| > 0 {
      assert (parts + [x])[1..] == parts[1..] + [x];
      ConcatSnoc(parts[1..], x);
    }
  }

  /** The total length of the parts. */
  function SumLengths(parts: seq<string>): nat {
    if |parts| == 0 then 0 else |parts[0]| + SumLengths(parts[1..])
  }

  /** Concatenation keeps every character: its length is the sum of the parts' lengths. */
  lemma {:induction false} ConcatLength(parts: seq<string>)
    ensures |Concat(parts)| == SumLengths(parts)
  {
    if |parts| > 0 {
      ConcatLength(parts[1..]);
    }
  }

  /** n parts joined carry exactly n - 1 separators. */
  lemma {:induction false} JoinWithLength(parts: seq<string>, sep: string)
    requires |parts| > 0
    ensures |JoinWith(parts, sep)| == SumLengths(parts) + (|parts| - 1) * |sep|
  {
    if |parts| > 1 {
      JoinWithLength(parts[1..], sep);
    }
  }

  /** Each part followed by the terminator. */
  function Terminated(parts: seq<string>, term: string): (r: seq<string>)
    ensures |r| == |parts|
    ensures forall i :: 0 <= i < |parts| ==> r[i] == parts[i] + term
  {
    seq(|parts|, i requires 0 <= i < |parts| => parts[i] + term)
  }

  /** A buffer holding the head and then the first i parts, each followed by the terminator. */
  function Buffered(head: string, parts: seq<string>, i: nat, term: string): string
    requires i <= |parts|
  {
    head + Concat(Terminated(parts[..i], term))
  }

  /** Appending the next part and the terminator advances the buffer by one part. */
  lemma BufferedStep(head: string, parts: seq<string>, i: nat, term: string)
    requires i < |parts|
    ensures Buffered(head, parts, i + 1, term) == Buffered(head, parts, i, term) + parts[i] + term
  {
    ConcatTerminatedPrefixStep(parts, i, term);
    var done := Concat(Terminated(parts[..i], term));
    assert head + (done + (parts[i] + term)) == head + done + parts[i] + term;
  }

  /** Terminating one more part of a prefix appends it and the terminator. */
  lemma ConcatTerminatedPrefixStep(parts: seq<string>, i: nat, term: string)
    requires i < |parts|
    ensures Concat(Terminated(parts[..i + 1], term)) == Concat(Terminated(parts[..i], term)) + (parts[i] + term)
  {
    assert parts[..i + 1] == parts[..i] + [parts[i]];
    ConcatTerminatedSnoc(parts[..i], parts[i], term);
  }

  /** Terminating one more part appends it and the terminator. */
  lemma ConcatTerminatedSnoc(parts: seq<string>, x: string, term: string)
    ensures Concat(Terminated(parts + [x], term)) == Concat(Terminated(parts, term)) + (x + term)
  {
    assert Terminated(parts + [x], term) == Terminated(parts, term) + [x + term];
    ConcatSnoc(Terminated(parts, term), x + term);
  }

  /** Every part followed by the separator is the joined parts and one more separator. */
  lemma {:induction false} ConcatTerminatedIsJoin(parts: seq<string>, sep: string)
    requires |parts| > 0
    ensures Concat(Terminated(parts, sep)) == JoinWith(parts, sep) + sep
  {
    if |parts| > 1 {
      assert Terminated(parts, sep)[1..] == Terminated(parts[1..], sep);
      ConcatTerminatedIsJoin(parts[1..], sep);
    } else {
      assert Terminated(parts, sep)[1..] == [];
    }
  }

  /** Once every part is buffered, deleting the last terminator leaves the head and the joined parts. */
  lemma BufferedAllDropLast(head: string, parts: seq<string>, term: string)
    requires |parts| > 0 && |term| == 1
    ensures var sb := Buffered(head, parts, |parts|, term);
      |sb| > 0 && sb[..|sb| - 1] == head + JoinWith(parts, term)
  {
    assert parts[..|parts|] == parts;
    ConcatTerminatedIsJoin(parts, term);
    var joined := head + JoinWith(parts, term);
    assert Buffered(head, parts, |parts|, term) == joined + term;
    assert (joined + term)[..|joined|] == joined;
  }
}

=== FILE: values.dfy ===
/**
 * The value layer: DataType's read and write paths (ValueAdapter) between Java values, the
 * ContentValues map written to the database, and a result row read back through a cursor.
 * The cursor's index lookup and the SQLite cell accessors are platform code; the model fixes
 * them as described under each function.
 */
module Values {
  import opened Wrappers
  import opened Query
  import JavaLang

  /** A Java value handed to or returned by a DataType: null, String, Long, Integer, Boolean or an enum constant. */
  datatype JavaValue =
    | JNull
    | JString(s: string)
    | JLong(l: int)
    | JInt(i: int)
    | JBool(b: bool)
    | JEnum(name: string)

  /** ContentValues: the values stored per column name; `put` replaces an earlier value. */
  type ContentValues = map<string, JavaValue>

  /** One SQLite cell of a result row. */
  datatype Cell = NullCell | IntegerCell(n: int) | TextCell(t: string)

  /**
   * A result row: the column names, one cell per name, and SQLite's conversion of a text cell
   * to an integer (used when a text cell is read as a number).
   */
  datatype Cursor = Cursor(names: seq<string>, cells: seq<Cell>, textToInteger: string -> int)

  predicate WellFormed(c: Cursor) {
    |c.names| == |c.cells|
  }

  /** PREFIX_SEPARATOR. */
  const PrefixSeparator: string := "_"

  /**
   * The cursor column name getIndex looks up: a non-null, non-empty prefix and the separator in
   * front of the column's name, otherwise the bare name.
   */
  function IndexKey(prefix: Option<string>, c: Column): (r: string)
    ensures prefix.None? || prefix == Some("") ==> r == c.name
    ensures prefix.Some? && prefix.value != "" ==> r == prefix.value + "_" + c.name
  {
    if prefix.Some? && |prefix.value| > 0 then prefix.value + PrefixSeparator + c.name else c.name
  }

  /** Cursor.getColumnIndex, modelled as the first position holding exactly that name, or -1. */
  function ColumnIndex(names: seq<string>, key: string): (r: int)
    ensures -1 <= r < |names|
    ensures r == -1 <==> key !in names
    ensures r >= 0 ==> names[r] == key && key !in names[..r]
  {
    if |names| == 0 then -1
    else if names[0] == key then 0
    else
      var i := ColumnIndex(names[1..], key);
      assert names[1..][..if i < 0 then 0 else i] == names[1..if i < 0 then 1 else i + 1];
      if i == -1 then -1 else i + 1
  }

  /** getIndex: the position of the prefixed name; a missing column throws IllegalArgumentException. */
  function GetIndex(cur: Cursor, c: Column, prefix: Option<string>): (r: Result<nat>)
    requires WellFormed(cur)
    ensures r.Failure? <==> IndexKey(prefix, c) !in cur.names
    ensures r.Success? ==>
      r.value < |cur.cells| && cur.names[r.value] == IndexKey(prefix, c) && IndexKey(prefix, c) !in cur.names[..r.value]
  {
    var i := ColumnIndex(cur.names, IndexKey(prefix, c));
    if i == -1 then Failure("IllegalArgumentException: Can't find cursor index for column") else Success(i as nat)
  }

  /** Cursor.isNull: the cell is SQL NULL, which is exactly when getString returns null. */
  predicate IsNull(cur: Cursor, index: nat)
    requires WellFormed(cur) && index < |cur.cells|
    ensures IsNull(cur, index) <==> GetString(cur, index).None?
    ensures IsNull(cur, index) ==> GetLong(cur, index) == 0
  {
    cur.cells[index].NullCell?
  }

  /** Cursor.getString: null for a NULL cell, the text, or the decimal form of an integer. */
  function GetString(cur: Cursor, index: nat): (r: Option<string>)
    requires WellFormed(cur) && index < |cur.cells|
    ensures r.None? <==> cur.cells[index].NullCell?
    ensures cur.cells[index].TextCell? ==> r == Some(cur.cells[index].t)
    ensures cur.cells[index].IntegerCell? ==> r.Some? && JavaLang.ParseSigned(r.value) == Success(cur.cells[index].n)
  {
    match cur.cells[index]
    case TextCell(t) => Some(t)
    case IntegerCell(n) => JavaLang.ParseSignedOfIntToString(n); Some(JavaLang.IntToString(n))
    case NullCell => None
  }

  /** Cursor.getLong: the integer, SQLite's conversion of the text, or 0 for a NULL cell. */
  function GetLong(cur: Cursor, index: nat): (r: int)
    requires WellFormed(cur) && index < |cur.cells|
    ensures cur.cells[index].IntegerCell? ==> r == cur.cells[index].n
    ensures cur.cells[index].TextCell? ==> r == cur.textToInteger(cur.cells[index].t)
    ensures cur.cells[index].NullCell? ==> r == 0
  {
    match cur.cells[index]
    case IntegerCell(n) => n
    case TextCell(t) => cur.textToInteger(t)
    case NullCell => 0
  }

  /** Cursor.getInt: the 64-bit value truncated to its low 32 bits. */
  function GetInt(cur: Cursor, index: nat): (r: int)
    requires WellFormed(cur) && index < |cur.cells|
    ensures JavaLang.IsInt32(r)
    ensures JavaLang.IsInt32(GetLong(cur, index)) ==> r == GetLong(cur, index)
  {
    JavaLang.Wrap32(GetLong(cur, index))
  }

  /**
   * readValue of each DataType: STRING getString, LONG getLong, INTEGER getInt, BOOLEAN whether
   * getInt is 1, an enum type Enum.valueOf on getString (NullPointerException for a null name,
   * IllegalArgumentException when no constant has that name). DataType.read calls it only on a
   * cell that is not NULL.
   */
  function ReadValue(cur: Cursor, c: Column, index: nat): (r: Result<JavaValue>)
    requires WellFormed(cur) && index < |cur.cells|
    ensures r.Failure? <==>
      c.dataType.EnumType? && (GetString(cur, index).None? || GetString(cur, index).value !in c.dataType.constants)
    ensures r.Success? ==> (r.value == JNull <==> c.dataType.StringType? && IsNull(cur, index))
    ensures r.Success? && !IsNull(cur, index) ==> Accepts(c.dataType, r.value)
  {
    match c.dataType
    case StringType =>
      (match GetString(cur, index) case Some(s) => Success(JString(s)) case None => Success(JNull))
    case LongType => Success(JLong(GetLong(cur, index)))
    case IntegerType => Success(JInt(GetInt(cur, index)))
    case BooleanType => Success(JBool(GetInt(cur, index) == 1))
    case EnumType(constants) =>
      match GetString(cur, index)
      case None => Failure("NullPointerException: Name is null")
      case Some(s) => if s in constants then Success(JEnum(s)) else Failure("IllegalArgumentException: No enum constant " + s)
  }

  /**
   * DataType.read: the column's index under the prefix, then null for a null cell and the
   * DataType's readValue otherwise.
   */
  function Read(cur: Cursor, c: Column, prefix: Option<string>): (r: Result<JavaValue>)
    requires WellFormed(cur)
    ensures IndexKey(prefix, c) !in cur.names ==> r.Failure?
    ensures r.Success? && r.value == JNull ==>
      IsNull(cur, GetIndex(cur, c, prefix).value)
    ensures r.Success? ==> r.value == JNull || Accepts(c.dataType, r.value)
  {
    var index :- GetIndex(cur, c, prefix);
    if IsNull(cur, index) then Success(JNull) else ReadValue(cur, c, index)
  }

  /** DataType.read(cursor, column, index): null for a null cell, readValue otherwise. */
  function ReadAt(cur: Cursor, c: Column, index: nat): (r: Result<JavaValue>)
    requires WellFormed(cur) && index < |cur.cells|
    ensures r == Success(JNull) <==> IsNull(cur, index)
  {
    if IsNull(cur, index) then Success(JNull) else ReadValue(cur, c, index)
  }

  /** Reading by name is reading at the index the name resolves to. */
  lemma ReadIsReadAtIndex(cur: Cursor, c: Column, prefix: Option<string>)
    requires WellFormed(cur)
    ensures GetIndex(cur, c, prefix).Success? ==>
      Read(cur, c, prefix) == ReadAt(cur, c, GetIndex(cur, c, prefix).value)
  {
  }

  /** The Java value types each DataType's writeValue accepts without a ClassCastException. */
  predicate Accepts(t: DataType, v: JavaValue) {
    match t
    case StringType => v.JString? || v.JNull?
    case LongType => v.JLong? || v.JNull?
    case IntegerType => v.JInt? || v.JNull?
    case BooleanType => v.JBool? || v.JNull?
    case EnumType(constants) => v.JEnum? && v.name in constants
  }

  /**
   * DataType.write: put under the column's name; the enum type stores the constant's name and
   * dereferences null (NullPointerException); a value of the wrong class fails the generic cast.
   */
  function Write(cv: ContentValues, c: Column, v: JavaValue): (r: Result<ContentValues>)
    ensures r.Success? <==> Accepts(c.dataType, v)
    ensures r.Success? ==> r.value == cv[c.name := Stored(c.dataType, v)]
  {
    match c.dataType
    case EnumType(constants) =>
      if v.JNull? then Failure("NullPointerException: enum value is null")
      else if v.JEnum? && v.name in constants then Success(cv[c.name := JString(v.name)])
      else Failure("ClassCastException")
    case _ =>
      if Accepts(c.dataType, v) then Success(cv[c.name := v]) else Failure("ClassCastException")
  }

  /** The entry writeValue puts for a value: an enum constant is stored as its name, anything else as it is. */
  function Stored(t: DataType, v: JavaValue): JavaValue {
    if t.EnumType? && v.JEnum? then JString(v.name) else v
  }

  /** The value readValue makes of a stored entry: the inverse of Stored. */
  function Unstored(t: DataType, v: JavaValue): JavaValue {
    if t.EnumType? && v.JString? then JEnum(v.s) else v
  }

  /**
   * DataType.writeAll: the columns in order, skipping null values; every column needs a value
   * (ArrayIndexOutOfBoundsException otherwise) and surplus values are ignored.
   */
  function WriteAll(cv: ContentValues, cs: seq<Column>, vs: seq<JavaValue>): (r: Result<ContentValues>)
    ensures r.Success? <==> |vs| >= |cs| && AllAccepted(cs, vs)
    ensures r.Success? ==> r.value.Keys == cv.Keys + WrittenNames(cs, vs)
    decreases |cs|
  {
    if |cs| == 0 then Success(cv)
    else if |vs| == 0 then Failure("ArrayIndexOutOfBoundsException")
    else
      var next :- if vs[0] == JNull then Success(cv) else Write(cv, cs[0], vs[0]);
      if |vs| < |cs| then WriteAll(next, cs[1..], vs[1..])
      else WriteAllSplits(cs, vs); WriteAll(next, cs[1..], vs[1..])
  }

  /**
   * Consecutive DataType.write calls, one per column in order. Unlike writeAll, a null value is
   * written too: stored as null, or refused by an enum column.
   */
  function WriteEach(cv: ContentValues, cs: seq<Column>, vs: seq<JavaValue>): (r: Result<ContentValues>)
    requires |vs| == |cs|
    ensures r.Success? <==> forall i :: 0 <= i < |cs| ==> Accepts(cs[i].dataType, vs[i])
    ensures r.Success? ==> r.value.Keys == cv.Keys + (set c | c in cs :: c.name)
    decreases |cs|
  {
    if |cs| == 0 then Success(cv)
    else
      var next :- Write(cv, cs[0], vs[0]);
      assert forall i :: 1 <= i < |cs| ==> cs[i] == cs[1..][i - 1] && vs[i] == vs[1..][i - 1];
      assert (set c | c in cs :: c.name) == {cs[0].name} + (set c | c in cs[1..] :: c.name);
      WriteEach(next, cs[1..], vs[1..])
  }

  /**
   * With distinct column names, consecutive writes store every value under its column (an enum
   * constant as its name) and leave every entry of the other names as it was.
   */
  lemma {:induction false} WriteEachStores(cv: ContentValues, cs: seq<Column>, vs: seq<JavaValue>)
    requires |vs| == |cs| && NoDuplicates(Names(cs)) && WriteEach(cv, cs, vs).Success?
    ensures forall i :: 0 <= i < |cs| ==> WriteEach(cv, cs, vs).value[cs[i].name] == Stored(cs[i].dataType, vs[i])
    ensures forall k :: k in cv && k !in Names(cs) ==> WriteEach(cv, cs, vs).value[k] == cv[k]
    decreases |cs|
  {
    if |cs| > 0 {
      var next := Write(cv, cs[0], vs[0]).value;
      assert WriteEach(cv, cs, vs) == WriteEach(next, cs[1..], vs[1..]);
      assert Names(cs[1..]) == Names(cs)[1..];
      assert NoDuplicates(Names(cs[1..]));
      WriteEachStores(next, cs[1..], vs[1..]);
      var r := WriteEach(cv, cs, vs).value;
      forall i | 0 <= i < |cs| ensures r[cs[i].name] == Stored(cs[i].dataType, vs[i]) {
        if i == 0 {
          assert cs[0].name !in Names(cs[1..]) by {
            forall j | 0 <= j < |cs| - 1 ensures Names(cs[1..])[j] != cs[0].name {
              assert Names(cs)[j + 1] != Names(cs)[0];
            }
          }
        } else {
          assert cs[i] == cs[1..][i - 1] && vs[i] == vs[1..][i - 1];
        }
      }
    }
  }

  /** Every non-null value has a class its column's DataType accepts. */
  predicate AllAccepted(cs: seq<Column>, vs: seq<JavaValue>)
    requires |vs| >= |cs|
  {
    forall i :: 0 <= i < |cs| && vs[i] != JNull ==> Accepts(cs[i].dataType, vs[i])
  }

  /** The names of the columns whose value is not null. */
  function WrittenNames(cs: seq<Column>, vs: seq<JavaValue>): set<string>
    requires |vs| >= |cs|
  {
    set i | 0 <= i < |cs| && vs[i] != JNull :: cs[i].name
  }

  lemma WriteAllSplits(cs: seq<Column>, vs: seq<JavaValue>)
    requires 0 < |cs| <= |vs|
    ensures AllAccepted(cs, vs) <==>
      (vs[0] != JNull ==> Accepts(cs[0].dataType, vs[0])) && AllAccepted(cs[1..], vs[1..])
    ensures WrittenNames(cs, vs) == (if vs[0] == JNull then {} else {cs[0].name}) + WrittenNames(cs[1..], vs[1..])
  {
    if (vs[0] != JNull ==> Accepts(cs[0].dataType, vs[0])) && AllAccepted(cs[1..], vs[1..]) {
      forall i | 0 <= i < |cs| && vs[i] != JNull ensures Accepts(cs[i].dataType, vs[i]) {
        if i > 0 { assert cs[i] == cs[1..][i - 1] && vs[i] == vs[1..][i - 1]; }
      }
    }
    var rest := WrittenNames(cs[1..], vs[1..]);
    var all := WrittenNames(cs, vs);
    forall k | k in all ensures k in (if vs[0] == JNull then {} else {cs[0].name}) + rest {
      var i :| 0 <= i < |cs| && vs[i] != JNull && cs[i].name == k;
      if i > 0 {
        assert vs[1..][i - 1] == vs[i] && cs[1..][i - 1] == cs[i];
      }
    }
    forall k | k in rest ensures k in all {
      var i :| 0 <= i < |cs| - 1 && vs[1..][i] != JNull && cs[1..][i].name == k;
      assert vs[i + 1] == vs[1..][i] && cs[i + 1] == cs[1..][i];
    }
  }

  /** The names of the columns, in order. */
  function Names(cs: seq<Column>): (ns: seq<string>)
    ensures |ns| == |cs| && forall i :: 0 <= i < |cs| ==> ns[i] == cs[i].name
  {
    seq(|cs|, i requires 0 <= i < |cs| => cs[i].name)
  }

  /** No element occurs twice. */
  predicate NoDuplicates<T(==)>(s: seq<T>) {
    forall i, j :: 0 <= i < j < |s| ==> s[i] != s[j]
  }

  /**
   * With distinct column names, writeAll stores every non-null value under its column (an enum
   * constant as its name) and leaves every entry of the other names as it was.
   */
  lemma {:induction false} WriteAllStores(cv: ContentValues, cs: seq<Column>, vs: seq<JavaValue>)
    requires NoDuplicates(Names(cs)) && WriteAll(cv, cs, vs).Success?
    ensures |vs| >= |cs|
    ensures forall i :: 0 <= i < |cs| && vs[i] != JNull ==>
      WriteAll(cv, cs, vs).value[cs[i].name] == Stored(cs[i].dataType, vs[i])
    ensures forall k :: k in cv && k !in Names(cs) ==> WriteAll(cv, cs, vs).value[k] == cv[k]
    decreases |cs|
  {
    if |cs| > 0 {
      var next := if vs[0] == JNull then cv else Write(cv, cs[0], vs[0]).value;
      assert WriteAll(cv, cs, vs) == WriteAll(next, cs[1..], vs[1..]);
      assert Names(cs[1..]) == Names(cs)[1..];
      assert NoDuplicates(Names(cs[1..]));
      WriteAllStores(next, cs[1..], vs[1..]);
      var r := WriteAll(cv, cs, vs).value;
      forall i | 0 <= i < |cs| && vs[i] != JNull ensures r[cs[i].name] == Stored(cs[i].dataType, vs[i]) {
        if i == 0 {
          assert cs[0].name !in Names(cs[1..]) by {
            forall j | 0 <= j < |cs| - 1 ensures Names(cs[1..])[j] != cs[0].name {
              assert Names(cs)[j + 1] != Names(cs)[0];
            }
          }
        } else {
          assert cs[i] == cs[1..][i - 1] && vs[i] == vs[1..][i - 1];
        }
      }
    }
  }

  /** How SQLite stores a ContentValues entry: Boolean as 1 or 0, numbers as integers, text as text. */
  function Persist(v: JavaValue): (r: Cell)
    ensures r.NullCell? <==> v.JNull?
  {
    match v
    case JNull => NullCell
    case JString(s) => TextCell(s)
    case JLong(l) => IntegerCell(l)
    case JInt(i) => IntegerCell(i)
    case JBool(b) => IntegerCell(if b then 1 else 0)
    case JEnum(n) => TextCell(n)
  }

  /** The row the database returns for stored values, under the given column names. */
  function RowOf(names: seq<string>, cv: ContentValues, textToInteger: string -> int): (cur: Cursor)
    ensures WellFormed(cur) && cur.names == names
    ensures forall i :: 0 <= i < |names| ==>
      cur.cells[i] == if names[i] in cv then Persist(cv[names[i]]) else NullCell
  {
    Cursor(names, seq(|names|, i requires 0 <= i < |names| => if names[i] in cv then Persist(cv[names[i]]) else NullCell),
      textToInteger)
  }

  /** The SQLite storage class a cell has. */
  function CellType(c: Cell): Option<SQLiteType> {
    match c
    case NullCell => None
    case IntegerCell(_) => Some(IntegerStorage)
    case TextCell(_) => Some(StringStorage)
  }

  /** The SQLite type name a DataType declares is the storage class its written values get. */
  lemma WrittenCellsHaveTheDeclaredType(c: Column, v: JavaValue)
    requires Write(map[], c, v).Success? && v != JNull
    ensures CellType(Persist(Write(map[], c, v).value[c.name])).Some?
    ensures SQLiteTypeName(CellType(Persist(Write(map[], c, v).value[c.name])).value) == SqlType(c.dataType)
  {
  }

  /**
   * Write then read: a non-null value written for a column and read back from the stored row
   * comes back unchanged, for every type, provided an Integer is a 32-bit value (always true of
   * a Java int) and, for an enum, the value names one of its constants.
   */
  lemma WriteThenRead(c: Column, v: JavaValue, names: seq<string>, textToInteger: string -> int)
    requires Accepts(c.dataType, v) && v != JNull
    requires v.JInt? ==> JavaLang.IsInt32(v.i)
    requires c.name in names
    ensures Write(map[], c, v).Success?
    ensures Read(RowOf(names, Write(map[], c, v).value, textToInteger), c, None) == Success(v)
  {
    var cur := RowOf(names, Write(map[], c, v).value, textToInteger);
    var i := GetIndex(cur, c, None).value;
    assert cur.names[i] == c.name;
  }

  /** A null written for a non-enum column reads back as null. */
  lemma NullWriteReadsNull(c: Column, names: seq<string>, textToInteger: string -> int)
    requires !c.dataType.EnumType? && c.name in names
    ensures Write(map[], c, JNull).Success?
    ensures Read(RowOf(names, Write(map[], c, JNull).value, textToInteger), c, None) == Success(JNull)
  {
    var cur := RowOf(names, Write(map[], c, JNull).value, textToInteger);
    var i := GetIndex(cur, c, None).value;
    assert cur.names[i] == c.name;
  }

  /** BOOLEAN reads only an integer 1 as true: 2 or -1 in the cell read as false. */
  lemma BooleanIsOnlyOne(c: Column, n: int, textToInteger: string -> int)
    requires c.dataType == BooleanType
    ensures ReadAt(Cursor([c.name], [IntegerCell(n)], textToInteger), c, 0) == Success(JBool(JavaLang.Wrap32(n) == 1))
  {
  }
}

=== FILE: wrappers.dfy ===
/** Optional values (Java's nullable references) and results (Java's thrown exceptions). */
module Wrappers {

  /** A nullable reference: None plays the part of Java's null. */
  datatype Option<+T> = None | Some(value: T) {

    /** The value, or the given default when absent. */
    function GetOr(default: T): T {
      match this
      case Some(v) => v
      case None => default
    }
  }

  /** The outcome of an operation that may throw: Failure carries the exception's message. */
  datatype Result<+T> = Success(value: T) | Failure(error: string) {

    predicate IsFailure() {
      Failure?
    }

    function PropagateFailure<U>(): Result<U>
      requires Failure?
    {
      Failure(error)
    }

    function Extract(): T
      requires Success?
    {
      value
    }
  }

  /** Evaluating a sequence of calls in order: every value, or the first exception. */
  function AllValues<T>(outcomes: seq<Result<T>>): (r: Result<seq<T>>)
    ensures r.Success? <==> forall i :: 0 <= i < |outcomes| ==> outcomes[i].Success?
    ensures r.Success? ==> |r.value| == |outcomes|
    ensures r.Success? ==> forall i :: 0 <= i < |outcomes| ==> outcomes[i] == Success(r.value[i])
  {
    if |outcomes| == 0 then Success([])
    else
      var rest := AllValues(outcomes[1..]);
      assert forall i :: 1 <= i < |outcomes| ==> outcomes[i] == outcomes[1..][i - 1];
      if outcomes[0].Failure? then Failure(outcomes[0].error)
      else if rest.Failure? then
        assert exists i :: 0 <= i < |outcomes[1..]| && !outcomes[1..][i].Success?;
        Failure(rest.error)
      else Success([outcomes[0].value] + rest.value)
  }
}
